=== FILE: README.md ===
# kkai/spp in Dafny

A model of the DFG priority-programme (Schwerpunktprogramm, SPP) pipeline of
kkai/spp and of the web site that shows its results.

- **Scrapers** (`dfg-schwerpunkt/scripts/`) read GEPRIS, the DFG's project
  catalogue. They list the priority programmes, read each programme's detail
  page, collect its projects and read every project page. Each scraper keeps
  a checkpoint so that a run can resume.
- **Scorers** give every project a wearables score and an AI score from
  whole-word keyword matches. `prepare_programs.py` cleans the programme
  descriptions and estimates a programme's relevance.
  `aggregate_spp_institutions.py` counts the institutions named in the
  investigator strings.
- **Web site** (`web/src/`): a loader merges the scraped and scored files into
  the programmes and projects the pages show. The browser filters, sorts and
  paginates the project table and keeps the filter in the query string.

## How the model is built

Each source file is one Dafny module. Two more modules hold what the files
share:

- `Strings`: whitespace, stripping, `find`, `replace`, `split`, decimal
  numbers.
- `Records` and `Sorting`: string-keyed records, first-seen and last-wins
  tables, filtering, and stable insertion sorts stated as permutations.

Everything a browser or the network produces is an input value. This covers:

- a page's links;
- the rows a table renders at a scroll position;
- the label/value pairs of a detail page;
- the text of an exception.

Loading a page, running a search and scraping a programme are function
parameters. A failure is `None` or a `Failed(message)` value. The
locale-dependent JavaScript operations are also parameters: `toLowerCase`,
the order of `localeCompare`, and `parseFloat`/`String` on numbers. So is
Python's `\w` and `str.lower` in the relevance scorer. The contracts state
only the facts they need about these parameters, as `requires` clauses.

The checkpoints are values. A run is a function from the checkpoint it
starts with to the checkpoint it holds in memory after each programme.
Saving is not modelled, and the scripts do not save after every programme:

- The programme-details pass saves after a programme whose page it loads or
  fails to load. A programme without a url is added to the completed set and
  to the output, but the pass moves on without saving.
- The programme-details pass and the priority pass save nothing for a
  programme they skip. So after a run that skips every programme, the saved
  file is the one the run started with.
- The other scrapers save after each programme they process, except that
  the retry pass of `scrape_projects_working.py` saves only after a
  programme that now succeeds. The contracts state the resume properties: what is
skipped, what is recorded, and that nothing completed is lost.

Each row below names a member, the source lines it models, and what its
contract states.

## Model

| member | source | states |
|---|---|---|
| Sorting.SortBy | web/src/scripts/projectFilter.ts:66-69 | the sorted list is a permutation of the input, ordered by the key under any total preorder standing for `localeCompare` |
| Sorting.SortDesc | dfg-schwerpunkt/scripts/analyze_relevance.py:235-243 | the sorted list is a permutation of the input with the key non-increasing |
| Sorting.UniqueBy | dfg-schwerpunkt/scripts/scrape_projects.py:64-83 | the kept elements have pairwise distinct keys, come from the input and cover every key of the input; they are the input with each element left out whose key appeared earlier, in input order |
| Sorting.FirstPositionsExact | dfg-schwerpunkt/scripts/scrape_projects.py:76-83 | the positions of the first element of each key, strictly increasing: each listed position holds the first element with its key, and every such position before the bound is listed |
| Sorting.UniqueByFirst | dfg-schwerpunkt/scripts/scrape_projects.py:76-83 | every kept element is the first input element with its key |
| Sorting.UniqueByKeepsFirst | dfg-schwerpunkt/scripts/scrape_projects.py:76-83 | the first input element with a key is always kept |
| Gepris.AbsoluteUrl | dfg-schwerpunkt/scripts/scrape_spp_full.py:199 | the result starts with `http` and ends with the link; it is the link itself or the host followed by it |
| Gepris.AbsoluteUrlIdempotent | dfg-schwerpunkt/scripts/scrape_spp_full.py:199 | making a link absolute twice gives the same as once |
| Gepris.JoinBase | dfg-schwerpunkt/scripts/scrape_projects.py:66-67 | the result starts with `http` and ends with the link; a relative link is placed under the host and `/`; it is the link, host + link or host + `/` + link |
| Gepris.JoinBaseIdempotent | dfg-schwerpunkt/scripts/scrape_projects.py:66-67 | joining an already joined link changes nothing |
| Gepris.JoinBaseRooted | dfg-schwerpunkt/scripts/scrape_spp_full.py:123-124 | a relative link, rooted or not, ends up as the host followed by a path starting with `/` |
| Gepris.NumberAfter | dfg-schwerpunkt/scripts/scrape_projects.py:70 | no number exactly when the marker is nowhere followed by a digit; otherwise a non-empty run of digits read right after a matching marker |
| Gepris.NumberAfterOccurs | dfg-schwerpunkt/scripts/scrape_projects.py:70 | a number found occurs in the searched link |
| Gepris.JoinedLinkHasNumber | dfg-schwerpunkt/scripts/scrape_projects_stealth.py:87-91 | a link matching `/gepris/projekt/<digits>` still yields a number under `projekt/` after it is joined with the host |
| Gepris.HrefAttr | dfg-schwerpunkt/scripts/scrape_spp_full.py:195-197 | no value exactly when there is no complete `href="…"` with a non-empty value; otherwise a non-empty value without quotes, read right after some `href="` and closed by a quote |
| Gepris.PageTitle | dfg-schwerpunkt/scripts/scrape_projects_working.py:76-79 | the title is never longer than the page title; one without the site prefix is only stripped |
| Gepris.PageTitleStripsPrefix | dfg-schwerpunkt/scripts/scrape_projects_working.py:78 | `DFG - GEPRIS - ` followed by a title gives the stripped title |
| Gepris.SpanValueShape | dfg-schwerpunkt/scripts/scrape_projects_working.py:84-90 | a value is never longer than its parent's text; a parent text opening with the label gives the stripped rest; one without the label is only stripped |
| Gepris.SpanEntries | dfg-schwerpunkt/scripts/scrape_projects_working.py:84-90 | one (key, value) pair per name span, in page order, the key of the span's label and the value of its parent's text |
| Gepris.SpanMetadataLastWins | dfg-schwerpunkt/scripts/scrape_projects_working.py:82-90 | a key holds the value of the last span with that key |
| Gepris.SpanMetadataKeys | dfg-schwerpunkt/scripts/scrape_projects_working.py:82-90 | every key of the table comes from some span |
| Gepris.ApplyMapping | dfg-schwerpunkt/scripts/scrape_projects_working.py:102-104 | the mapping never removes a field of the record |
| Gepris.ApplyMappingKeys | dfg-schwerpunkt/scripts/scrape_projects_working.py:102-104 | a field is present afterwards exactly when it was before or is the target of a row whose label is in the table |
| Gepris.ApplyMappingKeeps | dfg-schwerpunkt/scripts/scrape_projects_working.py:102-104 | a field no row targets keeps its presence and its value |
| Gepris.ApplyMappingLastWins | dfg-schwerpunkt/scripts/scrape_projects_working.py:93-104 | a target holds the value of the last row naming it whose label is present |
| Relevance.CountFromPositive | dfg-schwerpunkt/scripts/analyze_relevance.py:134 | the scan counts a match exactly when a whole-word occurrence exists from its start on |
| Relevance.CountWholeWords | dfg-schwerpunkt/scripts/analyze_relevance.py:134 | the count is positive exactly when the keyword occurs as a whole word |
| Relevance.TallyKeywords | dfg-schwerpunkt/scripts/analyze_relevance.py:130-137 | no keyword is matched exactly when no occurrence is counted |
| Relevance.TallyMatched | dfg-schwerpunkt/scripts/analyze_relevance.py:130-137 | a keyword is matched exactly when it is listed and occurs, case folded, as a whole word |
| Relevance.TallyAppend | dfg-schwerpunkt/scripts/analyze_relevance.py:130-137 | tallying two lists in turn adds the occurrences and unites the matched keywords |
| Relevance.TallyOccurrences | dfg-schwerpunkt/scripts/analyze_relevance.py:130-137 | the occurrence count is the sum, over the whole keyword list, of each keyword's whole-word count in the case-folded text, repeated keywords included |
| Relevance.DuplicateKeyword | dfg-schwerpunkt/scripts/analyze_relevance.py:130-137 | a keyword listed twice counts its occurrences twice but is matched once |
| Relevance.KeywordScore | dfg-schwerpunkt/scripts/analyze_relevance.py:109-147 | an empty field scores 0 with no keywords; the score lies between 0 and 10 times the weight; it is 0 exactly when nothing matched, and at least 2.5 times the weight otherwise |
| Relevance.KeywordScoreMatched | dfg-schwerpunkt/scripts/analyze_relevance.py:121-137 | a keyword is matched in a field exactly when the field is non-empty and the keyword, German or English, occurs in it as a whole word |
| Relevance.KeywordScoreValue | dfg-schwerpunkt/scripts/analyze_relevance.py:121-145 | a non-empty field scores its weight times the points for the number of distinct matched keywords and the total whole-word occurrences of the listed keywords |
| Relevance.FieldPoints | dfg-schwerpunkt/scripts/analyze_relevance.py:142-145 | the points are 2 per distinct keyword, capped at 5, plus a half per occurrence, capped at 5: exactly 2d + o/2 when d ≤ 2 and o ≤ 10, 2d + 5 when d ≤ 2 and o ≥ 10, 5 + o/2 when d ≥ 3 and o ≤ 10, and 10 otherwise; 0 exactly without matches |
| Relevance.ScoreTopic | dfg-schwerpunkt/scripts/analyze_relevance.py:164-190 | a topic score lies between 0 and 10, is 0 exactly when no keyword matched, and the matched set is the union over the four fields |
| Relevance.ScoreTopicValue | dfg-schwerpunkt/scripts/analyze_relevance.py:175-186 | the topic score is a third of the sum of the four weighted field scores, or 10 once that sum reaches 30 |
| Relevance.TopicMatchedFields | dfg-schwerpunkt/scripts/analyze_relevance.py:164-173 | a keyword is among a field's matched keywords exactly when it is listed and occurs in that field |
| Relevance.ScoreProject | dfg-schwerpunkt/scripts/analyze_relevance.py:150-192 | each topic column and matched set is that topic's score and matched keywords; both scores lie between 0 and 10, each is 0 exactly when its topic matched nothing, and the combined score is their sum |
| Relevance.ScoreAll | dfg-schwerpunkt/scripts/analyze_relevance.py:201-227 | one scored row per project, in order |
| Relevance.RelevantList | dfg-schwerpunkt/scripts/analyze_relevance.py:235-243 | a list is a permutation of the rows with the property (same multiset, so duplicates are kept), highest key first |
| Relevance.WearablesList | dfg-schwerpunkt/scripts/analyze_relevance.py:235-236 | a permutation of the rows with a wearables score of at least 1, highest first |
| Relevance.AiList | dfg-schwerpunkt/scripts/analyze_relevance.py:238-239 | a permutation of the rows with an AI score of at least 1, highest first |
| Relevance.CombinedList | dfg-schwerpunkt/scripts/analyze_relevance.py:241-243 | a permutation of the rows with both scores at least 1, highest combined score first |
| Relevance.CombinedIsIntersection | dfg-schwerpunkt/scripts/analyze_relevance.py:235-243 | the combined list holds exactly the rows on both topic lists |
| Relevance.LungNotInKopplung | dfg-schwerpunkt/scripts/analyze_relevance.py:134 | `lung` inside `kopplung` is not a whole word |
| Relevance.AiNotInBrain | dfg-schwerpunkt/scripts/analyze_relevance.py:134 | `ai` inside `brain` is not a whole word, while `brain` is |
| Relevance.LungInSentence | dfg-schwerpunkt/scripts/analyze_relevance.py:134 | `lung` after a blank is a whole word |
| Relevance.KiInQuotes | dfg-schwerpunkt/scripts/analyze_relevance.py:134 | `ki` between German quotation marks is a whole word |
| SppFull.SppNumber | dfg-schwerpunkt/scripts/scrape_spp_full.py:208 | an empty number stays empty; any other number ends up starting with `SPP`, gaining the `SPP ` prefix only when it lacked it, and still ends with the table number |
| SppFull.SppNumberIdempotent | dfg-schwerpunkt/scripts/scrape_spp_full.py:208 | numbering an already numbered value changes nothing |
| SppFull.TabulatorUrl | dfg-schwerpunkt/scripts/scrape_spp_full.py:192-205 | the url is empty or absolute; it is the title's `href` made absolute when the title has one, otherwise empty exactly when neither `URL` nor `DETAIL_URL` gives one |
| SppFull.ProgramFields | dfg-schwerpunkt/scripts/scrape_spp_full.py:207-216 | a programme record has exactly the eight table fields, with the given number, title and url |
| SppFull.TabulatorProgram | dfg-schwerpunkt/scripts/scrape_spp_full.py:181-216 | a table row gives a programme with the eight fields, the prefixed number, the row's url, and its title unchanged when it holds no markup |
| SppFull.ParseTabulator | dfg-schwerpunkt/scripts/scrape_spp_full.py:178-219 | one programme per row of type `SPP` and none for other rows; every `SPP` row's programme is present |
| SppFull.ParseTabulatorAppend | dfg-schwerpunkt/scripts/scrape_spp_full.py:178-219 | parsing a table split in two gives the two results concatenated, so input order is kept |
| SppFull.ParseTabulatorSource | dfg-schwerpunkt/scripts/scrape_spp_full.py:181-184 | every parsed programme is built from some row of type `SPP` |
| SppFull.ScrollStep | dfg-schwerpunkt/scripts/scrape_spp_full.py:249 | the scroll step is a third of the visible height, but never less than 50 |
| SppFull.ScrollKey | dfg-schwerpunkt/scripts/scrape_spp_full.py:278-287 | a rendered row has a key exactly when its stripped type cell reads `SPP` and its stripped number cell is not empty; the key is `SPP ` followed by that number |
| SppFull.ScrollProgram | dfg-schwerpunkt/scripts/scrape_spp_full.py:289-308 | a rendered row's programme has the eight table fields, is filed under its key, and its url is empty or absolute |
| SppFull.ScrollEntry | dfg-schwerpunkt/scripts/scrape_spp_full.py:278-308 | a row offers an entry exactly when it has a key, under that key and with a programme carrying it |
| SppFull.ScrollFirstWins | dfg-schwerpunkt/scripts/scrape_spp_full.py:298-308 | the programme kept under a number is the one built from the first rendered row carrying it |
| SppFull.ScrollKeys | dfg-schwerpunkt/scripts/scrape_spp_full.py:278-298 | a number is collected exactly when some rendered row carries it |
| SppFull.VisitCount | dfg-schwerpunkt/scripts/scrape_spp_full.py:251-253 | a loop that runs while the position is at most the scroll height plus one step visits exactly `height / step + 2` positions |
| SppFull.OfferRows | dfg-schwerpunkt/scripts/scrape_spp_full.py:278-308 | offering the rows of one scroll position extends the first-seen-wins collection by exactly those rows |
| SppFull.ByNumber | dfg-schwerpunkt/scripts/scrape_spp_full.py:312 | the result lists every collected programme once, each under its own number, in strictly ascending number order |
| SppFull.ScrollLoop | dfg-schwerpunkt/scripts/scrape_spp_full.py:248-310 | the loop visits `height / step + 2` positions and collects the first programme per number over all rows rendered at them |
| SppFull.AggressiveScroll | dfg-schwerpunkt/scripts/scrape_spp_full.py:222-314 | without a table holder nothing is read; otherwise the visited positions are counted as above and the result is exactly the first-seen programme of every number rendered, one each, sorted by number |
| SppFull.KeysCoverMap | dfg-schwerpunkt/scripts/scrape_spp_full.py:312 | a duplicate-free key list that matches the map's keys is as long as the map |
| SppFull.Listing | dfg-schwerpunkt/scripts/scrape_spp_full.py:168-175 | the Tabulator rows are parsed when there are more than 20 of them; otherwise the scrolled result is used |
| SppFull.SearchPage | dfg-schwerpunkt/scripts/scrape_spp_full.py:116-131 | every kept search entry is a `{title, url}` record with an absolute url, and every entry with a link naming a Schwerpunktprogramm (or `SPP` in its text) is kept |
| SppFull.SearchProgram | dfg-schwerpunkt/scripts/scrape_spp_full.py:121-131 | a kept entry records its link text as title and its href joined to the host as url |
| SppFull.SearchPageSource | dfg-schwerpunkt/scripts/scrape_spp_full.py:116-131 | every programme from a search page comes from an entry that has a link and names a programme |
| SppFull.SearchPageAppend | dfg-schwerpunkt/scripts/scrape_spp_full.py:116-131 | the results of two runs of entries are the results of each, in order; a single entry gives its programme exactly when it is kept |
| SppFull.WithFallback | dfg-schwerpunkt/scripts/scrape_spp_full.py:476-480 | the search result replaces the listing exactly when the listing has fewer than 25 programmes and the search found more; the count never drops |
| SppFull.WithFallbackCount | dfg-schwerpunkt/scripts/scrape_spp_full.py:476-480 | with a short listing the larger of the two counts is kept; otherwise the listing's count |
| SppFull.ParseInt | dfg-schwerpunkt/scripts/scrape_spp_full.py:499 | Python's `int` on text succeeds exactly when the stripped text is an optional sign followed by one or more ASCII digits |
| SppFull.ParseIntRoundTrip | dfg-schwerpunkt/scripts/scrape_spp_full.py:499 | reading a rendered natural number gives the number back |
| SppFull.UnreadableYearKept | dfg-schwerpunkt/scripts/scrape_spp_full.py:497-512 | a start field that is not an integer reads as year 0, so the programme is kept and tagged `start>=2020` |
| SppFull.DateIsNoInteger | dfg-schwerpunkt/scripts/scrape_spp_full.py:497-501 | the start field `01.01.2019`, stripped, is not an integer |
| SppFull.ParseIntNegativeRoundTrip | dfg-schwerpunkt/scripts/scrape_spp_full.py:499 | reading `-` and a rendered number gives its negative |
| SppFull.StartYear | dfg-schwerpunkt/scripts/scrape_spp_full.py:497-501 | an empty or unreadable start field gives year 0; otherwise the integer it holds |
| SppFull.YearTag | dfg-schwerpunkt/scripts/scrape_spp_full.py:503-512 | a programme is kept exactly when its year is 0 or at least 2017; tagged `start>=2020` exactly for 0 or at least 2020, and `likely_still_running` exactly for 2017 to 2019 |
| SppFull.YearTagMonotone | dfg-schwerpunkt/scripts/scrape_spp_full.py:503-512 | a later non-zero start is never dropped when an earlier one is kept |
| SppFull.TaggedHasYearTag | dfg-schwerpunkt/scripts/scrape_spp_full.py:504-512 | every kept programme carries one of the two filter tags |
| SppFull.FilterByYear | dfg-schwerpunkt/scripts/scrape_spp_full.py:495-512 | the filtered list is no longer than the input, every entry is tagged, and every programme the year rule keeps is present with its tag |
| SppFull.FilterByYearSource | dfg-schwerpunkt/scripts/scrape_spp_full.py:495-512 | every filtered entry is a tagged input programme whose year the rule keeps |
| SppFull.FilterByYearAppend | dfg-schwerpunkt/scripts/scrape_spp_full.py:495-512 | filtering two lists gives the filtered first list followed by the filtered second; one programme gives its tagged copy exactly when the year rule keeps it |
| SppFull.Take | dfg-schwerpunkt/scripts/scrape_spp_full.py:444 | the cut is the whole text when it has at most n characters, and otherwise its prefix of exactly n characters |
| SppFull.ProgramDetail | dfg-schwerpunkt/scripts/scrape_spp_full.py:317-455 | a programme without url is returned unchanged; a failed page records the error; otherwise the description is the first 500 characters of the full description, and the full description, result-list link and detail url are set, and an explicit website overrides |
| SppFull.ProgramDetailDescription | dfg-schwerpunkt/scripts/scrape_spp_full.py:443-445 | the full description is the project text when present, else the collected paragraphs |
| SppFull.SprecherWins | dfg-schwerpunkt/scripts/scrape_spp_full.py:425-440 | when the plain `Sprecher` label is present, its value is the coordinator, whatever other spellings are present |
| SppFull.ProgramDetailKeeps | dfg-schwerpunkt/scripts/scrape_spp_full.py:438-453 | fields outside the label table and the fixed outputs keep their values |
| SppFull.ProgramDetailAsWritten | dfg-schwerpunkt/scripts/scrape_spp_full.py:317-323 | as written, the scraper raises exactly for a programme with a url and no number, and otherwise behaves as the corrected one |
| SppFull.FallbackProgramShape | dfg-schwerpunkt/scripts/scrape_spp_full.py:128-131 | a programme kept from the search fallback has a url and no number |
| SppFull.TaggedSearchProgram | dfg-schwerpunkt/scripts/scrape_spp_full.py:506-512 | tagging a search record keeps its url and adds no number |
| SppFull.FallbackProgramAbortsDetail | dfg-schwerpunkt/scripts/scrape_spp_full.py:323 | as written, the detail pass raises at every programme that came from the search fallback |
| SppFull.FallbackProgramGetsDetail | dfg-schwerpunkt/scripts/scrape_spp_full.py:317-455 | without the up-front number lookup, a fallback programme gets its detail url and description recorded |
| SppPrograms.Cell | dfg-schwerpunkt/scripts/scrape_spp_programs.py:107-121 | a cell's text is read when the row has that cell and is empty otherwise |
| SppPrograms.ListEntry | dfg-schwerpunkt/scripts/scrape_spp_programs.py:76-133 | a row is listed exactly when its type cell reads `SPP` and it has a number, a link text and a link; the entry has the eight fields, the number prefixed with `SPP `, the title from the link and the link made absolute |
| SppPrograms.ScrapeList | dfg-schwerpunkt/scripts/scrape_spp_programs.py:70-136 | no more programmes than rows; every programme has an `SPP ` number, a non-empty title and an absolute url; every listable row's entry is in the list |
| SppPrograms.ScrapeListSource | dfg-schwerpunkt/scripts/scrape_spp_programs.py:76-86 | every listed programme comes from a row of type `SPP` |
| SppPrograms.ScrapeListAppend | dfg-schwerpunkt/scripts/scrape_spp_programs.py:70-136 | the list of two runs of rows is the list of each, in row order; a single row gives its programme exactly when the row is listed |
| SppPrograms.ProgramDetails | dfg-schwerpunkt/scripts/scrape_spp_programs.py:139-193 | a programme without url or whose page fails gets an `error` field; otherwise it gains description, period, project-list url (absolute, or empty without a link) and the detail url equal to its own url; other fields keep their values |
| SppPrograms.ProjectsUrlAbsolute | dfg-schwerpunkt/scripts/scrape_spp_programs.py:174-177 | an absolute project-list link is kept as it is |
| ProgramDetails.DefaultKey | dfg-schwerpunkt/scripts/scrape_spp_program_details.py:84 | the key made for an unknown label contains no blank |
| ProgramDetails.MetadataKey | dfg-schwerpunkt/scripts/scrape_spp_program_details.py:21-38 | a label of the field table gets its English key; any other label gets the lowercased, underscored key, which holds no blank |
| ProgramDetails.GenderedLabelsAgree | dfg-schwerpunkt/scripts/scrape_spp_program_details.py:23-26 | both orders of the gendered spokesperson and coordinator labels reach the same key |
| ProgramDetails.MetadataValue | dfg-schwerpunkt/scripts/scrape_spp_program_details.py:74-85 | a span whose key no later span shares is present in the metadata with its own value |
| ProgramDetails.SpacesAt | dfg-schwerpunkt/scripts/scrape_spp_program_details.py:120 | a `\s+` run is found exactly when the position holds a blank, and it is the maximal run of blanks |
| ProgramDetails.VonBisGroups | dfg-schwerpunkt/scripts/scrape_spp_program_details.py:126 | a match of the `von … bis …` pattern yields two four-digit groups, the first before the second |
| ProgramDetails.FirstSeit | dfg-schwerpunkt/scripts/scrape_spp_program_details.py:120 | the position found is the leftmost one where the `seit` pattern matches; none is found exactly when it matches nowhere |
| ProgramDetails.FirstVonBis | dfg-schwerpunkt/scripts/scrape_spp_program_details.py:126 | the position found is the leftmost one where the `von … bis …` pattern matches; none is found exactly when it matches nowhere |
| ProgramDetails.YearAt | dfg-schwerpunkt/scripts/scrape_spp_program_details.py:122 | a captured year is four digits copied from the period text |
| ProgramDetails.FundingYears | dfg-schwerpunkt/scripts/scrape_spp_program_details.py:114-132 | a `seit` period gives the year of the first `seit` match and an open end, a `von`/`bis` period the two years of the first match, neither keyword two empty years; a keyword whose pattern does not match sets nothing; years are four digits or empty |
| ProgramDetails.FundingSeitExample | dfg-schwerpunkt/scripts/scrape_spp_program_details.py:118-123 | `seit 2021` starts in 2021 and has no end |
| ProgramDetails.FundingVonBisExample | dfg-schwerpunkt/scripts/scrape_spp_program_details.py:124-129 | `von 2019 bis 2025` gives start 2019 and end 2025 |
| ProgramDetails.FundingFromSeit | dfg-schwerpunkt/scripts/scrape_spp_program_details.py:118-123 | once the first `seit` match and its blank run are known, the start year is the four digits after them |
| ProgramDetails.FundingFromGroups | dfg-schwerpunkt/scripts/scrape_spp_program_details.py:124-129 | a `von`/`bis` period without `seit` whose first match has groups at known places yields exactly those two years |
| ProgramDetails.ExtractDetails | dfg-schwerpunkt/scripts/scrape_spp_program_details.py:52-148 | a page that fails to load gives nothing; otherwise the title is kept exactly when the page has one, with the site prefix removed, and every field is read from the span metadata (coordinator, contact, funding period and years, subject, committee, institution) and the description from the frames |
| ProgramDetails.ExtractedSpokesperson | dfg-schwerpunkt/scripts/scrape_spp_program_details.py:101-102 | the coordinator is the value of the last spokesperson span, whichever order its gendered label is written in |
| ProgramDetails.DetailUrl | dfg-schwerpunkt/scripts/scrape_spp_program_details.py:185 | the detail-page url is used when present and not empty, else the listing url, else nothing |
| ProgramDetails.ProcessOne | dfg-schwerpunkt/scripts/scrape_spp_program_details.py:197-229 | a programme without url or whose page loads is added to completed only; one whose page fails is added to failed only; the entry is enriched exactly when there is a url and the page loads, and then holds the extracted details |
| ProgramDetails.RunDetails | dfg-schwerpunkt/scripts/scrape_spp_program_details.py:183-229 | the processed indices strictly increase; each entry belongs to its processed programme and is enriched with the extracted details exactly when that programme's page loads; the checkpoint sets only grow and every processed number ends in one of them |
| ProgramDetails.RunAll | dfg-schwerpunkt/scripts/scrape_spp_program_details.py:183-229 | the checkpoint sets only grow; at the end every programme's number, defaulting to `SPP_<i>`, is completed or failed; the output holds one entry per processed programme, in index order, each enriched exactly when its page loads |
| ProgramDetails.RunDetailsGrows | dfg-schwerpunkt/scripts/scrape_spp_program_details.py:183-211 | the completed set after a longer stretch of the list contains the one after a shorter stretch |
| ProgramDetails.RunDetailsCovers | dfg-schwerpunkt/scripts/scrape_spp_program_details.py:183-224 | after the whole list every programme's number is completed or failed: a skipped one was completed already, a processed one joins a set |
| ProgramDetails.RunDetailsSkipsCompleted | dfg-schwerpunkt/scripts/scrape_spp_program_details.py:187-191 | a programme is processed exactly when its number is not yet completed when the loop reaches it, so failed programmes are retried |
| ProgramDetails.RunDetailsStep | dfg-schwerpunkt/scripts/scrape_spp_program_details.py:183-191 | each loop step adds its index to the processed list exactly when the number is not completed |
| ProgramDetails.RerunSuccessStaysFailed | dfg-schwerpunkt/scripts/scrape_spp_program_details.py:207-221 | a programme that failed before and now succeeds is completed and still listed as failed |
| ProgramCleaning.NormalizedPrefix | dfg-schwerpunkt/scripts/prepare_programs.py:63 | cutting a normalised text after a non-blank leaves it normalised |
| ProgramCleaning.StripValueSuffix | dfg-schwerpunkt/scripts/prepare_programs.py:63 | a text not ending in `value` is kept; otherwise exactly one `value` and the blank before it go, and the result stays normalised |
| ProgramCleaning.CleanField | dfg-schwerpunkt/scripts/prepare_programs.py:57-65 | empty stays empty; otherwise whitespace runs collapse to one blank, the ends are stripped, and one trailing `value` (with its blank) is removed; never longer than the input |
| ProgramCleaning.CleanFieldRemovesOnce | dfg-schwerpunkt/scripts/prepare_programs.py:63 | of `value value` only the last `value` goes |
| ProgramCleaning.MarkerRest | dfg-schwerpunkt/scripts/prepare_programs.py:73-74 | a match of `^Projekt\s*SPP\s*\d+\s*:\s*` needs the text to start with `Projekt`; what follows it is a proper suffix of the text that does not start with a blank |
| ProgramCleaning.StripProjectPrefix | dfg-schwerpunkt/scripts/prepare_programs.py:73 | the result is a suffix of the text; a text not starting with `Projekt` is kept; a removed prefix takes the blanks after it |
| ProgramCleaning.StripProjectPrefixMatch | dfg-schwerpunkt/scripts/prepare_programs.py:73-74 | for every text `Projekt`, blanks, `SPP`, blanks, a non-empty number, blanks, `:`, blanks, rest (each run of blanks possibly empty, the rest not opening with a blank) exactly the rest is left |
| ProgramCleaning.StripProjectPrefixNeedsNumber | dfg-schwerpunkt/scripts/prepare_programs.py:73-74 | when neither a digit nor a blank follows `Projekt`…`SPP` and its blanks, the pattern does not match and the text is kept whole |
| ProgramCleaning.CutAt | dfg-schwerpunkt/scripts/prepare_programs.py:88-91 | a text without the label is kept; otherwise it is cut before the label's first occurrence and stripped; the label no longer occurs, and no word absent before appears |
| ProgramCleaning.CutLabels | dfg-schwerpunkt/scripts/prepare_programs.py:88-91 | after cutting every label in turn none of them occurs, no word absent before appears, and a text without any label is unchanged |
| ProgramCleaning.CutLabelsAppend | dfg-schwerpunkt/scripts/prepare_programs.py:88-91 | cutting the labels of two lists is cutting the first list's, then the second's |
| ProgramCleaning.CutLabelsLast | dfg-schwerpunkt/scripts/prepare_programs.py:88-91 | cutting a list of labels is cutting all but the last, then cutting at the last |
| ProgramCleaning.CleanDescription | dfg-schwerpunkt/scripts/prepare_programs.py:68-101 | empty stays empty; otherwise the result is the body cleaning of the text with the project prefix and then the title removed; it is normalised, never longer than the input, never starts with `keine zusammenfassung` in any case, and holds no whitespace-free metadata label |
| ProgramCleaning.DropTitle | dfg-schwerpunkt/scripts/prepare_programs.py:76-77 | a text that opens with a non-empty title is the rest after it, stripped; any other text is unchanged |
| ProgramCleaning.CleanBody | dfg-schwerpunkt/scripts/prepare_programs.py:80-99 | the text with the labels cut in turn and whitespace normalised, or empty when that text opens with the missing-summary notice; so it is normalised, not longer, and free of every whitespace-free label |
| ProgramCleaning.TitleDropped | dfg-schwerpunkt/scripts/prepare_programs.py:76-77 | a description that opens with the title is cleaned as the rest after it, stripped |
| ProgramCleaning.SpeakerAndSiteDropped | dfg-schwerpunkt/scripts/prepare_programs.py:81-91 | a cleaned description never contains `Sprecher` or `Webseite` |
| ProgramCleaning.CleanKeepsPlainText | dfg-schwerpunkt/scripts/prepare_programs.py:68-101 | a description with no project prefix, no leading title, no label and no missing-summary notice cleans to its normalised text |
| ProgramCleaning.CountMatching | dfg-schwerpunkt/scripts/prepare_programs.py:106-110 | the count is at most the number of patterns, 0 exactly when none matches and all of them exactly when each matches |
| ProgramCleaning.CountMatchingFilter | dfg-schwerpunkt/scripts/prepare_programs.py:106-110 | the count is the number of patterns that match the text |
| ProgramCleaning.ScoreForMatches | dfg-schwerpunkt/scripts/prepare_programs.py:111-118 | the stepwise mapping 0, 2, 4, then 2k is the same as min(2k, 10), an even number up to 10 |
| ProgramCleaning.ScoreMonotone | dfg-schwerpunkt/scripts/prepare_programs.py:111-118 | more matching patterns never lower the score |
| ProgramCleaning.EstimateRelevance | dfg-schwerpunkt/scripts/prepare_programs.py:104-118 | the estimate is one of 0, 2, 4, 6, 8, 10, and 0 exactly when no pattern matches title, blank and description |
| ProjectsWorking.CandidateShape | dfg-schwerpunkt/scripts/scrape_projects_working.py:37-56 | a link kept as a project does not mention the programme id, and its project is the digits after `/gepris/projekt/`, with the canonical project url and the link text as title |
| ProjectsWorking.Candidates | dfg-schwerpunkt/scripts/scrape_projects_working.py:37-49 | every candidate is canonical and comes from a link of the page, and every link that yields a candidate contributes it |
| ProjectsWorking.ExtractProjectLinks | dfg-schwerpunkt/scripts/scrape_projects_working.py:33-58 | the projects found have pairwise distinct ids, are canonical, and are the first candidate of each id on the page, in page order |
| ProjectsWorking.ExtractSource | dfg-schwerpunkt/scripts/scrape_projects_working.py:37-56 | every project found comes from a link of the page that is not skipped |
| ProjectsWorking.ExtractFindsAll | dfg-schwerpunkt/scripts/scrape_projects_working.py:50-56 | the id of every link that is not skipped is among the projects found |
| ProjectsWorking.ExtractSkipsSelf | dfg-schwerpunkt/scripts/scrape_projects_working.py:40-42 | no project found has the programme's own id |
| ProjectsWorking.ProjectFieldsDistinct | dfg-schwerpunkt/scripts/scrape_projects_working.py:93-100 | no two labels fill the same field and none overwrites the id, url, title or description |
| ProjectsWorking.ProjectRecord | dfg-schwerpunkt/scripts/scrape_projects_working.py:69-112 | the record keeps its id, url and description, and has a title exactly when one was read |
| ProjectsWorking.ProjectDetails | dfg-schwerpunkt/scripts/scrape_projects_working.py:60-118 | a failed page gives nothing; otherwise the record has id, url, the second frame as description (empty with fewer frames) and the cleaned title exactly when the page has one |
| ProjectsWorking.ProjectRecordLabel | dfg-schwerpunkt/scripts/scrape_projects_working.py:102-104 | a label present in the metadata fills its English field with its value |
| ProjectsWorking.ProjectDetailsLabel | dfg-schwerpunkt/scripts/scrape_projects_working.py:84-104 | a label on the page fills its field with the value of its last span |
| ProjectsWorking.ReadProjects | dfg-schwerpunkt/scripts/scrape_projects_working.py:164-175 | one record per project whose page loads, in the order the projects were found, each the details read from that page; one for each exactly when no project page fails |
| ProjectsWorking.ScrapeSppProjects | dfg-schwerpunkt/scripts/scrape_projects_working.py:120-203 | a result exists exactly when the url has a programme id and the page loads; its projects are those read from the links extracted from the page, in link order; the count is their number, at most the number of links, and zero with no projects when no link is found |
| ProjectsWorking.MainStep | dfg-schwerpunkt/scripts/scrape_projects_working.py:234-269 | a programme already completed or failed leaves the checkpoint unchanged; otherwise its number is added to completed exactly when the scrape yields a result (even an empty one) and to failed exactly when it yields none, and nothing else changes |
| ProjectsWorking.MainPass | dfg-schwerpunkt/scripts/scrape_projects_working.py:234-269 | the sets only grow and stay disjoint |
| ProjectsWorking.MainPassCovers | dfg-schwerpunkt/scripts/scrape_projects_working.py:234-269 | after the main pass every programme is completed or failed and nothing else was added |
| ProjectsWorking.FindProgram | dfg-schwerpunkt/scripts/scrape_projects_working.py:278 | the programme found is the first in the list carrying the number; none is found exactly when no programme carries it |
| ProjectsWorking.RetryStep | dfg-schwerpunkt/scripts/scrape_projects_working.py:277-296 | a failed programme that is found by number and now yields a result moves from failed to completed; in every other case the checkpoint is unchanged |
| ProjectsWorking.RetryAll | dfg-schwerpunkt/scripts/scrape_projects_working.py:277-296 | across the retries completed never shrinks, failed never grows and the sets stay disjoint |
| ProjectsWorking.RetrySucceeds | dfg-schwerpunkt/scripts/scrape_projects_working.py:277-296 | a retried number whose programme is found and whose scrape now succeeds ends completed |
| ProjectsWorking.Run | dfg-schwerpunkt/scripts/scrape_projects_working.py:205-296 | a run keeps everything completed before and keeps the sets disjoint |
| ProjectsWorking.RetryAllKeeps | dfg-schwerpunkt/scripts/scrape_projects_working.py:289-291 | a number completed or failed before the retries is still completed or failed after them |
| ProjectsWorking.RetryKeepsUnknown | dfg-schwerpunkt/scripts/scrape_projects_working.py:278-280 | a failed programme that cannot be found by number stays failed |
| ProjectsWorking.RunCovers | dfg-schwerpunkt/scripts/scrape_projects_working.py:234-296 | at the end of a run every programme of the list is completed or failed |
| Priority.Ordered | dfg-schwerpunkt/scripts/scrape_priority_spps.py:44-64 | the processing order is a permutation of the loaded programmes |
| Priority.OrderedKeepsGroupOrder | dfg-schwerpunkt/scripts/scrape_priority_spps.py:44-64 | within each priority group the processing order keeps the order of the loaded list |
| Priority.GroupPartition | dfg-schwerpunkt/scripts/scrape_priority_spps.py:49-56 | the high, medium and other groups together hold every programme exactly as often as the list does |
| Priority.OrderedGroups | dfg-schwerpunkt/scripts/scrape_priority_spps.py:49-64 | a position of the processing order holds a high-priority number exactly when it lies in the first group, and a high- or medium-priority one exactly when it lies in the first two; a number on both lists counts as high |
| Sorting.FilterPartition | dfg-schwerpunkt/scripts/scrape_priority_spps.py:49-56 | three exclusive, exhaustive tests split a list into three sub-lists whose multisets add up to the list's |
| Priority.PriorityStep | dfg-schwerpunkt/scripts/scrape_priority_spps.py:81-93 | a result (even with no projects) completes the number and adds its project count; no result appends the number to the failures and changes nothing else |
| Priority.RunPriority | dfg-schwerpunkt/scripts/scrape_priority_spps.py:69-98 | the completed set only grows from the checkpoint's; every processed programme ends completed or failed; there are no more failures than processed programmes |
| Priority.RunPriorityFailures | dfg-schwerpunkt/scripts/scrape_priority_spps.py:67-97 | every failure saved is the number of a programme processed in this run |
| Priority.RunAll | dfg-schwerpunkt/scripts/scrape_priority_spps.py:66-98 | the completed set of the checkpoint is kept, and every failure is the number of a programme in the processing order that the checkpoint had not completed, so one processed in this run |
| Priority.FailuresNotCompletedBefore | dfg-schwerpunkt/scripts/scrape_priority_spps.py:69-95 | each failure of a whole pass is the number of a programme that was not completed when the pass began |
| Priority.RunPriorityCompleted | dfg-schwerpunkt/scripts/scrape_priority_spps.py:42-96 | every completed number was in the checkpoint or processed in this run |
| Priority.RunPrioritySkipsCompleted | dfg-schwerpunkt/scripts/scrape_priority_spps.py:72-75 | a programme is processed exactly when its number (or `SPP_<i>`) is not completed when its turn comes |
| Priority.RunAllForgetsOldFailures | dfg-schwerpunkt/scripts/scrape_priority_spps.py:66-98 | when every programme is already completed the failure list the run holds in memory is empty, whatever the checkpoint held; nothing is saved then |
| IndexedResume.RunUpTo | dfg-schwerpunkt/scripts/scrape_projects.py:215-261 | the processed indices increase and lie between the start and the bound; the completed list is the old one followed by their numbers in order; the last index is the last processed one, or unchanged when none was |
| IndexedResume.RunUpToStep | dfg-schwerpunkt/scripts/scrape_projects.py:215-225 | one step adds its index exactly when it is at or after the start and its number is not completed yet |
| IndexedResume.Resume | dfg-schwerpunkt/scripts/scrape_projects.py:200-261 | every processed index lies after the checkpoint's; the last index never goes back; the completed list grows by one number per processed programme |
| IndexedResume.RunUpToSkipsExactly | dfg-schwerpunkt/scripts/scrape_projects.py:215-225 | an index is processed exactly when it is at or after the start and its number was not completed when the loop reached it |
| IndexedResume.RunUpToDistinct | dfg-schwerpunkt/scripts/scrape_projects.py:223-259 | a completed list without repeats keeps none |
| IndexedResume.ResumeNumbers | dfg-schwerpunkt/scripts/scrape_projects.py:259-260 | the numbers appended to the completed list are those of the processed programmes, in processing order |
| IndexedResume.ResumeKeepsCompleted | dfg-schwerpunkt/scripts/scrape_projects.py:259 | what earlier runs completed stays as a prefix of the completed list |
| IndexedResume.FreshRunProcesses | dfg-schwerpunkt/scripts/scrape_projects.py:25-30 | with no checkpoint file, every programme whose number does not occur earlier in the list is processed |
| IndexedResume.ResumeSkipsBeforeStart | dfg-schwerpunkt/scripts/scrape_projects.py:202-220 | a programme at or before the checkpoint's index is never processed again, whatever its number |
| ProjectsList.ScrapeProjectList | dfg-schwerpunkt/scripts/scrape_projects.py:39-90 | no url or a page that fails to load gives no projects; otherwise the projects are the first project link of each id on the page, in page order, and every id carried by a project link of the page is listed |
| ProjectsList.ListedProjectShape | dfg-schwerpunkt/scripts/scrape_projects.py:64-83 | each listed project has a non-empty id and an absolute url, joined from one of the page's links |
| ProjectsList.ProjectsUrl | dfg-schwerpunkt/scripts/scrape_projects.py:228-233 | the project-list url is used when not empty, else the detail url when present (even empty), else the listing url |
| ProjectsList.ScrapeProgram | dfg-schwerpunkt/scripts/scrape_projects.py:227-254 | the output counts exactly the projects listed, carries the programme's number and title, and each project is read from its own page |
| ProjectsList.RunAll | dfg-schwerpunkt/scripts/scrape_projects.py:200-261 | the checkpoint is the resumed one, with one output per processed programme, in processing order, each the scrape of that programme and carrying the number appended to the completed list at that step |
| ProjectsList.ListedFirst | dfg-schwerpunkt/scripts/scrape_projects.py:64-83 | each listed project is the first project link of the page with its id |
| ProjectsSearch.SearchTerm | dfg-schwerpunkt/scripts/scrape_projects_v2.py:44 | the search text is trimmed and no longer than the programme number |
| ProjectsSearch.SearchTermOfNumber | dfg-schwerpunkt/scripts/scrape_projects_v2.py:44 | a number of the form `SPP <digits>` is searched as the bare digits |
| ProjectsSearch.SearchProjects | dfg-schwerpunkt/scripts/scrape_projects_v2.py:39-99 | a search that raises gives no projects; otherwise the projects are the first project link of each id on the result page, in page order |
| ProjectsSearch.SearchFindsAll | dfg-schwerpunkt/scripts/scrape_projects_v2.py:75-93 | every project link of the result page is kept under its id |
| ProjectsSearch.ScrapeProgram | dfg-schwerpunkt/scripts/scrape_projects_v2.py:223-245 | the output counts exactly the projects found, carries the programme's number and title, and each project is read from its own page |
| ProjectsSearch.RunAll | dfg-schwerpunkt/scripts/scrape_projects_v2.py:196-252 | the checkpoint is the resumed one, with one output per processed programme, in processing order, each the scrape of that programme and carrying the number appended to the completed list at that step |
| ProjectsStealth.Pass | dfg-schwerpunkt/scripts/scrape_projects_stealth.py:84-113 | the projects listed have distinct, previously unseen ids that are recorded as seen, are never the programme's own url, and all come from the page |
| ProjectsStealth.PassInPageOrder | dfg-schwerpunkt/scripts/scrape_projects_stealth.py:84-113 | the projects a pass lists are the links it keeps, in page order: each not self, not seen before and the first of its id not yet marked |
| ProjectsStealth.PassMarksAll | dfg-schwerpunkt/scripts/scrape_projects_stealth.py:97-104 | in the first pass every project link's id ends up seen, the programme's own page included |
| ProjectsStealth.PassKeepsFirst | dfg-schwerpunkt/scripts/scrape_projects_stealth.py:97-113 | the first link of each new id is listed unless it is the programme's own page |
| ProjectsStealth.Fallback | dfg-schwerpunkt/scripts/scrape_projects_stealth.py:116-160 | the projects found while following list links have distinct ids, none seen before and none the programme's own url |
| ProjectsStealth.FallbackFromOnePage | dfg-schwerpunkt/scripts/scrape_projects_stealth.py:158-160 | projects found by the fallback all come from one followed page that looks like a list, the search stopping there |
| ProjectsStealth.ScrapeDirect | dfg-schwerpunkt/scripts/scrape_projects_stealth.py:55-167 | no url gives no projects; the projects found have distinct ids and none is the programme's own page |
| ProjectsStealth.ScrapeDirectPrefersPage | dfg-schwerpunkt/scripts/scrape_projects_stealth.py:115-116 | when the programme's page lists projects the fallback is not tried |
| ProjectsStealth.ScrapeProgram | dfg-schwerpunkt/scripts/scrape_projects_stealth.py:324-349 | the output counts exactly the projects found and is filed under the programme's number, defaulting to `SPP_<i>`, with its title; each project is read from its own page and is stamped with the programme's own `spp_number`, empty when it has none |
| ProjectsStealth.RunAll | dfg-schwerpunkt/scripts/scrape_projects_stealth.py:269-356 | the checkpoint is the resumed one, with one output per processed programme, in processing order; each is the scrape of that programme, whose project records keep the programme's own, possibly empty, `spp_number`, and is filed under the number appended to the completed list at that step |
| ProjectPages.FoundLinkShape | dfg-schwerpunkt/scripts/scrape_projects.py:62-83 | a link yields a project exactly when its `href` holds `/gepris/projekt/` and digits; the project's url is the joined `href`, its id a non-empty run of digits and its title the link text |
| ProjectPages.FoundRecord | dfg-schwerpunkt/scripts/scrape_projects.py:78-83 | a listed project carries exactly its id, title, url and programme number |
| ProjectPages.Output | dfg-schwerpunkt/scripts/scrape_projects.py:246-254 | the output file counts the projects found and holds each one as read, in order |
| ProjectPages.FirstFound | dfg-schwerpunkt/scripts/scrape_projects_stealth.py:192-200 | the selectors give no text exactly when none finds an element; otherwise the text of the first that does |
| ProjectPages.FirstLong | dfg-schwerpunkt/scripts/scrape_projects_stealth.py:203-209 | the result is empty exactly when no paragraph is longer than 100 characters, and otherwise such a paragraph |
| ProjectPages.StealthAbstract | dfg-schwerpunkt/scripts/scrape_projects_stealth.py:189-211 | a non-empty selector text is the abstract; otherwise the first long paragraph is |
| ProjectPages.Classify | dfg-schwerpunkt/scripts/scrape_projects_stealth.py:218-232 | a label falls into the first category whose words it contains, in the order investigator, institution, period, keywords, and classification only with `dfg` and one of its words |
| ProjectPages.Zip | dfg-schwerpunkt/scripts/scrape_projects_stealth.py:218 | the pairs of two lists, as many as the shorter list has |
| ProjectPages.Assignments | dfg-schwerpunkt/scripts/scrape_projects_stealth.py:218-232 | one assignment per label/value pair, to the field of the label's category |
| ProjectPages.WithDefaults | dfg-schwerpunkt/scripts/scrape_projects_stealth.py:234-239 | every field of the project is kept, every text field is present, holding its assigned value, else its earlier value, else empty; other fields keep their values |
| ProjectPages.KeywordList | dfg-schwerpunkt/scripts/scrape_projects_stealth.py:228-230 | no keywords label gives no keywords; every keyword is non-empty, trimmed and free of `,` and `;` |
| ProjectPages.KeywordPieces | dfg-schwerpunkt/scripts/scrape_projects_stealth.py:228-230 | the keywords of a field are its pieces split at `,` and `;`, stripped, in order, with the empty ones dropped |
| ProjectPages.DlRecord | dfg-schwerpunkt/scripts/scrape_projects_stealth.py:184-239 | the record has the abstract, the `h1` text as full title when there is one, every text field, and keeps every other field of the project |
| ProjectPages.DlDetails | dfg-schwerpunkt/scripts/scrape_projects_stealth.py:170-246 | a page that fails records the error and keeps the project; otherwise the definition-list fields and the keyword list are read |
| ProjectPages.DlDetailsField | dfg-schwerpunkt/scripts/scrape_projects_v2.py:139-156 | a label's value reaches its field when no later pair assigns the same field |
| ProjectPages.ParentTextOf | dfg-schwerpunkt/scripts/scrape_projects.py:123-128 | no matching text node gives `''`; a non-empty result is the parent text of a node naming the field |
| ProjectPages.ParentTextOfFirst | dfg-schwerpunkt/scripts/scrape_projects.py:123-128 | the text found is the parent text of the first text node naming the field, or empty when that node has no parent |
| ProjectPages.ParentTextFound | dfg-schwerpunkt/scripts/scrape_projects.py:134-167 | the text search gives empty when no node names the field, and otherwise the parent text of the first node naming it |
| ProjectPages.InvestigatorText | dfg-schwerpunkt/scripts/scrape_projects.py:129 | the investigator text is trimmed and no longer than its parent's text; a parent text without either label word is simply stripped |
| ProjectPages.InvestigatorTextOfLabel | dfg-schwerpunkt/scripts/scrape_projects.py:129 | a parent reading `Antragsteller` followed by a name gives the name, stripped |
| ProjectPages.TextRecord | dfg-schwerpunkt/scripts/scrape_projects.py:107-168 | the record holds the five searched fields with the values read, the `h1` as full title when present, and keeps every other field of the project |
| ProjectPages.TextDetails | dfg-schwerpunkt/scripts/scrape_projects.py:93-175 | a page that fails records the error and keeps every other field; otherwise every searched field is set, the abstract is the id selector's text, else the class selector's, else empty, institution, funding period and classification are each the parent text of the first node naming their pattern, the investigator is the text found for its pattern with the label words removed and stripped, the keywords are the split pieces of the text found for theirs, the heading becomes the full title, and every other field is kept |
| Institutions.Inner | dfg-schwerpunkt/scripts/aggregate_spp_institutions.py:33-35 | the slice between the first `(` and the first `)` holds no `)` and only characters of the part |
| Institutions.ParenInstitutionShape | dfg-schwerpunkt/scripts/aggregate_spp_institutions.py:32-37 | a found institution is longer than two characters, stripped and free of `)` |
| Institutions.ParenInstitutionChars | dfg-schwerpunkt/scripts/aggregate_spp_institutions.py:33-35 | a found institution is made of the part's characters |
| Institutions.ClosedBeforeOpen | dfg-schwerpunkt/scripts/aggregate_spp_institutions.py:33-37 | a part whose first `)` comes before any `(` gives nothing, because the slice is empty |
| Institutions.ExtractInstitutions | dfg-schwerpunkt/scripts/aggregate_spp_institutions.py:16-39 | empty input gives nothing; at most one institution per `;`-part; each is longer than two characters, free of `)`, and comes from one of the parts |
| Institutions.ExtractInstitutionsComplete | dfg-schwerpunkt/scripts/aggregate_spp_institutions.py:28-37 | every part with an institution contributes it |
| Institutions.ExtractAll | dfg-schwerpunkt/scripts/aggregate_spp_institutions.py:16-39 | the institutions of a string are those of its `;`-parts, one per part that has one, in part order |
| Institutions.ExtractInstitutionsStep | dfg-schwerpunkt/scripts/aggregate_spp_institutions.py:28-37 | a first part followed by `;` contributes its institution, if any, before those of the rest |
| Institutions.ExtractInstitutionsOnePart | dfg-schwerpunkt/scripts/aggregate_spp_institutions.py:28-37 | a string without `;` gives exactly its parenthesised institution, if any |
| Institutions.NameInstitutions | dfg-schwerpunkt/scripts/aggregate_spp_institutions.py:82-85 | a name of five characters or fewer, once stripped, is skipped; a longer one is searched stripped |
| Institutions.NameInstitutionsAtMostOne | dfg-schwerpunkt/scripts/aggregate_spp_institutions.py:82-85 | a name without `;` yields exactly its parenthesised institution when it has one, and nothing otherwise |
| Institutions.NameInstitutionsClean | dfg-schwerpunkt/scripts/aggregate_spp_institutions.py:80-85 | a name cut at the separators yields at most one institution, longer than two characters and free of `)`, `,` and `;` |
| Institutions.NoSeparatorOnePart | dfg-schwerpunkt/scripts/aggregate_spp_institutions.py:28 | splitting a text without the separator gives the text alone |
| Institutions.InvestigatorInstitutionsClean | dfg-schwerpunkt/scripts/aggregate_spp_institutions.py:81-88 | names cut at the separators yield at most one institution each, longer than two characters and free of `)`, `,` and `;` |
| Institutions.InvestigatorInstitutionsAppend | dfg-schwerpunkt/scripts/aggregate_spp_institutions.py:81-88 | the institutions of two runs of names are those of each, in order; one name gives exactly its own institutions |
| Institutions.ProjectInstitutions | dfg-schwerpunkt/scripts/aggregate_spp_institutions.py:72-88 | at most one institution per comma- or semicolon-separated name of the investigators field |
| Institutions.FieldInstitutions | dfg-schwerpunkt/scripts/aggregate_spp_institutions.py:76-88 | at most one institution per name of the investigators text, each longer than two characters and free of `)`, `,` and `;` |
| Institutions.FieldInstitutionsStep | dfg-schwerpunkt/scripts/aggregate_spp_institutions.py:78-88 | a first name followed by `;` or `,` contributes its institutions before those of the rest |
| Institutions.AllInstitutions | dfg-schwerpunkt/scripts/aggregate_spp_institutions.py:71-88 | every institution found is longer than two characters and free of `)` |
| Institutions.AllInstitutionsAppend | dfg-schwerpunkt/scripts/aggregate_spp_institutions.py:71-88 | the institutions of two runs of projects are those of each, in project order; one project gives exactly its own |
| Institutions.FirstMentions | dfg-schwerpunkt/scripts/aggregate_spp_institutions.py:87 | each institution found is listed exactly once, at its first mention, in mention order |
| Institutions.Tally | dfg-schwerpunkt/scripts/aggregate_spp_institutions.py:87 | each distinct institution is paired with the number of times it was found |
| Institutions.DistinctOnce | dfg-schwerpunkt/scripts/aggregate_spp_institutions.py:105 | a list without repeats holds each element at most once |
| Institutions.TwiceCounted | dfg-schwerpunkt/scripts/aggregate_spp_institutions.py:105 | an element at two positions is counted at least twice |
| Institutions.PermutationDistinct | dfg-schwerpunkt/scripts/aggregate_spp_institutions.py:91 | reordering a list without repeats keeps it without repeats |
| Institutions.Ranked | dfg-schwerpunkt/scripts/aggregate_spp_institutions.py:91 | the tally, most frequent first, with every institution found exactly once and its true count |
| Institutions.MostCommon | dfg-schwerpunkt/scripts/aggregate_spp_institutions.py:91 | at most n entries (fewer only when fewer institutions exist), distinct, with true counts, in non-increasing count order |
| Institutions.MostCommonLeftOut | dfg-schwerpunkt/scripts/aggregate_spp_institutions.py:91 | an institution left out of the top list is found no more often than the last one listed |
| Institutions.Analyze | dfg-schwerpunkt/scripts/aggregate_spp_institutions.py:60-111 | the project count and file fields (`Unknown` when missing) are kept; the institution list is strictly ascending and holds exactly the institutions found; the top list is the ten most common of them, and the institution count the number of distinct ones |
| Institutions.AnalyzeConsistent | dfg-schwerpunkt/scripts/aggregate_spp_institutions.py:91-110 | the number of institutions is the length of the sorted list, the top list has min(that, 10) entries, all of them in the list |
| Institutions.AnalyzeAll | dfg-schwerpunkt/scripts/aggregate_spp_institutions.py:56-113 | one analysis per project file, in the order given |
| Institutions.TopSize | dfg-schwerpunkt/scripts/aggregate_spp_institutions.py:91 | the top list holds ten institutions, or every distinct one when there are fewer |
| Loader.FormerApplicantEnd | web/src/data/loader.ts:82 | a match of `Ehemalige[rs]?\s*Antragsteller` starts with `Ehemalige` and ends right after `Antragsteller` |
| Loader.AfterFormer | web/src/data/loader.ts:82 | the optional `r` or `s` after `Ehemalige` stays inside the text |
| Loader.ApplicantAt | web/src/data/loader.ts:82 | the blanks between `Ehemalige[rs]?` and `Antragsteller` stay inside the text |
| Loader.LabelEnd | web/src/data/loader.ts:79-83 | a label that matches ends after its start and inside the text |
| Loader.CooperationSuffix | web/src/data/loader.ts:81 | the optional ending after `Kooperationspartner` stays inside the text |
| Loader.GroupEnd | web/src/data/loader.ts:76-77 | the lazy group stops at the first place where an end label starts or the text ends, and nowhere before |
| Loader.FirstLabel | web/src/data/loader.ts:86 | no position exactly when the label matches nowhere; otherwise the leftmost position where it matches |
| Loader.LabelText | web/src/data/loader.ts:86-87 | the text exists exactly when the label occurs, and runs from the end of its leftmost match to the first end label |
| Loader.LabelTextStops | web/src/data/loader.ts:76-77 | the captured text holds no start of another label |
| Loader.RunBefore | web/src/data/loader.ts:92 | the run before a position is maximal: all its characters qualify and the one before it does not |
| Loader.RunBeforeExact | web/src/data/loader.ts:92 | a run that is maximal is the run that is found |
| Loader.DateTail | web/src/data/loader.ts:92 | a date suffix that is found is a real match of `,\s*bis\s+\d{1,2}\/\d{4}$` |
| Loader.DateTailComplete | web/src/data/loader.ts:92 | every match of the date pattern at the end of the text is the one found |
| Loader.MonthRun | web/src/data/loader.ts:92 | the month digits of a match are the digit run before the year |
| Loader.GapRun | web/src/data/loader.ts:92 | the blanks after `bis` of a match are the blank run before the month |
| Loader.BlanksRun | web/src/data/loader.ts:92 | the blanks after the comma of a match are the blank run before `bis` |
| Loader.StripDate | web/src/data/loader.ts:92 | the name never grows, and a name without a leave date is only trimmed |
| Loader.StripDateTrimmed | web/src/data/loader.ts:92 | a stripped name has no blanks at either end |
| Loader.StripDateRemoves | web/src/data/loader.ts:92 | a name ending in a leave date loses exactly that suffix and is trimmed |
| Loader.CleanName | web/src/data/loader.ts:90-94 | a cleaned name has no blanks at either end |
| Loader.Names | web/src/data/loader.ts:88-95 | every name after a label is non-empty, trimmed and free of `;` |
| Loader.CleanNameKeepsOut | web/src/data/loader.ts:90-94 | cleaning a piece without `;` cannot produce one |
| Loader.NormalizeKeepsSemicolon | web/src/data/loader.ts:91 | squashing whitespace cannot produce a `;` |
| Loader.StripDateKeepsOut | web/src/data/loader.ts:92 | removing the date cannot produce a `;` |
| Loader.NamesAfter | web/src/data/loader.ts:85-97 | no names when the label does not occur; every name found is non-empty, trimmed and free of `;` |
| Loader.DescriptionNames | web/src/data/loader.ts:79-98 | the names of the three labels together are non-empty, trimmed and free of `;` |
| Loader.ParseInvestigators | web/src/data/loader.ts:68-101 | a non-blank investigators field wins, trimmed; with no field and no names the result is empty |
| Loader.ParseInvestigatorsSplits | web/src/data/loader.ts:88-100 | splitting the joined names at `;` and trimming gives back exactly the names found |
| Loader.NoLabelNoNames | web/src/data/loader.ts:85-100 | a description with none of the three labels yields no names |
| Loader.Cutoff | web/src/data/loader.ts:105-107 | no position exactly when no metadata label occurs; otherwise the leftmost label |
| Loader.CleanDescription | web/src/data/loader.ts:103-109 | the text is kept when the first label is at the start or absent; otherwise it is cut before the label and trimmed; either way, unless the label is at the start, the result holds no label |
| Loader.TrimmedPrefixClean | web/src/data/loader.ts:108 | trimming a label-free prefix leaves a label-free text |
| Loader.NoMetadataInSlice | web/src/data/loader.ts:106 | no label in the whole text at a position means none in a slice there |
| Loader.TrimmedPrefixSlice | web/src/data/loader.ts:108 | a trimmed prefix is a slice of the text |
| Loader.MetadataInSlice | web/src/data/loader.ts:106 | a label found in a slice is a label of the whole text |
| Loader.OccursInSliceIf | web/src/data/loader.ts:106 | a word found in a slice is found in the whole text |
| Loader.FormerApplicantInSlice | web/src/data/loader.ts:106 | a former-applicant label in a slice is one in the whole text |
| Loader.ApplicantAtSlice | web/src/data/loader.ts:106 | the position of `Antragsteller` is the same in a slice and in the whole text |
| Loader.SpaceRunExact | web/src/data/loader.ts:106 | a maximal blank run is the one found |
| Loader.CleanDescriptionIdempotent | web/src/data/loader.ts:103-109 | cleaning a cleaned description changes nothing |
| Loader.LeadingLabelKept | web/src/data/loader.ts:108 | a description that opens with a label is kept whole, metadata included |
| Loader.ReplaceSpaceRuns | web/src/data/loader.ts:152 | replacing the whitespace runs leaves no whitespace |
| Loader.Slug | web/src/data/loader.ts:152 | a slug holds no whitespace and is no longer than the number |
| Loader.ReplaceSpaceRunsNoSpace | web/src/data/loader.ts:152 | text without whitespace is left as it is |
| Loader.SlugIdempotent | web/src/data/loader.ts:152 | a slug is its own slug |
| Loader.SlugOfNumber | web/src/data/loader.ts:152 | `SPP ` followed by a number has the slug `spp-` followed by the lower-cased number |
| Loader.SummaryFile | web/src/data/loader.ts:235 | the file name ends in `_summary.md` and holds no whitespace |
| Loader.SummaryFileOfNumber | web/src/data/loader.ts:235 | `SPP ` followed by a number has the file `SPP_<number>_summary.md` |
| Loader.LoadSummaryMarkdown | web/src/data/loader.ts:234-241 | the file's text when it can be read, and the empty text otherwise |
| Loader.Score | web/src/data/loader.ts:179-181 | a missing column or a text that is not a number gives 0; otherwise the number read |
| Loader.BuildProject | web/src/data/loader.ts:162-185 | CSV text wins for title, url and funding period; without a raw project the investigators, description and subject area are empty; with one they come from it and its title fills a missing CSV title; the description holds no metadata label |
| Loader.BuildProjectFields | web/src/data/loader.ts:162-185 | institution, keywords, abstract, full title, classification and programme title are the CSV columns (empty when missing); with a raw project the description is its description cleaned, and the raw url and funding period fill in when the row has none |
| Loader.CsvTextWins | web/src/data/loader.ts:162-185 | when the CSV row has title, url and funding period, two raw projects can only make the investigators, the description and the subject area differ |
| Loader.RowsOf | web/src/data/loader.ts:131-137 | every row of a programme carries its number and every CSV row with its number is among them |
| Loader.RowsOfAppend | web/src/data/loader.ts:131-137 | the rows of two runs of CSV rows are those of each, in file order; a single row is kept exactly when it carries the number |
| Loader.RowsOfNone | web/src/data/loader.ts:131-152 | a programme number with no CSV row gets no rows, so no projects |
| Loader.BuildProjects | web/src/data/loader.ts:162-185 | one project per CSV row, in row order, each keeping its row's project id and programme number |
| Loader.RawFor | web/src/data/loader.ts:155-163 | a raw project is found exactly when the row's id is indexed, and it is the indexed one |
| Loader.ProjectsCount | web/src/data/loader.ts:210 | the number of built projects when there are any; otherwise the raw file's count, or 0 without a file |
| Loader.BuildProgram | web/src/data/loader.ts:148-214 | number, url, description and scores come from the analysed record; the slug is whitespace-free; one project per CSV row of the number, in order; a detailed record's non-empty title wins; without one the detail fields are empty; the analysed website wins |
| Loader.LoadPrograms | web/src/data/loader.ts:118-217 | one programme per analysed record, in order, whose projects all carry its number |
| Loader.LoadProgramsDetailed | web/src/data/loader.ts:125-129 | the last detailed record of a number gives the title (when non-empty) and the full description |
| Loader.LoadProgramsUndetailed | web/src/data/loader.ts:189-197 | a programme without a detailed record keeps its analysed title and has no full description |
| Loader.LoadProgramsRawCount | web/src/data/loader.ts:139-146 | a programme without CSV rows takes its count from the last `.json` file with its number |
| Loader.LoadAllProjects | web/src/data/loader.ts:219-224 | a project is listed exactly when some programme has it |
| Loader.LoadAIProjects | web/src/data/loader.ts:226-228 | the loaded projects whose AI score is in the medium or high tier, in load order and with their multiplicity |
| Loader.LoadWearablesProjects | web/src/data/loader.ts:230-232 | the loaded projects whose wearables score is in the medium or high tier, in load order and with their multiplicity |
| Loader.LoadStats | web/src/data/loader.ts:244-254 | the counts of programmes and projects; the relevant counts are the numbers of loaded projects in the medium or high AI and wearables tiers; the science areas are the first mention of each, in programme order |
| Loader.LoadAllProjectsAppend | web/src/data/loader.ts:219-224 | loading two programme lists one after the other concatenates their projects, so each programme's projects form one block, in programme order |
| Loader.LoadAllProjectsCount | web/src/data/loader.ts:219-224 | the project total is the sum of the programmes' project counts, repeated projects included |
| Tiers.GetRelevanceTier | web/src/data/types.ts:73-78 | the tier is high exactly from score 3, medium exactly on [1, 3), low exactly on (0, 1) and none exactly at 0 or below |
| Tiers.TierMonotone | web/src/data/types.ts:73-78 | a higher score never gets a lower tier |
| Tiers.RelevantTiers | web/src/data/types.ts:73-78 | a score is shown as medium or high exactly when it is at least 1 |
| Tiers.TierColor | web/src/data/types.ts:80-87 | the text class is `text-` followed by the tier's colour shade |
| Tiers.TierBg | web/src/data/types.ts:89-96 | the badge class starts with `bg-` and the tier's shade, and its length fixes the two opacity suffixes |
| Tiers.ShadesDistinct | web/src/data/types.ts:80-96 | the four tiers use four different shades |
| Tiers.TierColorsDistinct | web/src/data/types.ts:80-87 | different tiers get different text classes |
| Tiers.TierBgsDistinct | web/src/data/types.ts:89-96 | different tiers get different badge classes |
| ProjectFilter.Selected | web/src/scripts/projectFilter.ts:44-61 | the search, score and programme filters keep only matching projects, every matching project, and each at most as often as in the input |
| ProjectFilter.FilterProjects | web/src/scripts/projectFilter.ts:41-73 | the result is a permutation of the matching projects (same multiset); it is ordered by combined score (highest first), by title or by investigator under the `localeCompare` order (any total preorder), and left in input order for any other sort key |
| ProjectFilter.SliceBound | web/src/scripts/projectFilter.ts:81 | a slice bound counts from the end when negative and is clamped to the list |
| ProjectFilter.Paginate | web/src/scripts/projectFilter.ts:79-82 | a page holds at most 25 items; page n ≥ 1 is the window from 25(n−1) to 25n, clamped; page 0 is empty |
| ProjectFilter.PaginateNegativePage | web/src/scripts/projectFilter.ts:79-82 | page −1 counts from the end of the list, as `slice` does with negative bounds |
| ProjectFilter.PageCount | web/src/scripts/projectFilter.ts:85 | the page count is the least n with 25n at least the total |
| ProjectFilter.PagesPrefix | web/src/scripts/projectFilter.ts:79-82 | pages 1 to k together are the first 25k items |
| ProjectFilter.PagesCover | web/src/scripts/projectFilter.ts:79-85 | all pages together give back the whole list, in order and without overlap |
| ProjectFilter.PageItems | web/src/scripts/projectFilter.ts:88-95 | a page gets a button exactly when it is the first, the last or within two of the current page; buttons ascend; no two gaps are adjacent |
| ProjectFilter.PageItemsGaps | web/src/scripts/projectFilter.ts:88-95 | consecutive buttons are adjacent pages, and a `…` follows a button and sits between buttons more than one page apart, or after one below the last page |
| ProjectFilter.Pagination | web/src/scripts/projectFilter.ts:84-95 | no page list exactly when there is at most one page; otherwise a page has a button exactly when it is the first, the last or within two of the current one, the list ends with the last page, consecutive buttons are adjacent pages, and a `…` sits only where pages are skipped |
| ProjectFilter.KeyNamesDistinct | web/src/scripts/projectFilter.ts:115-134 | the six query parameters have six different names |
| ProjectFilter.ParamsFor | web/src/scripts/projectFilter.ts:127-134 | every parameter written carries the text its field would write |
| ProjectFilter.UrlParams | web/src/scripts/projectFilter.ts:127-134 | at most six parameters are written, each with its field's text |
| ProjectFilter.QueryPairs | web/src/scripts/projectFilter.ts:135 | the query string lists each written parameter under its name, in writing order |
| ProjectFilter.ParamsForLookup | web/src/scripts/projectFilter.ts:115-134 | reading a parameter back finds what was written for it, and nothing for a parameter that was not written |
| ProjectFilter.UrlParamsReadBack | web/src/scripts/projectFilter.ts:127-134 | each field can be read back exactly when it differs from its default (non-empty text, positive score, sort other than `score`, page above 1, tab other than `ai`) |
| ProjectFilter.ParseIntRendering | web/src/scripts/projectFilter.ts:121 | `parseInt` reads back the decimal rendering of a page number |
| ProjectFilter.ReadUrlState | web/src/scripts/projectFilter.ts:115-124 | a field is set exactly when its parameter is present and not empty, and then holds the parameter's text, read with `parseFloat` for the score and `parseInt` for the page |
| ProjectFilter.UrlStateRoundTrip | web/src/scripts/projectFilter.ts:115-137 | writing a filter to the query string and reading it back gives the fields that differ from their defaults, given that `parseFloat` reads back what `String` writes for a positive score |
| ProjectFilter.UrlParamsNonDefault | web/src/scripts/projectFilter.ts:127-134 | fields left at their defaults do not change the query string |
| ProjectFilter.DefaultWritesNothing | web/src/scripts/projectFilter.ts:127-134 | the default filter writes an empty query string |
| ProjectFilter.EscChar | web/src/scripts/projectFilter.ts:142-144 | one character's escape is never empty and holds no `<`, `>` or `"` |
| ProjectFilter.EscEach | web/src/scripts/projectFilter.ts:142-144 | text escaped character by character holds no `<`, `>` or `"` |
| ProjectFilter.EscHtmlChar | web/src/scripts/projectFilter.ts:142-144 | the four replacements in a row turn one character into its escape |
| ProjectFilter.EscHtmlAppend | web/src/scripts/projectFilter.ts:142-144 | escaping distributes over concatenation |
| ProjectFilter.EscHtmlEach | web/src/scripts/projectFilter.ts:142-144 | the four replacements in a row escape every character on its own; no reference written by one step is touched by a later one |
| ProjectFilter.EscHtmlSafe | web/src/scripts/projectFilter.ts:142-144 | escaped text holds no `<`, `>` or `"` |
| ProjectFilter.EscHtmlRoundTrip | web/src/scripts/projectFilter.ts:142-144 | decoding the character references of escaped text gives back the text |
| ProjectFilter.MapEsc | web/src/scripts/projectFilter.ts:162-164 | each keyword is escaped in place |
| ProjectFilter.RenderTags | web/src/scripts/projectFilter.ts:146-155 | no chips for an empty list; otherwise one chip per comma-separated piece (one more than the commas), trimmed and escaped |
| ProjectFilter.RenderTagsSafe | web/src/scripts/projectFilter.ts:146-155 | no chip holds `<`, `>` or `"` |
| ProjectFilter.RenderKeywordTags | web/src/scripts/projectFilter.ts:157-169 | no chips for empty keywords; otherwise the first `limit` non-empty trimmed keywords escaped, and a `+n more` count exactly when there are more than `limit` |
| ProjectFilter.KeywordTagsCount | web/src/scripts/projectFilter.ts:157-169 | the chips are the first min(limit, n) keywords and, with the `+n more` count, account for every keyword |
| ProjectFilter.Terms | web/src/scripts/projectFilter.ts:46 | every term is non-empty and free of JavaScript whitespace, and every non-blank character of the lowercased query lies in some term |
| ProjectFilter.TermsFirstRun | web/src/scripts/projectFilter.ts:46 | a lowercased query opening with a run of non-blank characters and a blank has that run as its first term, followed by the terms of the rest |
| ProjectFilter.NoFilterKeepsAll | web/src/scripts/projectFilter.ts:41-73 | with no search text, no positive minimum score and no programme, every project is kept, as often as in the input |
| ProjectFilter.ParseIntShape | web/src/scripts/projectFilter.ts:121 | `parseInt(_, 10)` skips leading JavaScript whitespace, reads an optional sign and the longest run of decimal digits, and ignores the rest |
| ProjectFilter.ParseIntNaN | web/src/scripts/projectFilter.ts:121 | `parseInt` gives NaN when no digit (after blanks and without a sign) starts the text |
| ProjectFilter.ParseIntDigits | web/src/scripts/projectFilter.ts:121 | a text of decimal digits alone reads as its decimal value |

## Left out

- Browser automation, HTTP, file reading and writing, JSON and CSV parsing: pages and files are input values and loaders are parameters.
  - Covers `extract_tabulator_data`, `readJSON`, `readCSV`, and `load_all_projects` in `analyze_relevance.py`.
  - The `load_checkpoint`/`save_checkpoint` pairs are left out except that a missing checkpoint file means an empty one.
- Printing, screenshots, debug files and `time.sleep`. `human_delay` in `scrape_projects_stealth.py` draws random delays; it is left out because it changes no data.
- CSV export and the Markdown report of `analyze_relevance.py` (`save_csvs`, `generate_report`): reports, not scoring.
- The HTML of the project cards (`renderProjectCard`, `renderFocusCard`) and of the pagination and tag chips.
  - Only what the markup carries is modelled: the escaped texts, the chips, the page buttons and gaps.
  - CSS classes are modelled only for the tiers of `types.ts`.
- The output files of `scrape_spp_full.py`. Writing the unfiltered and the filtered list with the `_` fields removed, and the per-year summary, are output formatting.
- The caches `_programs` and `_allProjects` in `loader.ts`. Each load is modelled as a pure function of the files; the cache only returns the first result again.
- Python's `re` module and BeautifulSoup are not modelled in general. Each pattern the code uses is written out as a predicate saying where it matches.
  - `ProgramCleaning.EstimateRelevance`: its patterns stay an uninterpreted `matches` predicate. They are the regular expressions listed at the top of `prepare_programs.py`, and writing each one out would add nothing to the score's contract.
- Strings.IsDigit: `\d` is ASCII digits only. Python's `\d` on `str` patterns, and `int()`, also accept other Unicode decimal digits. `int()` also accepts `_` between digits.
- Strings.Lower: lower-casing covers ASCII and the Latin-1 capitals only. Python's `str.lower`, `re.IGNORECASE` and JavaScript's `toLowerCase` fold all of Unicode.
  - This matters where the model uses it: the `seit`/`von … bis` search in the programme details, the cleaning of descriptions, the field search of project pages, and the loader's slug.
  - The relevance scorer and the project filter take lower-casing as a parameter instead.
- Strings.IsSpace: the whitespace set is Python's `str.isspace`. The JavaScript parts of the loader use it where JavaScript's `\s` and `trim()` apply.
  - The two sets differ at U+001C–U+001F and U+0085 (Python only) and at U+FEFF (JavaScript only).
  - `ProjectFilter.Terms` and `ProjectFilter.ParseInt` use the JavaScript set, `Strings.IsJsSpace`.
- Loader.ParseInvestigators: the trim uses the Python whitespace set. An investigators field holding only U+FEFF counts as blank in JavaScript but not in the model.
- Loader.ReplaceSpaceRuns: `\s` is the Python whitespace set, not JavaScript's.
- Loader.Slug: the whitespace set is Python's, and lower-casing covers ASCII and Latin-1 only.
- ProjectFilter.RenderTags: `trim()` is modelled with the Python whitespace set.
- ProjectFilter.RenderKeywordTags: `trim()` is modelled with the Python whitespace set.
- ProjectFilter.FilterProjects: `localeCompare` is an arbitrary total preorder `Locale.atMost`. The contract holds for every such order; no particular collation is modelled.
  - `Array.prototype.sort` is stable, and so is the model's sort. The contract states order and permutation but not stability.
- ProjectFilter.ReadUrlState: `parseFloat` is a parameter `string -> real`. NaN and Infinity have no `real` value, so a score parameter that reads as NaN is not modelled.
- Loader.Score: `parseFloat` is a parameter giving `None` for NaN. Infinity is not modelled.
- Relevance.ScoreProject: the scores are not rounded to two decimals (`analyze_relevance.py:220-222`). Every score is a multiple of 1/12, so rounding changes neither the thresholds at 1 nor the order of two scores. This is argued here, not proved.
- Relevance.RelevantList: pandas' `sort_values` uses quicksort and is not stable; the model's insertion sort is. The contract states order and permutation only, which holds for both.
- Institutions.MostCommon: the order among institutions with equal counts is not stated. `Counter.most_common` keeps first-mention order among ties; the model's sort is stable, but that is not proved.
- SppPrograms.ProgramDetails: `scrape_spp_programs.py:143` reads `spp_number` before the `try`, so a programme without a number would raise `KeyError` out of the scraper. The model does not raise there. Every programme `SppPrograms.ScrapeList` lists has a number, so the case does not arise in the pipeline.
- SppFull.SearchPage: one result page is modelled. The search loop's pages are given as one list of entries, in page order.
  - The loop stops when a page has no results or no "weiter"/"next" link. That paging rule, and the offset it advances, are not modelled.
- SppFull.ParseInt: Python's `int` is modelled for ASCII digits with an optional sign and surrounding whitespace. Underscores between digits and non-ASCII digits are not accepted.
- SppFull.VisitCount: the scroll loop runs while the position is at most the scroll height plus one step. It therefore visits `height / step + 2` positions: one more than a bound of "scroll height plus one increment" suggests when the step divides the height. The model follows the code.
- ProjectsWorking.RetryAll: the retry loop iterates over `list(failed)`, a set in Python's hash order. The model takes that order as a parameter.
- Records: values other than strings (numbers, lists) in the scraped dictionaries are modelled only where the code reads them (project lists, keyword lists, counts).

## Findings

| source | as written | input that shows it | evidently intended | confidence | as-written member | corrected member |
|---|---|---|---|---|---|---|
| dfg-schwerpunkt/scripts/scrape_spp_full.py:323 | `scrape_program_detail` reads `program['spp_number']` before its `try` block. The programmes found by the search fallback (lines 128-131) are `{title, url}` records with no number, so the first one raises `KeyError` and ends the detail pass, and with it the run. | A listing with fewer than 25 programmes whose search finds more, e.g. one search entry with link text `Schwerpunktprogramm X` and href `/gepris/projekt/1`; the year filter keeps it (no `beginn`, year 0). | The number is only used in log messages, so a programme without one should still get its detail page read. | not executed | SppFull.ProgramDetailAsWritten, SppFull.FallbackProgramAbortsDetail | SppFull.ProgramDetail, SppFull.FallbackProgramGetsDetail |

=== FILE: gepris.dfy ===
/**
 GEPRIS addresses and page fragments shared by the scrapers: links made
 absolute, project numbers read out of links, the `href="..."` attribute of a
 table cell, and the clean-ups applied to page titles and to the
 `<span class="name">` label/value pairs of a detail page.

 Page content reaches the model already extracted (the text of a tag, the
 `href` of a link); only the string logic the scripts apply to it is modelled.
 */
module Gepris {
  import opened Strings
  import opened Records

  const BaseUrl: string := "https://gepris.dfg.de"

  // ---------------------------------------------------------------------------
  // Absolute URLs

  /** An href made absolute the way the full listing scraper does it: kept
      when it starts with `http`, otherwise appended to the host. */
  function AbsoluteUrl(href: string): (r: string)
    ensures StartsWith(r, "http") && EndsWith(r, href)
    ensures r == href || r == BaseUrl + href
  {
    if StartsWith(href, "http") then href
    else
      assert (BaseUrl + href)[..4] == "http";
      assert (BaseUrl + href)[|BaseUrl|..] == href;
      BaseUrl + href
  }

  /** Making a URL absolute twice changes nothing. */
  lemma AbsoluteUrlIdempotent(href: string)
    ensures AbsoluteUrl(AbsoluteUrl(href)) == AbsoluteUrl(href)
  {
  }

  /** The three-way rule of the other scrapers: absolute links are kept, rooted
      paths get the host prepended, anything else gets host and `/`. */
  function JoinBase(href: string): (r: string)
    ensures StartsWith(r, "http") && EndsWith(r, href)
    ensures !StartsWith(href, "http") ==> StartsWith(r, BaseUrl + "/")
    ensures r == href || r == BaseUrl + href || r == BaseUrl + "/" + href
  {
    if StartsWith(href, "http") then href
    else if StartsWith(href, "/") then
      assert (BaseUrl + href)[..4] == "http";
      assert (BaseUrl + href)[|BaseUrl|..] == href;
      assert (BaseUrl + href)[..|BaseUrl| + 1] == BaseUrl + "/";
      BaseUrl + href
    else
      assert (BaseUrl + "/" + href)[..4] == "http";
      assert (BaseUrl + "/" + href)[|BaseUrl| + 1..] == href;
      assert (BaseUrl + "/" + href)[..|BaseUrl| + 1] == BaseUrl + "/";
      BaseUrl + "/" + href
  }

  /** Joining an already joined link changes nothing. */
  lemma JoinBaseIdempotent(href: string)
    ensures JoinBase(JoinBase(href)) == JoinBase(href)
  {
  }

  /** Whatever the form of a non-absolute link, its path is rooted at `/` just
      after the host. */
  lemma JoinBaseRooted(href: string)
    requires !StartsWith(href, "http")
    ensures exists path :: JoinBase(href) == BaseUrl + path && StartsWith(path, "/")
  {
    var r := JoinBase(href);
    assert r == BaseUrl + r[|BaseUrl|..];
  }

  // ---------------------------------------------------------------------------
  // Regular-expression searches over links

  /** The pattern `marker(\d+)` matches at `i`: the marker, then at least one digit. */
  predicate NumberAt(s: string, marker: string, i: int) {
    OccursAt(s, marker, i) && i + |marker| < |s| && IsDigit(s[i + |marker|])
  }

  /** The digit run the pattern `marker(\d+)` captures: the digits after the
      first occurrence of `marker` that is followed by a digit. */
  function NumberAfter(s: string, marker: string): (r: Option<string>)
    ensures r.None? <==> forall i :: 0 <= i <= |s| ==> !NumberAt(s, marker, i)
    ensures r.Some? ==> r.value != [] && (forall k :: 0 <= k < |r.value| ==> IsDigit(r.value[k]))
    ensures r.Some? ==> exists i :: NumberAt(s, marker, i) && StartsWith(s[i + |marker|..], r.value)
  {
    var at: nat -> bool := j => NumberAt(s, marker, j);
    var i := FirstFrom(at, 0, |s| + 1);
    assert forall j: nat :: at(j) == NumberAt(s, marker, j);
    if i == -1 then
      assert forall j :: 0 <= j <= |s| ==> !NumberAt(s, marker, j) by {
        forall j | 0 <= j <= |s| ensures !NumberAt(s, marker, j) { assert !at(j); }
      }
      None
    else
      var t := s[i + |marker|..];
      var n := DigitRun(t);
      assert t[..n] == t[..n];
      Some(t[..n])
  }

  /** The number found is part of the searched text. */
  lemma NumberAfterOccurs(s: string, marker: string)
    requires NumberAfter(s, marker).Some?
    ensures Contains(s, NumberAfter(s, marker).value)
  {
    var id := NumberAfter(s, marker).value;
    var i :| NumberAt(s, marker, i) && StartsWith(s[i + |marker|..], id);
    StartsWithAt(s, i + |marker|, id);
  }

  /** A number found after `marker` stays found when text is put in front. */
  lemma NumberAtShift(s: string, marker: string, i: nat, p: string)
    requires NumberAt(s, marker, i)
    ensures NumberAt(p + s, marker, |p| + i)
  {
    assert (p + s)[|p| + i..|p| + i + |marker|] == s[i..i + |marker|];
    assert (p + s)[|p| + i + |marker|] == s[i + |marker|];
  }

  /** A link of a page: its stripped text and its `href`. */
  datatype Link = Link(text: string, href: string)

  /** A link matching `/gepris/projekt/\d+`, once joined with the host, always
      yields a project number under `projekt/(\d+)`: the `None` branch of the
      listing scrapers is never taken for the links they select. */
  lemma JoinedLinkHasNumber(href: string, i: nat)
    requires NumberAt(href, "/gepris/projekt/", i)
    ensures NumberAfter(JoinBase(href), "projekt/").Some?
  {
    assert href[i + 8..i + 16] == href[i..i + 16][8..];
    assert NumberAt(href, "projekt/", i + 8);
    var r := JoinBase(href);
    var p := r[..|r| - |href|];
    assert r == p + href;
    NumberAtShift(href, "projekt/", i + 8, p);
  }

  /** The pattern `href="([^"]+)"` matches at `i`. */
  predicate HrefAt(s: string, i: int) {
    OccursAt(s, "href=\"", i) && i + 6 < |s| && s[i + 6] != '"' && '"' in s[i + 6..]
  }

  /** The group the pattern `href="([^"]+)"` captures: the non-empty attribute
      value of the first complete `href="..."`. */
  function HrefAttr(s: string): (r: Option<string>)
    ensures r.None? <==> forall i :: 0 <= i <= |s| ==> !HrefAt(s, i)
    ensures r.Some? ==> r.value != [] && '"' !in r.value
    ensures r.Some? ==> exists i :: HrefAt(s, i) && StartsWith(s[i + 6..], r.value + "\"")
  {
    var at: nat -> bool := j => HrefAt(s, j);
    var i := FirstFrom(at, 0, |s| + 1);
    assert forall j: nat :: at(j) == HrefAt(s, j);
    if i == -1 then
      assert forall j :: 0 <= j <= |s| ==> !HrefAt(s, j) by {
        forall j | 0 <= j <= |s| ensures !HrefAt(s, j) { assert !at(j); }
      }
      None
    else
      var t := s[i + 6..];
      var e := IndexOf(t, "\"");
      assert e != -1 by {
        var k :| 0 <= k < |t| && t[k] == '"';
        assert OccursAt(t, "\"", k);
      }
      assert e > 0 by {
        assert t[0] != '"';
      }
      forall k | 0 <= k < e
        ensures t[k] != '"'
      {
        assert !OccursAt(t, "\"", k);
        assert t[k..k + 1] == [t[k]];
      }
      assert t[..e + 1] == t[..e] + "\"";
      Some(t[..e])
  }

  // ---------------------------------------------------------------------------
  // Page text

  const TitlePrefix: string := "DFG - GEPRIS - "

  /** The page title with every `DFG - GEPRIS - ` removed, then stripped. */
  function PageTitle(full: string): (r: string)
    ensures |r| <= |full|
    ensures !Contains(full, TitlePrefix) ==> r == Trim(full)
  {
    Trim(ReplaceAll(full, TitlePrefix, ""))
  }

  /** The usual `<title>`: the site prefix goes and the project title is left. */
  lemma PageTitleStripsPrefix(title: string)
    requires !Contains(title, TitlePrefix)
    ensures PageTitle(TitlePrefix + title) == Trim(title)
  {
    ReplaceAllLeading(TitlePrefix, title, "");
    assert "" + title == title;
  }

  /** One `<span class="name">` with the text of its parent element. */
  datatype NameSpan = NameSpan(name: string, parentText: string)

  /** The parent's text without the first occurrence of the label, then
      stripped. */
  function SpanValue(span: NameSpan): string {
    Trim(ReplaceFirst(span.parentText, span.name, ""))
  }

  /** A value is never longer than its parent's text; a parent text that opens
      with the label yields the trimmed rest, and one without the label is only
      trimmed. */
  lemma SpanValueShape(span: NameSpan)
    ensures |SpanValue(span)| <= |span.parentText|
    ensures StartsWith(span.parentText, span.name) ==> SpanValue(span) == Trim(span.parentText[|span.name|..])
    ensures !Contains(span.parentText, span.name) ==> SpanValue(span) == Trim(span.parentText)
  {
    var t := span.parentText;
    var l := span.name;
    if StartsWith(t, l) {
      assert OccursAt(t, l, 0);
      assert "" + t[|l|..] == t[|l|..];
    }
    var i := IndexOf(t, l);
    if i != -1 {
      assert |ReplaceFirst(t, l, "")| == |t| - |l|;
    }
  }

  /** The (key, value) pair each span contributes, in page order. */
  function SpanEntries(spans: seq<NameSpan>, key: string -> string): (r: seq<(string, string)>)
    ensures |r| == |spans|
    ensures forall j :: 0 <= j < |spans| ==> r[j].0 == key(spans[j].name) && r[j].1 == SpanValue(spans[j])
  {
    seq(|spans|, j requires 0 <= j < |spans| => (key(spans[j].name), SpanValue(spans[j])))
  }

  /** The label/value table of a detail page, `metadata[key(label)] = value` over
      the spans in page order. */
  function SpanMetadata(spans: seq<NameSpan>, key: string -> string): map<string, string> {
    LastWins(SpanEntries(spans, key))
  }

  /** The value stored under a key comes from the last span carrying that key,
      every span's key is present, and no other key is. */
  lemma SpanMetadataLastWins(spans: seq<NameSpan>, key: string -> string, j: nat)
    requires j < |spans|
    requires forall i :: j < i < |spans| ==> key(spans[i].name) != key(spans[j].name)
    ensures key(spans[j].name) in SpanMetadata(spans, key)
    ensures SpanMetadata(spans, key)[key(spans[j].name)] == SpanValue(spans[j])
  {
    LastWinsValue(SpanEntries(spans, key), j);
  }

  /** Every key of the table is the key of some span. */
  lemma SpanMetadataKeys(spans: seq<NameSpan>, key: string -> string, k: string)
    requires k in SpanMetadata(spans, key)
    ensures exists j :: 0 <= j < |spans| && key(spans[j].name) == k
  {
    LastWinsKeys(SpanEntries(spans, key), k);
  }

  /** `for german, english in table: if german in metadata: record[english] =
      metadata[german]`, in table order, so a later row with the same target wins. */
  function ApplyMapping(base: Record, metadata: map<string, string>, table: seq<(string, string)>): (r: Record)
    ensures base.Keys <= r.Keys
    decreases |table|
  {
    if table == [] then base
    else
      var n := |table| - 1;
      var prev := ApplyMapping(base, metadata, table[..n]);
      if table[n].0 in metadata then prev[table[n].1 := metadata[table[n].0]] else prev
  }

  /** The fields after the mapping: those of the base record and the targets of
      the rows whose label is present. */
  lemma {:induction false} ApplyMappingKeys(base: Record, metadata: map<string, string>, table: seq<(string, string)>, k: string)
    ensures k in ApplyMapping(base, metadata, table) <==>
      k in base || exists j :: 0 <= j < |table| && table[j].1 == k && table[j].0 in metadata
    decreases |table|
  {
    if table != [] {
      var n := |table| - 1;
      var init := table[..n];
      ApplyMappingKeys(base, metadata, init, k);
      assert forall j :: 0 <= j < n ==> init[j] == table[j];
    }
  }

  /** A field no table row targets is left as it was, present or not. */
  lemma {:induction false} ApplyMappingKeeps(base: Record, metadata: map<string, string>, table: seq<(string, string)>, k: string)
    requires forall j :: 0 <= j < |table| ==> table[j].1 != k
    ensures k in ApplyMapping(base, metadata, table) <==> k in base
    ensures k in base ==> ApplyMapping(base, metadata, table)[k] == base[k]
    decreases |table|
  {
    if table != [] {
      var n := |table| - 1;
      var init := table[..n];
      assert forall j :: 0 <= j < n ==> init[j] == table[j];
      ApplyMappingKeeps(base, metadata, init, k);
    }
  }

  /** The target field holds the value of the last table row that names it and
      whose label is present. */
  lemma {:induction false} ApplyMappingLastWins(base: Record, metadata: map<string, string>,
                                                 table: seq<(string, string)>, j: nat)
    requires j < |table| && table[j].0 in metadata
    requires forall i :: j < i < |table| && table[i].1 == table[j].1 ==> table[i].0 !in metadata
    ensures table[j].1 in ApplyMapping(base, metadata, table)
    ensures ApplyMapping(base, metadata, table)[table[j].1] == metadata[table[j].0]
    decreases |table|
  {
    var n := |table| - 1;
    if j < n {
      var init := table[..n];
      assert forall i :: j < i < n ==> init[i] == table[i];
      ApplyMappingLastWins(base, metadata, init, j);
    }
  }
}

=== FILE: indexed_resume.dfy ===
/**
 The resume logic shared by the three project scrapers that keep an index
 checkpoint: a list of completed programme numbers and the index of the last
 programme processed.

 A run starts at the index after the checkpoint's, skips programmes whose
 number is already completed, and after each processed programme appends its
 number and records its index. Whether the programme's scrape found anything
 does not matter to the checkpoint.
 */
module IndexedResume {
  import opened Strings
  import opened Records
  import opened Sorting

  datatype IndexCheckpoint = IndexCheckpoint(completed: seq<string>, lastIndex: int)

  /** What a missing checkpoint file loads as. */
  const FreshCheckpoint: IndexCheckpoint := IndexCheckpoint([], -1)

  /** The programme's number, or `SPP_i` for the programme at index `i` (from
      0) when it has none. */
  function ResumeNumber(spp: Record, i: nat): string {
    Get(spp, "spp_number", "SPP_" + NatToString(i))
  }

  /** The numbers of the processed programmes, in processing order. */
  function NumbersOf(programs: seq<Record>, done: seq<nat>): (r: seq<string>)
    requires forall k :: 0 <= k < |done| ==> done[k] < |programs|
    ensures |r| == |done|
    ensures forall k :: 0 <= k < |done| ==> r[k] == ResumeNumber(programs[done[k]], done[k])
  {
    seq(|done|, k requires 0 <= k < |done| => ResumeNumber(programs[done[k]], done[k]))
  }

  /** What the loop over the first `n` programmes leaves, given the
      checkpoint `cp` it started from: the processed indices increase, lie in
      `[start, n)`, their numbers are appended to the completed list in order,
      and the last of them is the recorded index. */
  predicate RunOutcome(start: int, cp: IndexCheckpoint, programs: seq<Record>, n: nat, r: (IndexCheckpoint, seq<nat>))
    requires n <= |programs|
  {
    && Increasing(r.1)
    && (forall k :: 0 <= k < |r.1| ==> start <= r.1[k] < n)
    && r.0.completed == cp.completed + NumbersOf(programs, r.1)
    && (r.1 == [] ==> r.0.lastIndex == cp.lastIndex)
    && (r.1 != [] ==> r.0.lastIndex == r.1[|r.1| - 1])
  }

  /** The loop over the first `n` programmes, starting at index `start`: the
      checkpoint it leaves and the indices it processed. */
  function RunUpTo(start: int, cp: IndexCheckpoint, programs: seq<Record>, n: nat): (r: (IndexCheckpoint, seq<nat>))
    requires n <= |programs|
    ensures RunOutcome(start, cp, programs, n, r)
    decreases n
  {
    if n == 0 then (cp, [])
    else
      var prev := RunUpTo(start, cp, programs, n - 1);
      var i := n - 1;
      var number := ResumeNumber(programs[i], i);
      if i < start || number in prev.0.completed then
        OutcomeSkip(start, cp, programs, n, prev);
        prev
      else
        OutcomeAppend(start, cp, programs, n, prev);
        (IndexCheckpoint(prev.0.completed + [number], i), prev.1 + [i])
  }

  /** A step that skips programme `n - 1` keeps the outcome. */
  lemma OutcomeSkip(start: int, cp: IndexCheckpoint, programs: seq<Record>, n: nat, prev: (IndexCheckpoint, seq<nat>))
    requires 0 < n <= |programs| && RunOutcome(start, cp, programs, n - 1, prev)
    ensures RunOutcome(start, cp, programs, n, prev)
  {
  }

  /** A step that processes programme `n - 1` appends its index and number. */
  lemma OutcomeAppend(start: int, cp: IndexCheckpoint, programs: seq<Record>, n: nat, prev: (IndexCheckpoint, seq<nat>))
    requires 0 < n <= |programs| && start <= n - 1 && RunOutcome(start, cp, programs, n - 1, prev)
    ensures RunOutcome(start, cp, programs, n,
      (IndexCheckpoint(prev.0.completed + [ResumeNumber(programs[n - 1], n - 1)], n - 1), prev.1 + [n - 1]))
  {
    NumbersOfSnoc(programs, prev.1, n - 1);
    IncreasingSnoc(prev.1, n - 1, start, n);
  }

  /** Appending an index above all others keeps the list increasing and in range. */
  lemma IncreasingSnoc(xs: seq<nat>, x: nat, lo: int, hi: int)
    requires Increasing(xs) && lo <= x < hi
    requires forall k :: 0 <= k < |xs| ==> lo <= xs[k] < x
    ensures Increasing(xs + [x])
    ensures forall k :: 0 <= k < |xs + [x]| ==> lo <= (xs + [x])[k] < hi
    ensures (xs + [x])[|xs|] == x
  {
    var ys := xs + [x];
    assert forall k :: 0 <= k < |xs| ==> ys[k] == xs[k];
  }

  lemma NumbersOfSnoc(programs: seq<Record>, done: seq<nat>, i: nat)
    requires forall k :: 0 <= k < |done| ==> done[k] < |programs|
    requires i < |programs|
    ensures NumbersOf(programs, done + [i]) == NumbersOf(programs, done) + [ResumeNumber(programs[i], i)]
  {
    var ext := done + [i];
    assert forall k :: 0 <= k < |done| ==> ext[k] == done[k];
  }

  /** One step of the loop: index `n - 1` is added exactly when it is at or
      after the start and its number is not completed yet. */
  lemma RunUpToStep(start: int, cp: IndexCheckpoint, programs: seq<Record>, n: nat)
    requires 0 < n <= |programs|
    ensures var prev := RunUpTo(start, cp, programs, n - 1);
      RunUpTo(start, cp, programs, n).1 ==
        if n - 1 < start || ResumeNumber(programs[n - 1], n - 1) in prev.0.completed then prev.1 else prev.1 + [n - 1]
    ensures n - 1 !in RunUpTo(start, cp, programs, n - 1).1
  {
  }

  /** `main`'s loop: it starts after the checkpoint's index. */
  function Resume(cp: IndexCheckpoint, programs: seq<Record>): (r: (IndexCheckpoint, seq<nat>))
    ensures forall k :: 0 <= k < |r.1| ==> cp.lastIndex < r.1[k] < |programs|
    ensures Increasing(r.1)
    ensures r.0.lastIndex >= cp.lastIndex
    ensures |r.0.completed| == |cp.completed| + |r.1|
  {
    RunUpTo(cp.lastIndex + 1, cp, programs, |programs|)
  }

  /** Exactly the right programmes are processed: index `i` is processed iff
      it is at or after the start and its number was not completed when the
      loop reached it. */
  lemma {:induction false} RunUpToSkipsExactly(start: int, cp: IndexCheckpoint, programs: seq<Record>, n: nat, i: nat)
    requires n <= |programs| && i < n
    ensures i in RunUpTo(start, cp, programs, n).1 <==>
      start <= i && ResumeNumber(programs[i], i) !in RunUpTo(start, cp, programs, i).0.completed
    decreases n
  {
    RunUpToStep(start, cp, programs, n);
    var prev := RunUpTo(start, cp, programs, n - 1);
    var skip := n - 1 < start || ResumeNumber(programs[n - 1], n - 1) in prev.0.completed;
    InSnoc(prev.1, RunUpTo(start, cp, programs, n).1, n - 1, skip, i);
    if i < n - 1 {
      RunUpToSkipsExactly(start, cp, programs, n - 1, i);
    } else {
      assert i == n - 1;
    }
  }

  /** Membership after a step that may append `x`, which was not there. */
  lemma InSnoc(prev: seq<nat>, cur: seq<nat>, x: nat, skip: bool, i: nat)
    requires cur == if skip then prev else prev + [x]
    requires x !in prev
    ensures i != x ==> (i in cur <==> i in prev)
    ensures i == x ==> (i in cur <==> !skip)
  {
    if !skip {
      assert cur[|prev|] == x;
    }
  }

  predicate Distinct(xs: seq<string>) {
    forall a, b :: 0 <= a < b < |xs| ==> xs[a] != xs[b]
  }

  lemma DistinctAppend(xs: seq<string>, x: string)
    requires Distinct(xs) && x !in xs
    ensures Distinct(xs + [x])
  {
    var ys := xs + [x];
    forall a, b | 0 <= a < b < |ys| ensures ys[a] != ys[b] {
      assert ys[a] == xs[a];
      if b < |xs| {
        assert ys[b] == xs[b];
      }
    }
  }

  /** The completed list never holds a number twice when it did not before. */
  lemma {:induction false} RunUpToDistinct(start: int, cp: IndexCheckpoint, programs: seq<Record>, n: nat)
    requires n <= |programs| && Distinct(cp.completed)
    ensures Distinct(RunUpTo(start, cp, programs, n).0.completed)
    decreases n
  {
    if n > 0 {
      RunUpToDistinct(start, cp, programs, n - 1);
      var prev := RunUpTo(start, cp, programs, n - 1).0.completed;
      var number := ResumeNumber(programs[n - 1], n - 1);
      if RunUpTo(start, cp, programs, n).0.completed != prev {
        DistinctAppend(prev, number);
      }
    }
  }

  /** Processing continues where the checkpoint left off: what an earlier run
      completed is kept as a prefix of the new completed list. */
  lemma ResumeKeepsCompleted(cp: IndexCheckpoint, programs: seq<Record>)
    ensures Resume(cp, programs).0.completed[..|cp.completed|] == cp.completed
  {
  }

  /** The numbers appended to the completed list are those of the processed
      programmes, in processing order. */
  lemma ResumeNumbers(cp: IndexCheckpoint, programs: seq<Record>)
    ensures var r := Resume(cp, programs);
      forall k :: 0 <= k < |r.1| ==> r.0.completed[|cp.completed| + k] == ResumeNumber(programs[r.1[k]], r.1[k])
  {
    var r := Resume(cp, programs);
    assert RunOutcome(cp.lastIndex + 1, cp, programs, |programs|, r);
  }

  /** A fresh run processes every programme whose number has not occurred
      before it in the list. */
  lemma FreshRunProcesses(programs: seq<Record>, i: nat)
    requires i < |programs|
    requires forall j :: 0 <= j < i ==> ResumeNumber(programs[j], j) != ResumeNumber(programs[i], i)
    ensures i in Resume(FreshCheckpoint, programs).1
  {
    var pre := RunUpTo(0, FreshCheckpoint, programs, i);
    RunUpToSkipsExactly(0, FreshCheckpoint, programs, |programs|, i);
  }

  /** A programme before the start is never processed again, whatever its
      number. */
  lemma ResumeSkipsBeforeStart(cp: IndexCheckpoint, programs: seq<Record>, i: nat)
    requires i < |programs| && i <= cp.lastIndex
    ensures i !in Resume(cp, programs).1
  {
  }
}

=== FILE: institutions.dfy ===
/**
 The institutional analysis: institutions are read from the parentheses in
 the investigator strings of each programme's projects and counted.
 */
module Institutions {
  import opened Strings
  import opened Records
  import opened Sorting

  // ---------------------------------------------------------------------------
  // Institutions in one investigator string

  /** The institution in one `;`-part: the stripped text between its first `(`
      and its first `)` (empty when `)` comes first), kept when it is longer
      than two characters. */
  function ParenInstitution(part: string): Option<string> {
    if Contains(part, "(") && Contains(part, ")") then
      var institution := Trim(Inner(part));
      if institution != [] && |institution| > 2 then Some(institution) else None
    else None
  }

  /** The text between the first `(` and the first `)`, as Python slices it. */
  function Inner(part: string): (r: string)
    requires Contains(part, "(") && Contains(part, ")")
    ensures ')' !in r
    ensures forall k :: 0 <= k < |r| ==> r[k] in part
  {
    var start := IndexOf(part, "(");
    var end := IndexOf(part, ")");
    var inner := if start + 1 <= end then part[start + 1..end] else [];
    assert forall k :: 0 <= k < |inner| ==> inner[k] != ')' by {
      forall k | 0 <= k < |inner| ensures inner[k] != ')' {
        assert !OccursAt(part, ")", start + 1 + k);
      }
    }
    inner
  }

  /** A found institution is longer than two characters, stripped, free of
      `)`, and the part's first `(` comes before its first `)`. */
  lemma ParenInstitutionShape(part: string)
    requires ParenInstitution(part).Some?
    ensures var r := ParenInstitution(part).value;
      && |r| > 2 && ')' !in r && Trim(r) == r
      && Contains(part, "(") && Contains(part, ")") && IndexOf(part, "(") < IndexOf(part, ")")
  {
    assert Contains(part, "(") && Contains(part, ")");
    var inner := Inner(part);
    assert ParenInstitution(part) == Some(Trim(inner));
    TrimKeepsOut(inner, ')');
    TrimIdempotent(inner);
  }

  /** A found institution is made of the part's characters. */
  lemma ParenInstitutionChars(part: string)
    requires ParenInstitution(part).Some?
    ensures forall k :: 0 <= k < |ParenInstitution(part).value| ==> ParenInstitution(part).value[k] in part
  {
    assert Contains(part, "(") && Contains(part, ")");
    var inner := Inner(part);
    assert ParenInstitution(part) == Some(Trim(inner));
    TrimChars(inner, part);
  }

  /** Trimming keeps only characters of the text. */
  lemma TrimChars(s: string, outer: string)
    requires forall k :: 0 <= k < |s| ==> s[k] in outer
    ensures forall k :: 0 <= k < |Trim(s)| ==> Trim(s)[k] in outer
  {
    var r := Trim(s);
    forall k | 0 <= k < |r| ensures r[k] in outer {
      assert r[k] == s[SpaceRun(s) + k];
    }
  }

  /** A part whose first `)` comes before any `(` gives nothing: the slice
      between them is empty. */
  lemma ClosedBeforeOpen(part: string, j: nat)
    requires j < |part| && part[j] == ')'
    requires forall k :: 0 <= k < j ==> part[k] != '('
    ensures ParenInstitution(part).None?
  {
    assert OccursAt(part, ")", j) by { assert part[j..j + 1] == [part[j]]; }
    var s := IndexOf(part, "(");
    if s != -1 {
      assert part[s..s + 1] == "(";
      assert part[s] == '(';
    }
  }

  /** `extract_institution_from_investigators`: the institutions of the
      `;`-parts, in order; nothing for an empty string. */
  function ExtractInstitutions(investigators: string): (r: seq<string>)
    ensures investigators == [] ==> r == []
    ensures |r| <= 1 + CountIn(investigators, {';'})
    ensures forall i :: 0 <= i < |r| ==> |r[i]| > 2 && ')' !in r[i]
    ensures forall i :: 0 <= i < |r| ==> exists part :: part in SplitAny(investigators, {';'}) && ParenInstitution(part) == Some(r[i])
  {
    if investigators == [] then []
    else
      var parts := SplitAny(investigators, {';'});
      var r := FilterMap(parts, ParenInstitution);
      forall i | 0 <= i < |r|
        ensures |r[i]| > 2 && ')' !in r[i]
        ensures exists part :: part in parts && ParenInstitution(part) == Some(r[i])
      {
        var j :| 0 <= j < |parts| && ParenInstitution(parts[j]) == Some(r[i]);
        ParenInstitutionShape(parts[j]);
        assert parts[j] in parts;
      }
      r
  }

  /** The parts are read in order, each contributing its institution once: a
      `;`-free first part gives its own institution (if any) ahead of those of
      the rest of the string. */
  lemma ExtractInstitutionsStep(part: string, rest: string)
    requires NoneOf(part, {';'})
    ensures ExtractInstitutions(part + [';'] + rest) == OptionSeq(ParenInstitution(part)) + ExtractInstitutions(rest)
  {
    SplitAnyAfter(part, ';', rest, {';'});
    FilterMapAppend([part], SplitAny(rest, {';'}), ParenInstitution);
    ExtractAll(rest);
  }

  /** A string without `;` is one part. */
  lemma ExtractInstitutionsOnePart(part: string)
    requires NoneOf(part, {';'})
    ensures ExtractInstitutions(part) == OptionSeq(ParenInstitution(part))
  {
    SplitAnyNone(part, {';'});
    FilterMapAppend([part], [], ParenInstitution);
    assert [part] + [] == [part];
    ExtractAll(part);
  }

  /** The empty string is one empty part, which holds no institution. */
  lemma ExtractAll(s: string)
    ensures ExtractInstitutions(s) == FilterMap(SplitAny(s, {';'}), ParenInstitution)
  {
    if s == [] {
      var none: string := [];
      assert SplitAny(s, {';'}) == [none];
      assert ParenInstitution(none).None?;
      FilterMapAppend([none], [], ParenInstitution);
      assert [none] + [] == [none];
    }
  }

  /** Every part with an institution contributes it. */
  lemma ExtractInstitutionsComplete(investigators: string, part: string)
    requires investigators != [] && part in SplitAny(investigators, {';'}) && ParenInstitution(part).Some?
    ensures ParenInstitution(part).value in ExtractInstitutions(investigators)
  {
  }

  // ---------------------------------------------------------------------------
  // Institutions of a programme

  /** The institutions named in one comma- or semicolon-separated name:
      names of at most five characters (after stripping) are not examined. */
  function NameInstitutions(name: string): (r: seq<string>)
    ensures |Trim(name)| <= 5 ==> r == []
    ensures |Trim(name)| > 5 ==> r == ExtractInstitutions(Trim(name))
  {
    var t := Trim(name);
    if t != [] && |t| > 5 then ExtractInstitutions(t) else []
  }

  /** A name holds no `;`, so it yields at most its one parenthesised
      institution. */
  lemma NameInstitutionsAtMostOne(name: string)
    requires ';' !in name
    ensures |Trim(name)| > 5 && ParenInstitution(Trim(name)).Some? ==>
      NameInstitutions(name) == [ParenInstitution(Trim(name)).value]
    ensures !(|Trim(name)| > 5 && ParenInstitution(Trim(name)).Some?) ==> NameInstitutions(name) == []
  {
    var t := Trim(name);
    assert ';' !in t by { TrimKeepsOut(name, ';'); }
    if |t| > 5 {
      NoSeparatorOnePart(t, ';');
      assert SplitAny(t, {';'}) == [t];
    }
  }

  /** A name cut out at the separators yields at most one institution, and it
      holds no separator. */
  lemma NameInstitutionsClean(name: string)
    requires ';' !in name && ',' !in name
    ensures |NameInstitutions(name)| <= 1
    ensures forall i :: 0 <= i < |NameInstitutions(name)| ==> CleanInstitution(NameInstitutions(name)[i])
  {
    NameInstitutionsAtMostOne(name);
    var t := Trim(name);
    if |t| > 5 && ParenInstitution(t).Some? {
      ParenInstitutionClean(name);
      OneClean(NameInstitutions(name), ParenInstitution(t).value);
    }
  }

  lemma OneClean(found: seq<string>, r: string)
    requires found == [r] && CleanInstitution(r)
    ensures forall i :: 0 <= i < |found| ==> CleanInstitution(found[i])
  {
  }

  /** The parenthesised institution of a name without separators is clean. */
  lemma ParenInstitutionClean(name: string)
    requires ';' !in name && ',' !in name
    requires ParenInstitution(Trim(name)).Some?
    ensures CleanInstitution(ParenInstitution(Trim(name)).value)
  {
    var t := Trim(name);
    var r := ParenInstitution(t).value;
    ParenInstitutionShape(t);
    ParenInstitutionChars(t);
    TrimKeepsOut(name, ';');
    TrimKeepsOut(name, ',');
    forall k | 0 <= k < |r| ensures r[k] != ',' && r[k] != ';' {
      assert r[k] in t;
    }
  }

  lemma {:induction false} NoSeparatorOnePart(s: string, c: char)
    requires c !in s
    ensures SplitAny(s, {c}) == [s]
    decreases |s|
  {
    if s != [] {
      NoSeparatorOnePart(s[1..], c);
      assert s[0] !in {c};
      assert [s[0]] + s[1..] == s;
    }
  }

  /** The institutions of every name of one investigators string, in order. */
  function InvestigatorInstitutions(names: seq<string>): seq<string> {
    if names == [] then []
    else NameInstitutions(names[0]) + InvestigatorInstitutions(names[1..])
  }

  /** Names cut out at the separators give at most one institution each, each
      longer than two characters and free of `)`, `,` and `;`. */
  lemma {:induction false} InvestigatorInstitutionsClean(names: seq<string>)
    requires forall n :: n in names ==> ';' !in n && ',' !in n
    ensures |InvestigatorInstitutions(names)| <= |names|
    ensures forall i :: 0 <= i < |InvestigatorInstitutions(names)| ==> CleanInstitution(InvestigatorInstitutions(names)[i])
    decreases |names|
  {
    if names != [] {
      NameInstitutionsClean(names[0]);
      assert forall n :: n in names[1..] ==> n in names;
      InvestigatorInstitutionsClean(names[1..]);
      CleanAppend(NameInstitutions(names[0]), InvestigatorInstitutions(names[1..]));
    }
  }

  /** An institution as the investigator field yields it: longer than two
      characters and free of `)`, `,` and `;`. */
  predicate CleanInstitution(s: string) {
    |s| > 2 && ')' !in s && ',' !in s && ';' !in s
  }

  lemma CleanAppend(a: seq<string>, b: seq<string>)
    requires forall i :: 0 <= i < |a| ==> CleanInstitution(a[i])
    requires forall i :: 0 <= i < |b| ==> CleanInstitution(b[i])
    ensures forall i :: 0 <= i < |a + b| ==> CleanInstitution((a + b)[i])
  {
    forall i | 0 <= i < |a + b| ensures CleanInstitution((a + b)[i]) {
      if i >= |a| {
        assert (a + b)[i] == b[i - |a|];
      }
    }
  }

  /** The names are read in order, each contributing its own institutions: a
      list split in two gives the two parts' institutions concatenated, and a
      single name gives its own. */
  lemma InvestigatorInstitutionsAppend(a: seq<string>, b: seq<string>)
    ensures InvestigatorInstitutions(a + b) == InvestigatorInstitutions(a) + InvestigatorInstitutions(b)
    ensures |a| == 1 ==> InvestigatorInstitutions(a) == NameInstitutions(a[0])
  {
    forall xs: seq<string> | xs != []
      ensures InvestigatorInstitutions(xs) == NameInstitutions(xs[0]) + InvestigatorInstitutions(xs[1..])
    {
    }
    ElementwiseAppend(InvestigatorInstitutions, NameInstitutions, a, b);
    if |a| == 1 {
      assert a[1..] == [];
    }
  }

  /** The institutions found in an investigators field: the field is cut at
      every `;` and `,` first, so an institution written with a comma inside
      its parentheses is never found. */
  function FieldInstitutions(investigators: string): (r: seq<string>)
    ensures |r| <= 1 + CountIn(investigators, {';', ','})
    ensures forall i :: 0 <= i < |r| ==> |r[i]| > 2 && ',' !in r[i] && ';' !in r[i] && ')' !in r[i]
  {
    if investigators == [] then []
    else
      var names := SplitAny(investigators, {';', ','});
      SeparatedNames(names);
      InvestigatorInstitutionsClean(names);
      InvestigatorInstitutions(names)
  }

  /** The pieces of a split hold no separator. */
  lemma SeparatedNames(names: seq<string>)
    requires forall k :: 0 <= k < |names| ==> NoneOf(names[k], {';', ','})
    ensures forall n :: n in names ==> ';' !in n && ',' !in n
  {
    forall n | n in names ensures ';' !in n && ',' !in n {
      var k :| 0 <= k < |names| && names[k] == n;
      assert NoneOf(names[k], {';', ','});
    }
  }

  /** The names of a field are read in order: a field that starts with a
      separator-free name and a `;` or `,` yields that name's institutions
      ahead of those of the rest of the field. */
  lemma FieldInstitutionsStep(name: string, c: char, rest: string)
    requires c == ';' || c == ','
    requires NoneOf(name, {';', ','})
    ensures FieldInstitutions(name + [c] + rest) == NameInstitutions(name) + FieldInstitutions(rest)
  {
    var seps := {';', ','};
    SplitAnyAfter(name, c, rest, seps);
    var tail := SplitAny(rest, seps);
    InvestigatorInstitutionsAppend([name], tail);
    if rest == [] {
      var none: string := [];
      assert tail == [none];
      assert NameInstitutions(none) == [] by { assert Trim(none) == []; }
      InvestigatorInstitutionsAppend([none], []);
      assert [none] + [] == [none];
    }
  }

  /** The institutions found in one project's investigators field. */
  function ProjectInstitutions(project: Record): (r: seq<string>)
    ensures |r| <= 1 + CountIn(Get(project, "investigators", ""), {';', ','})
    ensures forall i :: 0 <= i < |r| ==> |r[i]| > 2 && ',' !in r[i] && ';' !in r[i] && ')' !in r[i]
  {
    FieldInstitutions(Get(project, "investigators", ""))
  }

  /** The institutions of all projects, in project order, repeated once per
      mention. */
  function AllInstitutions(projects: seq<Record>): (r: seq<string>)
    ensures forall i :: 0 <= i < |r| ==> |r[i]| > 2 && ')' !in r[i]
    decreases |projects|
  {
    if projects == [] then []
    else ProjectInstitutions(projects[0]) + AllInstitutions(projects[1..])
  }

  /** Every project contributes its own institutions, in project order: a list
      of projects split in two gives the two parts' institutions concatenated,
      and a single project gives its own. So an institution is counted once
      for every mention in every project. */
  lemma AllInstitutionsAppend(a: seq<Record>, b: seq<Record>)
    ensures AllInstitutions(a + b) == AllInstitutions(a) + AllInstitutions(b)
    ensures |a| == 1 ==> AllInstitutions(a) == ProjectInstitutions(a[0])
  {
    forall xs: seq<Record> | xs != []
      ensures AllInstitutions(xs) == ProjectInstitutions(xs[0]) + AllInstitutions(xs[1..])
    {
    }
    ElementwiseAppend(AllInstitutions, ProjectInstitutions, a, b);
    if |a| == 1 {
      assert a[1..] == [];
    }
  }

  // ---------------------------------------------------------------------------
  // Counting

  /** How often `x` was found. */
  function Count(xs: seq<string>, x: string): nat {
    multiset(xs)[x]
  }

  /** The distinct institutions in order of first mention (a `Counter`'s key
      order). */
  function FirstMentions(xs: seq<string>): (r: seq<string>)
    ensures forall i, j :: 0 <= i < j < |r| ==> r[i] != r[j]
    ensures forall x :: x in r <==> x in xs
    ensures FirstOfEachKey(xs, Itself, r)
  {
    var r := UniqueBy(xs, Itself);
    assert forall x :: x in xs ==> x in r by {
      forall x | x in xs ensures x in r {
        var i :| 0 <= i < |xs| && xs[i] == x;
        assert Itself(xs[i]) in KeysOf(r, Itself);
      }
    }
    r
  }

  /** Each distinct institution with its count, in first-mention order. */
  function Tally(xs: seq<string>): (r: seq<(string, nat)>)
    ensures |r| == |FirstMentions(xs)|
    ensures forall i :: 0 <= i < |r| ==> r[i] == (FirstMentions(xs)[i], Count(xs, FirstMentions(xs)[i]))
  {
    var names := FirstMentions(xs);
    seq(|names|, i requires 0 <= i < |names| => (names[i], Count(xs, names[i])))
  }

  function ByCount(e: (string, nat)): real {
    e.1 as real
  }

  /** A sequence without repeats counts each element once. */
  lemma {:induction false} DistinctOnce<T>(xs: seq<T>, x: T)
    requires forall i, j :: 0 <= i < j < |xs| ==> xs[i] != xs[j]
    ensures multiset(xs)[x] <= 1
    decreases |xs|
  {
    if xs != [] {
      var init := xs[..|xs| - 1];
      assert xs == init + [xs[|xs| - 1]];
      DistinctOnce(init, x);
      if x == xs[|xs| - 1] {
        assert x !in init by {
          forall k | 0 <= k < |init| ensures init[k] != x { assert init[k] == xs[k]; }
        }
      }
    }
  }

  /** An element at two positions is counted at least twice. */
  lemma TwiceCounted<T>(xs: seq<T>, i: nat, j: nat)
    requires i < j < |xs| && xs[i] == xs[j]
    ensures multiset(xs)[xs[i]] >= 2
  {
    assert xs == xs[..j] + [xs[j]] + xs[j + 1..];
    assert xs[i] in xs[..j];
  }

  /** A permutation of a sequence without repeats has none either. */
  lemma PermutationDistinct<T>(xs: seq<T>, ys: seq<T>)
    requires forall i, j :: 0 <= i < j < |xs| ==> xs[i] != xs[j]
    requires multiset(ys) == multiset(xs)
    ensures forall i, j :: 0 <= i < j < |ys| ==> ys[i] != ys[j]
  {
    forall i, j | 0 <= i < j < |ys| ensures ys[i] != ys[j] {
      if ys[i] == ys[j] {
        TwiceCounted(ys, i, j);
        DistinctOnce(xs, ys[i]);
      }
    }
  }

  /** The tally sorted by count, most frequent first, ties in first-mention
      order: every institution appears once with its true count. */
  function Ranked(xs: seq<string>): (r: seq<(string, nat)>)
    ensures SortedDesc(r, ByCount)
    ensures |r| == |FirstMentions(xs)|
    ensures forall i :: 0 <= i < |r| ==> r[i].0 in xs && r[i].1 == Count(xs, r[i].0)
    ensures forall i, j :: 0 <= i < j < |r| ==> r[i].0 != r[j].0
    ensures forall x :: x in xs ==> exists k :: 0 <= k < |r| && r[k].0 == x
  {
    var t := Tally(xs);
    var r := SortDesc(t, ByCount);
    forall i | 0 <= i < |r| ensures r[i].0 in xs && r[i].1 == Count(xs, r[i].0) {
      assert r[i] in multiset(t);
    }
    PermutationDistinct(t, r);
    forall x | x in xs ensures exists k :: 0 <= k < |r| && r[k].0 == x {
      var d :| 0 <= d < |FirstMentions(xs)| && FirstMentions(xs)[d] == x;
      assert t[d] in multiset(r);
    }
    r
  }

  /** A prefix of the ranking keeps its entries, its order and its lack of
      repeats. */
  lemma RankedPrefix(xs: seq<string>, ranked: seq<(string, nat)>, m: nat)
    requires m <= |ranked|
    requires forall i :: 0 <= i < |ranked| ==> ranked[i].0 in xs && ranked[i].1 == Count(xs, ranked[i].0)
    requires SortedDesc(ranked, ByCount)
    requires forall i, j :: 0 <= i < j < |ranked| ==> ranked[i].0 != ranked[j].0
    ensures forall i :: 0 <= i < m ==> ranked[..m][i].0 in xs && ranked[..m][i].1 == Count(xs, ranked[..m][i].0)
    ensures forall i, j :: 0 <= i < j < m ==> ranked[..m][i].1 >= ranked[..m][j].1
    ensures forall i, j :: 0 <= i < j < m ==> ranked[..m][i].0 != ranked[..m][j].0
  {
    forall i, j | 0 <= i < j < m ensures ranked[..m][i].1 >= ranked[..m][j].1 {
      assert ByCount(ranked[i]) >= ByCount(ranked[j]);
    }
  }

  /** The `n` most frequent institutions, most
      frequent first, each with its true count and none twice. */
  function MostCommon(xs: seq<string>, n: nat): (r: seq<(string, nat)>)
    ensures |r| == if n < |FirstMentions(xs)| then n else |FirstMentions(xs)|
    ensures forall i :: 0 <= i < |r| ==> r[i].0 in xs && r[i].1 == Count(xs, r[i].0)
    ensures forall i, j :: 0 <= i < j < |r| ==> r[i].1 >= r[j].1
    ensures forall i, j :: 0 <= i < j < |r| ==> r[i].0 != r[j].0
  {
    var ranked := Ranked(xs);
    var m := if n < |ranked| then n else |ranked|;
    RankedPrefix(xs, ranked, m);
    ranked[..m]
  }

  /** Every institution left out of the top list is no more frequent than the
      last one kept, and one is left out only when the list is full. */
  lemma MostCommonLeftOut(xs: seq<string>, n: nat, x: string)
    requires n > 0
    requires x in xs && forall i :: 0 <= i < |MostCommon(xs, n)| ==> MostCommon(xs, n)[i].0 != x
    ensures |MostCommon(xs, n)| == n
    ensures MostCommon(xs, n)[n - 1].1 >= Count(xs, x)
  {
    var ranked := Ranked(xs);
    var r := MostCommon(xs, n);
    assert r == ranked[..|r|];
    var k :| 0 <= k < |ranked| && ranked[k].0 == x;
    forall i | 0 <= i < |r| ensures ranked[i].0 != x {
      assert r[i] == ranked[i];
    }
    assert k >= |r|;
    assert |r| == n;
    assert ByCount(ranked[n - 1]) >= ByCount(ranked[k]);
  }

  // ---------------------------------------------------------------------------
  // The per-programme analysis

  /** One programme's project file: its fields and its projects. */
  datatype ProjectFile = ProjectFile(fields: Record, projects: seq<Record>)

  /** The summary written for one programme. */
  datatype Analysis = Analysis(
    sppNumber: string,
    sppTitle: string,
    numProjects: nat,
    numInstitutions: nat,
    top: seq<(string, nat)>,
    all: seq<string>)

  /** The analysis of one programme: its institutions counted, the ten most
      frequent, and all of them sorted without repeats. */
  function Analyze(file: ProjectFile): (a: Analysis)
    ensures a.numProjects == |file.projects|
    ensures a.sppNumber == Get(file.fields, "spp_number", "Unknown") && a.sppTitle == Get(file.fields, "spp_title", "Unknown")
    ensures StrictlyAscending(a.all)
    ensures forall x :: x in a.all <==> x in AllInstitutions(file.projects)
    ensures a.top == MostCommon(AllInstitutions(file.projects), 10)
    ensures a.numInstitutions == |set x | x in AllInstitutions(file.projects)|
  {
    var found := AllInstitutions(file.projects);
    Analysis(
      Get(file.fields, "spp_number", "Unknown"),
      Get(file.fields, "spp_title", "Unknown"),
      |file.projects|,
      |set x | x in found|,
      MostCommon(found, 10),
      SortedSet(found))
  }

  /** The counts agree: the number of institutions is the length of the sorted
      list, and the top list holds ten of them, or all when there are fewer. */
  lemma AnalyzeConsistent(file: ProjectFile)
    ensures Analyze(file).numInstitutions == |Analyze(file).all|
    ensures |Analyze(file).top| == if Analyze(file).numInstitutions < 10 then Analyze(file).numInstitutions else 10
    ensures forall i :: 0 <= i < |Analyze(file).top| ==> Analyze(file).top[i].0 in Analyze(file).all
  {
    var found := AllInstitutions(file.projects);
    SummaryConsistent(found, Analyze(file));
  }

  lemma SummaryConsistent(found: seq<string>, a: Analysis)
    requires a.numInstitutions == |set x | x in found| && a.top == MostCommon(found, 10)
    requires a.all == SortedSet(found)
    ensures a.numInstitutions == |a.all|
    ensures |a.top| == if a.numInstitutions < 10 then a.numInstitutions else 10
    ensures forall i :: 0 <= i < |a.top| ==> a.top[i].0 in a.all
  {
    SortedSetCount(found);
    TopSize(found);
  }

  /** The sorted list has one entry per distinct institution. */
  lemma SortedSetCount(found: seq<string>)
    ensures |set x | x in found| == |SortedSet(found)|
  {
    var all := SortedSet(found);
    AscendingDistinct(all);
    DistinctCount(all);
    assert (set x | x in all) == (set x | x in found);
  }

  /** The top list is as long as the sorted list, up to ten. */
  lemma TopSize(found: seq<string>)
    ensures |MostCommon(found, 10)| == if |SortedSet(found)| < 10 then |SortedSet(found)| else 10
  {
    AscendingDistinct(SortedSet(found));
    SameElementsSameLength(SortedSet(found), FirstMentions(found));
  }

  /** Two duplicate-free sequences with the same elements have the same
      length. */
  lemma SameElementsSameLength<T>(xs: seq<T>, ys: seq<T>)
    requires forall i, j :: 0 <= i < j < |xs| ==> xs[i] != xs[j]
    requires forall i, j :: 0 <= i < j < |ys| ==> ys[i] != ys[j]
    requires forall x :: x in xs <==> x in ys
    ensures |xs| == |ys|
  {
    DistinctCount(xs);
    DistinctCount(ys);
    assert (set x | x in xs) == (set x | x in ys);
  }

  /** `analyze_spp_institutions`: one analysis per project file, in file order. */
  function AnalyzeAll(files: seq<ProjectFile>): (r: seq<Analysis>)
    ensures |r| == |files|
    ensures forall i :: 0 <= i < |files| ==> r[i] == Analyze(files[i])
  {
    seq(|files|, i requires 0 <= i < |files| => Analyze(files[i]))
  }
}

=== FILE: loader.dfy ===
/**
 The web front end's data loader: the investigator names recovered from a
 project description, the description with its appended metadata cut off,
 and the merge of the scraped programme, detail, project and score files into
 the programmes and projects the pages show.

 The labels of a GEPRIS project description are fused into the text with no
 delimiters; each regular expression of the loader is written out here as a
 function that says where a label matches and where it ends.
 */
module Loader {
  import opened Strings
  import opened Records
  import opened Sorting
  import Tiers

  // ---------------------------------------------------------------------------
  // Labels in a description

  /** `Ehemalige[rs]?\s*Antragsteller` at `i`: where the match ends. */
  function FormerApplicantEnd(s: string, i: nat): (e: Option<nat>)
    ensures e.Some? ==> OccursAt(s, "Ehemalige", i) && i + 22 <= e.value <= |s| && OccursAt(s, "Antragsteller", e.value - 13)
  {
    if !OccursAt(s, "Ehemalige", i) then None
    else
      var m := ApplicantAt(s, i);
      if OccursAt(s, "Antragsteller", m) then Some(m + 13) else None
  }

  /** Past `Ehemalige` at `i` and its optional `r` or `s`. */
  function AfterFormer(s: string, i: nat): (k: nat)
    requires i + 9 <= |s|
    ensures i + 9 <= k <= |s|
  {
    var j := i + 9;
    if j < |s| && (s[j] == 'r' || s[j] == 's') then j + 1 else j
  }

  /** Where `Antragsteller` has to start after `Ehemalige` at `i`: past the
      optional letter and any whitespace. */
  function ApplicantAt(s: string, i: nat): (m: nat)
    requires i + 9 <= |s|
    ensures i + 9 <= m <= |s|
  {
    var k := AfterFormer(s, i);
    k + SpaceRun(s[k..])
  }

  /** The three labels that introduce names. */
  datatype Label = CoResponsible | Cooperation | FormerApplicant

  /** Where the label `l` ends when it starts at `i`, with its optional
      endings: `Mitverantwortlich` with an optional `e`; `Kooperationspartner`
      followed by `innen / Kooperationspartner` (blanks optional), `innen`,
      `in`, `n` or nothing, tried in that order; the former-applicant label
      followed by `innen`, `in` or nothing. */
  function LabelEnd(s: string, l: Label, i: nat): (e: Option<nat>)
    ensures e.Some? ==> i < e.value <= |s|
  {
    match l
    case CoResponsible =>
      if !OccursAt(s, "Mitverantwortlich", i) then None
      else
        var k := i + 17;
        Some(if k < |s| && s[k] == 'e' then k + 1 else k)
    case Cooperation =>
      if !OccursAt(s, "Kooperationspartner", i) then None
      else Some(CooperationSuffix(s, i + 19))
    case FormerApplicant =>
      match FormerApplicantEnd(s, i)
      case None => None
      case Some(k) => Some(if OccursAt(s, "innen", k) then k + 5 else if OccursAt(s, "in", k) then k + 2 else k)
  }

  /** The optional ending after `Kooperationspartner`, alternatives tried in
      order. */
  function CooperationSuffix(s: string, k: nat): (e: nat)
    requires k <= |s|
    ensures k <= e <= |s|
  {
    if OccursAt(s, "innen", k) then
      var m := k + 5;
      var slash := m + SpaceRun(s[m..]);
      if slash < |s| && s[slash] == '/' then
        var n := slash + 1 + SpaceRun(s[slash + 1..]);
        if OccursAt(s, "Kooperationspartner", n) then n + 19 else m
      else m
    else if OccursAt(s, "in", k) then k + 2
    else if OccursAt(s, "n", k) then k + 1
    else k
  }

  /** The lookahead that ends a label's text: the end of the description or
      the start of the next label. */
  predicate EndAt(s: string, p: nat) {
    || p == |s|
    || OccursAt(s, "Ehemalige", p)
    || OccursAt(s, "Kooperationspartner", p)
    || OccursAt(s, "Mitverantwortlich", p)
    || OccursAt(s, "DFG-Verfahren", p)
    || OccursAt(s, "Beteiligte", p)
    || OccursAt(s, "Internationale", p)
    || OccursAt(s, "Teilprojekt", p)
  }

  /** The lazy `([\s\S]*?)` group from `start`: up to the first place where
      the lookahead holds. */
  function GroupEnd(s: string, start: nat): (e: nat)
    requires start <= |s|
    ensures start <= e <= |s| && EndAt(s, e)
    ensures forall p :: start <= p < e ==> !EndAt(s, p)
  {
    var endAt := (p: nat) => EndAt(s, p);
    assert endAt(|s|);
    var e := FirstFrom(endAt, start, |s| + 1);
    forall p | start <= p < e ensures !EndAt(s, p) {
      assert !endAt(p);
    }
    e
  }

  /** Where the leftmost occurrence of the label starts, or -1. */
  function FirstLabel(s: string, l: Label): (i: int)
    ensures i == -1 <==> forall j :: 0 <= j <= |s| ==> LabelEnd(s, l, j).None?
    ensures i != -1 ==> 0 <= i <= |s| && LabelEnd(s, l, i).Some?
    ensures i != -1 ==> forall j :: 0 <= j < i ==> LabelEnd(s, l, j).None?
  {
    var found := (j: nat) => LabelEnd(s, l, j).Some?;
    var i := FirstFrom(found, 0, |s| + 1);
    if i == -1 then
      forall j | 0 <= j <= |s| ensures LabelEnd(s, l, j).None? {
        assert !found(j);
      }
      -1
    else
      assert found(i);
      forall j | 0 <= j < i ensures LabelEnd(s, l, j).None? {
        assert !found(j);
      }
      i
  }

  /** The text the lazy group captures: after the leftmost occurrence of the
      label, up to the next label. */
  function LabelText(s: string, l: Label): (r: Option<string>)
    ensures r.None? <==> FirstLabel(s, l) == -1
    ensures r.Some? ==>
      var e := LabelEnd(s, l, FirstLabel(s, l)).value;
      r.value == s[e..GroupEnd(s, e)]
  {
    var i := FirstLabel(s, l);
    if i == -1 then None
    else
      var e := LabelEnd(s, l, i).value;
      Some(s[e..GroupEnd(s, e)])
  }

  /** The text after a label holds no other label: it stops where the next
      one starts. */
  lemma LabelTextStops(s: string, e: nat)
    requires e <= |s|
    ensures forall p :: e <= p < GroupEnd(s, e) ==>
      !OccursAt(s, "Ehemalige", p) && !OccursAt(s, "Kooperationspartner", p) && !OccursAt(s, "Mitverantwortlich", p)
  {
    forall p | e <= p < GroupEnd(s, e)
      ensures !OccursAt(s, "Ehemalige", p) && !OccursAt(s, "Kooperationspartner", p) && !OccursAt(s, "Mitverantwortlich", p)
    {
      assert !EndAt(s, p);
    }
  }

  // ---------------------------------------------------------------------------
  // The former-applicant date

  /** Length of the run of characters satisfying `p` that ends at `e`. */
  function RunBefore(s: string, e: nat, p: char -> bool): (n: nat)
    requires e <= |s|
    ensures n <= e
  {
    if e == 0 || !p(s[e - 1]) then 0 else 1 + RunBefore(s, e - 1, p)
  }

  /** The run before `e` satisfies `p` and is preceded by a character that does
      not, or by the start of the text. */
  lemma {:induction false} RunBeforeRun(s: string, e: nat, p: char -> bool)
    requires e <= |s|
    ensures RunPart(s, e, RunBefore(s, e, p), p)
    ensures RunBefore(s, e, p) == e || !p(s[e - RunBefore(s, e, p) - 1])
    decreases e
  {
    if e > 0 && p(s[e - 1]) {
      RunBeforeRun(s, e - 1, p);
    }
  }

  /** The run before `e` is determined by where it stops. */
  lemma {:induction false} RunBeforeExact(s: string, e: nat, p: char -> bool, n: nat)
    requires n <= e <= |s|
    requires forall i :: e - n <= i < e ==> p(s[i])
    requires n == e || !p(s[e - n - 1])
    ensures RunBefore(s, e, p) == n
    decreases e
  {
    if n > 0 {
      RunBeforeExact(s, e - 1, p, n - 1);
    }
  }

  /** The `\/\d{4}` at the end of the text. */
  predicate YearPart(s: string) {
    |s| >= 5 && s[|s| - 5] == '/' && forall i :: |s| - 4 <= i < |s| ==> IsDigit(s[i])
  }

  /** `n` characters satisfying `p` just before `e`. */
  predicate RunPart(s: string, e: int, n: nat, p: char -> bool) {
    0 <= e - n && e <= |s| && forall i :: e - n <= i < e ==> p(s[i])
  }

  /** The word `bis` just before `e`. */
  predicate BisPart(s: string, e: int) {
    3 <= e <= |s| && s[e - 3..e] == "bis"
  }

  /** A comma just before `e`. */
  predicate CommaPart(s: string, e: int) {
    1 <= e <= |s| && s[e - 1] == ','
  }

  /** The text ends in `,\s*bis\s+\d{1,2}\/\d{4}`, starting at `i`, with `a`
      blanks after the comma, `b` after `bis` and `d` month digits. */
  predicate DateTailAt(s: string, i: int, a: nat, b: nat, d: nat) {
    var month := |s| - 5;
    var gap := month - d;
    var bis := gap - b;
    var blanks := bis - 3;
    && YearPart(s)
    && 1 <= d <= 2 && RunPart(s, month, d, IsDigit)
    && b >= 1 && RunPart(s, gap, b, IsSpace)
    && BisPart(s, bis)
    && RunPart(s, blanks, a, IsSpace)
    && CommaPart(s, blanks - a)
    && i == blanks - a - 1
  }

  /** A date suffix found in a text: where it starts, the blanks after the
      comma and after `bis`, and the number of month digits. */
  datatype DateMatch = DateMatch(start: nat, blanks: nat, gap: nat, month: nat)

  /** The date suffix, read from the end of the text backwards. */
  function DateTail(s: string): (r: Option<DateMatch>)
    ensures r.Some? ==> DateTailAt(s, r.value.start, r.value.blanks, r.value.gap, r.value.month)
  {
    if !YearPart(s) then None
    else
      var month := |s| - 5;
      var d := RunBefore(s, month, IsDigit);
      if d < 1 || d > 2 then None
      else
        var gap := month - d;
        var b := RunBefore(s, gap, IsSpace);
        if b < 1 || !BisPart(s, gap - b) then None
        else
          var blanks := gap - b - 3;
          var a := RunBefore(s, blanks, IsSpace);
          if !CommaPart(s, blanks - a) then None
          else
            DateTailFound(s, a, b, d);
            Some(DateMatch(blanks - a - 1, a, b, d))
  }

  /** The runs read backwards make up a date suffix. */
  lemma DateTailFound(s: string, a: nat, b: nat, d: nat)
    requires YearPart(s) && 1 <= d <= 2 && d == RunBefore(s, |s| - 5, IsDigit)
    requires b >= 1 && b == RunBefore(s, |s| - 5 - d, IsSpace) && BisPart(s, |s| - 5 - d - b)
    requires a == RunBefore(s, |s| - 5 - d - b - 3, IsSpace) && CommaPart(s, |s| - 5 - d - b - 3 - a)
    ensures DateTailAt(s, |s| - 5 - d - b - 3 - a - 1, a, b, d)
  {
    RunBeforeRun(s, |s| - 5, IsDigit);
    RunBeforeRun(s, |s| - 5 - d, IsSpace);
    RunBeforeRun(s, |s| - 5 - d - b - 3, IsSpace);
  }

  /** The suffix the regular expression matches is the one found: what
      follows and precedes each run fixes its length. */
  lemma DateTailComplete(s: string, i: nat, a: nat, b: nat, d: nat)
    requires DateTailAt(s, i, a, b, d)
    ensures DateTail(s) == Some(DateMatch(i, a, b, d))
  {
    var month := |s| - 5;
    var gap := month - d;
    var bis := gap - b;
    var blanks := bis - 3;
    MonthRun(s, d, b);
    GapRun(s, d, b);
    BlanksRun(s, a, b, d);
  }

  lemma MonthRun(s: string, d: nat, b: nat)
    requires YearPart(s) && 1 <= d <= 2 && RunPart(s, |s| - 5, d, IsDigit)
    requires b >= 1 && RunPart(s, |s| - 5 - d, b, IsSpace)
    ensures RunBefore(s, |s| - 5, IsDigit) == d
  {
    assert IsSpace(s[|s| - 5 - d - 1]);
    RunBeforeExact(s, |s| - 5, IsDigit, d);
  }

  lemma GapRun(s: string, d: nat, b: nat)
    requires 5 + d <= |s| && b >= 1 && RunPart(s, |s| - 5 - d, b, IsSpace)
    requires BisPart(s, |s| - 5 - d - b)
    ensures RunBefore(s, |s| - 5 - d, IsSpace) == b
  {
    var bis := |s| - 5 - d - b;
    assert s[bis - 1] == s[bis - 3..bis][2] == 's';
    RunBeforeExact(s, |s| - 5 - d, IsSpace, b);
  }

  lemma BlanksRun(s: string, a: nat, b: nat, d: nat)
    requires 5 + d + b + 3 <= |s|
    requires RunPart(s, |s| - 5 - d - b - 3, a, IsSpace) && CommaPart(s, |s| - 5 - d - b - 3 - a)
    ensures RunBefore(s, |s| - 5 - d - b - 3, IsSpace) == a
  {
    RunBeforeExact(s, |s| - 5 - d - b - 3, IsSpace, a);
  }

  /** An institution name without a trailing `, bis MM/YYYY` (comma, blanks,
      `bis`, blanks, a one- or two-digit month, a slash and a four-digit year),
      then trimmed. */
  function StripDate(name: string): (r: string)
    ensures |r| <= |name|
    ensures DateTail(name).None? ==> r == Trim(name)
  {
    match DateTail(name)
    case None => Trim(name)
    case Some(m) => Trim(name[..m.start])
  }

  lemma StripDateTrimmed(name: string)
    ensures StripDate(name) == Trim(StripDate(name))
  {
    match DateTail(name)
    case None => TrimIdempotent(name);
    case Some(m) => TrimIdempotent(name[..m.start]);
  }

  /** A name ending in a leave date loses it, with the blanks before it. */
  lemma StripDateRemoves(name: string, i: nat, a: nat, b: nat, d: nat)
    requires DateTailAt(name, i, a, b, d)
    ensures StripDate(name) == Trim(name[..i])
  {
    DateTailComplete(name, i, a, b, d);
  }

  // ---------------------------------------------------------------------------
  // Investigators

  /** One `;`-separated piece: whitespace runs squashed, trimmed, and for the
      former applicants a trailing leave date (`, bis MM/YYYY`) removed and
      the rest trimmed again. */
  function CleanName(part: string, stripDate: bool): (r: string)
    ensures r == Trim(r)
  {
    var name := Normalize(part);
    if stripDate then
      StripDateTrimmed(name);
      StripDate(name)
    else
      TrimIdempotent(Squash(part));
      name
  }

  /** Names as the list holds them: each non-empty, trimmed and free of `;`. */
  predicate CleanNames(names: seq<string>) {
    forall k :: 0 <= k < |names| ==> names[k] != [] && Trim(names[k]) == names[k] && NoneOf(names[k], {';'})
  }

  lemma CleanNamesAppend(a: seq<string>, b: seq<string>)
    requires CleanNames(a) && CleanNames(b)
    ensures CleanNames(a + b)
  {
    forall k | 0 <= k < |a + b| ensures (a + b)[k] == if k < |a| then a[k] else b[k - |a|] {
    }
  }

  /** The names listed after a label: the text split at `;`, each piece
      cleaned, empty ones dropped. */
  function Names(text: string, stripDate: bool): (r: seq<string>)
    ensures CleanNames(r)
  {
    var parts := SplitAny(text, {';'});
    var cleaned := seq(|parts|, k requires 0 <= k < |parts| => CleanName(parts[k], stripDate));
    forall k | 0 <= k < |parts| ensures NoneOf(cleaned[k], {';'}) {
      CleanNameKeepsOut(parts[k], stripDate);
    }
    NonEmpty(cleaned)
  }

  /** Cleaning a piece without `;` cannot produce one. */
  lemma CleanNameKeepsOut(part: string, stripDate: bool)
    requires NoneOf(part, {';'})
    ensures NoneOf(CleanName(part, stripDate), {';'})
  {
    NormalizeKeepsSemicolon(part);
    if stripDate {
      StripDateKeepsOut(Normalize(part));
    }
  }

  lemma NormalizeKeepsSemicolon(part: string)
    requires NoneOf(part, {';'})
    ensures NoneOf(Normalize(part), {';'})
  {
    NoneOfSingle(part, ';');
    assert NoSpace(";");
    NormalizeKeepsOut(part, ";");
    NoneOfSingle(Normalize(part), ';');
  }

  lemma StripDateKeepsOut(name: string)
    requires NoneOf(name, {';'})
    ensures NoneOf(StripDate(name), {';'})
  {
    var cut := if DateTail(name).Some? then name[..DateTail(name).value.start] else name;
    assert ';' !in cut;
    TrimKeepsOut(cut, ';');
  }

  /** The names after one label, when the label occurs and its text is not
      empty. */
  function NamesAfter(desc: string, l: Label, stripDate: bool): (r: seq<string>)
    ensures FirstLabel(desc, l) == -1 ==> r == []
    ensures CleanNames(r)
  {
    match LabelText(desc, l)
    case None => []
    case Some(text) => if text != [] then Names(text, stripDate) else []
  }

  /** The names found in a description: the co-responsible, then the
      cooperation partners, then the former applicants (with leave dates
      removed). */
  function DescriptionNames(desc: string): (r: seq<string>)
    ensures CleanNames(r)
  {
    var co := NamesAfter(desc, CoResponsible, false);
    var partners := NamesAfter(desc, Cooperation, false);
    var former := NamesAfter(desc, FormerApplicant, true);
    CleanNamesAppend(co, partners);
    CleanNamesAppend(co + partners, former);
    co + partners + former
  }

  /** `parseInvestigators`: the investigators field, trimmed, when it is not
      blank; otherwise the names found in the description, joined by `; `. */
  function ParseInvestigators(investigators: string, description: string): (r: string)
    ensures Trim(investigators) != [] ==> r == Trim(investigators)
    ensures Trim(investigators) == [] && DescriptionNames(description) == [] ==> r == []
  {
    if Trim(investigators) != [] then Trim(investigators)
    else Join(DescriptionNames(description), "; ")
  }

  /** Splitting the result at `;` and trimming the pieces gives back exactly
      the names found in the description. */
  lemma ParseInvestigatorsSplits(description: string)
    requires DescriptionNames(description) != []
    ensures TrimAll(SplitAny(ParseInvestigators("", description), {';'})) == DescriptionNames(description)
  {
    assert Trim("") == [];
    JoinSplitTrim(DescriptionNames(description));
  }

  /** A description with none of the three labels yields no names. */
  lemma NoLabelNoNames(description: string)
    requires FirstLabel(description, CoResponsible) == -1
    requires FirstLabel(description, Cooperation) == -1
    requires FirstLabel(description, FormerApplicant) == -1
    ensures ParseInvestigators("", description) == []
  {
    assert Trim("") == [];
  }

  // ---------------------------------------------------------------------------
  // Descriptions

  /** Where the metadata GEPRIS appends to a description can start: the
      procedure, co-responsible, former-applicant, cooperation or
      subproject-leader label. */
  predicate MetadataAt(s: string, i: nat) {
    || OccursAt(s, "DFG-Verfahren", i)
    || OccursAt(s, "Mitverantwortlich", i)
    || FormerApplicantEnd(s, i).Some?
    || OccursAt(s, "Kooperationspartner", i)
    || OccursAt(s, "Teilprojektleiter", i)
  }

  /** Where the first metadata label starts, or -1 when there is none. */
  function Cutoff(s: string): (c: int)
    ensures c == -1 <==> forall i :: 0 <= i < |s| ==> !MetadataAt(s, i)
    ensures c != -1 ==> 0 <= c < |s| && MetadataAt(s, c)
    ensures c != -1 ==> forall i :: 0 <= i < c ==> !MetadataAt(s, i)
  {
    var at := (i: nat) => MetadataAt(s, i);
    var c := FirstFrom(at, 0, |s|);
    if c == -1 then
      forall i | 0 <= i < |s| ensures !MetadataAt(s, i) {
        assert !at(i);
      }
      -1
    else
      assert at(c);
      forall i | 0 <= i < c ensures !MetadataAt(s, i) {
        assert !at(i);
      }
      c
  }

  /** `cleanDescription`: the text before the first metadata label, trimmed,
      when that label is not at the very start; otherwise the text as it is.
      What is left holds no metadata label, unless the text opened with one. */
  function CleanDescription(s: string): (r: string)
    ensures Cutoff(s) <= 0 ==> r == s
    ensures Cutoff(s) > 0 ==> r == Trim(s[..Cutoff(s)]) && |r| < |s|
    ensures Cutoff(s) != 0 ==> forall i :: 0 <= i < |r| ==> !MetadataAt(r, i)
  {
    var c := Cutoff(s);
    if c > 0 then
      TrimmedPrefixClean(s, c);
      Trim(s[..c])
    else s
  }

  /** Trimming a label-free prefix leaves a label-free text. */
  lemma TrimmedPrefixClean(s: string, c: nat)
    requires c <= |s|
    requires forall i :: 0 <= i < c ==> !MetadataAt(s, i)
    ensures forall i :: 0 <= i < |Trim(s[..c])| ==> !MetadataAt(Trim(s[..c]), i)
  {
    var r := Trim(s[..c]);
    var lo := TrimmedPrefixSlice(s, c);
    forall i | 0 <= i < |r| ensures !MetadataAt(r, i) {
      NoMetadataInSlice(s, lo, r, i);
    }
  }

  lemma NoMetadataInSlice(s: string, lo: nat, r: string, i: nat)
    requires lo + |r| <= |s| && r == s[lo..lo + |r|]
    requires !MetadataAt(s, lo + i)
    ensures !MetadataAt(r, i)
  {
    MetadataInSlice(s, lo, lo + |r|, i);
  }

  /** A trimmed prefix is a slice of the whole text. */
  lemma TrimmedPrefixSlice(s: string, c: nat) returns (lo: nat)
    requires c <= |s|
    ensures lo + |Trim(s[..c])| <= c && Trim(s[..c]) == s[lo..lo + |Trim(s[..c])|]
  {
    var p := s[..c];
    var r := Trim(p);
    lo := SpaceRun(p);
    assert r == p[lo..lo + |r|];
    forall i | 0 <= i < |r| ensures r[i] == s[lo + i] {
      assert r[i] == p[lo + i];
    }
  }

  /** A label found in a slice is a label of the whole text. */
  lemma MetadataInSlice(s: string, lo: nat, hi: nat, j: nat)
    requires lo <= hi <= |s|
    ensures MetadataAt(s[lo..hi], j) ==> MetadataAt(s, lo + j)
  {
    var t := s[lo..hi];
    OccursInSliceIf(s, "DFG-Verfahren", lo, hi, j);
    OccursInSliceIf(s, "Mitverantwortlich", lo, hi, j);
    OccursInSliceIf(s, "Kooperationspartner", lo, hi, j);
    OccursInSliceIf(s, "Teilprojektleiter", lo, hi, j);
    FormerApplicantInSlice(s, lo, hi, j);
  }

  lemma OccursInSliceIf(s: string, w: string, lo: nat, hi: nat, j: nat)
    requires lo <= hi <= |s|
    ensures OccursAt(s[lo..hi], w, j) ==> OccursAt(s, w, lo + j)
  {
    if OccursAt(s[lo..hi], w, j) {
      OccursInSlice(s, w, lo, hi, j);
    }
  }

  lemma FormerApplicantInSlice(s: string, lo: nat, hi: nat, j: nat)
    requires lo <= hi <= |s|
    ensures FormerApplicantEnd(s[lo..hi], j).Some? ==> FormerApplicantEnd(s, lo + j).Some?
  {
    var t := s[lo..hi];
    if FormerApplicantEnd(t, j).Some? {
      OccursInSlice(s, "Ehemalige", lo, hi, j);
      OccursInSlice(s, "Antragsteller", lo, hi, ApplicantAt(t, j));
      ApplicantAtSlice(s, lo, hi, j);
    }
  }

  lemma ApplicantAtSlice(s: string, lo: nat, hi: nat, j: nat)
    requires lo <= hi <= |s| && j + 9 <= hi - lo
    requires OccursAt(s[lo..hi], "Antragsteller", ApplicantAt(s[lo..hi], j))
    ensures ApplicantAt(s, lo + j) == lo + ApplicantAt(s[lo..hi], j)
  {
    var t := s[lo..hi];
    var k := AfterFormer(t, j);
    var n := SpaceRun(t[k..]);
    var m := k + n;
    OccursAtHead(t, "Antragsteller", m);
    assert j + 9 < |t|;
    assert t[j + 9] == s[lo + j + 9];
    assert AfterFormer(s, lo + j) == lo + k;
    var u := s[lo + k..];
    forall i | 0 <= i < n ensures IsSpace(u[i]) {
      assert u[i] == t[k..][i];
    }
    assert u[n] == t[m];
    SpaceRunExact(u, n);
  }

  lemma SpaceRunExact(s: string, n: nat)
    requires n <= |s|
    requires forall i :: 0 <= i < n ==> IsSpace(s[i])
    requires n == |s| || !IsSpace(s[n])
    ensures SpaceRun(s) == n
  {
  }

  /** Cleaning a cleaned description changes nothing. */
  lemma CleanDescriptionIdempotent(s: string)
    ensures CleanDescription(CleanDescription(s)) == CleanDescription(s)
  {
    var r := CleanDescription(s);
    if Cutoff(s) > 0 {
      assert Cutoff(r) == -1;
    }
  }

  /** A description that opens with a label is kept whole, its metadata
      included. */
  lemma LeadingLabelKept(s: string)
    requires |s| > 0 && MetadataAt(s, 0)
    ensures CleanDescription(s) == s
  {
  }

  // ---------------------------------------------------------------------------
  // Slugs and summary files

  /** Every whitespace run replaced by one `sep`. */
  function ReplaceSpaceRuns(s: string, sep: char): (r: string)
    requires !IsSpace(sep)
    ensures NoSpace(r)
  {
    var t := Squash(s);
    SquashIsSquashed(s);
    ReplaceCharPointwise(t, ' ', sep);
    ReplaceChar(t, ' ', [sep])
  }

  /** The programme's page slug: whitespace runs become `-`, then lower case. */
  function Slug(sppNumber: string): (r: string)
    ensures NoSpace(r)
    ensures |r| <= |sppNumber|
  {
    var t := ReplaceSpaceRuns(sppNumber, '-');
    SquashIsSquashed(sppNumber);
    ReplaceCharPointwise(Squash(sppNumber), ' ', '-');
    LowerStr(t)
  }

  /** A text without whitespace is left as it is by squashing and by the
      blank replacement. */
  lemma ReplaceSpaceRunsNoSpace(s: string, sep: char)
    requires !IsSpace(sep) && NoSpace(s)
    ensures ReplaceSpaceRuns(s, sep) == s
  {
    SquashSquashed(s);
    assert ' ' !in s by {
      forall i | 0 <= i < |s| ensures s[i] != ' ' {
        assert !IsSpace(s[i]);
      }
    }
    ReplaceCharAbsent(s, ' ', [sep]);
  }

  /** A slug is its own slug. */
  lemma SlugIdempotent(sppNumber: string)
    ensures Slug(Slug(sppNumber)) == Slug(sppNumber)
  {
    var r := Slug(sppNumber);
    ReplaceSpaceRunsNoSpace(r, '-');
    LowerStrIdempotent(ReplaceSpaceRuns(sppNumber, '-'));
  }

  /** `SPP 2422` has the slug `spp-2422`: the blank after the prefix becomes a
      hyphen and the prefix is lower-cased. */
  lemma SlugOfNumber(digits: string)
    requires NoSpace(digits)
    ensures Slug("SPP " + digits) == "spp-" + LowerStr(digits)
  {
    NumberRuns(digits, '-');
    assert "SPP" + "-" == "SPP-";
    LowerStrAppend("SPP-", digits);
  }

  /** In `SPP <digits>` the only whitespace run is the single blank after the
      prefix, so replacing runs puts `sep` in its place. */
  lemma NumberRuns(digits: string, sep: char)
    requires NoSpace(digits) && !IsSpace(sep)
    ensures ReplaceSpaceRuns("SPP " + digits, sep) == "SPP" + [sep] + digits
  {
    var s := "SPP " + digits;
    NumberSquashed(digits);
    SquashSquashed(s);
    assert ' ' !in digits by {
      forall i | 0 <= i < |digits| ensures digits[i] != ' ' {
        assert !IsSpace(digits[i]);
      }
    }
    ReplaceCharAppend("SPP ", digits, ' ', [sep]);
    ReplaceCharAbsent(digits, ' ', [sep]);
    assert ReplaceChar("SPP ", ' ', [sep]) == "SPP" + [sep] by {
      ReplaceCharAppend("SPP", " ", ' ', [sep]);
      ReplaceCharAbsent("SPP", ' ', [sep]);
      assert "SPP" + " " == "SPP ";
    }
  }

  lemma NumberSquashed(digits: string)
    requires NoSpace(digits)
    ensures Squashed("SPP " + digits)
  {
    var s := "SPP " + digits;
    forall i | 0 <= i < |s| ensures i != 3 ==> !IsSpace(s[i]) {
      if i > 3 {
        assert s[i] == digits[i - 4];
      }
    }
  }

  /** The file name of a programme's summary: whitespace runs become `_`, then
      `_summary.md` is appended. */
  function SummaryFile(sppNumber: string): (r: string)
    ensures EndsWith(r, "_summary.md")
    ensures NoSpace(r)
  {
    var t := ReplaceSpaceRuns(sppNumber, '_');
    SummarySuffixNoSpace();
    NoSpaceAppend(t, "_summary.md");
    SuffixOfAppend(t, "_summary.md");
    t + "_summary.md"
  }

  lemma SummarySuffixNoSpace()
    ensures NoSpace("_summary.md")
  {
    var x := "_summary.md";
    assert forall j :: 0 <= j < |x| ==> 'A' <= x[j] <= 'z' || x[j] == '.';
  }

  /** `SPP 2422` has the summary file `SPP_2422_summary.md`. */
  lemma SummaryFileOfNumber(digits: string)
    requires NoSpace(digits)
    ensures SummaryFile("SPP " + digits) == "SPP_" + digits + "_summary.md"
  {
    NumberRuns(digits, '_');
    assert "SPP" + "_" == "SPP_";
  }

  /** `loadSummaryMarkdown`: the summary file's text, or `''` when it cannot be
      read. The file system is the parameter `read`. */
  function LoadSummaryMarkdown(sppNumber: string, read: string -> Option<string>): (r: string)
    ensures read(SummaryFile(sppNumber)).Some? ==> r == read(SummaryFile(sppNumber)).value
    ensures read(SummaryFile(sppNumber)).None? ==> r == []
  {
    match read(SummaryFile(sppNumber))
    case Some(text) => text
    case None => ""
  }

  // ---------------------------------------------------------------------------
  // Scraped inputs and the merged values

  /** A project of a raw project file; the optional fields may be missing. */
  datatype RawProject = RawProject(
    projectId: string, url: string, title: string,
    subjectArea: Option<string>, fundingPeriod: Option<string>,
    description: Option<string>, investigators: Option<string>)

  /** One raw project file of a programme. */
  datatype RawProjectFile = RawProjectFile(
    sppNumber: string, sppTitle: string, sppUrl: string, projectsCount: int,
    projects: seq<RawProject>)

  /** A programme of the analysed programme list. */
  datatype Analyzed = Analyzed(
    sppNumber: string, title: string, url: string, beginn: string,
    bundesland: string, intBezug: string, variante: string, wissenschaftsbereich: string,
    description: string, period: string, projectsUrl: string, detailPageUrl: string,
    website: Option<string>, wearablesRelevance: real, aiRelevance: real)

  /** A programme of the detailed programme list; `website` is an extra field
      only some records carry. */
  datatype Detailed = Detailed(
    sppNumber: string, title: string, fullDescription: string,
    coordinatorName: string, contactEmail: string, fundingPeriod: string,
    fundingStart: string, fundingEnd: string, subjectArea: string,
    website: Option<string>)

  /** A research project as the pages show it. */
  datatype Project = Project(
    projectId: string, sppNumber: string, sppTitle: string, title: string,
    fullTitle: string, principalInvestigator: string, institution: string,
    fundingPeriod: string, projectAbstract: string, description: string,
    keywords: string, dfgClassification: string, subjectArea: string, url: string,
    wearablesScore: real, aiScore: real, combinedScore: real,
    matchedWearablesKeywords: string, matchedAiKeywords: string)

  /** A priority programme as the pages show it. */
  datatype Program = Program(
    sppNumber: string, title: string, url: string, beginn: string,
    bundesland: string, intBezug: string, variante: string, wissenschaftsbereich: string,
    description: string, fullDescription: string, period: string,
    projectsUrl: string, detailPageUrl: string, coordinatorName: string,
    contactEmail: string, fundingPeriod: string, fundingStart: string,
    fundingEnd: string, subjectArea: string, website: string,
    aiRelevance: real, wearablesRelevance: real, projectsCount: int,
    projects: seq<Project>, slug: string)

  /** JavaScript's `a || b` on strings: `a` unless it is empty. */
  function OrElse(a: string, b: string): string {
    if a != [] then a else b
  }

  /** An optional text, `''` when missing. */
  function Text(o: Option<string>): string {
    if o.Some? then o.value else ""
  }

  /** A CSV column, `''` when the row has no such column. */
  function Column(csv: Record, name: string): string {
    Get(csv, name, "")
  }

  /** The number a column holds; a missing column
      or text that is not a number gives 0. The parser is the parameter
      `parseNumber`, with `None` for `NaN`. */
  function Score(csv: Record, name: string, parseNumber: string -> Option<real>): (x: real)
    ensures name !in csv ==> x == 0.0
    ensures name in csv && parseNumber(csv[name]).None? ==> x == 0.0
    ensures name in csv && parseNumber(csv[name]).Some? ==> x == parseNumber(csv[name]).value
  {
    if name !in csv then 0.0
    else match parseNumber(csv[name])
      case Some(x) => x
      case None => 0.0
  }

  /** The investigators of a raw project. */
  function RawInvestigators(raw: RawProject): string {
    ParseInvestigators(Text(raw.investigators), Text(raw.description))
  }

  /** One project of a programme: the CSV row joined with the raw project of the
      same id. CSV text wins over raw text where both exist; the investigators,
      the description and the subject area come from the raw project only. */
  function BuildProject(csv: Record, raw: Option<RawProject>, parseNumber: string -> Option<real>): (r: Project)
    ensures r.projectId == Column(csv, "project_id") && r.sppNumber == Column(csv, "spp_number")
    ensures Column(csv, "title") != [] ==> r.title == csv["title"]
    ensures Column(csv, "url") != [] ==> r.url == csv["url"]
    ensures Column(csv, "funding_period") != [] ==> r.fundingPeriod == csv["funding_period"]
    ensures raw.None? ==>
      && r.title == Column(csv, "title") && r.url == Column(csv, "url")
      && r.fundingPeriod == Column(csv, "funding_period")
      && r.principalInvestigator == [] && r.description == [] && r.subjectArea == []
    ensures raw.Some? ==>
      && r.principalInvestigator == RawInvestigators(raw.value)
      && r.subjectArea == Text(raw.value.subjectArea)
      && (Column(csv, "title") == [] ==> r.title == raw.value.title)
    ensures raw.Some? && Cutoff(Text(raw.value.description)) != 0 ==>
      forall i :: 0 <= i < |r.description| ==> !MetadataAt(r.description, i)
    ensures "ai_score" !in csv ==> r.aiScore == 0.0
  {
    var rawTitle := if raw.Some? then raw.value.title else "";
    var rawPeriod := if raw.Some? then Text(raw.value.fundingPeriod) else "";
    var rawUrl := if raw.Some? then raw.value.url else "";
    var rawDescription := if raw.Some? then Text(raw.value.description) else "";
    Project(
      projectId := Column(csv, "project_id"),
      sppNumber := Column(csv, "spp_number"),
      sppTitle := Column(csv, "spp_title"),
      title := OrElse(OrElse(Column(csv, "title"), rawTitle), ""),
      fullTitle := Column(csv, "full_title"),
      principalInvestigator := if raw.Some? then RawInvestigators(raw.value) else "",
      institution := Column(csv, "institution"),
      fundingPeriod := OrElse(OrElse(Column(csv, "funding_period"), rawPeriod), ""),
      projectAbstract := Column(csv, "abstract"),
      description := CleanDescription(rawDescription),
      keywords := Column(csv, "keywords"),
      dfgClassification := Column(csv, "dfg_classification"),
      subjectArea := if raw.Some? then Text(raw.value.subjectArea) else "",
      url := OrElse(OrElse(Column(csv, "url"), rawUrl), ""),
      wearablesScore := Score(csv, "wearables_score", parseNumber),
      aiScore := Score(csv, "ai_score", parseNumber),
      combinedScore := Score(csv, "combined_score", parseNumber),
      matchedWearablesKeywords := Column(csv, "matched_wearables_keywords"),
      matchedAiKeywords := Column(csv, "matched_ai_keywords"))
  }

  /** The CSV-only fields are copied from the row (`''` when missing), the
      description is the raw description cleaned, and the raw url and funding
      period fill in when the row has none. */
  lemma BuildProjectFields(csv: Record, raw: Option<RawProject>, parseNumber: string -> Option<real>)
    ensures var r := BuildProject(csv, raw, parseNumber);
      && r.institution == Column(csv, "institution") && r.keywords == Column(csv, "keywords")
      && r.projectAbstract == Column(csv, "abstract") && r.fullTitle == Column(csv, "full_title")
      && r.dfgClassification == Column(csv, "dfg_classification") && r.sppTitle == Column(csv, "spp_title")
      && (raw.Some? ==> r.description == CleanDescription(Text(raw.value.description)))
      && (raw.Some? && Column(csv, "url") == [] ==> r.url == raw.value.url)
      && (raw.Some? && Column(csv, "funding_period") == [] ==> r.fundingPeriod == Text(raw.value.fundingPeriod))
  {
  }

  /** With title, url and funding period in the CSV row, the raw project only
      contributes the investigators, the description and the subject area. */
  lemma CsvTextWins(csv: Record, raw1: Option<RawProject>, raw2: Option<RawProject>, parseNumber: string -> Option<real>)
    requires Column(csv, "title") != [] && Column(csv, "url") != [] && Column(csv, "funding_period") != []
    ensures BuildProject(csv, raw1, parseNumber).(principalInvestigator := "", description := "", subjectArea := "")
         == BuildProject(csv, raw2, parseNumber).(principalInvestigator := "", description := "", subjectArea := "")
  {
  }

  // ---------------------------------------------------------------------------
  // Programmes

  /** The CSV rows of one programme, in file order; none when the programme has
      no rows. */
  function RowsOf(csvRows: seq<Record>, sppNumber: string): (r: seq<Record>)
    ensures |r| <= |csvRows|
    ensures forall k :: 0 <= k < |r| ==> "spp_number" in r[k] && r[k]["spp_number"] == sppNumber
    ensures forall row :: row in csvRows && "spp_number" in row && row["spp_number"] == sppNumber ==> row in r
  {
    var r := Filter(csvRows, OfNumber(sppNumber));
    forall row | row in csvRows && "spp_number" in row && row["spp_number"] == sppNumber ensures row in r {
      FilterMembership(csvRows, OfNumber(sppNumber), row);
    }
    r
  }

  /** The rows are picked one by one, in file order: a file split in two
      gives the two parts' rows concatenated, and a single row is picked
      exactly when it carries the number. */
  lemma RowsOfAppend(a: seq<Record>, b: seq<Record>, sppNumber: string)
    ensures RowsOf(a + b, sppNumber) == RowsOf(a, sppNumber) + RowsOf(b, sppNumber)
    ensures |a| == 1 ==>
      RowsOf(a, sppNumber) == if "spp_number" in a[0] && a[0]["spp_number"] == sppNumber then a else []
  {
    FilterAppend(a, b, OfNumber(sppNumber));
    if |a| == 1 {
      FilterCons(a, OfNumber(sppNumber));
      assert a[1..] == [];
    }
  }

  /** The test `row.spp_number === spp`. */
  function OfNumber(sppNumber: string): Record -> bool {
    row => "spp_number" in row && row["spp_number"] == sppNumber
  }

  /** The detailed records by programme number, the last record of a number
      winning. */
  function DetailedIndex(detailed: seq<Detailed>): map<string, Detailed> {
    IndexBy(detailed, (d: Detailed) => Some(d.sppNumber))
  }

  /** The raw project files by programme number: only `.json` files count, in
      directory order, the last file of a number winning. */
  function RawFileIndex(files: seq<(string, RawProjectFile)>): map<string, (string, RawProjectFile)> {
    IndexBy(files, (f: (string, RawProjectFile)) => if EndsWith(f.0, ".json") then Some(f.1.sppNumber) else None)
  }

  /** The raw projects of a file by project id, the last project of an id
      winning. */
  function RawProjectIndex(file: Option<RawProjectFile>): map<string, RawProject> {
    if file.Some? then IndexBy(file.value.projects, (rp: RawProject) => Some(rp.projectId)) else map[]
  }

  /** The raw project of a CSV row, looked up by the row's project id. */
  function RawFor(csv: Record, index: map<string, RawProject>): (r: Option<RawProject>)
    ensures r.Some? <==> "project_id" in csv && csv["project_id"] in index
    ensures r.Some? ==> r.value == index[csv["project_id"]]
  {
    if "project_id" in csv && csv["project_id"] in index then Some(index[csv["project_id"]]) else None
  }

  /** The number of projects loaded when there are any, else the count the
      raw file records, else 0. */
  function ProjectsCount(projects: nat, rawFile: Option<RawProjectFile>): (n: int)
    ensures projects != 0 ==> n == projects
    ensures projects == 0 && rawFile.None? ==> n == 0
    ensures projects == 0 && rawFile.Some? ==> n == rawFile.value.projectsCount
  {
    if projects != 0 then projects
    else if rawFile.Some? && rawFile.value.projectsCount != 0 then rawFile.value.projectsCount
    else 0
  }

  /** One programme: the analysed record joined with the detailed record and
      the raw project file of its number, with its projects built from its CSV
      rows in file order. */
  function BuildProgram(a: Analyzed, details: map<string, Detailed>, rawFiles: map<string, (string, RawProjectFile)>,
                        csvRows: seq<Record>, parseNumber: string -> Option<real>): (r: Program)
    ensures r.sppNumber == a.sppNumber && r.slug == Slug(a.sppNumber) && NoSpace(r.slug)
    ensures r.url == a.url && r.description == a.description
    ensures r.aiRelevance == a.aiRelevance && r.wearablesRelevance == a.wearablesRelevance
    ensures |r.projects| == |RowsOf(csvRows, a.sppNumber)|
    ensures forall k :: 0 <= k < |r.projects| ==>
      && r.projects[k].sppNumber == a.sppNumber
      && r.projects[k].projectId == Column(RowsOf(csvRows, a.sppNumber)[k], "project_id")
    ensures r.projects != [] ==> r.projectsCount == |r.projects|
    ensures r.projects == [] && a.sppNumber !in rawFiles ==> r.projectsCount == 0
    ensures r.projects == [] && a.sppNumber in rawFiles ==> r.projectsCount == rawFiles[a.sppNumber].1.projectsCount
    ensures a.sppNumber !in details ==>
      && r.title == a.title && r.fullDescription == [] && r.coordinatorName == []
      && r.contactEmail == [] && r.fundingPeriod == [] && r.subjectArea == []
    ensures a.sppNumber in details ==>
      && r.title == OrElse(details[a.sppNumber].title, a.title)
      && r.fullDescription == details[a.sppNumber].fullDescription
    ensures Text(a.website) != [] ==> r.website == Text(a.website)
  {
    var d := if a.sppNumber in details then Some(details[a.sppNumber]) else None;
    var rawFile := if a.sppNumber in rawFiles then Some(rawFiles[a.sppNumber].1) else None;
    var rawProjects := RawProjectIndex(rawFile);
    var rows := RowsOf(csvRows, a.sppNumber);
    var projects := BuildProjects(rows, rawProjects, parseNumber);
    Program(
      sppNumber := a.sppNumber,
      title := if d.Some? then OrElse(d.value.title, a.title) else a.title,
      url := a.url,
      beginn := a.beginn,
      bundesland := a.bundesland,
      intBezug := a.intBezug,
      variante := a.variante,
      wissenschaftsbereich := a.wissenschaftsbereich,
      description := a.description,
      fullDescription := if d.Some? then d.value.fullDescription else "",
      period := a.period,
      projectsUrl := a.projectsUrl,
      detailPageUrl := a.detailPageUrl,
      website := OrElse(OrElse(Text(a.website), if d.Some? then Text(d.value.website) else ""), ""),
      coordinatorName := if d.Some? then d.value.coordinatorName else "",
      contactEmail := if d.Some? then d.value.contactEmail else "",
      fundingPeriod := if d.Some? then d.value.fundingPeriod else "",
      fundingStart := if d.Some? then d.value.fundingStart else "",
      fundingEnd := if d.Some? then d.value.fundingEnd else "",
      subjectArea := if d.Some? then d.value.subjectArea else "",
      aiRelevance := a.aiRelevance,
      wearablesRelevance := a.wearablesRelevance,
      projectsCount := ProjectsCount(|projects|, rawFile),
      projects := projects,
      slug := Slug(a.sppNumber))
  }

  /** The projects of a programme: one per CSV row, in row order, each joined
      with the raw project of its id. */
  function BuildProjects(rows: seq<Record>, rawProjects: map<string, RawProject>,
                         parseNumber: string -> Option<real>): (ps: seq<Project>)
    ensures |ps| == |rows|
    ensures forall k :: 0 <= k < |rows| ==>
      ps[k].projectId == Column(rows[k], "project_id") && ps[k].sppNumber == Column(rows[k], "spp_number")
  {
    seq(|rows|, k requires 0 <= k < |rows| => BuildProject(rows[k], RawFor(rows[k], rawProjects), parseNumber))
  }

  /** `loadPrograms`: one programme per analysed record, in the analysed
      order. The files are parameters: the analysed and detailed lists, the
      CSV rows and the raw project files with their names in directory order. */
  function LoadPrograms(analyzed: seq<Analyzed>, detailed: seq<Detailed>, csvRows: seq<Record>,
                        files: seq<(string, RawProjectFile)>, parseNumber: string -> Option<real>): (r: seq<Program>)
    ensures |r| == |analyzed|
    ensures forall i :: 0 <= i < |r| ==> r[i].sppNumber == analyzed[i].sppNumber
    ensures forall i, k :: 0 <= i < |r| && 0 <= k < |r[i].projects| ==> r[i].projects[k].sppNumber == analyzed[i].sppNumber
  {
    var details := DetailedIndex(detailed);
    var rawFiles := RawFileIndex(files);
    seq(|analyzed|, i requires 0 <= i < |analyzed| => BuildProgram(analyzed[i], details, rawFiles, csvRows, parseNumber))
  }

  /** The detailed record of a programme is the last one with its number: its
      non-empty title replaces the analysed title, and its full description is
      taken. */
  lemma LoadProgramsDetailed(analyzed: seq<Analyzed>, detailed: seq<Detailed>, csvRows: seq<Record>,
                             files: seq<(string, RawProjectFile)>, parseNumber: string -> Option<real>, i: nat, j: nat)
    requires i < |analyzed| && j < |detailed| && detailed[j].sppNumber == analyzed[i].sppNumber
    requires forall m :: j < m < |detailed| ==> detailed[m].sppNumber != detailed[j].sppNumber
    ensures LoadPrograms(analyzed, detailed, csvRows, files, parseNumber)[i].title == OrElse(detailed[j].title, analyzed[i].title)
    ensures LoadPrograms(analyzed, detailed, csvRows, files, parseNumber)[i].fullDescription == detailed[j].fullDescription
  {
    var key := (d: Detailed) => Some(d.sppNumber);
    forall m | j < m < |detailed| ensures key(detailed[m]) != key(detailed[j]) {
      assert detailed[m].sppNumber != detailed[j].sppNumber;
    }
    IndexByLast(detailed, key, j);
    assert DetailedIndex(detailed) == IndexBy(detailed, key);
  }

  /** A programme without a detailed record keeps its analysed title and has an
      empty full description. */
  lemma LoadProgramsUndetailed(analyzed: seq<Analyzed>, detailed: seq<Detailed>, csvRows: seq<Record>,
                               files: seq<(string, RawProjectFile)>, parseNumber: string -> Option<real>, i: nat)
    requires i < |analyzed|
    requires forall j :: 0 <= j < |detailed| ==> detailed[j].sppNumber != analyzed[i].sppNumber
    ensures LoadPrograms(analyzed, detailed, csvRows, files, parseNumber)[i].title == analyzed[i].title
    ensures LoadPrograms(analyzed, detailed, csvRows, files, parseNumber)[i].fullDescription == []
  {
    var key := (d: Detailed) => Some(d.sppNumber);
    IndexByKeys(detailed, key, analyzed[i].sppNumber);
    assert DetailedIndex(detailed) == IndexBy(detailed, key);
  }

  /** A programme with no CSV rows takes its project count from the last
      `.json` raw file of its number. */
  lemma LoadProgramsRawCount(analyzed: seq<Analyzed>, detailed: seq<Detailed>, csvRows: seq<Record>,
                             files: seq<(string, RawProjectFile)>, parseNumber: string -> Option<real>, i: nat, j: nat)
    requires i < |analyzed| && j < |files|
    requires EndsWith(files[j].0, ".json") && files[j].1.sppNumber == analyzed[i].sppNumber
    requires forall m :: j < m < |files| && EndsWith(files[m].0, ".json") ==> files[m].1.sppNumber != files[j].1.sppNumber
    requires forall row :: row in csvRows ==> "spp_number" !in row || row["spp_number"] != analyzed[i].sppNumber
    ensures LoadPrograms(analyzed, detailed, csvRows, files, parseNumber)[i].projectsCount == files[j].1.projectsCount
  {
    var key := (f: (string, RawProjectFile)) => if EndsWith(f.0, ".json") then Some(f.1.sppNumber) else None;
    forall m | j < m < |files| ensures key(files[m]) != key(files[j]) {
      if EndsWith(files[m].0, ".json") {
        assert files[m].1.sppNumber != files[j].1.sppNumber;
      }
    }
    IndexByLast(files, key, j);
    assert RawFileIndex(files) == IndexBy(files, key);
    RowsOfNone(csvRows, analyzed[i].sppNumber);
  }

  /** A number no CSV row carries has no rows. */
  lemma RowsOfNone(csvRows: seq<Record>, sppNumber: string)
    requires forall k :: 0 <= k < |csvRows| ==> "spp_number" !in csvRows[k] || csvRows[k]["spp_number"] != sppNumber
    ensures RowsOf(csvRows, sppNumber) == []
  {
    FilterNone(csvRows, OfNumber(sppNumber));
  }

  /** `loadAllProjects`: every programme's projects, programme by programme. */
  function LoadAllProjects(programs: seq<Program>): (r: seq<Project>)
    ensures forall p :: p in r <==> exists i :: 0 <= i < |programs| && p in programs[i].projects
    decreases |programs|
  {
    if programs == [] then []
    else
      var rest := LoadAllProjects(programs[1..]);
      assert forall i :: 1 <= i < |programs| ==> programs[i] == programs[1..][i - 1];
      forall p | exists i :: 0 <= i < |programs| && p in programs[i].projects
        ensures p in programs[0].projects + rest
      {
        var i :| 0 <= i < |programs| && p in programs[i].projects;
        if i > 0 {
          assert p in programs[1..][i - 1].projects;
        }
      }
      programs[0].projects + rest
  }

  /** The number of projects of all programmes together. */
  function ProjectTotal(programs: seq<Program>): nat
    decreases |programs|
  {
    if programs == [] then 0 else ProjectTotal(programs[..|programs| - 1]) + |programs[|programs| - 1].projects|
  }

  /** Loading programmes one list after another concatenates their projects,
      so the list holds each programme's projects as a block, in programme
      order, and is as long as all of them together. */
  lemma {:induction false} LoadAllProjectsAppend(a: seq<Program>, b: seq<Program>)
    ensures LoadAllProjects(a + b) == LoadAllProjects(a) + LoadAllProjects(b)
    decreases |a|
  {
    if a != [] {
      assert (a + b)[0] == a[0] && (a + b)[1..] == a[1..] + b;
      LoadAllProjectsAppend(a[1..], b);
    } else {
      assert a + b == b;
    }
  }

  lemma {:induction false} LoadAllProjectsCount(programs: seq<Program>)
    ensures |LoadAllProjects(programs)| == ProjectTotal(programs)
    decreases |programs|
  {
    if programs != [] {
      var n := |programs| - 1;
      assert programs == programs[..n] + [programs[n]];
      LoadAllProjectsAppend(programs[..n], [programs[n]]);
      LoadAllProjectsCount(programs[..n]);
      assert [programs[n]][1..] == [];
    }
  }

  /** A project in a medium or high AI tier. */
  predicate AiTier(p: Project) {
    Tiers.GetRelevanceTier(p.aiScore) in {Tiers.Medium, Tiers.High}
  }

  /** A project in a medium or high wearables tier. */
  predicate WearablesTier(p: Project) {
    Tiers.GetRelevanceTier(p.wearablesScore) in {Tiers.Medium, Tiers.High}
  }

  /** The projects shown as AI-relevant (`loadAIProjects`): an AI score of at
      least 1, that is a medium or high tier; every such project is kept, as
      often as it occurs and in the input order. */
  function LoadAIProjects(all: seq<Project>): (r: seq<Project>)
    ensures |r| <= |all|
    ensures forall p :: p in r <==> p in all && Tiers.GetRelevanceTier(p.aiScore) in {Tiers.Medium, Tiers.High}
    ensures r == Filter(all, AiTier)
  {
    var relevant := (p: Project) => p.aiScore >= 1.0;
    forall p ensures p in Filter(all, relevant) <==> p in all && p.aiScore >= 1.0 {
      FilterMembership(all, relevant, p);
    }
    forall p: Project ensures AiTier(p) == relevant(p) {
      Tiers.RelevantTiers(p.aiScore);
    }
    FilterSame(all, relevant, AiTier);
    Filter(all, relevant)
  }

  /** The projects shown as wearables-relevant (`loadWearablesProjects`): a
      wearables score of at least 1, that is a medium or high tier. */
  function LoadWearablesProjects(all: seq<Project>): (r: seq<Project>)
    ensures |r| <= |all|
    ensures forall p :: p in r <==> p in all && Tiers.GetRelevanceTier(p.wearablesScore) in {Tiers.Medium, Tiers.High}
    ensures r == Filter(all, WearablesTier)
  {
    var relevant := (p: Project) => p.wearablesScore >= 1.0;
    forall p ensures p in Filter(all, relevant) <==> p in all && p.wearablesScore >= 1.0 {
      FilterMembership(all, relevant, p);
    }
    forall p: Project ensures WearablesTier(p) == relevant(p) {
      Tiers.RelevantTiers(p.wearablesScore);
    }
    FilterSame(all, relevant, WearablesTier);
    Filter(all, relevant)
  }

  /** The landing page's figures. */
  datatype Stats = Stats(totalPrograms: nat, totalProjects: nat, aiRelevant: nat, wearablesRelevant: nat,
                         wissenschaftsbereiche: seq<string>)

  /** `loadStats`: the numbers of programmes, projects and relevant projects,
      and the distinct science areas in order of first appearance. */
  function LoadStats(programs: seq<Program>): (r: Stats)
    ensures r.totalPrograms == |programs|
    ensures r.totalProjects == |LoadAllProjects(programs)|
    ensures r.aiRelevant <= r.totalProjects && r.wearablesRelevant <= r.totalProjects
    ensures forall i, j :: 0 <= i < j < |r.wissenschaftsbereiche| ==> r.wissenschaftsbereiche[i] != r.wissenschaftsbereiche[j]
    ensures forall i :: 0 <= i < |programs| ==> programs[i].wissenschaftsbereich in r.wissenschaftsbereiche
    ensures forall x :: x in r.wissenschaftsbereiche ==> exists i :: 0 <= i < |programs| && programs[i].wissenschaftsbereich == x
    ensures r.aiRelevant == |Filter(LoadAllProjects(programs), AiTier)|
    ensures r.wearablesRelevant == |Filter(LoadAllProjects(programs), WearablesTier)|
    ensures FirstOfEachKey(KeysOf(programs, Area), Itself, r.wissenschaftsbereiche)
  {
    var all := LoadAllProjects(programs);
    var areas := KeysOf(programs, Area);
    var distinct := UniqueBy(areas, Itself);
    assert KeysOf(distinct, Itself) == distinct;
    Stats(|programs|, |all|, |LoadAIProjects(all)|, |LoadWearablesProjects(all)|, distinct)
  }

  /** A programme's science area. */
  function Area(p: Program): string {
    p.wissenschaftsbereich
  }
}

=== FILE: priority.dfy ===
/**
 The priority scraper: programmes on a fixed high-priority list are scraped
 first, then those on a medium-priority list, then all others, each group in
 list order, with the project scraper's checkpoint of completed programmes.
 */
module Priority {
  import opened Strings
  import opened Records
  import opened Sorting
  import opened ProjectsWorking

  const HighPriority: seq<string> := ["SPP 1999", "SPP 2041", "SPP 2100"]
  const MediumPriority: seq<string> := ["SPP 2014"]

  /** The programme's number as the grouping reads it (`''` when missing). */
  function GroupNumber(spp: Record): string {
    Get(spp, "spp_number", "")
  }

  predicate IsHigh(spp: Record) { GroupNumber(spp) in HighPriority }
  predicate IsMedium(spp: Record) { !IsHigh(spp) && GroupNumber(spp) in MediumPriority }
  predicate IsOther(spp: Record) { !IsHigh(spp) && !IsMedium(spp) }

  /** The processing order: high, then medium, then the rest, each in list
      order. */
  function Ordered(programs: seq<Record>): (r: seq<Record>)
    ensures multiset(r) == multiset(programs)
    ensures |r| == |programs|
  {
    GroupPartition(programs);
    assert |multiset(programs)| == |programs|;
    Filter(programs, IsHigh) + Filter(programs, IsMedium) + Filter(programs, IsOther)
  }

  /** The three groups split the list: together they hold every programme
      exactly as often as the list does. */
  lemma GroupPartition(xs: seq<Record>)
    ensures multiset(Filter(xs, IsHigh)) + multiset(Filter(xs, IsMedium)) + multiset(Filter(xs, IsOther)) == multiset(xs)
  {
    FilterPartition(xs, IsHigh, IsMedium, IsOther);
  }

  /** High membership takes precedence and the groups come in order: a
      position holds a high-priority programme exactly when it lies in the
      first group, and a high- or medium-priority one exactly when it lies in
      the first two. */
  lemma OrderedGroups(programs: seq<Record>, k: nat)
    requires k < |programs|
    ensures k < |Ordered(programs)|
    ensures GroupNumber(Ordered(programs)[k]) in HighPriority <==> k < |Filter(programs, IsHigh)|
    ensures GroupNumber(Ordered(programs)[k]) in HighPriority || GroupNumber(Ordered(programs)[k]) in MediumPriority <==>
      k < |Filter(programs, IsHigh)| + |Filter(programs, IsMedium)|
  {
    var h := Filter(programs, IsHigh);
    var m := Filter(programs, IsMedium);
    var o := Filter(programs, IsOther);
    var r := Ordered(programs);
    assert r == h + m + o;
    if k < |h| {
      assert r[k] == h[k] && IsHigh(h[k]);
    } else if k < |h| + |m| {
      assert r[k] == m[k - |h|] && IsMedium(m[k - |h|]);
    } else {
      assert r[k] == o[k - |h| - |m|] && IsOther(o[k - |h| - |m|]);
    }
  }

  /** Each group keeps the list order: picking one group's programmes out of
      the processing order gives them exactly as they stand in the list. */
  lemma OrderedKeepsGroupOrder(programs: seq<Record>)
    ensures Filter(Ordered(programs), IsHigh) == Filter(programs, IsHigh)
    ensures Filter(Ordered(programs), IsMedium) == Filter(programs, IsMedium)
    ensures Filter(Ordered(programs), IsOther) == Filter(programs, IsOther)
  {
    var h := Filter(programs, IsHigh);
    var m := Filter(programs, IsMedium);
    var o := Filter(programs, IsOther);
    assert Ordered(programs) == h + m + o;
    FilterAppend(h + m, o, IsHigh);
    FilterAppend(h, m, IsHigh);
    FilterAll(h, IsHigh);
    FilterNone(m, IsHigh);
    FilterNone(o, IsHigh);
    FilterAppend(h + m, o, IsMedium);
    FilterAppend(h, m, IsMedium);
    FilterNone(h, IsMedium);
    FilterAll(m, IsMedium);
    FilterNone(o, IsMedium);
    FilterAppend(h + m, o, IsOther);
    FilterAppend(h, m, IsOther);
    FilterNone(h, IsOther);
    FilterNone(m, IsOther);
    FilterAll(o, IsOther);
  }

  // ---------------------------------------------------------------------------
  // The loop

  /** The run's state: the completed set (from the checkpoint on), this run's
      failures in order, and the projects counted. */
  datatype PriorityState = PriorityState(completed: set<string>, failed: seq<string>, total: nat)

  /** One programme (number `i` from 1 in processing order) that is not yet
      completed: any result, even with no projects, completes it; none
      appends it to this run's failures. */
  function PriorityStep(s: PriorityState, spp: Record, number: string, scrape: Scrape): (r: PriorityState)
    ensures scrape(number, Get(spp, "title", "Unknown"), Get(spp, "url", "")).Some? ==>
      r.completed == s.completed + {number} && r.failed == s.failed &&
      r.total == s.total + scrape(number, Get(spp, "title", "Unknown"), Get(spp, "url", "")).value.count
    ensures scrape(number, Get(spp, "title", "Unknown"), Get(spp, "url", "")).None? ==>
      r.completed == s.completed && r.failed == s.failed + [number] && r.total == s.total
  {
    match scrape(number, Get(spp, "title", "Unknown"), Get(spp, "url", ""))
    case Some(result) => PriorityState(s.completed + {number}, s.failed, s.total + result.count)
    case None => PriorityState(s.completed, s.failed + [number], s.total)
  }

  /** The number of the programme at index `k` (from 0) of the processing order. */
  function NumberAt(ordered: seq<Record>, k: nat): string
    requires k < |ordered|
  {
    ProgramNumber(ordered[k], k + 1)
  }

  /** The loop over the first `n` programmes of the processing order; also the
      indices (from 0) of the programmes processed, each of which ends
      completed or failed. */
  function RunPriority(completed: set<string>, ordered: seq<Record>, n: nat, scrape: Scrape)
    : (r: (PriorityState, seq<nat>))
    requires n <= |ordered|
    ensures completed <= r.0.completed
    ensures forall k :: 0 <= k < |r.1| ==> r.1[k] < n
    ensures forall k :: 0 <= k < |r.1| ==> NumberAt(ordered, r.1[k]) in r.0.completed || NumberAt(ordered, r.1[k]) in r.0.failed
    ensures |r.0.failed| <= |r.1|
    decreases n
  {
    if n == 0 then (PriorityState(completed, [], 0), [])
    else
      var prev := RunPriority(completed, ordered, n - 1, scrape);
      var number := NumberAt(ordered, n - 1);
      if number in prev.0.completed then prev
      else (PriorityStep(prev.0, ordered[n - 1], number, scrape), prev.1 + [n - 1])
  }

  /** Every failure saved was processed in this run. */
  lemma {:induction false} RunPriorityFailures(completed: set<string>, ordered: seq<Record>, n: nat, scrape: Scrape, j: nat)
    requires n <= |ordered|
    requires j < |RunPriority(completed, ordered, n, scrape).0.failed|
    ensures exists k :: (0 <= k < |RunPriority(completed, ordered, n, scrape).1| &&
                         NumberAt(ordered, RunPriority(completed, ordered, n, scrape).1[k]) == RunPriority(completed, ordered, n, scrape).0.failed[j])
    decreases n
  {
    var prev := RunPriority(completed, ordered, n - 1, scrape);
    var cur := RunPriority(completed, ordered, n, scrape);
    var number := NumberAt(ordered, n - 1);
    if cur == prev {
      RunPriorityFailures(completed, ordered, n - 1, scrape, j);
    } else {
      assert cur.1 == prev.1 + [n - 1];
      if j < |prev.0.failed| {
        assert cur.0.failed[j] == prev.0.failed[j];
        RunPriorityFailures(completed, ordered, n - 1, scrape, j);
        var k :| 0 <= k < |prev.1| && NumberAt(ordered, prev.1[k]) == prev.0.failed[j];
        assert cur.1[k] == prev.1[k];
      } else {
        assert cur.0.failed[j] == number == NumberAt(ordered, cur.1[|prev.1|]);
      }
    }
  }

  /** Every completed number was completed before the run or processed in it. */
  lemma {:induction false} RunPriorityCompleted(completed: set<string>, ordered: seq<Record>, n: nat, scrape: Scrape, x: string)
    requires n <= |ordered|
    requires x in RunPriority(completed, ordered, n, scrape).0.completed && x !in completed
    ensures exists k :: (0 <= k < |RunPriority(completed, ordered, n, scrape).1| &&
                         NumberAt(ordered, RunPriority(completed, ordered, n, scrape).1[k]) == x)
    decreases n
  {
    var prev := RunPriority(completed, ordered, n - 1, scrape);
    var cur := RunPriority(completed, ordered, n, scrape);
    var number := NumberAt(ordered, n - 1);
    if cur == prev {
      RunPriorityCompleted(completed, ordered, n - 1, scrape, x);
    } else {
      assert cur.1 == prev.1 + [n - 1];
      if x == number {
        assert NumberAt(ordered, cur.1[|prev.1|]) == x;
      } else {
        RunPriorityCompleted(completed, ordered, n - 1, scrape, x);
        var k :| 0 <= k < |prev.1| && NumberAt(ordered, prev.1[k]) == x;
        assert cur.1[k] == prev.1[k];
      }
    }
  }

  /** `main`: the whole processing order, starting from the checkpoint's
      completed set. Nothing completed is lost, and every failure is the
      number of a programme that was not yet completed, so processed now. */
  function RunAll(cp: Checkpoint, programs: seq<Record>, scrape: Scrape): (r: PriorityState)
    ensures cp.completed <= r.completed
    ensures forall j :: 0 <= j < |r.failed| ==>
      exists i :: 0 <= i < |Ordered(programs)| && NumberAt(Ordered(programs), i) == r.failed[j] && r.failed[j] !in cp.completed
  {
    var ordered := Ordered(programs);
    var run := RunPriority(cp.completed, ordered, |ordered|, scrape);
    FailuresNotCompletedBefore(cp.completed, ordered, scrape, run);
    run.0
  }

  /** Every failure of a whole pass is the number of a programme of the
      processing order that was not completed when the pass started. */
  lemma FailuresNotCompletedBefore(completed: set<string>, ordered: seq<Record>, scrape: Scrape,
                                   r: (PriorityState, seq<nat>))
    requires r == RunPriority(completed, ordered, |ordered|, scrape)
    ensures forall j :: 0 <= j < |r.0.failed| ==>
      exists i :: 0 <= i < |ordered| && NumberAt(ordered, i) == r.0.failed[j] && r.0.failed[j] !in completed
  {
    forall j | 0 <= j < |r.0.failed|
      ensures exists i :: 0 <= i < |ordered| && NumberAt(ordered, i) == r.0.failed[j] && r.0.failed[j] !in completed
    {
      RunPriorityFailures(completed, ordered, |ordered|, scrape, j);
      var k :| 0 <= k < |r.1| && NumberAt(ordered, r.1[k]) == r.0.failed[j];
      var i := r.1[k];
      RunPrioritySkipsCompleted(completed, ordered, |ordered|, scrape, i);
      var before := RunPriority(completed, ordered, i, scrape);
      assert completed <= before.0.completed;
    }
  }

  /** Only completed programmes are skipped. */
  lemma {:induction false} RunPrioritySkipsCompleted(completed: set<string>, ordered: seq<Record>, n: nat, scrape: Scrape, i: nat)
    requires i < n <= |ordered|
    ensures i in RunPriority(completed, ordered, n, scrape).1 <==>
      NumberAt(ordered, i) !in RunPriority(completed, ordered, i, scrape).0.completed
    decreases n
  {
    var prev := RunPriority(completed, ordered, n - 1, scrape);
    var cur := RunPriority(completed, ordered, n, scrape);
    assert cur.1 == prev.1 || cur.1 == prev.1 + [n - 1];
    if i < n - 1 {
      RunPrioritySkipsCompleted(completed, ordered, n - 1, scrape, i);
    } else {
      assert n - 1 !in prev.1;
    }
  }

  /** The run's failure list does not carry over from earlier runs: a run
      that processes nothing ends with no failures in memory, whatever the
      checkpoint held. It saves nothing then, so the file keeps its old list. */
  lemma RunAllForgetsOldFailures(cp: Checkpoint, programs: seq<Record>, scrape: Scrape)
    requires forall i :: 0 <= i < |Ordered(programs)| ==> NumberAt(Ordered(programs), i) in cp.completed
    ensures RunAll(cp, programs, scrape).failed == []
  {
    var ordered := Ordered(programs);
    var r := RunPriority(cp.completed, ordered, |ordered|, scrape);
    if |r.1| > 0 {
      var i := r.1[0];
      RunPrioritySkipsCompleted(cp.completed, ordered, |ordered|, scrape, i);
      assert false;
    }
  }
}

=== FILE: program_cleaning.dfy ===
/**
 Preparing scraped priority programmes for the website
 (dfg-schwerpunkt/scripts/prepare_programs.py): metadata fields are cleaned,
 descriptions lose the page artefacts around them, and every programme gets a
 0-10 relevance estimate per topic.
 */
module ProgramCleaning {
  import opened Strings
  import opened Records
  import opened Sorting

  // ---------------------------------------------------------------------------
  // clean_field

  /** A prefix of a normalised text that ends on a non-blank is normalised. */
  lemma NormalizedPrefix(n: string, k: nat)
    requires Normalized(n) && k <= |n|
    requires k == 0 || !IsSpace(n[k - 1])
    ensures Normalized(n[..k])
  {
    var p := n[..k];
    forall i | 0 <= i < |p| - 1 && IsSpace(p[i])
      ensures !IsSpace(p[i + 1])
    {
      assert p[i] == n[i] && p[i + 1] == n[i + 1];
    }
  }

  /** On a normalised text `n`: a trailing "value" is removed together with the
      whitespace before it, and the result stripped. */
  function StripValueSuffix(n: string): (r: string)
    requires Normalized(n)
    ensures Normalized(r)
    ensures !EndsWith(n, "value") ==> r == n
    ensures EndsWith(n, "value") ==> n == r + "value" || n == r + " value"
  {
    if !EndsWith(n, "value") then n
    else
      var m := n[..|n| - 5];
      SplitAt(n, |n| - 5);
      var p := if m != [] && IsSpace(m[|m| - 1]) then m[..|m| - 1] else m;
      assert p == n[..|p|];
      assert |p| == 0 || !IsSpace(n[|p| - 1]);
      NormalizedPrefix(n, |p|);
      assert n == p + "value" || n == p + " value" by {
        if |p| < |m| {
          assert n[|m| - 1] == ' ';
          SplitAt(m, |m| - 1);
          assert m[|m| - 1..] == " ";
          Assoc(p, " ", "value");
        }
      }
      p
  }

  /** `clean_field`: whitespace runs collapse to one blank, the ends are
      stripped, and one trailing "value" left behind by the page script is
      removed. */
  function CleanField(value: string): (r: string)
    ensures value == [] ==> r == []
    ensures Normalized(r)
    ensures |r| <= |value|
    ensures !EndsWith(Normalize(value), "value") ==> r == Normalize(value)
    ensures EndsWith(Normalize(value), "value") ==>
      Normalize(value) == r + "value" || Normalize(value) == r + " value"
  {
    if value == [] then [] else StripValueSuffix(Normalize(value))
  }

  /** Only one trailing "value" goes. */
  lemma CleanFieldRemovesOnce()
    ensures StripValueSuffix("value value") == "value"
  {
    assert "value value"[..6] == "value ";
  }

  // ---------------------------------------------------------------------------
  // clean_description

  /** `s` without its leading whitespace run. */
  function SkipBlanks(s: string): (r: string)
    ensures IsSuffix(r, s)
    ensures r == [] || !IsSpace(r[0])
  {
    s[SpaceRun(s)..]
  }

  /** A blank gap in front of a text that does not open with a blank is
      skipped entirely. */
  lemma SkipBlanksGap(g: string, t: string)
    requires AllSpace(g)
    requires t == [] || !IsSpace(t[0])
    ensures SkipBlanks(g + t) == t
  {
    SpaceRunGap(g, t);
    assert (g + t)[|g|..] == t;
  }

  /** The whitespace run of a blank gap followed by a non-blank is the gap. */
  lemma {:induction false} SpaceRunGap(g: string, t: string)
    requires AllSpace(g)
    requires t == [] || !IsSpace(t[0])
    ensures SpaceRun(g + t) == |g|
    decreases |g|
  {
    if g == [] {
      assert g + t == t;
    } else {
      var s := g + t;
      assert s[0] == g[0];
      assert s[1..] == g[1..] + t;
      SpaceRunGap(g[1..], t);
    }
  }

  /** What follows the match of `^Projekt\s*SPP\s*\d+\s*:\s*` at the start of
      `d`, if it matches. Every repetition in the pattern is followed by a
      character it cannot consume, so the greedy match is the only one. */
  function MarkerRest(d: string): (r: Option<string>)
    ensures r.Some? ==> StartsWith(d, "Projekt") && |r.value| < |d| && IsSuffix(r.value, d)
    ensures r.Some? ==> r.value == [] || !IsSpace(r.value[0])
  {
    if !StartsWith(d, "Projekt") then None
    else
      var s1 := SkipBlanks(d[7..]);
      if !StartsWith(s1, "SPP") then None
      else
        var s2 := SkipBlanks(s1[3..]);
        var k := DigitRun(s2);
        if k == 0 then None
        else
          var s3 := SkipBlanks(s2[k..]);
          if !StartsWith(s3, ":") then None
          else
            var r := SkipBlanks(s3[1..]);
            SuffixOfDrop(d, 7, s1);
            SuffixOfDrop(s1, 3, s2);
            SuffixOfDrop(s2, k, s3);
            SuffixOfDrop(s3, 1, r);
            SuffixTrans(s2, s3, r);
            SuffixTrans(s1, s2, r);
            SuffixTrans(d, s1, r);
            Some(r)
  }

  /** `r` is a suffix of `s`. */
  predicate IsSuffix(r: string, s: string) {
    |r| <= |s| && r == s[|s| - |r|..]
  }

  /** A suffix of what is left after dropping `k` characters is a suffix of
      the whole. */
  lemma SuffixOfDrop(s: string, k: nat, r: string)
    requires k <= |s| && IsSuffix(r, s[k..])
    ensures IsSuffix(r, s) && |r| <= |s| - k
  {
    assert s[k..][|s| - k - |r|..] == s[|s| - |r|..];
  }

  lemma SuffixTrans(s: string, t: string, r: string)
    requires IsSuffix(t, s) && IsSuffix(r, t)
    ensures IsSuffix(r, s)
  {
    assert t[|t| - |r|..] == s[|s| - |r|..];
  }

  /** The description with a leading "Projekt SPP NNNN:" marker removed. */
  function StripProjectPrefix(d: string): (r: string)
    ensures |r| <= |d| && r == d[|d| - |r|..]
    ensures !StartsWith(d, "Projekt") ==> r == d
    ensures r != d ==> r == [] || !IsSpace(r[0])
  {
    match MarkerRest(d)
    case None => d
    case Some(rest) => rest
  }

  /** A description opening with `Projekt`, blanks, `SPP`, blanks, a number,
      blanks, a colon and blanks, followed by `rest`; each run of blanks may be
      empty. */
  function MarkedDescription(g1: string, g2: string, number: string, g3: string, g4: string, rest: string): string {
    "Projekt" + (g1 + ("SPP" + (g2 + (number + (g3 + (":" + (g4 + rest)))))))
  }

  /** After the word `p`, the blank gap `g` is skipped up to `t`. */
  lemma GapAfter(p: string, g: string, t: string)
    requires AllSpace(g)
    requires t == [] || !IsSpace(t[0])
    ensures StartsWith(p + (g + t), p)
    ensures SkipBlanks((p + (g + t))[|p|..]) == t
  {
    PrefixOfAppend(p, g + t);
    assert (p + (g + t))[|p|..] == g + t;
    SkipBlanksGap(g, t);
  }

  /** Blanks and a colon do not continue a number. */
  lemma BlankOrColon(g: string, x: string)
    requires AllSpace(g)
    ensures !IsDigit((g + (":" + x))[0])
  {
    if g == [] {
      assert (g + (":" + x))[0] == ':';
    } else {
      assert (g + (":" + x))[0] == g[0];
    }
  }

  /** The digit run of a number followed by a non-digit is the number. */
  lemma DigitsThen(number: string, x: string)
    requires forall k :: 0 <= k < |number| ==> IsDigit(number[k])
    requires x == [] || !IsDigit(x[0])
    ensures DigitRun(number + x) == |number|
  {
    var t := number + x;
    forall k | 0 <= k < |number| ensures IsDigit(t[k]) {
      assert t[k] == number[k];
    }
    assert |number| < |t| ==> t[|number|] == x[0];
    DigitRunIs(t, |number|);
  }

  /** From the number on: the digits, blanks, the colon and blanks are read,
      leaving `rest`. */
  lemma NumberTail(number: string, g3: string, g4: string, rest: string)
    requires AllSpace(g3) && AllSpace(g4)
    requires forall k :: 0 <= k < |number| ==> IsDigit(number[k])
    requires rest == [] || !IsSpace(rest[0])
    ensures var t := number + (g3 + (":" + (g4 + rest)));
      && DigitRun(t) == |number|
      && SkipBlanks(t[|number|..]) == ":" + (g4 + rest)
      && StartsWith(":" + (g4 + rest), ":")
      && SkipBlanks((":" + (g4 + rest))[1..]) == rest
  {
    GapAfter(number, g3, ":" + (g4 + rest));
    GapAfter(":", g4, rest);
    BlankOrColon(g3, g4 + rest);
    DigitsThen(number, g3 + (":" + (g4 + rest)));
  }

  /** Every such marker is removed entirely, whatever its blanks. */
  lemma StripProjectPrefixMatch(g1: string, g2: string, number: string, g3: string, g4: string, rest: string)
    requires AllSpace(g1) && AllSpace(g2) && AllSpace(g3) && AllSpace(g4)
    requires number != [] && forall k :: 0 <= k < |number| ==> IsDigit(number[k])
    requires rest == [] || !IsSpace(rest[0])
    ensures StripProjectPrefix(MarkedDescription(g1, g2, number, g3, g4, rest)) == rest
  {
    var x4 := g4 + rest;
    var t4 := ":" + x4;
    var x3 := g3 + t4;
    var t2 := number + x3;
    var x2 := g2 + t2;
    var t0 := "SPP" + x2;
    var x1 := g1 + t0;
    var d := "Projekt" + x1;
    assert d == MarkedDescription(g1, g2, number, g3, g4, rest);
    GapAfter("Projekt", g1, t0);
    GapAfter("SPP", g2, t2);
    NumberTail(number, g3, g4, rest);
    assert MarkerRest(d) == Some(rest);
  }

  /** Without a number the pattern does not match and nothing is removed. */
  lemma StripProjectPrefixNeedsNumber(g1: string, g2: string, rest: string)
    requires AllSpace(g1) && AllSpace(g2)
    requires rest == [] || (!IsSpace(rest[0]) && !IsDigit(rest[0]))
    ensures StripProjectPrefix("Projekt" + (g1 + ("SPP" + (g2 + rest)))) == "Projekt" + (g1 + ("SPP" + (g2 + rest)))
  {
    var x2 := g2 + rest;
    var t0 := "SPP" + x2;
    var x1 := g1 + t0;
    var d := "Projekt" + x1;
    PrefixOfAppend("Projekt", x1);
    assert d[7..] == x1;
    SkipBlanksGap(g1, t0);
    PrefixOfAppend("SPP", x2);
    assert t0[3..] == x2;
    SkipBlanksGap(g2, rest);
    DigitRunIs(rest, 0);
  }

  /** The page labels that may trail a description, in the order they are cut. */
  const MetadataLabels: seq<string> := [
    "Fachliche Zuordnung", "DFG-Verfahren", "F\U{F6}rderung",
    "Internationaler Bezug", "Sprecher", "Sprecherin",
    "Webseite", "Teilprojekt", "Kooperationspartner",
    "Ehemalige", "Mitverantwortlich", "Beteiligte",
    "Gastgeber", "Antragsteller", "Projektkennung",
    "Keine Zusammenfassung"
  ]

  /** When the marker occurs, the text is cut at its first occurrence and
      stripped. */
  function CutAt(d: string, marker: string): (r: string)
    ensures |r| <= |d|
    ensures marker != [] ==> !Contains(r, marker)
    ensures !Contains(d, marker) ==> r == d
    ensures Contains(d, marker) ==> r == Trim(d[..IndexOf(d, marker)])
    ensures forall w :: !Contains(d, w) ==> !Contains(r, w)
  {
    var i := IndexOf(d, marker);
    if i == -1 then d
    else
      assert marker != [] ==> !Contains(Trim(d[..i]), marker) by {
        if marker != [] {
          PrefixBeforeFirstHasNone(d, marker, i);
          TrimKeepsWordOut(d[..i], marker);
        }
      }
      forall w | !Contains(d, w)
        ensures !Contains(Trim(d[..i]), w)
      {
        NoneInSlice(d, w, 0, i);
        assert d[..i] == d[0..i];
        TrimKeepsWordOut(d[..i], w);
      }
      Trim(d[..i])
  }

  /** The labels cut one after the other, in list order. */
  function CutLabels(d: string, labels: seq<string>): (r: string)
    ensures |r| <= |d|
    ensures forall w :: !Contains(d, w) ==> !Contains(r, w)
    ensures forall l :: l in labels && l != [] ==> !Contains(r, l)
    ensures (forall k :: 0 <= k < |labels| ==> !Contains(d, labels[k])) ==> r == d
  {
    if labels == [] then d
    else
      var r := CutLabels(CutAt(d, labels[0]), labels[1..]);
      assert forall l :: l in labels ==> l == labels[0] || l in labels[1..];
      assert forall k :: 1 <= k < |labels| ==> labels[k] == labels[1..][k - 1];
      r
  }

  /** One unfolding step of the label cuts. */
  lemma CutLabelsCons(d: string, labels: seq<string>)
    requires labels != []
    ensures CutLabels(d, labels) == CutLabels(CutAt(d, labels[0]), labels[1..])
  {
  }

  /** Cutting at the labels of a concatenation is cutting at the first part's
      labels, then at the second part's: the cuts happen in list order. */
  lemma {:induction false} CutLabelsAppend(d: string, a: seq<string>, b: seq<string>)
    ensures CutLabels(d, a + b) == CutLabels(CutLabels(d, a), b)
    decreases |a|
  {
    if a == [] {
      assert a + b == b;
    } else {
      calc {
        CutLabels(d, a + b);
      == { CutLabelsCons(d, a + b); }
        CutLabels(CutAt(d, a[0]), (a + b)[1..]);
      == { assert (a + b)[1..] == a[1..] + b; }
        CutLabels(CutAt(d, a[0]), a[1..] + b);
      == { CutLabelsAppend(CutAt(d, a[0]), a[1..], b); }
        CutLabels(CutLabels(CutAt(d, a[0]), a[1..]), b);
      == { CutLabelsCons(d, a); }
        CutLabels(CutLabels(d, a), b);
      }
    }
  }

  /** Cutting at a list of labels is cutting at all but the last, then at the
      last. */
  lemma CutLabelsLast(d: string, labels: seq<string>)
    requires labels != []
    ensures CutLabels(d, labels) == CutAt(CutLabels(d, labels[..|labels| - 1]), labels[|labels| - 1])
  {
    var n := |labels|;
    assert labels == labels[..n - 1] + [labels[n - 1]];
    CutLabelsAppend(d, labels[..n - 1], [labels[n - 1]]);
    CutLabelsCons(CutLabels(d, labels[..n - 1]), [labels[n - 1]]);
  }

  /** A cleaned description: the project-number prefix and an opening title
      dropped, the text cut at the first metadata label, whitespace normalised,
      and a missing-summary notice removed. */
  function CleanDescription(desc: string, title: string): (r: string)
    ensures desc == [] ==> r == []
    ensures desc != [] ==> r == CleanBody(DropTitle(StripProjectPrefix(desc), title))
    ensures Normalized(r)
    ensures |r| <= |desc|
    ensures !StartsWith(LowerStr(r), "keine zusammenfassung")
    ensures forall k :: 0 <= k < |MetadataLabels| && NoSpace(MetadataLabels[k]) && MetadataLabels[k] != [] ==>
      !Contains(r, MetadataLabels[k])
  {
    if desc == [] then [] else CleanBody(DropTitle(StripProjectPrefix(desc), title))
  }

  /** The title removed, with the blanks after it, when the text opens with
      it; otherwise the text unchanged. */
  function DropTitle(d: string, title: string): (r: string)
    ensures |r| <= |d|
    ensures title != [] && StartsWith(d, title) ==> r == Trim(d[|title|..])
    ensures title == [] || !StartsWith(d, title) ==> r == d
  {
    if title != [] && StartsWith(d, title) then Trim(d[|title|..]) else d
  }

  /** The steps after the prefixes are gone: labels cut, whitespace
      normalised, and a missing-summary notice dropped. The result is the
      normalised cut text unless that opens with the notice. */
  function CleanBody(d: string): (r: string)
    ensures Normalized(r)
    ensures |r| <= |d|
    ensures !StartsWith(LowerStr(r), "keine zusammenfassung")
    ensures forall k :: 0 <= k < |MetadataLabels| && NoSpace(MetadataLabels[k]) && MetadataLabels[k] != [] ==>
      !Contains(r, MetadataLabels[k])
    ensures var n := Normalize(CutLabels(d, MetadataLabels));
      && (!StartsWith(LowerStr(n), "keine zusammenfassung") ==> r == n)
      && (StartsWith(LowerStr(n), "keine zusammenfassung") ==> r == [])
  {
    var d3 := CutLabels(d, MetadataLabels);
    var d4 := Normalize(d3);
    forall k | 0 <= k < |MetadataLabels| && NoSpace(MetadataLabels[k]) && MetadataLabels[k] != []
      ensures !Contains(d4, MetadataLabels[k])
    {
      NormalizeKeepsOut(d3, MetadataLabels[k]);
    }
    if StartsWith(LowerStr(d4), "keine zusammenfassung") then [] else d4
  }

  /** A description that opens with the title loses it, with the blanks after
      it; the rest is cleaned as a description of its own. */
  lemma TitleDropped(title: string, rest: string)
    requires title != [] && !StartsWith(title + rest, "Projekt")
    requires Trim(rest) != [] && !StartsWith(Trim(rest), "Projekt")
    ensures CleanDescription(title + rest, title) == CleanDescription(Trim(rest), "")
  {
    var d := title + rest;
    assert d[..|title|] == title;
    assert d[|title|..] == rest;
    assert DropTitle(StripProjectPrefix(d), title) == Trim(rest);
  }

  /** A description with nothing to remove (no project-number prefix, no
      opening title, no metadata label and no missing-summary notice) only has
      its whitespace normalised. */
  lemma CleanKeepsPlainText(desc: string, title: string)
    requires desc != [] && !StartsWith(desc, "Projekt")
    requires title == [] || !StartsWith(desc, title)
    requires forall k :: 0 <= k < |MetadataLabels| ==> !Contains(desc, MetadataLabels[k])
    requires !StartsWith(LowerStr(Normalize(desc)), "keine zusammenfassung")
    ensures CleanDescription(desc, title) == Normalize(desc)
  {
    assert StripProjectPrefix(desc) == desc;
    assert DropTitle(desc, title) == desc;
    assert CutLabels(desc, MetadataLabels) == desc;
  }

  /** A cleaned description never names the speaker or the web site. */
  lemma SpeakerAndSiteDropped(desc: string, title: string)
    ensures !Contains(CleanDescription(desc, title), "Sprecher")
    ensures !Contains(CleanDescription(desc, title), "Webseite")
  {
    LettersNoSpace("Sprecher");
    LettersNoSpace("Webseite");
    assert MetadataLabels[4] == "Sprecher";
    assert MetadataLabels[6] == "Webseite";
  }

  // ---------------------------------------------------------------------------
  // estimate_relevance

  /** The programme-level patterns. They are regular expressions applied with
      `re.search(..., re.IGNORECASE)`; the model treats matching as an
      uninterpreted predicate `matches(pattern, text)`. */
  const AiPatterns: seq<string> := [
    "k\U{FC}nstliche\\s+intelligenz", "\\bKI\\b", "maschinelles\\s+lernen",
    "machine\\s+learning", "deep\\s+learning", "neuronale[sn]?\\s+netz",
    "neural\\s+network", "computer\\s+vision", "\\bNLP\\b", "natural\\s+language",
    "sprachmodell", "language\\s+model", "reinforcement\\s+learning",
    "data[\\s-]driven", "datengetrieben", "\\bconnectom", "\\bkonnektom",
    "artificial\\s+intelligence", "entscheidungsunterst\U{FC}tzung",
    "decision\\s+support", "\\brobotik\\b", "\\brobotic\\b", "\\broboter\\b",
    "klassifikation", "classification", "quantum\\s+software",
    "quantum\\s+algorithm", "disinformation", "desinformation"
  ]

  const WearablesPatterns: seq<string> := [
    "\\bwearable", "\\btragbare?\\b", "\\bsensor(?:en|ik)?\\b", "\\bbiosensor",
    "e-textil", "smart\\s+textile", "smart\\s+clothing", "k\U{F6}rpersensor",
    "gesundheitsmonitor", "mobile\\s+sensor", "soft\\s+robot", "\\belastomer",
    "\\baktuator", "\\bactuator", "\\bimplant(?:at|ierbar)", "\\bimplantable\\b",
    "\\blunge\\b", "implantierbare\\s+lunge", "\\bbiomedizin", "\\bbiomedical\\b",
    "\\bprothes", "\\borthes", "\\borthoti", "\\bbiomimetisch", "\\bbiomimetic",
    "\\bmanipulator", "\\bgripper\\b", "\\bgreifer\\b", "\\bgaze\\b",
    "eye\\s+track", "blickbewegung", "\\bhapti[ck]", "\\baugmented\\s+(reality|human)"
  ]

  /** Number of patterns that match the text at least once; each pattern counts
      once however often it matches. */
  function CountMatching(patterns: seq<string>, text: string, matches: (string, string) -> bool): (n: nat)
    ensures n <= |patterns|
    ensures n == 0 <==> forall i :: 0 <= i < |patterns| ==> !matches(patterns[i], text)
    ensures n == |patterns| <==> forall i :: 0 <= i < |patterns| ==> matches(patterns[i], text)
  {
    if patterns == [] then 0
    else
      var rest := CountMatching(patterns[1..], text, matches);
      assert forall i :: 1 <= i < |patterns| ==> patterns[i] == patterns[1..][i - 1];
      (if matches(patterns[0], text) then 1 else 0) + rest
  }

  /** Whether a pattern matches the text. */
  function Matcher(text: string, matches: (string, string) -> bool): string -> bool {
    p => matches(p, text)
  }

  /** The count is the number of list entries that match the text. */
  lemma {:induction false} CountMatchingFilter(patterns: seq<string>, text: string, matches: (string, string) -> bool)
    ensures CountMatching(patterns, text, matches) == |Filter(patterns, Matcher(text, matches))|
    decreases |patterns|
  {
    if patterns != [] {
      CountMatchingFilter(patterns[1..], text, matches);
      FilterCons(patterns, Matcher(text, matches));
    }
  }

  /** The step mapping from a match count to a score. */
  function ScoreForMatches(k: nat): (r: nat)
    ensures r <= 10 && r % 2 == 0
    ensures r == if 2 * k <= 10 then 2 * k else 10
  {
    if k == 0 then 0
    else if k == 1 then 2
    else if k == 2 then 4
    else if 2 * k <= 10 then 2 * k else 10
  }

  /** More matching patterns never lower the score. */
  lemma ScoreMonotone(a: nat, b: nat)
    requires a <= b
    ensures ScoreForMatches(a) <= ScoreForMatches(b)
  {
  }

  /** The relevance estimate of a programme: points by the number of patterns
      that match its title and description joined by a blank. */
  function EstimateRelevance(title: string, description: string, patterns: seq<string>,
                             matches: (string, string) -> bool): (r: nat)
    ensures r in {0, 2, 4, 6, 8, 10}
    ensures r == 0 <==> forall i :: 0 <= i < |patterns| ==> !matches(patterns[i], title + " " + description)
  {
    ScoreForMatches(CountMatching(patterns, title + " " + description, matches))
  }
}

=== FILE: program_details.dfy ===
/**
 The programme-details scraper: each priority programme's GEPRIS page is read
 for its title, its labelled metadata (`<span class="name">` entries), its
 description, coordinator, contacts and funding years; a checkpoint of
 completed and failed programme numbers lets a run resume.

 A page is given as its `<title>` text (if any), its name spans with their
 parents' texts and the texts of its `content_frame` blocks, or as a failure.
 */
module ProgramDetails {
  import opened Strings
  import opened Records
  import opened Sorting
  import opened Gepris

  // ---------------------------------------------------------------------------
  // Metadata keys

  /** The German labels with a fixed English key. */
  const FieldMapping: map<string, string> := map[
    "Antragstellende" := "applicants",
    "Sprecher / Sprecherin" := "spokesperson",
    "Sprecherin / Sprecher" := "spokesperson",
    "Koordinatorin / Koordinator" := "coordinator",
    "Koordinator / Koordinatorin" := "coordinator",
    "Fachliche Zuordnung" := "subject_area",
    "F\U{F6}rderung" := "funding_period",
    "Laufzeit" := "duration",
    "Projektkennung" := "project_identifier",
    "Kontakt" := "contact",
    "E-Mail" := "email",
    "Telefon" := "phone",
    "Bewilligungsausschuss" := "approval_committee",
    "DFG-Verfahren" := "dfg_procedure",
    "Antragstellende Institution" := "applicant_institution",
    "Teilprojekt zu" := "subproject_of"
  ]

  /** The key of an unknown label: lowercased, ` / ` and then every space
      turned into `_`. */
  function DefaultKey(name: string): (k: string)
    ensures ' ' !in k
  {
    ReplaceAllCharRemoves(ReplaceAll(LowerStr(name), " / ", "_"), ' ', "_");
    ReplaceAll(ReplaceAll(LowerStr(name), " / ", "_"), " ", "_")
  }

  /** The record key a label is stored under: its entry in the field mapping,
      or the label made into a key. */
  function MetadataKey(name: string): (k: string)
    ensures name in FieldMapping ==> k == FieldMapping[name]
    ensures name !in FieldMapping ==> k == DefaultKey(name) && ' ' !in k
  {
    if name in FieldMapping then FieldMapping[name] else DefaultKey(name)
  }

  /** Both orders of the gendered labels reach the same key. */
  lemma GenderedLabelsAgree()
    ensures MetadataKey("Sprecher / Sprecherin") == MetadataKey("Sprecherin / Sprecher") == "spokesperson"
    ensures MetadataKey("Koordinatorin / Koordinator") == MetadataKey("Koordinator / Koordinatorin") == "coordinator"
  {
  }

  /** The metadata of a page: each span's value under its label's key, the
      last span with a key winning. */
  function Metadata(spans: seq<NameSpan>): map<string, string> {
    SpanMetadata(spans, MetadataKey)
  }

  /** A key is present exactly when some span's label maps to it, and then it
      holds the value of the last such span. */
  lemma MetadataValue(spans: seq<NameSpan>, j: nat)
    requires j < |spans|
    requires forall i :: j < i < |spans| ==> MetadataKey(spans[i].name) != MetadataKey(spans[j].name)
    ensures MetadataKey(spans[j].name) in Metadata(spans)
    ensures Metadata(spans)[MetadataKey(spans[j].name)] == SpanValue(spans[j])
  {
    SpanMetadataLastWins(spans, MetadataKey, j);
  }

  // ---------------------------------------------------------------------------
  // Funding years

  predicate FourDigitsAt(s: string, k: int) {
    0 <= k && k + 4 <= |s| && forall j :: k <= j < k + 4 ==> IsDigit(s[j])
  }

  /** `\s+` starting at `k`: the index after the run, when the run is not empty. */
  function SpacesAt(s: string, k: nat): (r: Option<nat>)
    ensures r.Some? ==> (k < r.value <= |s| && (forall j :: k <= j < r.value ==> IsSpace(s[j])) &&
                         (r.value == |s| || !IsSpace(s[r.value])))
    ensures r.None? <==> k >= |s| || !IsSpace(s[k])
  {
    if k < |s| && IsSpace(s[k]) then Some(SkipSpace(s, k)) else None
  }

  /** `seit\s+(\d{4})` matches at `i`. */
  predicate SeitAt(s: string, i: nat) {
    OccursAt(s, "seit", i) && SpacesAt(s, i + 4).Some? && FourDigitsAt(s, SpacesAt(s, i + 4).value)
  }

  /** Where `von\s+(\d{4})\s+bis\s+(\d{4})` matching at `i` has its two groups. */
  function VonBisGroups(s: string, i: nat): (r: Option<(nat, nat)>)
    ensures r.Some? ==> FourDigitsAt(s, r.value.0) && FourDigitsAt(s, r.value.1) && r.value.0 < r.value.1
  {
    if !OccursAt(s, "von", i) then None
    else match SpacesAt(s, i + 3)
      case None => None
      case Some(a) =>
        if !FourDigitsAt(s, a) then None
        else match SpacesAt(s, a + 4)
          case None => None
          case Some(b) =>
            if !OccursAt(s, "bis", b) then None
            else match SpacesAt(s, b + 3)
              case None => None
              case Some(c) => if FourDigitsAt(s, c) then Some((a, c)) else None
  }

  /** The first position where `seit\s+(\d{4})` matches, as `re.search` finds it. */
  function FirstSeit(period: string): (r: Option<nat>)
    ensures r.None? <==> forall i :: 0 <= i <= |period| ==> !SeitAt(period, i)
    ensures r.Some? ==> (r.value <= |period| && SeitAt(period, r.value) &&
                         forall j :: 0 <= j < r.value ==> !SeitAt(period, j))
  {
    var at: nat -> bool := (j: nat) => SeitAt(period, j);
    var i := FirstFrom(at, 0, |period| + 1);
    assert forall j: nat :: at(j) == SeitAt(period, j);
    if i == -1 then
      assert forall j :: 0 <= j <= |period| ==> !SeitAt(period, j) by {
        forall j | 0 <= j <= |period| ensures !SeitAt(period, j) { assert !at(j); }
      }
      None
    else Some(i)
  }

  /** The first position where `von\s+(\d{4})\s+bis\s+(\d{4})` matches. */
  function FirstVonBis(period: string): (r: Option<nat>)
    ensures r.None? <==> forall i :: 0 <= i <= |period| ==> VonBisGroups(period, i).None?
    ensures r.Some? ==> (r.value <= |period| && VonBisGroups(period, r.value).Some? &&
                         forall j :: 0 <= j < r.value ==> VonBisGroups(period, j).None?)
  {
    var at: nat -> bool := (j: nat) => VonBisGroups(period, j).Some?;
    var i := FirstFrom(at, 0, |period| + 1);
    assert forall j: nat :: at(j) == VonBisGroups(period, j).Some?;
    if i == -1 then
      assert forall j :: 0 <= j <= |period| ==> VonBisGroups(period, j).None? by {
        forall j | 0 <= j <= |period| ensures VonBisGroups(period, j).None? { assert !at(j); }
      }
      None
    else Some(i)
  }

  /** The four digits at `k`. */
  function YearAt(s: string, k: int): (y: string)
    requires FourDigitsAt(s, k)
    ensures |y| == 4 && forall j :: 0 <= j < 4 ==> IsDigit(y[j]) && y[j] == s[k + j]
  {
    s[k..k + 4]
  }

  /** The funding years recorded: both set, or neither touched. */
  datatype Funding = Years(start: string, end: string) | Unset

  /** The funding-period parse: a `seit` period gives the year of its first
      `seit` match and an open end; otherwise a `von … bis …` period gives the
      two years of its first match; a period with neither keyword gives two
      empty years; a keyword without a matching pattern sets nothing. The
      keywords are looked for ignoring case, the patterns are not. */
  function FundingYears(period: string): (f: Funding)
    ensures Contains(LowerStr(period), "seit") ==>
      (f.Unset? <==> FirstSeit(period).None?) &&
      (f.Years? ==> f.end == [] && f.start == YearAt(period, SpacesAt(period, FirstSeit(period).value + 4).value))
    ensures !Contains(LowerStr(period), "seit") && Contains(LowerStr(period), "von") && Contains(LowerStr(period), "bis") ==>
      (f.Unset? <==> FirstVonBis(period).None?) &&
      (f.Years? ==> f.start == YearAt(period, VonBisGroups(period, FirstVonBis(period).value).value.0) &&
                    f.end == YearAt(period, VonBisGroups(period, FirstVonBis(period).value).value.1))
    ensures !Contains(LowerStr(period), "seit") && !(Contains(LowerStr(period), "von") && Contains(LowerStr(period), "bis")) ==>
      f == Years([], [])
    ensures f.Years? ==> (|f.start| == 4 || f.start == []) && (|f.end| == 4 || f.end == [])
  {
    var lower := LowerStr(period);
    if Contains(lower, "seit") then
      match FirstSeit(period)
      case None => Unset
      case Some(i) => Years(YearAt(period, SpacesAt(period, i + 4).value), [])
    else if Contains(lower, "von") && Contains(lower, "bis") then
      match FirstVonBis(period)
      case None => Unset
      case Some(i) =>
        var g := VonBisGroups(period, i).value;
        Years(YearAt(period, g.0), YearAt(period, g.1))
    else Years([], [])
  }

  /** A concrete `seit` period. */
  lemma FundingSeitExample(p: string)
    requires p == "seit 2021"
    ensures FundingYears(p) == Years("2021", [])
  {
    SeitKeyword(p);
    SeitMatch(p);
    FundingFromSeit(p, 0, 5);
    assert p[5..9] == "2021";
  }

  lemma SeitMatch(p: string)
    requires p == "seit 2021"
    ensures SpacesAt(p, 4) == Some(5) && FourDigitsAt(p, 5) && FirstSeit(p) == Some(0)
  {
    OneSpaceAt(p, 4);
    assert OccursAt(p, "seit", 0) by { assert p[0..4] == "seit"; }
  }

  lemma FundingFromSeit(p: string, i: nat, k: nat)
    requires Contains(LowerStr(p), "seit")
    requires FirstSeit(p) == Some(i) && SpacesAt(p, i + 4) == Some(k)
    ensures FourDigitsAt(p, k) && FundingYears(p) == Years(YearAt(p, k), [])
  {
    assert SeitAt(p, i);
    var f := FundingYears(p);
    assert f.Years? && f.end == [];
  }

  /** A single blank followed by a non-blank is the whole whitespace run. */
  lemma OneSpaceAt(s: string, k: nat)
    requires k + 1 < |s| && IsSpace(s[k]) && !IsSpace(s[k + 1])
    ensures SpacesAt(s, k) == Some(k + 1)
  {
    SkipSpaceIs(s, k, k + 1);
  }

  lemma SeitKeyword(p: string)
    requires p == "seit 2021"
    ensures Contains(LowerStr(p), "seit")
  {
    var lower := LowerStr(p);
    assert lower[0..4] == "seit";
    assert OccursAt(lower, "seit", 0);
  }

  /** A concrete `von … bis …` period. */
  lemma FundingVonBisExample(p: string)
    requires p == "von 2019 bis 2025"
    ensures FundingYears(p) == Years("2019", "2025")
  {
    VonBisKeywords(p);
    VonBisMatch(p);
    assert FirstVonBis(p) == Some(0);
    FundingFromGroups(p, 4, 13);
    VonBisYears(p);
  }

  lemma VonBisYears(p: string)
    requires p == "von 2019 bis 2025"
    ensures FourDigitsAt(p, 4) && FourDigitsAt(p, 13)
    ensures YearAt(p, 4) == "2019" && YearAt(p, 13) == "2025"
  {
    assert p[4..8] == "2019";
    assert p[13..17] == "2025";
  }

  lemma FundingFromGroups(p: string, a: nat, b: nat)
    requires !Contains(LowerStr(p), "seit") && Contains(LowerStr(p), "von") && Contains(LowerStr(p), "bis")
    requires FirstVonBis(p) == Some(0) && VonBisGroups(p, 0) == Some((a, b))
    ensures FundingYears(p) == Years(YearAt(p, a), YearAt(p, b))
  {
  }

  lemma VonBisMatch(p: string)
    requires p == "von 2019 bis 2025"
    ensures VonBisGroups(p, 0) == Some((4, 13))
  {
    assert OccursAt(p, "von", 0) by { assert p[0..3] == "von"; }
    assert OccursAt(p, "bis", 9) by { assert p[9..12] == "bis"; }
    assert FourDigitsAt(p, 4) && FourDigitsAt(p, 13);
    VonBisSpaces(p);
  }

  lemma VonBisSpaces(p: string)
    requires p == "von 2019 bis 2025"
    ensures SpacesAt(p, 3) == Some(4) && SpacesAt(p, 8) == Some(9) && SpacesAt(p, 12) == Some(13)
  {
    assert p[3] == p[8] == p[12] == ' ';
    assert p[4] == p[13] == '2' && p[9] == 'b';
    OneSpaceAt(p, 3);
    OneSpaceAt(p, 8);
    OneSpaceAt(p, 12);
  }

  lemma VonBisKeywords(p: string)
    requires p == "von 2019 bis 2025"
    ensures !Contains(LowerStr(p), "seit")
    ensures Contains(LowerStr(p), "von") && Contains(LowerStr(p), "bis")
  {
    var lower := LowerStr(p);
    assert lower == p;
    assert OccursAt(lower, "von", 0) by { assert lower[0..3] == "von"; }
    assert OccursAt(lower, "bis", 9) by { assert lower[9..12] == "bis"; }
    forall i | 0 <= i <= |lower| - 4 ensures !OccursAt(lower, "seit", i) {
      assert lower[i..i + 4][1] == lower[i + 1] != 'e';
    }
  }

  // ---------------------------------------------------------------------------
  // One programme page

  /** A programme page, or the exception raised while loading it. */
  datatype ProgramPage = ProgramPage(title: Option<string>, spans: seq<NameSpan>, frames: seq<string>) | ProgramPageError

  /** The description: the second frame's text, else the only frame's, else `''`. */
  function FullDescription(frames: seq<string>): (r: string)
    ensures |frames| >= 2 ==> r == frames[1]
    ensures |frames| == 1 ==> r == frames[0]
    ensures frames == [] ==> r == []
  {
    if |frames| >= 2 then frames[1] else if |frames| == 1 then frames[0] else []
  }

  /** The coordinator: the spokesperson if recorded, else the coordinator, else `''`. */
  function CoordinatorName(metadata: map<string, string>): (r: string)
    ensures "spokesperson" in metadata ==> r == metadata["spokesperson"]
    ensures "spokesperson" !in metadata && "coordinator" in metadata ==> r == metadata["coordinator"]
    ensures "spokesperson" !in metadata && "coordinator" !in metadata ==> r == []
  {
    if "spokesperson" in metadata then metadata["spokesperson"]
    else Get(metadata, "coordinator", "")
  }

  /** What `extract_spp_program_details` returns, field by field: the
      dictionary has `title` only when the page has a title tag and
      `funding_start`/`funding_end` only when the period parse set them. */
  datatype Details = Details(
    url: string,
    title: Option<string>,
    metadata: map<string, string>,
    fullDescription: string,
    coordinatorName: string,
    contactEmail: string,
    contactPhone: string,
    contactGeneral: string,
    fundingPeriod: string,
    funding: Funding,
    subjectArea: string,
    approvalCommittee: string,
    applicantInstitution: string)

  /** `extract_spp_program_details`: `None` when loading fails. */
  function ExtractDetails(url: string, page: ProgramPage): (r: Option<Details>)
    ensures page.ProgramPageError? <==> r.None?
    ensures r.Some? ==> r.value.url == url && r.value.metadata == Metadata(page.spans)
    ensures r.Some? ==> (r.value.title.Some? <==> page.title.Some?)
    ensures r.Some? && page.title.Some? ==> r.value.title.value == PageTitle(page.title.value)
    ensures r.Some? ==> r.value.fullDescription == FullDescription(page.frames)
    ensures r.Some? ==> r.value.coordinatorName == CoordinatorName(r.value.metadata)
    ensures r.Some? ==> r.value.fundingPeriod == Get(r.value.metadata, "funding_period", "") &&
                        r.value.funding == FundingYears(r.value.fundingPeriod)
    ensures r.Some? ==> r.value.contactEmail == Get(r.value.metadata, "email", "") &&
                        r.value.contactPhone == Get(r.value.metadata, "phone", "") &&
                        r.value.contactGeneral == Get(r.value.metadata, "contact", "")
    ensures r.Some? ==> r.value.subjectArea == Get(r.value.metadata, "subject_area", "") &&
                        r.value.approvalCommittee == Get(r.value.metadata, "approval_committee", "") &&
                        r.value.applicantInstitution == Get(r.value.metadata, "applicant_institution", "")
  {
    match page
    case ProgramPageError => None
    case ProgramPage(title, spans, frames) =>
      var m := Metadata(spans);
      var period := Get(m, "funding_period", "");
      Some(Details(
        url,
        if title.Some? then Some(PageTitle(title.value)) else None,
        m,
        FullDescription(frames),
        CoordinatorName(m),
        Get(m, "email", ""),
        Get(m, "phone", ""),
        Get(m, "contact", ""),
        period,
        FundingYears(period),
        Get(m, "subject_area", ""),
        Get(m, "approval_committee", ""),
        Get(m, "applicant_institution", "")))
  }

  /** The coordinator read from a page is the value of its last spokesperson
      span, whichever order the gendered label is written in. */
  lemma ExtractedSpokesperson(url: string, page: ProgramPage, j: nat)
    requires page.ProgramPage? && j < |page.spans|
    requires page.spans[j].name in {"Sprecher / Sprecherin", "Sprecherin / Sprecher"}
    requires forall i :: j < i < |page.spans| ==> MetadataKey(page.spans[i].name) != "spokesperson"
    ensures ExtractDetails(url, page).value.coordinatorName == SpanValue(page.spans[j])
  {
    GenderedLabelsAgree();
    assert MetadataKey(page.spans[j].name) == "spokesperson";
    MetadataValue(page.spans, j);
  }

  // ---------------------------------------------------------------------------
  // The checkpoint loop

  /** Completed and failed programme numbers; a missing file reads as two
      empty lists. */
  datatype DetailCheckpoint = DetailCheckpoint(completed: set<string>, failed: set<string>)

  /** One entry of the output list: a programme's own data with empty
      description and coordinator (`{**spp, 'full_description': '',
      'coordinator_name': ''}`), or its own data overridden by the extracted
      details (`{**spp, **detailed}`). */
  datatype Entry = Basic(spp: Record) | Enriched(spp: Record, details: Details)

  /** The detail page url when it is set and not empty, else the url. */
  function DetailUrl(spp: Record): (r: string)
    ensures Get(spp, "detail_page_url", "") != [] ==> r == spp["detail_page_url"]
    ensures Get(spp, "detail_page_url", "") == [] ==> r == Get(spp, "url", "")
  {
    var d := Get(spp, "detail_page_url", "");
    if d != [] then d else Get(spp, "url", "")
  }

  /** The programme's number, or `SPP_i` for the programme numbered `i` from 1
      when it has none. */
  function DetailNumber(spp: Record, i: nat): string {
    Get(spp, "spp_number", "SPP_" + NatToString(i))
  }

  /** The entry a programme gets: enriched with the details read from its
      page exactly when it has a url and the page could be read, else its
      basic data. */
  predicate EntryOf(spp: Record, fetch: string -> ProgramPage, e: Entry) {
    && e.spp == spp
    && (e.Enriched? <==> DetailUrl(spp) != [] && !fetch(DetailUrl(spp)).ProgramPageError?)
    && (e.Enriched? ==> Some(e.details) == ExtractDetails(DetailUrl(spp), fetch(DetailUrl(spp))))
  }

  /** One programme that is not yet completed: without a url it is completed
      on its basic data; a read page enriches it and completes it; a failure
      keeps the basic data and marks it failed. */
  function ProcessOne(cp: DetailCheckpoint, spp: Record, number: string, fetch: string -> ProgramPage): (r: (DetailCheckpoint, Entry))
    requires number !in cp.completed
    ensures r.0.completed + r.0.failed == cp.completed + cp.failed + {number}
    ensures cp.completed <= r.0.completed && cp.failed <= r.0.failed
    ensures r.1.spp == spp
    ensures r.1.Enriched? <==> DetailUrl(spp) != [] && !fetch(DetailUrl(spp)).ProgramPageError?
    ensures r.1.Enriched? ==> Some(r.1.details) == ExtractDetails(DetailUrl(spp), fetch(DetailUrl(spp)))
    ensures r.1.Enriched? || DetailUrl(spp) == [] <==> r.0.completed == cp.completed + {number} && r.0.failed == cp.failed
    ensures DetailUrl(spp) != [] && fetch(DetailUrl(spp)).ProgramPageError? ==>
      r.0 == DetailCheckpoint(cp.completed, cp.failed + {number})
    ensures DetailUrl(spp) == [] || !fetch(DetailUrl(spp)).ProgramPageError? ==>
      r.0 == DetailCheckpoint(cp.completed + {number}, cp.failed)
    ensures EntryOf(spp, fetch, r.1)
  {
    var url := DetailUrl(spp);
    if url == [] then (DetailCheckpoint(cp.completed + {number}, cp.failed), Basic(spp))
    else match ExtractDetails(url, fetch(url))
      case Some(d) => (DetailCheckpoint(cp.completed + {number}, cp.failed), Enriched(spp, d))
      case None => (DetailCheckpoint(cp.completed, cp.failed + {number}), Basic(spp))
  }

  /** The loop over the first `n` programmes: the checkpoint, the entries, and
      the indices (from 0) of the programmes processed. */
  function RunDetails(cp: DetailCheckpoint, programs: seq<Record>, n: nat, fetch: string -> ProgramPage)
    : (r: (DetailCheckpoint, seq<Entry>, seq<nat>))
    requires n <= |programs|
    ensures |r.1| == |r.2|
    ensures forall k :: 0 <= k < |r.2| ==> r.2[k] < n && r.1[k].spp == programs[r.2[k]]
    ensures cp.completed <= r.0.completed && cp.failed <= r.0.failed
    ensures forall k :: 0 <= k < |r.2| ==> DetailNumber(programs[r.2[k]], r.2[k] + 1) in r.0.completed + r.0.failed
    ensures Increasing(r.2)
    ensures forall k :: 0 <= k < |r.2| ==> EntryOf(programs[r.2[k]], fetch, r.1[k])
    decreases n
  {
    if n == 0 then (cp, [], [])
    else
      var prev := RunDetails(cp, programs, n - 1, fetch);
      var number := DetailNumber(programs[n - 1], n);
      if number in prev.0.completed then prev
      else
        var step := ProcessOne(prev.0, programs[n - 1], number, fetch);
        (step.0, prev.1 + [step.1], prev.2 + [n - 1])
  }

  /** `main`: every programme of the list, in order. At the end every
      programme's number is completed or failed, and the output holds one
      entry per processed programme, in index order. */
  function RunAll(cp: DetailCheckpoint, programs: seq<Record>, fetch: string -> ProgramPage): (r: (DetailCheckpoint, seq<Entry>))
    ensures cp.completed <= r.0.completed && cp.failed <= r.0.failed
    ensures forall i :: 0 <= i < |programs| ==> DetailNumber(programs[i], i + 1) in r.0.completed + r.0.failed
    ensures var done := RunDetails(cp, programs, |programs|, fetch).2;
      && |r.1| == |done| && Increasing(done)
      && forall k :: 0 <= k < |done| ==> EntryOf(programs[done[k]], fetch, r.1[k])
  {
    var run := RunDetails(cp, programs, |programs|, fetch);
    RunDetailsCovers(cp, programs, fetch);
    (run.0, run.1)
  }

  /** The completed set only grows along the list. */
  lemma {:induction false} RunDetailsGrows(cp: DetailCheckpoint, programs: seq<Record>, m: nat, n: nat,
                                           fetch: string -> ProgramPage)
    requires m <= n <= |programs|
    ensures RunDetails(cp, programs, m, fetch).0.completed <= RunDetails(cp, programs, n, fetch).0.completed
    decreases n
  {
    if m < n {
      RunDetailsGrows(cp, programs, m, n - 1, fetch);
    }
  }

  /** A whole run leaves no programme behind: a programme skipped as
      completed stays completed, and a processed one joins one of the sets. */
  lemma RunDetailsCovers(cp: DetailCheckpoint, programs: seq<Record>, fetch: string -> ProgramPage)
    ensures var r := RunDetails(cp, programs, |programs|, fetch);
      forall i :: 0 <= i < |programs| ==> DetailNumber(programs[i], i + 1) in r.0.completed + r.0.failed
  {
    var r := RunDetails(cp, programs, |programs|, fetch);
    forall i | 0 <= i < |programs|
      ensures DetailNumber(programs[i], i + 1) in r.0.completed + r.0.failed
    {
      RunDetailsSkipsCompleted(cp, programs, |programs|, fetch, i);
      if i in r.2 {
        var k :| 0 <= k < |r.2| && r.2[k] == i;
      } else {
        RunDetailsGrows(cp, programs, i, |programs|, fetch);
      }
    }
  }

  /** Only completed programmes are skipped: a programme is processed exactly
      when its number is not completed when the loop reaches it, failed ones
      included. */
  lemma {:induction false} RunDetailsSkipsCompleted(cp: DetailCheckpoint, programs: seq<Record>, n: nat,
                                                    fetch: string -> ProgramPage, i: nat)
    requires i < n <= |programs|
    ensures i in RunDetails(cp, programs, n, fetch).2 <==>
      DetailNumber(programs[i], i + 1) !in RunDetails(cp, programs, i, fetch).0.completed
    decreases n
  {
    if i < n - 1 {
      RunDetailsSkipsCompleted(cp, programs, n - 1, fetch, i);
      RunDetailsStep(cp, programs, n, fetch, i);
    } else {
      RunDetailsStep(cp, programs, n, fetch, i);
    }
  }

  /** One step of the loop: index `n - 1` is listed exactly when that
      programme is not completed yet, and an earlier index is listed after the
      step exactly when it was before. */
  lemma RunDetailsStep(cp: DetailCheckpoint, programs: seq<Record>, n: nat, fetch: string -> ProgramPage, i: nat)
    requires i < n <= |programs|
    ensures i < n - 1 ==> (i in RunDetails(cp, programs, n, fetch).2 <==> i in RunDetails(cp, programs, n - 1, fetch).2)
    ensures i == n - 1 ==> (i in RunDetails(cp, programs, n, fetch).2 <==>
      DetailNumber(programs[i], i + 1) !in RunDetails(cp, programs, i, fetch).0.completed)
  {
  }

  /** A programme that failed before and now succeeds is completed but stays
      in the failed set: the two sets need not be disjoint. */
  lemma RerunSuccessStaysFailed(number: string, spp: Record, fetch: string -> ProgramPage)
    requires DetailUrl(spp) != [] && !fetch(DetailUrl(spp)).ProgramPageError?
    ensures number in ProcessOne(DetailCheckpoint({}, {number}), spp, number, fetch).0.completed
    ensures number in ProcessOne(DetailCheckpoint({}, {number}), spp, number, fetch).0.failed
  {
  }
}

=== FILE: project_filter.dfy ===
/**
 The browser-side project table: filtering by search terms, minimum score and
 programme, sorting, pagination, the page list under the table, the query
 string that records the filter, and the escaping and keyword tags of the
 project cards.
 */
module ProjectFilter {
  import opened Strings
  import opened Records
  import opened Sorting

  // ---------------------------------------------------------------------------
  // Filtering

  /** One row of the project table. */
  datatype ProjectData = ProjectData(
    id: string, title: string, pi: string, keywords: string, funding: string, url: string,
    ai: real, wear: real, combined: real, aiKw: string, wearKw: string,
    abstractText: string, subjectArea: string, dfgClass: string, spp: string, sppSlug: string)

  /** The filter as the page holds it. */
  datatype FilterState = FilterState(q: string, score: real, sort: string, page: int, spp: string, tab: string)

  const DefaultState: FilterState := FilterState("", 0.0, "score", 1, "", "")

  /** The two locale-dependent string operations the page uses, as
      parameters: `String.prototype.toLowerCase`, and the order of
      `localeCompare` (`atMost(a, b)` when `a.localeCompare(b) <= 0`). */
  datatype Locale = Locale(lower: string -> string, atMost: (string, string) -> bool)

  /** The searchable text of a project, lowercased: title, investigator,
      keywords and the two matched-keyword lists, joined by spaces. */
  function Haystack(loc: Locale, p: ProjectData): string {
    loc.lower(p.title + " " + p.pi + " " + p.keywords + " " + p.aiKw + " " + p.wearKw)
  }

  /** The search terms: the lowercased query cut at runs of JavaScript
      whitespace, empty pieces dropped. */
  function Terms(loc: Locale, q: string): (r: seq<string>)
    ensures forall k :: 0 <= k < |r| ==> r[k] != [] && forall j :: 0 <= j < |r[k]| ==> !IsJsSpace(r[k][j])
    ensures forall i :: 0 <= i < |loc.lower(q)| && !IsJsSpace(loc.lower(q)[i]) ==>
      exists k :: 0 <= k < |r| && loc.lower(q)[i] in r[k]
  {
    var r := Words(loc.lower(q), IsJsSpace);
    forall i | 0 <= i < |loc.lower(q)| && !IsJsSpace(loc.lower(q)[i])
      ensures exists k :: 0 <= k < |r| && loc.lower(q)[i] in r[k]
    {
      var k, j := WordsCover(loc.lower(q), IsJsSpace, i);
      assert r[k][j] == loc.lower(q)[i];
    }
    r
  }

  /** The terms are the maximal runs of the lowered query: a first run ended
      by whitespace is the first term, and the terms of the rest follow. */
  lemma TermsFirstRun(loc: Locale, q: string, w: string, c: char, rest: string)
    requires loc.lower(q) == w + [c] + rest && IsWord(w, IsJsSpace) && IsJsSpace(c)
    ensures Terms(loc, q) == [w] + Words(rest, IsJsSpace)
  {
    WordsAfterWord(w, c, rest, IsJsSpace);
  }

  predicate HasAllTerms(loc: Locale, p: ProjectData, terms: seq<string>) {
    forall t :: t in terms ==> Contains(Haystack(loc, p), t)
  }

  predicate ScoreAtLeast(p: ProjectData, score: real) {
    p.combined >= score
  }

  predicate InProgram(p: ProjectData, spp: string) {
    p.spp == spp
  }

  /** What a project must satisfy to be shown: every term found when there is
      a query, the combined score reached when the minimum is positive, the
      programme matching when one is chosen. */
  predicate Matches(loc: Locale, p: ProjectData, state: FilterState) {
    && (state.q != [] ==> HasAllTerms(loc, p, Terms(loc, state.q)))
    && (state.score > 0.0 ==> ScoreAtLeast(p, state.score))
    && (state.spp != [] ==> InProgram(p, state.spp))
  }

  /** The three filters, applied one after the other, keep exactly the
      matching projects, in input order. */
  function Selected(loc: Locale, data: seq<ProjectData>, state: FilterState): (r: seq<ProjectData>)
    ensures multiset(r) <= multiset(data)
    ensures forall k :: 0 <= k < |r| ==> Matches(loc, r[k], state)
    ensures forall k :: 0 <= k < |data| && Matches(loc, data[k], state) ==> data[k] in r
  {
    Filter(data, p => Matches(loc, p, state))
  }

  function Combined(p: ProjectData): real { p.combined }
  function Title(p: ProjectData): string { p.title }
  function Pi(p: ProjectData): string { p.pi }

  /** `filterProjects`: the matching projects, as a new list, sorted by
      combined score (highest first), by title or by investigator in the
      locale's order, or left in input order for any other sort key. Sorting
      needs the locale's order to be total and transitive. */
  function FilterProjects(loc: Locale, data: seq<ProjectData>, state: FilterState): (r: seq<ProjectData>)
    requires TotalPreorder(loc.atMost)
    ensures multiset(r) == multiset(Selected(loc, data, state))
    ensures forall k :: 0 <= k < |r| ==> Matches(loc, r[k], state)
    ensures forall p :: p in data && Matches(loc, p, state) ==> p in r
    ensures state.sort == "score" ==> SortedDesc(r, Combined)
    ensures state.sort == "title" ==> SortedBy(r, Title, loc.atMost)
    ensures state.sort == "pi" ==> SortedBy(r, Pi, loc.atMost)
    ensures state.sort !in {"score", "title", "pi"} ==> r == Selected(loc, data, state)
  {
    var selected := Selected(loc, data, state);
    var r :=
      if state.sort == "score" then SortDesc(selected, Combined)
      else if state.sort == "title" then SortBy(selected, Title, loc.atMost)
      else if state.sort == "pi" then SortBy(selected, Pi, loc.atMost)
      else selected;
    assert multiset(r) == multiset(selected);
    forall k | 0 <= k < |r| ensures Matches(loc, r[k], state) {
      assert r[k] in multiset(selected);
    }
    forall p | p in data && Matches(loc, p, state) ensures p in r {
      assert p in selected;
      assert p in multiset(r);
    }
    r
  }

  /** With no query, no minimum score and no programme every project is
      shown. */
  lemma NoFilterKeepsAll(loc: Locale, data: seq<ProjectData>, state: FilterState)
    requires TotalPreorder(loc.atMost)
    requires state.q == [] && state.score <= 0.0 && state.spp == []
    ensures multiset(FilterProjects(loc, data, state)) == multiset(data)
  {
    FilterAll(data, p => Matches(loc, p, state));
  }

  // ---------------------------------------------------------------------------
  // Pagination

  const PageSize: nat := 25

  /** Where `Array.prototype.slice` puts a bound: a negative one counts from
      the end, and every bound is clamped to the list. */
  function SliceBound(len: nat, x: int): (b: nat)
    ensures b <= len
    ensures 0 <= x ==> b == if x < len then x else len
    ensures x < 0 && len + x >= 0 ==> b == len + x
    ensures len + x < 0 ==> b == 0
  {
    if x < 0 then (if len + x < 0 then 0 else len + x) else if x < len then x else len
  }

  function Slice<T>(items: seq<T>, start: int, end: int): seq<T> {
    var s := SliceBound(|items|, start);
    var e := SliceBound(|items|, end);
    if s < e then items[s..e] else []
  }

  function Min(a: int, b: int): int { if a < b then a else b }

  /** `paginate`: the items of a page numbered from 1: at most 25 of them, from
      position (page − 1) · 25 on. */
  function Paginate<T>(items: seq<T>, page: int): (r: seq<T>)
    ensures |r| <= PageSize
    ensures page >= 1 ==> r == items[Min((page - 1) * PageSize, |items|)..Min(page * PageSize, |items|)]
    ensures page == 0 ==> r == []
  {
    Slice(items, (page - 1) * PageSize, (page - 1) * PageSize + PageSize)
  }

  /** A page before the first counts from the end of the list: page −1 of a
      list of at least 50 items is the window 50 to 25 items before its end. */
  lemma PaginateNegativePage<T>(items: seq<T>)
    requires |items| >= 50
    ensures Paginate(items, -1) == items[|items| - 50..|items| - 25]
  {
  }

  /** The number of 25-item pages a list of `total` items fills. */
  function PageCount(total: nat): (n: nat)
    ensures (n - 1) * PageSize < total <= n * PageSize || (total == 0 && n == 0)
  {
    (total + PageSize - 1) / PageSize
  }

  /** The pages 1 to `k` put together. */
  function Pages<T>(items: seq<T>, k: nat): seq<T> {
    if k == 0 then [] else Pages(items, k - 1) + Paginate(items, k)
  }

  /** The first `k` pages are the first `25 k` items. */
  lemma {:induction false} PagesPrefix<T>(items: seq<T>, k: nat)
    ensures Pages(items, k) == items[..Min(k * PageSize, |items|)]
    decreases k
  {
    if k > 0 {
      PagesPrefix(items, k - 1);
      var a := Min((k - 1) * PageSize, |items|);
      var b := Min(k * PageSize, |items|);
      assert items[..a] + items[a..b] == items[..b];
    }
  }

  /** Putting all pages together gives back the list. */
  lemma PagesCover<T>(items: seq<T>)
    ensures Pages(items, PageCount(|items|)) == items
  {
    PagesPrefix(items, PageCount(|items|));
  }

  // ---------------------------------------------------------------------------
  // The page list under the table

  /** A page button or the `…` between distant pages. */
  datatype PageItem = Num(n: nat) | Gap

  /** A page gets a button when it is the first, the last, or within two of
      the current one. */
  predicate Shown(i: int, totalPages: nat, current: int) {
    i == 1 || i == totalPages || (current - 2 <= i && i <= current + 2)
  }

  /** Gaps stand exactly for skipped pages in a list of the pages up to `n`:
      two buttons next to each other are for consecutive pages, and a gap
      follows a button and comes before a button more than one page further
      on, or ends the list before page `n`. */
  predicate GapsMarkJumps(r: seq<PageItem>, n: nat) {
    && (forall a :: 0 <= a < |r| - 1 && r[a].Num? && r[a + 1].Num? ==> r[a + 1].n == r[a].n + 1)
    && (forall a :: 0 <= a < |r| && r[a].Gap? ==> a > 0 && r[a - 1].Num?)
    && (forall a :: 0 < a < |r| - 1 && r[a].Gap? ==> r[a + 1].Num? && r[a - 1].n + 1 < r[a + 1].n)
    && (|r| > 1 && r[|r| - 1].Gap? ==> r[|r| - 2].n < n)
  }

  /** The items for pages 1 to `n`: a button for each page shown, and one `…`
      for each run of pages not shown. */
  function PageItems(totalPages: nat, current: int, n: nat): (r: seq<PageItem>)
    ensures forall i: nat :: Num(i) in r <==> 1 <= i <= n && Shown(i, totalPages, current)
    ensures forall a, b :: 0 <= a < b < |r| && r[a].Num? && r[b].Num? ==> r[a].n < r[b].n
    ensures forall a :: 0 <= a < |r| - 1 ==> !(r[a].Gap? && r[a + 1].Gap?)
    ensures n >= 1 ==> r != [] && r[0] == Num(1)
    ensures r != [] && r[|r| - 1].Num? ==> r[|r| - 1].n == n
    ensures forall a :: 0 <= a < |r| && r[a].Num? ==> r[a].n <= n
    decreases n
  {
    if n == 0 then []
    else
      var prev := PageItems(totalPages, current, n - 1);
      if Shown(n, totalPages, current) then prev + [Num(n)]
      else if prev != [] && prev[|prev| - 1] == Gap then prev
      else prev + [Gap]
  }

  /** Every gap in the page list stands for a run of skipped pages, and
      buttons side by side are for consecutive pages. */
  lemma {:induction false} PageItemsGaps(totalPages: nat, current: int, n: nat)
    ensures GapsMarkJumps(PageItems(totalPages, current, n), n)
    decreases n
  {
    var r := PageItems(totalPages, current, n);
    if n > 0 {
      var prev := PageItems(totalPages, current, n - 1);
      PageItemsGaps(totalPages, current, n - 1);
      if Shown(n, totalPages, current) {
        GapsThenButton(prev, n, r);
      } else if prev != [] && prev[|prev| - 1] == Gap {
        GapsWiden(prev, n, r);
      } else {
        assert n != 1 by {
          assert Shown(1, totalPages, current);
        }
        GapsThenGap(prev, n, r);
      }
    }
  }

  lemma GapsThenButton(prev: seq<PageItem>, n: nat, r: seq<PageItem>)
    requires n > 0 && GapsMarkJumps(prev, n - 1)
    requires prev != [] && prev[|prev| - 1].Num? ==> prev[|prev| - 1].n == n - 1
    requires r == prev + [Num(n)]
    ensures GapsMarkJumps(r, n)
  {
    forall a | 0 <= a < |r| - 1 && r[a].Num? && r[a + 1].Num?
      ensures r[a + 1].n == r[a].n + 1
    {
      assert r[a] == prev[a];
      if a + 1 < |prev| {
        assert r[a + 1] == prev[a + 1];
      }
    }
    forall a | 0 <= a < |r| && r[a].Gap?
      ensures a > 0 && r[a - 1].Num?
    {
      assert r[a] == prev[a];
    }
    forall a | 0 < a < |r| - 1 && r[a].Gap?
      ensures r[a + 1].Num? && r[a - 1].n + 1 < r[a + 1].n
    {
      assert r[a] == prev[a] && r[a - 1] == prev[a - 1];
      if a + 1 < |prev| {
        assert r[a + 1] == prev[a + 1];
      }
    }
  }

  lemma GapsThenGap(prev: seq<PageItem>, n: nat, r: seq<PageItem>)
    requires n > 0 && GapsMarkJumps(prev, n - 1)
    requires prev != [] && prev[|prev| - 1].Num? && prev[|prev| - 1].n == n - 1
    requires r == prev + [Gap]
    ensures GapsMarkJumps(r, n)
  {
    assert forall a :: 0 <= a < |prev| ==> r[a] == prev[a];
  }

  lemma GapsWiden(prev: seq<PageItem>, n: nat, r: seq<PageItem>)
    requires n > 0 && GapsMarkJumps(prev, n - 1) && r == prev
    ensures GapsMarkJumps(r, n)
  {
  }

  /** `renderPagination`'s page list: none when there is at most one page. */
  function Pagination(total: nat, current: int): (r: Option<seq<PageItem>>)
    ensures r.None? <==> PageCount(total) <= 1
    ensures r.Some? ==> Num(1) in r.value && Num(PageCount(total)) in r.value
    ensures r.Some? ==> forall i :: 1 <= i <= PageCount(total) && current - 2 <= i <= current + 2 ==> Num(i) in r.value
    ensures r.Some? ==> forall i: nat :: Num(i) in r.value <==> 1 <= i <= PageCount(total) && Shown(i, PageCount(total), current)
    ensures r.Some? ==> r.value[|r.value| - 1] == Num(PageCount(total)) && GapsMarkJumps(r.value, PageCount(total))
  {
    var totalPages := PageCount(total);
    if totalPages <= 1 then None
    else
      PageItemsGaps(totalPages, current, totalPages);
      Some(PageItems(totalPages, current, totalPages))
  }

  // ---------------------------------------------------------------------------
  // The query string

  /** A JavaScript number read by `parseInt`: an integer, or `NaN`. */
  datatype IntOrNaN = Int(i: int) | NaN

  /** The filter fields that may be set. */
  datatype PartialState = PartialState(
    q: Option<string>, score: Option<real>, sort: Option<string>, page: Option<IntOrNaN>, spp: Option<string>, tab: Option<string>)

  /** The query-string parameters the page writes. */
  datatype ParamKey = Q | Score | Sort | Page | Spp | Tab

  /** The parameter's name in the query string. */
  function KeyName(k: ParamKey): string {
    match k
    case Q => "q"
    case Score => "score"
    case Sort => "sort"
    case Page => "page"
    case Spp => "spp"
    case Tab => "tab"
  }

  /** No two parameters share a name, so reading the query string by name is
      reading it by parameter. */
  lemma KeyNamesDistinct(a: ParamKey, b: ParamKey)
    ensures KeyName(a) == KeyName(b) <==> a == b
  {
    if a != b {
      assert |"q"| == 1 && |"score"| == 5 && |"sort"| == 4 && |"page"| == 4 && |"spp"| == 3 && |"tab"| == 3;
      assert "sort"[0] != "page"[0] && "spp"[0] != "tab"[0];
    }
  }

  predicate WritesQ(s: PartialState) { s.q.Some? && s.q.value != [] }
  predicate WritesScore(s: PartialState) { s.score.Some? && s.score.value > 0.0 }
  predicate WritesSort(s: PartialState) { s.sort.Some? && s.sort.value != [] && s.sort.value != "score" }
  predicate WritesPage(s: PartialState) { s.page.Some? && s.page.value.Int? && s.page.value.i > 1 }
  predicate WritesSpp(s: PartialState) { s.spp.Some? && s.spp.value != [] }
  predicate WritesTab(s: PartialState) { s.tab.Some? && s.tab.value != [] && s.tab.value != "ai" }

  /** What `writeUrlState` sets for one parameter: the field's text when the
      field differs from its default, nothing otherwise. The score is written
      by `showNumber` (JavaScript's `String(number)`), the page in decimal. */
  function Written(s: PartialState, showNumber: real -> string, key: ParamKey): Option<string> {
    match key
    case Q => if WritesQ(s) then Some(s.q.value) else None
    case Score => if WritesScore(s) then Some(showNumber(s.score.value)) else None
    case Sort => if WritesSort(s) then Some(s.sort.value) else None
    case Page => if WritesPage(s) then Some(NatToString(s.page.value.i)) else None
    case Spp => if WritesSpp(s) then Some(s.spp.value) else None
    case Tab => if WritesTab(s) then Some(s.tab.value) else None
  }

  /** The order in which `writeUrlState` sets the parameters. */
  const KeyOrder: seq<ParamKey> := [Q, Score, Sort, Page, Spp, Tab]

  /** The parameters set for `keys`, in that order. */
  function ParamsFor(s: PartialState, showNumber: real -> string, keys: seq<ParamKey>): (r: seq<(ParamKey, string)>)
    ensures |r| <= |keys|
    ensures forall i :: 0 <= i < |r| ==> r[i].0 in keys && Written(s, showNumber, r[i].0) == Some(r[i].1)
  {
    if keys == [] then []
    else
      var w := Written(s, showNumber, keys[0]);
      (if w.Some? then [(keys[0], w.value)] else []) + ParamsFor(s, showNumber, keys[1..])
  }

  /** `writeUrlState`'s query string, as (parameter, text) pairs. */
  function UrlParams(s: PartialState, showNumber: real -> string): (r: seq<(ParamKey, string)>)
    ensures |r| <= 6
    ensures forall i :: 0 <= i < |r| ==> Written(s, showNumber, r[i].0) == Some(r[i].1)
  {
    ParamsFor(s, showNumber, KeyOrder)
  }

  /** The query string as text pairs. */
  function QueryPairs(params: seq<(ParamKey, string)>): (r: seq<(string, string)>)
    ensures |r| == |params|
    ensures forall i :: 0 <= i < |r| ==> r[i] == (KeyName(params[i].0), params[i].1)
  {
    if params == [] then [] else [(KeyName(params[0].0), params[0].1)] + QueryPairs(params[1..])
  }

  /** `URLSearchParams.get`: the value held for `key`, the first one if
      repeated. */
  function Lookup(params: seq<(ParamKey, string)>, key: ParamKey): Option<string> {
    if params == [] then None
    else if params[0].0 == key then Some(params[0].1)
    else Lookup(params[1..], key)
  }

  /** Reading one parameter back from those set for `keys` gives what was
      written for it, and nothing for a parameter not among `keys`. */
  lemma {:induction false} ParamsForLookup(s: PartialState, showNumber: real -> string, keys: seq<ParamKey>, key: ParamKey)
    ensures Lookup(ParamsFor(s, showNumber, keys), key) == if key in keys then Written(s, showNumber, key) else None
    decreases |keys|
  {
    if keys != [] {
      ParamsForLookup(s, showNumber, keys[1..], key);
      var w := Written(s, showNumber, keys[0]);
      var head: seq<(ParamKey, string)> := if w.Some? then [(keys[0], w.value)] else [];
      var tail := ParamsFor(s, showNumber, keys[1..]);
      assert ParamsFor(s, showNumber, keys) == head + tail;
      if w.Some? {
        assert (head + tail)[0] == (keys[0], w.value);
        assert (head + tail)[1..] == tail;
      } else {
        assert head + tail == tail;
      }
      assert key in keys <==> key == keys[0] || key in keys[1..];
    }
  }

  /** Reading the written parameters back gives each field exactly when it
      differs from its default: the text fields as they are, the score as
      `showNumber` wrote it, and the page as its decimal digits. */
  lemma UrlParamsReadBack(s: PartialState, showNumber: real -> string)
    ensures Lookup(UrlParams(s, showNumber), Q) == if WritesQ(s) then s.q else None
    ensures Lookup(UrlParams(s, showNumber), Score) == if WritesScore(s) then Some(showNumber(s.score.value)) else None
    ensures Lookup(UrlParams(s, showNumber), Sort) == if WritesSort(s) then s.sort else None
    ensures Lookup(UrlParams(s, showNumber), Page) == if WritesPage(s) then Some(NatToString(s.page.value.i)) else None
    ensures Lookup(UrlParams(s, showNumber), Spp) == if WritesSpp(s) then s.spp else None
    ensures Lookup(UrlParams(s, showNumber), Tab) == if WritesTab(s) then s.tab else None
  {
    forall key: ParamKey ensures Lookup(UrlParams(s, showNumber), key) == Written(s, showNumber, key) {
      ParamsForLookup(s, showNumber, KeyOrder, key);
    }
  }

  /** `parseInt(text, 10)`: leading JavaScript whitespace skipped, then an
      optional sign, then the longest run of decimal digits; `NaN` when that
      run is empty. */
  function ParseInt(text: string): IntOrNaN {
    ParseSigned(text[LeadingRun(text, IsJsSpace)..])
  }

  /** `parseInt` after the leading whitespace: an optional sign, then the
      digits. */
  function ParseSigned(t: string): IntOrNaN {
    if t != [] && t[0] == '-' then Negate(ParseDigits(t[1..]))
    else if t != [] && t[0] == '+' then ParseDigits(t[1..])
    else ParseDigits(t)
  }

  /** The value of the leading run of digits, `NaN` when there is none. */
  function ParseDigits(u: string): IntOrNaN {
    var run := DigitRun(u);
    if run == 0 then NaN else Int(DigitsValue(u[..run]))
  }

  function Negate(x: IntOrNaN): IntOrNaN {
    if x.NaN? then NaN else Int(-x.i)
  }

  lemma ParseIntShape(blank: string, sign: string, digits: string, rest: string)
    requires forall i :: 0 <= i < |blank| ==> IsJsSpace(blank[i])
    requires sign == "" || sign == "+" || sign == "-"
    requires digits != [] && forall i :: 0 <= i < |digits| ==> IsDigit(digits[i])
    requires rest == [] || !IsDigit(rest[0])
    ensures ParseInt(blank + sign + digits + rest)
         == Int(if sign == "-" then -(DigitsValue(digits) as int) else DigitsValue(digits))
  {
    var t := sign + (digits + rest);
    Assoc(sign, digits, rest);
    Assoc(blank, sign + digits, rest);
    Assoc(blank, sign, digits);
    Assoc(blank, sign, digits + rest);
    assert t[0] == if sign == "" then digits[0] else sign[0];
    SkipBlank(blank, t);
    ParseSignedShape(sign, digits, rest);
  }

  lemma ParseSignedShape(sign: string, digits: string, rest: string)
    requires sign == "" || sign == "+" || sign == "-"
    requires digits != [] && forall i :: 0 <= i < |digits| ==> IsDigit(digits[i])
    requires rest == [] || !IsDigit(rest[0])
    ensures ParseSigned(sign + (digits + rest))
         == Int(if sign == "-" then -(DigitsValue(digits) as int) else DigitsValue(digits))
  {
    var u := digits + rest;
    ParseDigitsShape(digits, rest);
    if sign == "-" {
      assert (sign + u)[0] == '-' && (sign + u)[1..] == u;
    } else if sign == "+" {
      assert (sign + u)[0] == '+' && (sign + u)[1..] == u;
    } else {
      assert sign + u == u;
      assert IsDigit(u[0]);
    }
  }

  /** A run of digits followed by a non-digit parses to the run's value. */
  lemma ParseDigitsShape(digits: string, rest: string)
    requires digits != [] && forall i :: 0 <= i < |digits| ==> IsDigit(digits[i])
    requires rest == [] || !IsDigit(rest[0])
    ensures ParseDigits(digits + rest) == Int(DigitsValue(digits))
  {
    var u := digits + rest;
    DigitRunIs(u, |digits|);
    assert u[..|digits|] == digits;
  }

  /** Leading JavaScript whitespace in front of a text that does not start
      with any is skipped exactly. */
  lemma SkipBlank(blank: string, t: string)
    requires forall i :: 0 <= i < |blank| ==> IsJsSpace(blank[i])
    requires t == [] || !IsJsSpace(t[0])
    ensures (blank + t)[LeadingRun(blank + t, IsJsSpace)..] == t
  {
    LeadingRunExact(blank + t, IsJsSpace, |blank|);
  }

  /** A text without sign or digits after its leading whitespace is `NaN`. */
  lemma ParseIntNaN(blank: string, rest: string)
    requires forall i :: 0 <= i < |blank| ==> IsJsSpace(blank[i])
    requires rest == [] || (!IsJsSpace(rest[0]) && !IsDigit(rest[0]) && rest[0] != '-' && rest[0] != '+')
    ensures ParseInt(blank + rest) == NaN
  {
    SkipBlank(blank, rest);
    assert ParseSigned(rest) == NaN by {
      if rest != [] { assert !IsDigit(rest[0]); }
    }
  }

  /** `parseInt` reads back a page number as the page writes it. */
  lemma ParseIntRendering(n: nat)
    ensures ParseInt(NatToString(n)) == Int(n)
  {
    NatToStringRoundTrip(n);
    ParseIntDigits(NatToString(n));
  }

  /** A text of digits alone parses to its value. */
  lemma ParseIntDigits(text: string)
    requires text != [] && forall i :: 0 <= i < |text| ==> IsDigit(text[i])
    ensures ParseInt(text) == Int(DigitsValue(text))
  {
    SkipBlank("", text);
    ParseDigitsShape(text, "");
    assert text + "" == text;
    assert IsDigit(text[0]);
  }

  /** A parameter's text when it is present and not empty. */
  function Present(params: seq<(ParamKey, string)>, key: ParamKey): Option<string> {
    var v := Lookup(params, key);
    if v.Some? && v.value != [] then v else None
  }

  /** `readUrlState`: the fields whose parameters are present and not empty;
      the score through `parseNumber` (JavaScript's `parseFloat`), the page
      through `parseInt`, which may give `NaN`. */
  function ReadUrlState(params: seq<(ParamKey, string)>, parseNumber: string -> real): (s: PartialState)
    ensures s.q.Some? <==> Present(params, Q).Some?
    ensures s.score.Some? <==> Present(params, Score).Some?
    ensures s.page.Some? <==> Present(params, Page).Some?
    ensures s.sort.Some? <==> Present(params, Sort).Some?
    ensures s.spp.Some? <==> Present(params, Spp).Some?
    ensures s.tab.Some? <==> Present(params, Tab).Some?
    ensures s.q.Some? ==> s.q == Lookup(params, Q) && s.q.value != []
    ensures s.sort.Some? ==> s.sort == Lookup(params, Sort) && s.sort.value != []
    ensures s.spp.Some? ==> s.spp == Lookup(params, Spp) && s.spp.value != []
    ensures s.tab.Some? ==> s.tab == Lookup(params, Tab) && s.tab.value != []
    ensures s.score.Some? ==> Lookup(params, Score).Some? && s.score.value == parseNumber(Lookup(params, Score).value)
    ensures s.page.Some? ==> Lookup(params, Page).Some? && s.page.value == ParseInt(Lookup(params, Page).value)
  {
    var q := Present(params, Q);
    var score := Present(params, Score);
    var page := Present(params, Page);
    PartialState(
      q,
      if score.Some? then Some(parseNumber(score.value)) else None,
      Present(params, Sort),
      if page.Some? then Some(ParseInt(page.value)) else None,
      Present(params, Spp),
      Present(params, Tab))
  }

  /** The fields of a state that differ from their defaults. */
  function NonDefault(s: PartialState): PartialState {
    PartialState(
      if WritesQ(s) then s.q else None,
      if WritesScore(s) then s.score else None,
      if WritesSort(s) then s.sort else None,
      if WritesPage(s) then s.page else None,
      if WritesSpp(s) then s.spp else None,
      if WritesTab(s) then s.tab else None)
  }

  /** Writing a state to the query string and reading it back gives the
      fields that differ from their defaults, provided `parseFloat` reads back
      what `String` writes for a positive score. */
  lemma UrlStateRoundTrip(s: PartialState, showNumber: real -> string, parseNumber: string -> real)
    requires forall x: real :: x > 0.0 ==> showNumber(x) != [] && parseNumber(showNumber(x)) == x
    ensures ReadUrlState(UrlParams(s, showNumber), parseNumber) == NonDefault(s)
  {
    UrlParamsReadBack(s, showNumber);
    if WritesPage(s) {
      ParseIntRendering(s.page.value.i);
    }
  }

  /** Writing only the non-default fields writes the same query string. */
  lemma UrlParamsNonDefault(s: PartialState, showNumber: real -> string)
    ensures UrlParams(NonDefault(s), showNumber) == UrlParams(s, showNumber)
  {
    var n := NonDefault(s);
    assert forall key :: Written(n, showNumber, key) == Written(s, showNumber, key);
    ParamsForSame(n, s, showNumber, KeyOrder);
  }

  lemma {:induction false} ParamsForSame(a: PartialState, b: PartialState, showNumber: real -> string, keys: seq<ParamKey>)
    requires forall key :: Written(a, showNumber, key) == Written(b, showNumber, key)
    ensures ParamsFor(a, showNumber, keys) == ParamsFor(b, showNumber, keys)
    decreases |keys|
  {
    if keys != [] {
      ParamsForSame(a, b, showNumber, keys[1..]);
    }
  }

  /** The default filter writes no parameters. */
  lemma DefaultWritesNothing(showNumber: real -> string)
    ensures UrlParams(PartialState(Some(""), Some(0.0), Some("score"), Some(Int(1)), Some(""), Some("")), showNumber) == []
  {
    var s := PartialState(Some(""), Some(0.0), Some("score"), Some(Int(1)), Some(""), Some(""));
    assert !WritesQ(s) && !WritesScore(s) && !WritesSort(s) && !WritesPage(s) && !WritesSpp(s) && !WritesTab(s);
    ParamsForNothing(s, showNumber, KeyOrder);
  }

  lemma {:induction false} ParamsForNothing(s: PartialState, showNumber: real -> string, keys: seq<ParamKey>)
    requires forall key :: Written(s, showNumber, key) == None
    ensures ParamsFor(s, showNumber, keys) == []
    decreases |keys|
  {
    if keys != [] {
      ParamsForNothing(s, showNumber, keys[1..]);
    }
  }

  // ---------------------------------------------------------------------------
  // Card text

  /** `escHtml`: `&`, `<`, `>` and `"` replaced by their character
      references, in that order. */
  function EscHtml(s: string): string {
    ReplaceChar(ReplaceChar(ReplaceChar(ReplaceChar(s, '&', "&amp;"), '<', "&lt;"), '>', "&gt;"), '"', "&quot;")
  }

  /** The escape of one character. */
  function EscChar(c: char): (r: string)
    ensures '<' !in r && '>' !in r && '"' !in r
    ensures r != []
  {
    match c
    case '&' => "&amp;"
    case '<' => "&lt;"
    case '>' => "&gt;"
    case '"' => "&quot;"
    case _ => [c]
  }

  /** Every character escaped on its own. */
  function EscEach(s: string): (r: string)
    ensures '<' !in r && '>' !in r && '"' !in r
  {
    if s == [] then [] else EscChar(s[0]) + EscEach(s[1..])
  }

  lemma ReplaceCharSingle(c: char, d: char, r: string)
    ensures ReplaceChar([c], d, r) == if c == d then r else [c]
  {
    assert [c][1..] == [];
  }

  /** A reference written by one step is left alone by the later ones. */
  lemma AmpKept()
    ensures ReplaceChar("&amp;", '<', "&lt;") == "&amp;"
    ensures ReplaceChar("&amp;", '>', "&gt;") == "&amp;"
    ensures ReplaceChar("&amp;", '"', "&quot;") == "&amp;"
  {
    AmpKeptBy('<', "&lt;");
    AmpKeptBy('>', "&gt;");
    AmpKeptBy('"', "&quot;");
  }

  lemma AmpKeptBy(c: char, r: string)
    requires c != '&' && c != 'a' && c != 'm' && c != 'p' && c != ';'
    ensures ReplaceChar("&amp;", c, r) == "&amp;"
  {
    ReplaceCharAbsent("&amp;", c, r);
  }

  lemma LtKept()
    ensures ReplaceChar("&lt;", '>', "&gt;") == "&lt;"
    ensures ReplaceChar("&lt;", '"', "&quot;") == "&lt;"
  {
    ReplaceCharAbsent("&lt;", '>', "&gt;");
    ReplaceCharAbsent("&lt;", '"', "&quot;");
  }

  lemma GtKept()
    ensures ReplaceChar("&gt;", '"', "&quot;") == "&gt;"
  {
    ReplaceCharAbsent("&gt;", '"', "&quot;");
  }

  lemma EscHtmlChar(c: char)
    ensures EscHtml([c]) == EscChar(c)
  {
    ReplaceCharSingle(c, '&', "&amp;");
    if c == '&' {
      AmpKept();
    } else {
      ReplaceCharSingle(c, '<', "&lt;");
      if c == '<' {
        LtKept();
      } else {
        ReplaceCharSingle(c, '>', "&gt;");
        if c == '>' {
          GtKept();
        } else {
          ReplaceCharSingle(c, '"', "&quot;");
        }
      }
    }
  }

  lemma EscHtmlAppend(a: string, b: string)
    ensures EscHtml(a + b) == EscHtml(a) + EscHtml(b)
  {
    ReplaceCharAppend(a, b, '&', "&amp;");
    var a1, b1 := ReplaceChar(a, '&', "&amp;"), ReplaceChar(b, '&', "&amp;");
    ReplaceCharAppend(a1, b1, '<', "&lt;");
    var a2, b2 := ReplaceChar(a1, '<', "&lt;"), ReplaceChar(b1, '<', "&lt;");
    ReplaceCharAppend(a2, b2, '>', "&gt;");
    var a3, b3 := ReplaceChar(a2, '>', "&gt;"), ReplaceChar(b2, '>', "&gt;");
    ReplaceCharAppend(a3, b3, '"', "&quot;");
  }

  /** The four replacements in a row escape each character on its own: no
      reference written by one step is touched by a later one. */
  lemma {:induction false} EscHtmlEach(s: string)
    ensures EscHtml(s) == EscEach(s)
    decreases |s|
  {
    if s != [] {
      HeadTail(s);
      EscHtmlAppend([s[0]], s[1..]);
      EscHtmlChar(s[0]);
      EscHtmlEach(s[1..]);
    }
  }

  /** Escaped text holds no `<`, `>` or `"`, so it cannot open a tag or close
      an attribute. */
  lemma EscHtmlSafe(s: string)
    ensures '<' !in EscHtml(s) && '>' !in EscHtml(s) && '"' !in EscHtml(s)
  {
    EscHtmlEach(s);
  }

  /** What a browser reads back from escaped text: the four character
      references turned back into their characters. */
  function Unescape(s: string): string
    decreases |s|
  {
    if s == [] then []
    else if StartsWith(s, "&amp;") then "&" + Unescape(s[5..])
    else if StartsWith(s, "&lt;") then "<" + Unescape(s[4..])
    else if StartsWith(s, "&gt;") then ">" + Unescape(s[4..])
    else if StartsWith(s, "&quot;") then "\"" + Unescape(s[6..])
    else [s[0]] + Unescape(s[1..])
  }

  lemma UnescapeLeading(w: string, c: char, rest: string)
    requires w in {"&amp;", "&lt;", "&gt;", "&quot;"} || w == [c]
    ensures (w + rest)[..|w|] == w && (w + rest)[|w|..] == rest
  {
  }

  lemma UnescapeAmp(rest: string)
    ensures Unescape("&amp;" + rest) == "&" + Unescape(rest)
  {
    UnescapeLeading("&amp;", '&', rest);
  }

  lemma UnescapeLt(rest: string)
    ensures Unescape("&lt;" + rest) == "<" + Unescape(rest)
  {
    var t := "&lt;" + rest;
    UnescapeLeading("&lt;", '<', rest);
    assert !StartsWith(t, "&amp;") by { assert t[1] != "&amp;"[1]; }
  }

  lemma UnescapeGt(rest: string)
    ensures Unescape("&gt;" + rest) == ">" + Unescape(rest)
  {
    var t := "&gt;" + rest;
    UnescapeLeading("&gt;", '>', rest);
    assert !StartsWith(t, "&amp;") by { assert t[1] != "&amp;"[1]; }
    assert !StartsWith(t, "&lt;") by { assert t[1] != "&lt;"[1]; }
  }

  lemma UnescapeQuot(rest: string)
    ensures Unescape("&quot;" + rest) == "\"" + Unescape(rest)
  {
    var t := "&quot;" + rest;
    UnescapeLeading("&quot;", '"', rest);
    assert !StartsWith(t, "&amp;") by { assert t[1] != "&amp;"[1]; }
    assert !StartsWith(t, "&lt;") by { assert t[1] != "&lt;"[1]; }
    assert !StartsWith(t, "&gt;") by { assert t[1] != "&gt;"[1]; }
  }

  lemma UnescapePlain(c: char, rest: string)
    requires c != '&'
    ensures Unescape([c] + rest) == [c] + Unescape(rest)
  {
    var t := [c] + rest;
    assert t[0] == c;
    assert t[1..] == rest;
  }

  lemma UnescapeChar(c: char, rest: string)
    ensures Unescape(EscChar(c) + rest) == [c] + Unescape(rest)
  {
    match c
    case '&' => UnescapeAmp(rest);
    case '<' => UnescapeLt(rest);
    case '>' => UnescapeGt(rest);
    case '"' => UnescapeQuot(rest);
    case _ => UnescapePlain(c, rest);
  }

  /** The browser shows exactly the text that was escaped. */
  lemma {:induction false} EscHtmlRoundTrip(s: string)
    ensures Unescape(EscHtml(s)) == s
    decreases |s|
  {
    EscHtmlEach(s);
    if s != [] {
      EscHtmlRoundTrip(s[1..]);
      EscHtmlEach(s[1..]);
      UnescapeChar(s[0], EscEach(s[1..]));
    }
  }

  /** `renderTags`: no chips for an empty list; otherwise one chip per
      comma-separated piece, empty pieces included, each trimmed and escaped. */
  function RenderTags(kwString: string): (r: seq<string>)
    ensures kwString == [] ==> r == []
    ensures kwString != [] ==> |r| == 1 + CountIn(kwString, {','})
    ensures kwString != [] ==> forall i :: 0 <= i < |r| ==> r[i] == EscHtml(Trim(SplitAny(kwString, {','})[i]))
  {
    if kwString == [] then [] else MapEsc(TrimAll(SplitAny(kwString, {','})))
  }

  /** No chip can open a tag or close the attribute it sits in. */
  lemma RenderTagsSafe(kwString: string, i: nat)
    requires i < |RenderTags(kwString)|
    ensures var chip := RenderTags(kwString)[i]; '<' !in chip && '>' !in chip && '"' !in chip
  {
    EscHtmlSafe(Trim(SplitAny(kwString, {','})[i]));
  }

  /** A card's keyword chips: the escaped keywords shown and, when some are
      left out, how many. */
  datatype KeywordTags = KeywordTags(shown: seq<string>, more: Option<int>)

  function MapEsc(kws: seq<string>): (r: seq<string>)
    ensures |r| == |kws|
    ensures forall i :: 0 <= i < |r| ==> r[i] == EscHtml(kws[i])
  {
    if kws == [] then [] else [EscHtml(kws[0])] + MapEsc(kws[1..])
  }

  /** `renderKeywordTags`: nothing for an empty keyword string; otherwise the
      keywords split at `,` and `;`, trimmed, empty ones dropped, the first
      `limit` of them escaped, and a `+n more` count when there are more. */
  function RenderKeywordTags(keywords: string, limit: int): (r: KeywordTags)
    ensures keywords == [] ==> r == KeywordTags([], None)
    ensures keywords != [] ==> r.shown == MapEsc(Slice(SplitKeywords(keywords), 0, limit))
    ensures keywords != [] ==> (r.more.Some? <==> |SplitKeywords(keywords)| > limit)
    ensures r.more.Some? ==> r.more.value == |SplitKeywords(keywords)| - limit
  {
    if keywords == [] then KeywordTags([], None)
    else
      var kws := SplitKeywords(keywords);
      var extra := |kws| - limit;
      KeywordTags(MapEsc(Slice(kws, 0, limit)), if extra > 0 then Some(extra) else None)
  }

  /** With a non-negative limit the chips shown are the first keywords, at
      most `limit` of them, and together with the `+n more` count they account
      for every keyword. */
  lemma KeywordTagsCount(keywords: string, limit: nat)
    requires keywords != []
    ensures var r := RenderKeywordTags(keywords, limit);
      var kws := SplitKeywords(keywords);
      && |r.shown| == Min(limit, |kws|)
      && (forall i :: 0 <= i < |r.shown| ==> r.shown[i] == EscHtml(kws[i]))
      && (r.more.Some? ==> |r.shown| + r.more.value == |kws|)
      && (r.more.None? ==> |r.shown| == |kws|)
  {
  }
}

=== FILE: project_pages.dfy ===
/**
 What the three index-checkpoint scrapers read from GEPRIS pages: project links
 made absolute, and the details of a project page, read either from its
 definition lists (`dt`/`dd` pairs) or from the first text node that names a
 field.

 A page is given as what the HTML parser would hand the code: link texts and
 `href`s, the text of the first element each abstractText selector finds, the
 paragraph texts, the definition lists, and the text nodes with their parents'
 texts. A page that cannot be loaded carries the exception's text.
 */
module ProjectPages {
  import opened Strings
  import opened Records
  import opened Gepris
  import opened Sorting

  // ---------------------------------------------------------------------------
  // Project links

  /** A project link as the listing scrapers store it. */
  datatype Found = Found(id: string, title: string, url: string)

  function FoundId(f: Found): string { f.id }

  const ProjectPattern: string := "/gepris/projekt/"

  /** A link selected by `find_all('a', href=re.compile(r'/gepris/projekt/\d+'))`,
      its `href` joined with the host and its id taken with `projekt/(\d+)`. */
  function FoundLink(link: Link): Option<Found> {
    if NumberAfter(link.href, ProjectPattern).None? then None
    else
      var url := JoinBase(link.href);
      match NumberAfter(url, "projekt/")
      case None => None
      case Some(id) => Some(Found(id, link.text, url))
  }

  /** Every link the selector matches yields a project; its url is the joined
      `href`, its id a non-empty run of digits, its title the link text. */
  lemma FoundLinkShape(link: Link)
    ensures FoundLink(link).Some? <==> NumberAfter(link.href, ProjectPattern).Some?
    ensures FoundLink(link).Some? ==>
      var f := FoundLink(link).value;
      && f.url == JoinBase(link.href) && StartsWith(f.url, "http") && f.title == link.text
      && f.id != [] && (forall k :: 0 <= k < |f.id| ==> IsDigit(f.id[k]))
  {
    if NumberAfter(link.href, ProjectPattern).Some? {
      var i :| NumberAt(link.href, ProjectPattern, i) && StartsWith(link.href[i + |ProjectPattern|..], NumberAfter(link.href, ProjectPattern).value);
      JoinedLinkHasNumber(link.href, i);
    }
  }

  /** A listed project as a record, carrying its programme's number. */
  function FoundRecord(f: Found, sppNumber: string): (r: Record)
    ensures r.Keys == {"project_id", "title", "url", "spp_number"}
    ensures r["project_id"] == f.id && r["url"] == f.url && r["spp_number"] == sppNumber
  {
    map["project_id" := f.id, "title" := f.title, "url" := f.url, "spp_number" := sppNumber]
  }

  /** The output file of one programme. */
  datatype SppOutput = SppOutput(number: string, title: string, count: nat, projects: seq<Project>)

  /** The output of a programme whose found projects are each read in turn;
      `projects_count` is the number found. */
  function Output(number: string, title: string, found: seq<Found>, read: Found -> Project): (o: SppOutput)
    ensures o.number == number && o.title == title
    ensures o.count == |o.projects| == |found|
    ensures forall k :: 0 <= k < |found| ==> o.projects[k] == read(found[k])
  {
    var projects := seq(|found|, k requires 0 <= k < |found| => read(found[k]));
    SppOutput(number, title, |projects|, projects)
  }

  // ---------------------------------------------------------------------------
  // Abstracts

  /** The first selector that found an element gives the text (which may be
      empty); `None` when none found one. */
  function FirstFound(texts: seq<Option<string>>): (r: Option<string>)
    ensures r.None? <==> forall k :: 0 <= k < |texts| ==> texts[k].None?
    ensures r.Some? ==> exists k :: 0 <= k < |texts| && texts[k] == r && forall j :: 0 <= j < k ==> texts[j].None?
  {
    if texts == [] then None
    else if texts[0].Some? then texts[0]
    else
      var r := FirstFound(texts[1..]);
      assert forall k :: 1 <= k < |texts| ==> texts[k] == texts[1..][k - 1];
      if r.Some? then
        var k :| 0 <= k < |texts[1..]| && texts[1..][k] == r && forall j :: 0 <= j < k ==> texts[1..][j].None?;
        assert texts[k + 1] == r;
        r
      else r
  }

  /** The first text of more than 100 characters, or `''`. */
  function FirstLong(paragraphs: seq<string>): (r: string)
    ensures r == [] || (|r| > 100 && r in paragraphs)
    ensures r == [] <==> forall k :: 0 <= k < |paragraphs| ==> |paragraphs[k]| <= 100
  {
    if paragraphs == [] then []
    else if |paragraphs[0]| > 100 then paragraphs[0]
    else
      var r := FirstLong(paragraphs[1..]);
      assert forall k :: 1 <= k < |paragraphs| ==> paragraphs[k] == paragraphs[1..][k - 1];
      r
  }

  /** The stealth scraper's abstract: the first selector's text, and when that
      is empty (no element, or an element without text) the first long
      paragraph. */
  function StealthAbstract(selected: seq<Option<string>>, paragraphs: seq<string>): (r: string)
    ensures FirstFound(selected).Some? && FirstFound(selected).value != [] ==> r == FirstFound(selected).value
    ensures (FirstFound(selected).None? || FirstFound(selected).value == []) ==> r == FirstLong(paragraphs)
  {
    var found := FirstFound(selected);
    if found.Some? && found.value != [] then found.value else FirstLong(paragraphs)
  }

  // ---------------------------------------------------------------------------
  // Definition-list labels

  /** The fields a `dt` label can fill. */
  datatype Category = Investigator | Institution | Period | Keywords | Classification | Unclassified

  /** The substrings that select each category, in the order they are tried;
      a classification dt must contain `dfg` and one of `classWords`. */
  datatype LabelTerms = LabelTerms(
    investigator: seq<string>, institution: seq<string>, period: seq<string>,
    keywords: seq<string>, classWords: seq<string>)

  /** `scrape_projects_stealth.py`'s lists. */
  const StealthTerms: LabelTerms := LabelTerms(
    ["antragsteller", "applicant", "principal"],
    ["institution", "universit\U{E4}t", "university", "hochschule"],
    ["laufzeit", "duration", "period", "f\U{F6}rderung"],
    ["fachgebiet", "subject", "keywords", "schlagwort"],
    ["systematik", "classification"])

  /** `scrape_projects_v2.py`'s lists. */
  const SearchTerms: LabelTerms := LabelTerms(
    ["antragsteller", "applicant", "principal"],
    ["institution", "universit\U{E4}t", "university"],
    ["laufzeit", "duration", "period", "f\U{F6}rderung"],
    ["fachgebiet", "subject", "keywords"],
    ["fachsystematik", "classification"])

  /** Some term occurs in the label. */
  predicate AnyIn(dt: string, terms: seq<string>) {
    exists k :: 0 <= k < |terms| && Contains(dt, terms[k])
  }

  /** The `if`/`elif` chain over a lowercased label: the first category whose
      terms occur in it. */
  function Classify(dt: string, t: LabelTerms): (c: Category)
    ensures c == Investigator <==> AnyIn(dt, t.investigator)
    ensures c == Institution <==> !AnyIn(dt, t.investigator) && AnyIn(dt, t.institution)
    ensures c == Period <==> !AnyIn(dt, t.investigator) && !AnyIn(dt, t.institution) && AnyIn(dt, t.period)
    ensures c == Keywords <==>
      !AnyIn(dt, t.investigator) && !AnyIn(dt, t.institution) && !AnyIn(dt, t.period) && AnyIn(dt, t.keywords)
    ensures c == Classification <==>
      !AnyIn(dt, t.investigator) && !AnyIn(dt, t.institution) && !AnyIn(dt, t.period) &&
      !AnyIn(dt, t.keywords) && Contains(dt, "dfg") && AnyIn(dt, t.classWords)
  {
    if AnyIn(dt, t.investigator) then Investigator
    else if AnyIn(dt, t.institution) then Institution
    else if AnyIn(dt, t.period) then Period
    else if AnyIn(dt, t.keywords) then Keywords
    else if Contains(dt, "dfg") && AnyIn(dt, t.classWords) then Classification
    else Unclassified
  }

  /** The project field each category fills. */
  function FieldOf(c: Category): string {
    match c
    case Investigator => "principal_investigator"
    case Institution => "institution"
    case Period => "funding_period"
    case Keywords => "keywords"
    case Classification => "dfg_classification"
    case Unclassified => ""
  }

  /** The string fields the definition lists fill, defaulted to `''`. */
  const TextFields: seq<string> := ["principal_investigator", "institution", "funding_period", "dfg_classification"]

  /** One `<dl>`: its `dt` texts and its `dd` texts, stripped. */
  datatype DefinitionList = DefinitionList(terms: seq<string>, descriptions: seq<string>)

  /** Terms and descriptions paired up to the shorter list. */
  function Zip(a: seq<string>, b: seq<string>): (r: seq<(string, string)>)
    ensures |r| == if |a| <= |b| then |a| else |b|
    ensures forall k :: 0 <= k < |r| ==> r[k] == (a[k], b[k])
  {
    var n := if |a| <= |b| then |a| else |b|;
    seq(n, k requires 0 <= k < n => (a[k], b[k]))
  }

  /** The label/value pairs of all lists, in document order. */
  function Pairs(dls: seq<DefinitionList>): (r: seq<(string, string)>)
    decreases |dls|
  {
    if dls == [] then [] else Pairs(dls[..|dls| - 1]) + Zip(dls[|dls| - 1].terms, dls[|dls| - 1].descriptions)
  }

  /** Each pair as an assignment `project[field] = value`; an unclassified
      dt assigns nothing (key `''`, which no field uses). */
  function Assignments(pairs: seq<(string, string)>, t: LabelTerms): (r: seq<(string, string)>)
    ensures |r| == |pairs|
    ensures forall k :: 0 <= k < |pairs| ==> r[k] == (FieldOf(Classify(LowerStr(pairs[k].0), t)), pairs[k].1)
  {
    seq(|pairs|, k requires 0 <= k < |pairs| => (FieldOf(Classify(LowerStr(pairs[k].0), t)), pairs[k].1))
  }

  /** A project with its details: its string fields, and its keyword list
      when the details were read. */
  datatype Project = Project(fields: Record, keywords: Option<seq<string>>)

  /** A project page as the detail scrapers see it, or the exception raised
      while loading it. */
  datatype DetailPage =
    | DetailPage(h1: Option<string>, selected: seq<Option<string>>, paragraphs: seq<string>, dls: seq<DefinitionList>)
    | PageError(message: string)

  /** The values assigned by the definition lists, the last assignment of a
      field winning. */
  function DlValues(dls: seq<DefinitionList>, t: LabelTerms): map<string, string> {
    LastWins(Assignments(Pairs(dls), t))
  }

  /** The record after the definition-list loop and the `setdefault` calls:
      an assigned value, else a value the project already had, else `''`. */
  function WithDefaults(fields: Record, values: map<string, string>): (r: Record)
    ensures forall k :: k in fields ==> k in r
    ensures forall j :: 0 <= j < |TextFields| ==> TextFields[j] in r
    ensures forall j :: 0 <= j < |TextFields| ==>
      r[TextFields[j]] == (if TextFields[j] in values then values[TextFields[j]] else Get(fields, TextFields[j], ""))
    ensures forall k :: k in fields && k !in TextFields ==> r[k] == fields[k]
  {
    map k | k in fields.Keys + set j | 0 <= j < |TextFields| :: TextFields[j] ::
      if k in TextFields && k in values then values[k] else Get(fields, k, "")
  }

  /** The keyword list: the last keywords value, split on `,` and `;`, or `[]`. */
  function KeywordList(values: map<string, string>): (r: seq<string>)
    ensures "keywords" !in values ==> r == []
    ensures forall k :: 0 <= k < |r| ==> r[k] != [] && r[k] == Trim(r[k]) && ',' !in r[k] && ';' !in r[k]
  {
    if "keywords" in values then SplitKeywords(values["keywords"]) else []
  }

  /** The keywords of a field are its split pieces, stripped, in the order they
      appear, with the blank ones dropped. */
  lemma KeywordPieces(value: string)
    ensures SplitKeywords(value) == Filter(MapSeq(SplitAny(value, {',', ';'}), Trim), Filled)
  {
    var parts := SplitAny(value, {',', ';'});
    assert TrimAll(parts) == MapSeq(parts, Trim);
    NonEmptyIsFilter(TrimAll(parts));
  }

  /** The record of a project read through its definition lists. */
  function DlRecord(project: Record, h1: Option<string>, abstractText: string, values: map<string, string>): (r: Record)
    ensures "abstract" in r && r["abstract"] == abstractText
    ensures h1.Some? ==> "full_title" in r && r["full_title"] == h1.value
    ensures forall j :: 0 <= j < |TextFields| ==> TextFields[j] in r
    ensures forall k :: k in project && k !in TextFields && k != "abstract" && k != "full_title" ==>
      k in r && r[k] == project[k]
  {
    var titled := if h1.Some? then project["full_title" := h1.value] else project;
    assert "abstract" !in TextFields && "full_title" !in TextFields;
    WithDefaults(titled["abstract" := abstractText], values)
  }

  /** `scrape_project_details` of the stealth and search scrapers: the `h1`
      text as full title, the abstract, the definition-list fields with their
      defaults and the keyword list; a load failure records `error` and keeps
      the project otherwise as it was. */
  function DlDetails(project: Record, page: DetailPage, t: LabelTerms, abstractText: string): (r: Project)
    ensures page.PageError? ==> r == Project(project["error" := page.message], None)
    ensures page.DetailPage? ==>
      && r.keywords == Some(KeywordList(DlValues(page.dls, t)))
      && r.fields == DlRecord(project, page.h1, abstractText, DlValues(page.dls, t))
  {
    match page
    case PageError(message) => Project(project["error" := message], None)
    case DetailPage(h1, _, _, dls) =>
      var values := DlValues(dls, t);
      Project(DlRecord(project, h1, abstractText, values), Some(KeywordList(values)))
  }

  /** The stealth scraper's details. */
  function StealthDetails(project: Record, page: DetailPage): Project {
    DlDetails(project, page, StealthTerms,
      if page.DetailPage? then StealthAbstract(page.selected, page.paragraphs) else "")
  }

  /** The search scraper's details: the first selector's text or `''`, no
      paragraph fallback. */
  function SearchDetails(project: Record, page: DetailPage): Project {
    DlDetails(project, page, SearchTerms,
      if page.DetailPage? && FirstFound(page.selected).Some? then FirstFound(page.selected).value else "")
  }

  /** A label's value reaches its field when no later pair assigns the same
      field. */
  lemma {:induction false} DlDetailsField(project: Record, page: DetailPage, t: LabelTerms, abstractText: string, k: nat)
    requires page.DetailPage?
    requires k < |Pairs(page.dls)|
    requires Classify(LowerStr(Pairs(page.dls)[k].0), t) !in {Keywords, Unclassified}
    requires forall i :: k < i < |Pairs(page.dls)| ==>
      Classify(LowerStr(Pairs(page.dls)[i].0), t) != Classify(LowerStr(Pairs(page.dls)[k].0), t)
    ensures var f := FieldOf(Classify(LowerStr(Pairs(page.dls)[k].0), t));
      f in DlDetails(project, page, t, abstractText).fields &&
      DlDetails(project, page, t, abstractText).fields[f] == Pairs(page.dls)[k].1
  {
    var pairs := Pairs(page.dls);
    var entries := Assignments(pairs, t);
    var c := Classify(LowerStr(pairs[k].0), t);
    forall i | k < i < |entries| ensures entries[i].0 != entries[k].0 {
      assert Classify(LowerStr(pairs[i].0), t) != c;
    }
    LastWinsValue(entries, k);
    assert FieldOf(c) in TextFields;
  }

  // ---------------------------------------------------------------------------
  // Details by text search (`scrape_projects.py`)

  /** A text node of the page and the text of its parent, if it has one. */
  datatype TextNode = TextNode(text: string, parent: Option<string>)

  /** A page for the text-search scraper, or the exception raised. */
  datatype TextPage =
    | TextPage(h1: Option<string>, byId: Option<string>, byClass: Option<string>, nodes: seq<TextNode>)
    | TextPageError(message: string)

  /** Some alternative of the pattern occurs in the text, ignoring case. */
  predicate MatchesAny(text: string, alternatives: seq<string>) {
    exists k :: 0 <= k < |alternatives| && Contains(LowerStr(text), LowerStr(alternatives[k]))
  }

  /** Node `k` is the first text node naming one of the alternatives, the one
      BeautifulSoup's `find` returns. */
  predicate FirstMatchAt(nodes: seq<TextNode>, alternatives: seq<string>, k: int) {
    && 0 <= k < |nodes| && MatchesAny(nodes[k].text, alternatives)
    && forall j :: 0 <= j < k ==> !MatchesAny(nodes[j].text, alternatives)
  }

  /** A node's parent text, or `''` when it has no parent. */
  function ParentOrEmpty(n: TextNode): string {
    if n.parent.Some? then n.parent.value else []
  }

  /** The stripped parent text of
      the first matching text node, or `''` when there is none or it has no
      parent. */
  function ParentTextOf(nodes: seq<TextNode>, alternatives: seq<string>): (r: string)
    ensures (forall k :: 0 <= k < |nodes| ==> !MatchesAny(nodes[k].text, alternatives)) ==> r == []
    ensures r != [] ==> exists k :: 0 <= k < |nodes| && MatchesAny(nodes[k].text, alternatives) && nodes[k].parent == Some(r)
  {
    if nodes == [] then []
    else if MatchesAny(nodes[0].text, alternatives) then
      if nodes[0].parent.Some? then nodes[0].parent.value else []
    else
      var r := ParentTextOf(nodes[1..], alternatives);
      assert forall k :: 1 <= k < |nodes| ==> nodes[k] == nodes[1..][k - 1];
      r
  }

  /** The text found is the parent text of the first node naming the field. */
  lemma {:induction false} ParentTextOfFirst(nodes: seq<TextNode>, alternatives: seq<string>)
    ensures forall k :: FirstMatchAt(nodes, alternatives, k) ==> ParentTextOf(nodes, alternatives) == ParentOrEmpty(nodes[k])
  {
    if nodes != [] {
      if !MatchesAny(nodes[0].text, alternatives) {
        ParentTextOfFirst(nodes[1..], alternatives);
        forall k | FirstMatchAt(nodes, alternatives, k)
          ensures ParentTextOf(nodes, alternatives) == ParentOrEmpty(nodes[k])
        {
          assert k != 0;
          assert nodes[1..][k - 1] == nodes[k];
          forall j | 0 <= j < k - 1 ensures !MatchesAny(nodes[1..][j].text, alternatives) {
            assert nodes[1..][j] == nodes[j + 1];
          }
          assert FirstMatchAt(nodes[1..], alternatives, k - 1);
        }
      }
    }
  }

  const InvestigatorPattern: seq<string> := ["Antragsteller", "Applicant", "Principal Investigator"]
  const InstitutionPattern: seq<string> := ["Institution", "Universit\U{E4}t", "University"]
  const PeriodPattern: seq<string> := ["Laufzeit", "Duration", "Period", "F\U{F6}rderung"]
  const KeywordPattern: seq<string> := ["Fachgebiet", "Subject", "Keywords", "Schlagw\U{F6}rter"]
  const ClassPattern: seq<string> := ["DFG-Fachsystematik", "DFG Classification"]

  /** `s` with every occurrence of the non-empty word `w` removed. */
  function RemoveAll(s: string, w: string): (r: string)
    requires w != []
    ensures |r| <= |s|
    ensures !Contains(s, w) ==> r == s
  {
    ReplaceAll(s, w, "")
  }

  /** The investigator text with the two label words removed and trimmed. */
  function InvestigatorText(parent: string): (r: string)
    ensures r == Trim(r)
    ensures |r| <= |parent|
    ensures !Contains(parent, "Antragsteller") && !Contains(parent, "Applicant") ==> r == Trim(parent)
  {
    var unlabelled := RemoveAll(RemoveAll(parent, "Antragsteller"), "Applicant");
    TrimIdempotent(unlabelled);
    Trim(unlabelled)
  }

  /** A parent reading `Antragsteller` and then a name gives the stripped name. */
  lemma InvestigatorTextOfLabel(name: string)
    requires !Contains(name, "Antragsteller") && !Contains(name, "Applicant")
    ensures InvestigatorText("Antragsteller" + name) == Trim(name)
  {
    ReplaceAllLeading("Antragsteller", name, "");
    assert "" + name == name;
  }

  /** The fields `scrape_projects.py` sets, besides `full_title`. */
  const SearchedFields: set<string> := {"abstract", "principal_investigator", "institution", "funding_period", "dfg_classification"}

  /** The record of a project read by text search. */
  function TextRecord(project: Record, h1: Option<string>, abstractText: string, pi: string, institution: string,
                      period: string, classification: string): (r: Record)
    ensures SearchedFields <= r.Keys
    ensures r["abstract"] == abstractText && r["principal_investigator"] == pi && r["institution"] == institution
    ensures r["funding_period"] == period && r["dfg_classification"] == classification
    ensures h1.Some? ==> "full_title" in r && r["full_title"] == h1.value
    ensures forall k :: k in project && k !in SearchedFields && k != "full_title" ==> k in r && r[k] == project[k]
  {
    var titled := if h1.Some? then project["full_title" := h1.value] else project;
    titled["abstract" := abstractText]["principal_investigator" := pi]["institution" := institution]
          ["funding_period" := period]["dfg_classification" := classification]
  }

  /** `v` is what the text search gives for a field: empty when no text node
      names it, and otherwise the parent text of the first node naming it. */
  predicate FoundByText(nodes: seq<TextNode>, alternatives: seq<string>, v: string) {
    && ((forall k :: 0 <= k < |nodes| ==> !MatchesAny(nodes[k].text, alternatives)) ==> v == [])
    && (forall k :: 0 <= k < |nodes| && FirstMatchAt(nodes, alternatives, k) ==> v == ParentOrEmpty(nodes[k]))
  }

  /** The text search's value satisfies `FoundByText`. */
  lemma ParentTextFound(nodes: seq<TextNode>, alternatives: seq<string>)
    ensures FoundByText(nodes, alternatives, ParentTextOf(nodes, alternatives))
  {
    ParentTextOfFirst(nodes, alternatives);
  }

  /** `scrape_projects.py`'s `scrape_project_details`: each field is the parent
      text of the first text node naming it (the investigator's with the label
      words removed), the abstract the first of the id and class selectors; a
      load failure records `error`. */
  function TextDetails(project: Record, page: TextPage): (r: Project)
    ensures page.TextPageError? ==>
      && "error" in r.fields && r.fields["error"] == page.message && r.keywords.None?
      && forall k :: k in project && k != "error" ==> k in r.fields && r.fields[k] == project[k]
    ensures page.TextPage? ==>
      && SearchedFields <= r.fields.Keys
      && r.fields["abstract"] == (if page.byId.Some? then page.byId.value else if page.byClass.Some? then page.byClass.value else "")
      && r.fields["principal_investigator"] == InvestigatorText(ParentTextOf(page.nodes, InvestigatorPattern))
      && FoundByText(page.nodes, InstitutionPattern, r.fields["institution"])
      && FoundByText(page.nodes, PeriodPattern, r.fields["funding_period"])
      && FoundByText(page.nodes, ClassPattern, r.fields["dfg_classification"])
      && (page.h1.Some? ==> "full_title" in r.fields && r.fields["full_title"] == page.h1.value)
      && (forall k :: k in project && k !in SearchedFields && k != "full_title" ==> k in r.fields && r.fields[k] == project[k])
      && r.keywords.Some?
      && (forall k :: 0 <= k < |r.keywords.value| ==> r.keywords.value[k] != [] && r.keywords.value[k] == Trim(r.keywords.value[k]))
      && r.keywords.value == SplitKeywords(ParentTextOf(page.nodes, KeywordPattern))
  {
    match page
    case TextPageError(message) => Project(project["error" := message], None)
    case TextPage(h1, byId, byClass, nodes) =>
      ParentTextFound(nodes, InstitutionPattern);
      ParentTextFound(nodes, PeriodPattern);
      ParentTextFound(nodes, ClassPattern);
      var abstractText := if byId.Some? then byId.value else if byClass.Some? then byClass.value else "";
      Project(TextRecord(project, h1, abstractText, InvestigatorText(ParentTextOf(nodes, InvestigatorPattern)),
                         ParentTextOf(nodes, InstitutionPattern), ParentTextOf(nodes, PeriodPattern),
                         ParentTextOf(nodes, ClassPattern)),
              Some(SplitKeywords(ParentTextOf(nodes, KeywordPattern))))
  }
}

=== FILE: projects_list.dfy ===
/**
 The first project scraper: each programme's project-list page is read, its
 project links collected once per id, and each project page read by searching
 its text for the field names. The index checkpoint records progress.

 Loading a page is a function parameter returning the page's links, or `None`
 when loading raises.
 */
module ProjectsList {
  import opened Strings
  import opened Records
  import opened Sorting
  import opened Gepris
  import opened ProjectPages
  import opened IndexedResume

  /** `r` is drawn from the project links of `links` and holds a project for
      every id they carry. */
  predicate ListsEveryId(links: seq<Link>, r: seq<Found>) {
    && (forall i :: 0 <= i < |r| ==> r[i] in FilterMap(links, FoundLink))
    && (forall j :: 0 <= j < |links| && FoundLink(links[j]).Some? ==> FoundLink(links[j]).value.id in KeysOf(r, FoundId))
  }

  /** `scrape_project_list`: `[]` without a url or when loading raises;
      otherwise the project links of the page, the first of each id, in page
      order. */
  function ScrapeProjectList(projectsUrl: string, load: string -> Option<seq<Link>>): (r: seq<Found>)
    ensures projectsUrl == [] || load(projectsUrl).None? ==> r == []
    ensures forall i, j :: 0 <= i < j < |r| ==> r[i].id != r[j].id
    ensures projectsUrl != [] && load(projectsUrl).Some? ==> ListsEveryId(load(projectsUrl).value, r)
    ensures projectsUrl != [] && load(projectsUrl).Some? ==>
      FirstOfEachKey(FilterMap(load(projectsUrl).value, FoundLink), FoundId, r)
  {
    if projectsUrl == [] then []
    else match load(projectsUrl)
      case None => []
      case Some(links) =>
        var found := FilterMap(links, FoundLink);
        var r := UniqueBy(found, FoundId);
        forall j | 0 <= j < |links| && FoundLink(links[j]).Some?
          ensures FoundLink(links[j]).value.id in KeysOf(r, FoundId)
        {
          var k :| 0 <= k < |found| && found[k] == FoundLink(links[j]).value;
          assert FoundId(found[k]) in KeysOf(r, FoundId);
        }
        assert forall i, j :: 0 <= i < j < |r| ==> r[i].id != r[j].id by {
          forall i, j | 0 <= i < j < |r| ensures r[i].id != r[j].id {
            assert FoundId(r[i]) != FoundId(r[j]);
          }
        }
        r
  }

  /** No project before position `j` has the id of the one at `j`. */
  predicate FirstWithId(found: seq<Found>, j: nat)
    requires j < |found|
  {
    forall k :: 0 <= k < j ==> found[k].id != found[j].id
  }

  /** `x` is the first project of `found` that carries its id. */
  predicate FirstOfItsId(found: seq<Found>, x: Found) {
    exists j: nat :: j < |found| && found[j] == x && FirstWithId(found, j)
  }

  /** Each listed project is the first project link on the page with its
      id. */
  lemma ListedFirst(projectsUrl: string, load: string -> Option<seq<Link>>, i: nat)
    requires i < |ScrapeProjectList(projectsUrl, load)|
    ensures FirstOfItsId(FilterMap(load(projectsUrl).value, FoundLink), ScrapeProjectList(projectsUrl, load)[i])
  {
    assert projectsUrl != [] && load(projectsUrl).Some?;
    var found := FilterMap(load(projectsUrl).value, FoundLink);
    var r := ScrapeProjectList(projectsUrl, load);
    assert r == UniqueBy(found, FoundId);
    var j := FirstIndex(found, i);
    assert found[j] == r[i] && FirstWithId(found, j);
  }

  /** Where in the candidate list the `i`-th listed project comes from. */
  lemma FirstIndex(found: seq<Found>, i: nat) returns (j: nat)
    requires i < |UniqueBy(found, FoundId)|
    ensures j < |found| && found[j] == UniqueBy(found, FoundId)[i] && FirstWithId(found, j)
  {
    j := UniqueByFirst(found, FoundId, i);
  }

  /** Each listed project's url is its link joined with the host, and its id
      is the link's number. */
  lemma ListedProjectShape(projectsUrl: string, load: string -> Option<seq<Link>>, i: nat)
    requires i < |ScrapeProjectList(projectsUrl, load)|
    ensures var f := ScrapeProjectList(projectsUrl, load)[i];
      StartsWith(f.url, "http") && f.id != [] &&
      exists j :: 0 <= j < |load(projectsUrl).value| && f.url == JoinBase(load(projectsUrl).value[j].href)
  {
    var links := load(projectsUrl).value;
    var f := ScrapeProjectList(projectsUrl, load)[i];
    var j :| 0 <= j < |links| && FoundLink(links[j]) == Some(f);
    FoundLinkShape(links[j]);
  }

  /** The page to list: `projects_url`, else `detail_page_url`, else `url`
      (a present but empty `detail_page_url` is used as it is). */
  function ProjectsUrl(spp: Record): (r: string)
    ensures Get(spp, "projects_url", "") != [] ==> r == spp["projects_url"]
    ensures Get(spp, "projects_url", "") == [] && "detail_page_url" in spp ==> r == spp["detail_page_url"]
    ensures Get(spp, "projects_url", "") == [] && "detail_page_url" !in spp ==> r == Get(spp, "url", "")
  {
    var p := Get(spp, "projects_url", "");
    if p != [] then p else Get(spp, "detail_page_url", Get(spp, "url", ""))
  }

  /** One programme: its projects listed and each read with the text-search
      details. */
  function ScrapeProgram(spp: Record, i: nat, load: string -> Option<seq<Link>>, fetch: string -> TextPage): (o: SppOutput)
    ensures o.number == ResumeNumber(spp, i) && o.title == Get(spp, "title", "")
    ensures o.count == |o.projects| == |ScrapeProjectList(ProjectsUrl(spp), load)|
    ensures forall k :: 0 <= k < |o.projects| ==>
      o.projects[k] == TextDetails(FoundRecord(ScrapeProjectList(ProjectsUrl(spp), load)[k], o.number),
                                   fetch(ScrapeProjectList(ProjectsUrl(spp), load)[k].url))
  {
    var number := ResumeNumber(spp, i);
    Output(number, Get(spp, "title", ""), ScrapeProjectList(ProjectsUrl(spp), load), f => TextDetails(FoundRecord(f, number), fetch(f.url)))
  }

  /** `main`: the checkpoint after the run and, for each processed programme
      in index order, its scrape. */
  function RunAll(cp: IndexCheckpoint, programs: seq<Record>, load: string -> Option<seq<Link>>,
                fetch: string -> TextPage): (r: (IndexCheckpoint, seq<SppOutput>))
    ensures r.0 == Resume(cp, programs).0
    ensures |r.1| == |Resume(cp, programs).1|
    ensures forall k :: 0 <= k < |r.1| ==>
      var i := Resume(cp, programs).1[k]; r.1[k] == ScrapeProgram(programs[i], i, load, fetch)
    ensures forall k :: 0 <= k < |r.1| ==> r.1[k].number == r.0.completed[|cp.completed| + k]
  {
    var run := Resume(cp, programs);
    ResumeNumbers(cp, programs);
    (run.0, ScrapeEach(programs, run.1, load, fetch))
  }

  /** The scrape of each listed programme, in list order. */
  function ScrapeEach(programs: seq<Record>, done: seq<nat>, load: string -> Option<seq<Link>>,
                      fetch: string -> TextPage): (r: seq<SppOutput>)
    requires forall k :: 0 <= k < |done| ==> done[k] < |programs|
    ensures |r| == |done|
    ensures forall k :: 0 <= k < |done| ==> r[k] == ScrapeProgram(programs[done[k]], done[k], load, fetch)
    ensures forall k :: 0 <= k < |done| ==> r[k].number == ResumeNumber(programs[done[k]], done[k])
  {
    seq(|done|, k requires 0 <= k < |done| => ScrapeProgram(programs[done[k]], done[k], load, fetch))
  }
}

=== FILE: projects_search.dfy ===
/**
 The search-based project scraper: GEPRIS's simple search is asked for the
 programme's bare number, the project links of the result page are collected
 once per id, and each project page is read through its definition lists. The
 index checkpoint records progress.

 Running the search is a function parameter returning the result page's
 links, or `None` when it raises.
 */
module ProjectsSearch {
  import opened Strings
  import opened Records
  import opened Sorting
  import opened Gepris
  import opened ProjectPages
  import opened IndexedResume

  /** The search box text: the number with every `SPP ` removed, trimmed. */
  function SearchTerm(sppNumber: string): (r: string)
    ensures r == Trim(r)
    ensures |r| <= |sppNumber|
  {
    var r := Trim(ReplaceAll(sppNumber, "SPP ", ""));
    TrimIdempotent(ReplaceAll(sppNumber, "SPP ", ""));
    r
  }

  predicate Digits(s: string) {
    forall k :: 0 <= k < |s| ==> IsDigit(s[k])
  }

  /** A number of the form `SPP 2199` is searched as `2199`. */
  lemma SearchTermOfNumber(digits: string)
    requires Digits(digits)
    ensures SearchTerm("SPP " + digits) == digits
  {
    forall i | 0 <= i <= |digits| - 4 ensures !OccursAt(digits, "SPP ", i) {
      assert IsDigit(digits[i]);
      HeadMismatch(digits, "SPP ", i);
    }
    ReplaceAllLeading("SPP ", digits, "");
    assert "" + digits == digits;
    TrimNoEdges(digits);
  }

  /** `search_spp_projects`: the project links of the result page, the first
      of each id, in page order; `[]` when the search raises. */
  function SearchProjects(sppNumber: string, search: string -> Option<seq<Link>>): (r: seq<Found>)
    ensures search(SearchTerm(sppNumber)).None? ==> r == []
    ensures forall i, j :: 0 <= i < j < |r| ==> r[i].id != r[j].id
    ensures search(SearchTerm(sppNumber)).Some? ==>
      forall i :: 0 <= i < |r| ==> r[i] in FilterMap(search(SearchTerm(sppNumber)).value, FoundLink)
    ensures search(SearchTerm(sppNumber)).Some? ==>
      FirstOfEachKey(FilterMap(search(SearchTerm(sppNumber)).value, FoundLink), FoundId, r)
  {
    match search(SearchTerm(sppNumber))
    case None => []
    case Some(links) =>
      var r := UniqueBy(FilterMap(links, FoundLink), FoundId);
      assert forall i, j :: 0 <= i < j < |r| ==> r[i].id != r[j].id by {
        forall i, j | 0 <= i < j < |r| ensures r[i].id != r[j].id {
          assert FoundId(r[i]) != FoundId(r[j]);
        }
      }
      r
  }

  /** Every project on the result page is kept under its id. */
  lemma SearchFindsAll(sppNumber: string, search: string -> Option<seq<Link>>, f: Found)
    requires search(SearchTerm(sppNumber)).Some?
    requires f in FilterMap(search(SearchTerm(sppNumber)).value, FoundLink)
    ensures f.id in KeysOf(SearchProjects(sppNumber, search), FoundId)
  {
    var xs := FilterMap(search(SearchTerm(sppNumber)).value, FoundLink);
    var k :| 0 <= k < |xs| && xs[k] == f;
    assert FoundId(xs[k]) == f.id;
  }

  /** One programme: its projects found and each read with the search
      scraper's details. */
  function ScrapeProgram(spp: Record, i: nat, search: string -> Option<seq<Link>>,
                         fetch: string -> DetailPage): (o: SppOutput)
    ensures o.number == ResumeNumber(spp, i) && o.title == Get(spp, "title", "")
    ensures o.count == |o.projects| == |SearchProjects(ResumeNumber(spp, i), search)|
    ensures forall k :: 0 <= k < |o.projects| ==>
      var f := SearchProjects(ResumeNumber(spp, i), search)[k];
      o.projects[k] == SearchDetails(FoundRecord(f, ResumeNumber(spp, i)), fetch(f.url))
  {
    var number := ResumeNumber(spp, i);
    Output(number, Get(spp, "title", ""), SearchProjects(number, search), f => SearchDetails(FoundRecord(f, number), fetch(f.url)))
  }

  /** `main`: the checkpoint after the run and, for each processed programme
      in index order, its scrape. */
  function RunAll(cp: IndexCheckpoint, programs: seq<Record>, search: string -> Option<seq<Link>>,
                fetch: string -> DetailPage): (r: (IndexCheckpoint, seq<SppOutput>))
    ensures r.0 == Resume(cp, programs).0
    ensures |r.1| == |Resume(cp, programs).1|
    ensures forall k :: 0 <= k < |r.1| ==>
      var i := Resume(cp, programs).1[k]; r.1[k] == ScrapeProgram(programs[i], i, search, fetch)
    ensures forall k :: 0 <= k < |r.1| ==> r.1[k].number == r.0.completed[|cp.completed| + k]
  {
    var run := Resume(cp, programs);
    ResumeNumbers(cp, programs);
    (run.0, ScrapeEach(programs, run.1, search, fetch))
  }

  /** The scrape of each listed programme, in list order. */
  function ScrapeEach(programs: seq<Record>, done: seq<nat>, search: string -> Option<seq<Link>>,
                      fetch: string -> DetailPage): (r: seq<SppOutput>)
    requires forall k :: 0 <= k < |done| ==> done[k] < |programs|
    ensures |r| == |done|
    ensures forall k :: 0 <= k < |done| ==> r[k] == ScrapeProgram(programs[done[k]], done[k], search, fetch)
    ensures forall k :: 0 <= k < |done| ==> r[k].number == ResumeNumber(programs[done[k]], done[k])
  {
    seq(|done|, k requires 0 <= k < |done| => ScrapeProgram(programs[done[k]], done[k], search, fetch))
  }
}

=== FILE: projects_stealth.dfy ===
/**
 The stealth project scraper: each programme's own page is searched for
 project links; when it has none, links whose text suggests a project list are
 followed until one of those pages yields projects. Each project's page is then
 read through its definition lists, and the index checkpoint records progress.

 Loading a page is a function parameter returning the page's links, or `None`
 when loading raises.
 */
module ProjectsStealth {
  import opened Strings
  import opened Records
  import opened Sorting
  import opened Gepris
  import opened ProjectPages
  import opened IndexedResume

  /** Loading a page: its links, or `None` when an exception is raised. */
  type Loader = string -> Option<seq<Link>>

  predicate Unique(ps: seq<Found>) {
    forall i, j :: 0 <= i < j < |ps| ==> ps[i].id != ps[j].id
  }

  /** The project links of a page, in page order. */
  function ProjectLinks(links: seq<Link>): seq<Found> {
    FilterMap(links, FoundLink)
  }

  /** One pass over a page's project links, with the ids seen so far: a link
      whose id was seen is skipped; a link to the programme's own url is
      skipped too, and when `markSelf` holds its id still counts as seen (the
      first pass) while otherwise it does not (the fallback pass). */
  function Pass(found: seq<Found>, sppUrl: string, seen: set<string>, markSelf: bool): (r: (seq<Found>, set<string>))
    ensures Unique(r.0)
    ensures seen <= r.1
    ensures forall k :: 0 <= k < |r.0| ==> r.0[k].id !in seen && r.0[k].id in r.1 && r.0[k].url != sppUrl
    ensures forall k :: 0 <= k < |r.0| ==> r.0[k] in found
    ensures |r.0| <= |found|
  {
    PassUpTo(found, sppUrl, seen, markSelf, |found|)
  }

  /** The pass over the first `n` links, in page order. */
  function PassUpTo(found: seq<Found>, sppUrl: string, seen: set<string>, markSelf: bool, n: nat): (r: (seq<Found>, set<string>))
    requires n <= |found|
    ensures Unique(r.0)
    ensures seen <= r.1
    ensures forall k :: 0 <= k < |r.0| ==> r.0[k].id !in seen && r.0[k].id in r.1 && r.0[k].url != sppUrl
    ensures forall k :: 0 <= k < |r.0| ==> r.0[k] in found
    ensures |r.0| <= n
    decreases n
  {
    if n == 0 then ([], seen)
    else
      var prev := PassUpTo(found, sppUrl, seen, markSelf, n - 1);
      var f := found[n - 1];
      if f.id in prev.1 then prev
      else if f.url == sppUrl then (prev.0, if markSelf then prev.1 + {f.id} else prev.1)
      else (prev.0 + [f], prev.1 + {f.id})
  }

  /** The link at `j` marks its id as seen: it is not the programme's own
      page, or the pass marks that one too. */
  predicate Marks(found: seq<Found>, sppUrl: string, markSelf: bool, j: nat)
    requires j < |found|
  {
    markSelf || found[j].url != sppUrl
  }

  /** The link at `j` is listed: its id is new, no earlier link marked it,
      and it is not the programme's own page. */
  predicate Listed(found: seq<Found>, sppUrl: string, seen: set<string>, markSelf: bool, j: nat)
    requires j < |found|
  {
    && found[j].id !in seen && found[j].url != sppUrl
    && forall k :: 0 <= k < j && found[k].id == found[j].id ==> !Marks(found, sppUrl, markSelf, k)
  }

  /** The positions below `n` of the links a pass lists, in page order. */
  function ListedPositions(found: seq<Found>, sppUrl: string, seen: set<string>, markSelf: bool, n: nat): (r: seq<nat>)
    requires n <= |found|
    ensures Increasing(r)
    ensures forall i :: 0 <= i < |r| ==> r[i] < n && Listed(found, sppUrl, seen, markSelf, r[i])
    ensures forall j :: 0 <= j < n && Listed(found, sppUrl, seen, markSelf, j) ==> j in r
    decreases n
  {
    if n == 0 then []
    else
      var prev := ListedPositions(found, sppUrl, seen, markSelf, n - 1);
      if Listed(found, sppUrl, seen, markSelf, n - 1) then prev + [n - 1] else prev
  }

  /** The ids seen after the first `n` links: those seen before, and the id of
      every link that marks. */
  ghost predicate SeenAfter(found: seq<Found>, sppUrl: string, seen: set<string>, markSelf: bool, n: nat, ids: set<string>)
    requires n <= |found|
  {
    forall x :: x in ids <==> x in seen || exists k :: 0 <= k < n && found[k].id == x && Marks(found, sppUrl, markSelf, k)
  }

  /** A pass lists exactly the links at the listed positions, in page order,
      and ends having seen exactly the marked ids. */
  lemma {:induction false} PassUpToPositions(found: seq<Found>, sppUrl: string, seen: set<string>, markSelf: bool, n: nat)
    requires n <= |found|
    ensures var r := PassUpTo(found, sppUrl, seen, markSelf, n);
      r.0 == At(found, ListedPositions(found, sppUrl, seen, markSelf, n))
      && SeenAfter(found, sppUrl, seen, markSelf, n, r.1)
    decreases n
  {
    if n > 0 {
      PassUpToPositions(found, sppUrl, seen, markSelf, n - 1);
      var prev := PassUpTo(found, sppUrl, seen, markSelf, n - 1);
      var ps := ListedPositions(found, sppUrl, seen, markSelf, n - 1);
      var f := found[n - 1];
      var r := PassUpTo(found, sppUrl, seen, markSelf, n);
      if f.id in prev.1 {
        assert !Listed(found, sppUrl, seen, markSelf, n - 1);
        assert ListedPositions(found, sppUrl, seen, markSelf, n) == ps;
        assert r == prev;
        SeenAfterSame(found, sppUrl, seen, markSelf, n, r.1);
      } else if f.url == sppUrl {
        assert !Listed(found, sppUrl, seen, markSelf, n - 1);
        assert ListedPositions(found, sppUrl, seen, markSelf, n) == ps;
        SeenAfterStep(found, sppUrl, seen, markSelf, n, prev.1, r.1);
      } else {
        NewIdListed(found, sppUrl, seen, markSelf, n, prev.1);
        assert ListedPositions(found, sppUrl, seen, markSelf, n) == ps + [n - 1];
        AtSnoc(found, ps, n - 1);
        SeenAfterStep(found, sppUrl, seen, markSelf, n, prev.1, r.1);
      }
    }
  }

  /** A link whose id is already seen changes nothing. */
  lemma SeenAfterSame(found: seq<Found>, sppUrl: string, seen: set<string>, markSelf: bool, n: nat, ids: set<string>)
    requires 0 < n <= |found|
    requires SeenAfter(found, sppUrl, seen, markSelf, n - 1, ids) && found[n - 1].id in ids
    ensures SeenAfter(found, sppUrl, seen, markSelf, n, ids)
  {
  }

  /** A link with a new id adds its id exactly when it marks. */
  lemma SeenAfterStep(found: seq<Found>, sppUrl: string, seen: set<string>, markSelf: bool, n: nat,
                      before: set<string>, after: set<string>)
    requires 0 < n <= |found|
    requires SeenAfter(found, sppUrl, seen, markSelf, n - 1, before)
    requires after == if Marks(found, sppUrl, markSelf, n - 1) then before + {found[n - 1].id} else before
    ensures SeenAfter(found, sppUrl, seen, markSelf, n, after)
  {
  }

  /** A link that is not the programme's own page and whose id is not yet seen
      is listed. */
  lemma NewIdListed(found: seq<Found>, sppUrl: string, seen: set<string>, markSelf: bool, n: nat, ids: set<string>)
    requires 0 < n <= |found|
    requires SeenAfter(found, sppUrl, seen, markSelf, n - 1, ids)
    requires found[n - 1].id !in ids && found[n - 1].url != sppUrl
    ensures Listed(found, sppUrl, seen, markSelf, n - 1)
  {
    assert forall k :: 0 <= k < n - 1 && Marks(found, sppUrl, markSelf, k) ==> found[k].id in ids;
  }

  /** The listed projects of a pass are the links at the listed positions, in
      page order. */
  lemma PassInPageOrder(found: seq<Found>, sppUrl: string, seen: set<string>, markSelf: bool)
    ensures Pass(found, sppUrl, seen, markSelf).0 == At(found, ListedPositions(found, sppUrl, seen, markSelf, |found|))
  {
    PassUpToPositions(found, sppUrl, seen, markSelf, |found|);
  }

  /** Every project link of the page ends up seen or listed in a first pass,
      the programme's own page included. */
  lemma PassMarksAll(found: seq<Found>, sppUrl: string, seen: set<string>, j: nat)
    requires j < |found|
    ensures found[j].id in Pass(found, sppUrl, seen, true).1
  {
    PassUpToPositions(found, sppUrl, seen, true, |found|);
    assert Marks(found, sppUrl, true, j);
  }

  /** A first pass lists every project of the page whose id is new, except the
      programme's own page: the first link of each id is kept. */
  lemma PassKeepsFirst(found: seq<Found>, sppUrl: string, seen: set<string>, j: nat)
    requires j < |found| && found[j].id !in seen && found[j].url != sppUrl
    requires forall i :: 0 <= i < j ==> found[i].id != found[j].id
    ensures found[j] in Pass(found, sppUrl, seen, true).0
  {
    PassUpToPositions(found, sppUrl, seen, true, |found|);
    var ps := ListedPositions(found, sppUrl, seen, true, |found|);
    assert Listed(found, sppUrl, seen, true, j);
    var m :| 0 <= m < |ps| && ps[m] == j;
    assert Pass(found, sppUrl, seen, true).0[m] == found[j];
  }

  /** The words that make a link look like a project list. */
  const ListIndicators: seq<string> := ["projekt", "teilprojekt", "projekte", "projects", "liste", "list"]

  predicate LooksLikeList(link: Link) {
    exists k :: 0 <= k < |ListIndicators| && Contains(LowerStr(link.text), ListIndicators[k])
  }

  /** The fallback over the programme page's links: each link that looks like
      a list is followed and its project links collected; the first page that
      yields projects ends the search. `None` when following a link raises. */
  function Fallback(links: seq<Link>, sppUrl: string, seen: set<string>, load: Loader): (r: Option<seq<Found>>)
    ensures r.Some? ==> Unique(r.value) && forall k :: 0 <= k < |r.value| ==> r.value[k].url != sppUrl && r.value[k].id !in seen
    decreases |links|
  {
    if links == [] then Some([])
    else if !LooksLikeList(links[0]) then Fallback(links[1..], sppUrl, seen, load)
    else match load(JoinBase(links[0].href))
      case None => None
      case Some(page) =>
        var pass := Pass(ProjectLinks(page), sppUrl, seen, false);
        if pass.0 != [] then Some(pass.0)
        else
          var r := Fallback(links[1..], sppUrl, pass.1, load);
          r
  }

  /** Following `link` loads a page whose project links, filtered against
      some set of seen ids, are `r`. */
  ghost predicate PageYields(link: Link, sppUrl: string, load: Loader, r: seq<Found>) {
    && LooksLikeList(link)
    && load(JoinBase(link.href)).Some?
    && exists s :: r == Pass(ProjectLinks(load(JoinBase(link.href)).value), sppUrl, s, false).0
  }

  /** The fallback's result comes from one followed page: the first followed
      link whose page yields projects. */
  lemma {:induction false} FallbackFromOnePage(links: seq<Link>, sppUrl: string, seen: set<string>, load: Loader)
    requires Fallback(links, sppUrl, seen, load).Some? && Fallback(links, sppUrl, seen, load).value != []
    ensures exists j :: 0 <= j < |links| && PageYields(links[j], sppUrl, load, Fallback(links, sppUrl, seen, load).value)
    decreases |links|
  {
    var r := Fallback(links, sppUrl, seen, load).value;
    if !LooksLikeList(links[0]) {
      assert Fallback(links[1..], sppUrl, seen, load) == Fallback(links, sppUrl, seen, load);
      FallbackFromOnePage(links[1..], sppUrl, seen, load);
      var j :| 0 <= j < |links[1..]| && PageYields(links[1..][j], sppUrl, load, r);
      assert links[1..][j] == links[j + 1];
    } else {
      var pass := Pass(ProjectLinks(load(JoinBase(links[0].href)).value), sppUrl, seen, false);
      if pass.0 == [] {
        assert Fallback(links[1..], sppUrl, pass.1, load) == Fallback(links, sppUrl, seen, load);
        FallbackFromOnePage(links[1..], sppUrl, pass.1, load);
        var j :| 0 <= j < |links[1..]| && PageYields(links[1..][j], sppUrl, load, r);
        assert links[1..][j] == links[j + 1];
      } else {
        assert PageYields(links[0], sppUrl, load, r);
      }
    }
  }

  /** `scrape_spp_projects_direct`: no url or a failed load gives `[]`; the
      project links of the programme page, or, only when there are none, the
      fallback's. */
  function ScrapeDirect(spp: Record, load: Loader): (r: seq<Found>)
    ensures Get(spp, "url", "") == [] ==> r == []
    ensures Unique(r)
    ensures forall k :: 0 <= k < |r| ==> r[k].url != Get(spp, "url", "")
  {
    var sppUrl := Get(spp, "url", "");
    if sppUrl == [] then []
    else match load(sppUrl)
      case None => []
      case Some(links) =>
        var first := Pass(ProjectLinks(links), sppUrl, {}, true);
        if first.0 != [] then first.0
        else match Fallback(links, sppUrl, first.1, load)
          case None => []
          case Some(ps) => ps
  }

  /** The fallback is not tried when the programme page lists projects. */
  lemma ScrapeDirectPrefersPage(spp: Record, load: Loader)
    requires Get(spp, "url", "") != [] && load(Get(spp, "url", "")).Some?
    requires Pass(ProjectLinks(load(Get(spp, "url", "")).value), Get(spp, "url", ""), {}, true).0 != []
    ensures ScrapeDirect(spp, load) == Pass(ProjectLinks(load(Get(spp, "url", "")).value), Get(spp, "url", ""), {}, true).0
  {
  }

  /** One programme: its projects found and each read with the stealth details.
      The output is filed under the defaulted number `SPP_<i>`, but the project
      records carry the programme's own `spp_number`, empty when it has none. */
  function ScrapeProgram(spp: Record, i: nat, load: Loader, fetch: string -> DetailPage): (o: SppOutput)
    ensures o.count == |o.projects| == |ScrapeDirect(spp, load)|
    ensures o.number == ResumeNumber(spp, i) && o.title == Get(spp, "title", "")
    ensures forall k :: 0 <= k < |o.projects| ==>
      o.projects[k] == StealthDetails(FoundRecord(ScrapeDirect(spp, load)[k], Get(spp, "spp_number", "")),
                                      fetch(ScrapeDirect(spp, load)[k].url))
  {
    var stamp := Get(spp, "spp_number", "");
    Output(ResumeNumber(spp, i), Get(spp, "title", ""), ScrapeDirect(spp, load), f => StealthDetails(FoundRecord(f, stamp), fetch(f.url)))
  }

  /** `main`: the checkpoint after the run and, for each processed programme
      in index order, its scrape. */
  function RunAll(cp: IndexCheckpoint, programs: seq<Record>, load: Loader, fetch: string -> DetailPage): (r: (IndexCheckpoint, seq<SppOutput>))
    ensures r.0 == Resume(cp, programs).0
    ensures |r.1| == |Resume(cp, programs).1|
    ensures forall k :: 0 <= k < |r.1| ==>
      var i := Resume(cp, programs).1[k]; r.1[k] == ScrapeProgram(programs[i], i, load, fetch)
    ensures forall k :: 0 <= k < |r.1| ==> r.1[k].number == r.0.completed[|cp.completed| + k]
  {
    var run := Resume(cp, programs);
    ResumeNumbers(cp, programs);
    (run.0, ScrapeEach(programs, run.1, load, fetch))
  }

  /** The scrape of each listed programme, in list order. */
  function ScrapeEach(programs: seq<Record>, done: seq<nat>, load: Loader, fetch: string -> DetailPage): (r: seq<SppOutput>)
    requires forall k :: 0 <= k < |done| ==> done[k] < |programs|
    ensures |r| == |done|
    ensures forall k :: 0 <= k < |done| ==> r[k] == ScrapeProgram(programs[done[k]], done[k], load, fetch)
    ensures forall k :: 0 <= k < |done| ==> r[k].number == ResumeNumber(programs[done[k]], done[k])
  {
    seq(|done|, k requires 0 <= k < |done| => ScrapeProgram(programs[done[k]], done[k], load, fetch))
  }
}

=== FILE: projects_working.dfy ===
/**
 The project scraper that visits each priority programme's page, collects the
 links to its projects and reads every project page; a checkpoint of completed
 and failed programmes lets a run resume, and failed programmes are retried
 once at the end.

 A programme page is given as its links (text and `href`); a project page as
 its `<title>`, its `<span class="name">` entries and the texts of its
 `content_frame` blocks. Loading a page and scraping a programme are function
 parameters.
 */
module ProjectsWorking {
  import opened Strings
  import opened Records
  import opened Sorting
  import opened Gepris

  // ---------------------------------------------------------------------------
  // Project links

  /** A project found on a programme page. */
  datatype ProjectLink = ProjectLink(id: string, title: string, url: string)

  const ProjectPath: string := "/gepris/projekt/"

  function LinkId(p: ProjectLink): string { p.id }

  /** A project link as the scraper builds it: a non-empty number and the
      canonical project url. */
  predicate Canonical(p: ProjectLink) {
    && p.id != [] && (forall k :: 0 <= k < |p.id| ==> IsDigit(p.id[k]))
    && p.url == "https://gepris.dfg.de/gepris/projekt/" + p.id
  }

  /** The project a link points to, unless it is the programme's own page, a
      language switch or a display-mode switch, or has no number. */
  function Candidate(link: Link, sppId: string): Option<ProjectLink> {
    if !Contains(link.href, ProjectPath) then None
    else if Contains(link.href, sppId) || Contains(link.href, "language=") || Contains(link.href, "displayMode=") then None
    else match NumberAfter(link.href, ProjectPath)
      case None => None
      case Some(id) => Some(ProjectLink(id, link.text, "https://gepris.dfg.de/gepris/projekt/" + id))
  }

  /** What a candidate is made of. */
  lemma CandidateShape(link: Link, sppId: string)
    requires Candidate(link, sppId).Some?
    ensures !Contains(link.href, sppId) && NumberAfter(link.href, ProjectPath) == Some(Candidate(link, sppId).value.id)
    ensures Canonical(Candidate(link, sppId).value) && Candidate(link, sppId).value.title == link.text
  {
  }

  /** The candidates of the links, in page order. */
  function Candidates(links: seq<Link>, sppId: string): (r: seq<ProjectLink>)
    ensures |r| <= |links|
    ensures forall i :: 0 <= i < |r| ==> Canonical(r[i])
    ensures forall i :: 0 <= i < |r| ==> exists j :: 0 <= j < |links| && Candidate(links[j], sppId) == Some(r[i])
    ensures forall j :: 0 <= j < |links| && Candidate(links[j], sppId).Some? ==> Candidate(links[j], sppId).value in r
  {
    var r := FilterMap(links, link => Candidate(link, sppId));
    forall i | 0 <= i < |r| ensures Canonical(r[i]) {
      var j :| 0 <= j < |links| && Candidate(links[j], sppId) == Some(r[i]);
      CandidateShape(links[j], sppId);
    }
    r
  }

  /** `extract_project_links`: the first candidate of every project id, in page
      order. */
  function ExtractProjectLinks(links: seq<Link>, sppId: string): (r: seq<ProjectLink>)
    ensures forall i, j :: 0 <= i < j < |r| ==> r[i].id != r[j].id
    ensures forall i :: 0 <= i < |r| ==> r[i] in Candidates(links, sppId)
    ensures forall i :: 0 <= i < |r| ==> Canonical(r[i])
    ensures FirstOfEachKey(Candidates(links, sppId), LinkId, r)
  {
    var cs := Candidates(links, sppId);
    var r := UniqueBy(cs, LinkId);
    assert forall i, j :: 0 <= i < j < |r| ==> r[i].id != r[j].id by {
      forall i, j | 0 <= i < j < |r| ensures r[i].id != r[j].id {
        assert LinkId(r[i]) != LinkId(r[j]);
      }
    }
    r
  }

  /** Every project found comes from a link of the page that is not skipped. */
  lemma ExtractSource(links: seq<Link>, sppId: string, i: nat)
    requires i < |ExtractProjectLinks(links, sppId)|
    ensures exists j :: 0 <= j < |links| && Candidate(links[j], sppId) == Some(ExtractProjectLinks(links, sppId)[i])
  {
    var cs := Candidates(links, sppId);
    var x := ExtractProjectLinks(links, sppId)[i];
    assert x in cs;
    var k :| 0 <= k < |cs| && cs[k] == x;
    var j :| 0 <= j < |links| && Candidate(links[j], sppId) == Some(cs[k]);
  }

  /** Every project linked from the page (other than through a skipped link)
      is found. */
  lemma ExtractFindsAll(links: seq<Link>, sppId: string, j: nat)
    requires j < |links| && Candidate(links[j], sppId).Some?
    ensures Candidate(links[j], sppId).value.id in KeysOf(ExtractProjectLinks(links, sppId), LinkId)
  {
    var cs := Candidates(links, sppId);
    var c := Candidate(links[j], sppId).value;
    var k :| 0 <= k < |cs| && cs[k] == c;
    assert LinkId(cs[k]) == c.id;
  }

  /** A programme's own page is never listed as one of its projects: the id of
      every project found differs from the programme's id. */
  lemma ExtractSkipsSelf(links: seq<Link>, sppId: string, i: nat)
    requires i < |ExtractProjectLinks(links, sppId)|
    ensures ExtractProjectLinks(links, sppId)[i].id != sppId
  {
    var r := ExtractProjectLinks(links, sppId);
    ExtractSource(links, sppId, i);
    var j :| 0 <= j < |links| && Candidate(links[j], sppId) == Some(r[i]);
    CandidateShape(links[j], sppId);
    NumberAfterOccurs(links[j].href, ProjectPath);
  }

  // ---------------------------------------------------------------------------
  // Project pages

  /** A project page as read: the `<title>` text if there is one, the name
      spans, and the texts of the `content_frame` blocks; or a failure. */
  datatype ProjectPage =
    | Page(title: Option<string>, spans: seq<NameSpan>, frames: seq<string>)
    | PageFailed

  /** Labels copied from a project page, and the field each fills. */
  const ProjectFields: seq<(string, string)> := [
    ("Antragstellerinnen / Antragsteller", "investigators"),
    ("Fachliche Zuordnung", "subject_area"),
    ("F\U{F6}rderung", "funding_period"),
    ("Projektkennung", "project_identifier"),
    ("DFG-Verfahren", "dfg_procedure"),
    ("Teilprojekt zu", "parent_program")
  ]

  function Identity(s: string): string { s }

  /** No two labels fill the same field, and none fills a field the scraper
      sets itself. */
  lemma ProjectFieldsDistinct()
    ensures forall i, j :: 0 <= i < j < |ProjectFields| ==> ProjectFields[i].1 != ProjectFields[j].1
    ensures forall j :: 0 <= j < |ProjectFields| ==>
      ProjectFields[j].1 != "project_id" && ProjectFields[j].1 != "url" && ProjectFields[j].1 != "title" &&
      ProjectFields[j].1 != "description"
  {
  }

  /** The record of a project page whose title has already been cleaned. */
  function ProjectRecord(id: string, url: string, title: Option<string>, metadata: map<string, string>,
                         description: string): (r: Record)
    ensures {"project_id", "url", "description"} <= r.Keys
    ensures r["project_id"] == id && r["url"] == url && r["description"] == description
    ensures title.Some? ==> "title" in r && r["title"] == title.value
    ensures title.None? ==> "title" !in r
  {
    var base := map["project_id" := id, "url" := url];
    var titled := if title.Some? then base["title" := title.value] else base;
    var mapped := ApplyMapping(titled, metadata, ProjectFields);
    ProjectFieldsDistinct();
    ApplyMappingKeeps(titled, metadata, ProjectFields, "project_id");
    ApplyMappingKeeps(titled, metadata, ProjectFields, "url");
    ApplyMappingKeeps(titled, metadata, ProjectFields, "title");
    mapped["description" := description]
  }

  /** `scrape_project_details`: id, url, the cleaned title, the mapped labels
      and the second content frame as description; a failure gives `None`. */
  function ProjectDetails(id: string, url: string, page: ProjectPage): (r: Option<Record>)
    ensures page.PageFailed? <==> r.None?
    ensures r.Some? ==>
      && {"project_id", "url", "description"} <= r.value.Keys
      && r.value["project_id"] == id && r.value["url"] == url
      && r.value["description"] == (if |page.frames| >= 2 then page.frames[1] else "")
      && (page.title.Some? ==> "title" in r.value && r.value["title"] == PageTitle(page.title.value))
      && (page.title.None? ==> "title" !in r.value)
  {
    match page
    case PageFailed => None
    case Page(title, spans, frames) =>
      var cleaned := if title.Some? then Some(PageTitle(title.value)) else None;
      Some(ProjectRecord(id, url, cleaned, SpanMetadata(spans, Identity), if |frames| >= 2 then frames[1] else ""))
  }

  /** A label found on the page fills its field with the label's value. */
  lemma ProjectRecordLabel(id: string, url: string, title: Option<string>, metadata: map<string, string>,
                           description: string, k: nat)
    requires k < |ProjectFields| && ProjectFields[k].0 in metadata
    ensures ProjectFields[k].1 in ProjectRecord(id, url, title, metadata, description)
    ensures ProjectRecord(id, url, title, metadata, description)[ProjectFields[k].1] == metadata[ProjectFields[k].0]
  {
    ProjectFieldsDistinct();
    var base := map["project_id" := id, "url" := url];
    var titled := if title.Some? then base["title" := title.value] else base;
    ApplyMappingLastWins(titled, metadata, ProjectFields, k);
  }

  /** A label present on the page fills its field with the value of its last
      span. */
  lemma ProjectDetailsLabel(id: string, url: string, title: Option<string>, spans: seq<NameSpan>,
                            frames: seq<string>, j: nat, k: nat)
    requires k < |ProjectFields| && j < |spans| && spans[j].name == ProjectFields[k].0
    requires forall i :: j < i < |spans| ==> spans[i].name != spans[j].name
    ensures ProjectFields[k].1 in ProjectDetails(id, url, Page(title, spans, frames)).value
    ensures ProjectDetails(id, url, Page(title, spans, frames)).value[ProjectFields[k].1] == SpanValue(spans[j])
  {
    var cleaned := if title.Some? then Some(PageTitle(title.value)) else None;
    var metadata := SpanMetadata(spans, Identity);
    var description := if |frames| >= 2 then frames[1] else "";
    assert ProjectDetails(id, url, Page(title, spans, frames)).value == ProjectRecord(id, url, cleaned, metadata, description);
    SpanMetadataLastWins(spans, Identity, j);
    assert metadata[ProjectFields[k].0] == SpanValue(spans[j]);
    ProjectRecordLabel(id, url, cleaned, metadata, description, k);
  }

  // ---------------------------------------------------------------------------
  // One programme

  /** The outcome of scraping a programme. */
  datatype SppResult = SppResult(number: string, title: string, url: string, count: nat, projects: seq<Record>)

  /** What loading a programme page produced: its links, or a failure. */
  datatype SppPage = Links(links: seq<Link>) | SppPageFailed

  /** The positions below `n` of the links whose project page can be read,
      in increasing order. */
  function ReadablePositions(found: seq<ProjectLink>, fetch: string -> ProjectPage, n: nat): (r: seq<nat>)
    requires n <= |found|
    ensures Increasing(r)
    ensures forall i :: 0 <= i < |r| ==> r[i] < n && !fetch(found[r[i]].url).PageFailed?
    ensures forall j :: 0 <= j < n && !fetch(found[j].url).PageFailed? ==> j in r
    decreases n
  {
    if n == 0 then []
    else
      var prev := ReadablePositions(found, fetch, n - 1);
      if fetch(found[n - 1].url).PageFailed? then prev else prev + [n - 1]
  }

  /** `r` holds, in link order, the details of each link whose page could be
      read, and nothing else. */
  predicate ReadInOrder(found: seq<ProjectLink>, fetch: string -> ProjectPage, n: nat, r: seq<Record>)
    requires n <= |found|
  {
    var ps := ReadablePositions(found, fetch, n);
    && |r| == |ps|
    && forall k :: 0 <= k < |ps| ==> ProjectDetails(found[ps[k]].id, found[ps[k]].url, fetch(found[ps[k]].url)) == Some(r[k])
  }

  /** The details of the projects whose pages could be read, in link order. */
  function ReadProjects(found: seq<ProjectLink>, fetch: string -> ProjectPage): (r: seq<Record>)
    ensures |r| <= |found|
    ensures |r| == |found| <==> forall i :: 0 <= i < |found| ==> !fetch(found[i].url).PageFailed?
    ensures ReadInOrder(found, fetch, |found|, r)
  {
    ReadUpTo(found, fetch, |found|)
  }

  /** The loop over the first `n` links: a link whose page can be read
      appends its details. */
  function ReadUpTo(found: seq<ProjectLink>, fetch: string -> ProjectPage, n: nat): (r: seq<Record>)
    requires n <= |found|
    ensures |r| <= n
    ensures |r| == n <==> forall i :: 0 <= i < n ==> !fetch(found[i].url).PageFailed?
    ensures ReadInOrder(found, fetch, n, r)
    decreases n
  {
    if n == 0 then []
    else
      var prev := ReadUpTo(found, fetch, n - 1);
      match ProjectDetails(found[n - 1].id, found[n - 1].url, fetch(found[n - 1].url))
      case None => prev
      case Some(d) =>
        var ps := ReadablePositions(found, fetch, n - 1);
        assert ReadablePositions(found, fetch, n) == ps + [n - 1];
        prev + [d]
  }

  /** `scrape_spp_projects`: `None` when the url has no programme id or the
      page cannot be loaded; otherwise the programme with the projects whose
      pages could be read, and their number. */
  function ScrapeSppProjects(number: string, title: string, url: string,
                             load: string -> SppPage, fetch: string -> ProjectPage): (r: Option<SppResult>)
    ensures NumberAfter(url, ProjectPath).None? ==> r.None?
    ensures load(url).SppPageFailed? ==> r.None?
    ensures r.Some? <==> NumberAfter(url, ProjectPath).Some? && load(url).Links?
    ensures r.Some? ==> r.value.count == |r.value.projects| && r.value.number == number
    ensures r.Some? ==> r.value.title == title && r.value.url == url
    ensures r.Some? ==>
      r.value.projects == ReadProjects(ExtractProjectLinks(load(url).links, NumberAfter(url, ProjectPath).value), fetch)
    ensures r.Some? ==> r.value.count <= |ExtractProjectLinks(load(url).links, NumberAfter(url, ProjectPath).value)|
    ensures r.Some? && ExtractProjectLinks(load(url).links, NumberAfter(url, ProjectPath).value) == [] ==>
      r.value.count == 0 && r.value.projects == []
  {
    match NumberAfter(url, ProjectPath)
    case None => None
    case Some(sppId) =>
      match load(url)
      case SppPageFailed => None
      case Links(links) =>
        var found := ExtractProjectLinks(links, sppId);
        if found == [] then Some(SppResult(number, title, url, 0, []))
        else
          var projects := ReadProjects(found, fetch);
          Some(SppResult(number, title, url, |projects|, projects))
  }

  // ---------------------------------------------------------------------------
  // The checkpoint loop

  /** Programme numbers done and failed; a missing checkpoint file is read as
      two empty lists. */
  datatype Checkpoint = Checkpoint(completed: set<string>, failed: set<string>)

  const NoCheckpoint: Checkpoint := Checkpoint({}, {})

  /** A programme scrape, as the loop sees it: number, title and url in,
      result or failure out. */
  type Scrape = (string, string, string) -> Option<SppResult>

  /** The programme's number, or `SPP_i` for the `i`-th programme (from 1) when
      it has none. */
  function ProgramNumber(spp: Record, i: nat): string {
    Get(spp, "spp_number", "SPP_" + NatToString(i))
  }

  /** The scrape of programme `spp` under its number, title (default
      `Unknown`) and url (default empty). */
  function Attempt(scrape: Scrape, number: string, spp: Record): Option<SppResult> {
    scrape(number, Get(spp, "title", "Unknown"), Get(spp, "url", ""))
  }

  /** One programme of the main pass: skipped when already completed or failed;
      any result (with or without projects) completes it, no result fails it. */
  function MainStep(c: Checkpoint, spp: Record, i: nat, scrape: Scrape): (r: Checkpoint)
    ensures c.completed <= r.completed && c.failed <= r.failed
    ensures ProgramNumber(spp, i) in r.completed + r.failed
    ensures r.completed + r.failed == c.completed + c.failed + {ProgramNumber(spp, i)}
    ensures c.completed !! c.failed ==> r.completed !! r.failed
    ensures ProgramNumber(spp, i) in c.completed + c.failed ==> r == c
    ensures var n := ProgramNumber(spp, i);
      n !in c.completed + c.failed ==>
        && r.completed - {n} == c.completed && r.failed - {n} == c.failed
        && (n in r.completed <==> Attempt(scrape, n, spp).Some?)
        && (n in r.failed <==> Attempt(scrape, n, spp).None?)
  {
    var number := ProgramNumber(spp, i);
    if number in c.completed || number in c.failed then c
    else match Attempt(scrape, number, spp)
      case Some(_) => Checkpoint(c.completed + {number}, c.failed)
      case None => Checkpoint(c.completed, c.failed + {number})
  }

  /** The main pass over the programmes, numbered from 1. */
  function MainPass(c: Checkpoint, programs: seq<Record>, scrape: Scrape): (r: Checkpoint)
    ensures c.completed <= r.completed && c.failed <= r.failed
    ensures c.completed !! c.failed ==> r.completed !! r.failed
    decreases |programs|
  {
    if programs == [] then c
    else
      var n := |programs| - 1;
      MainStep(MainPass(c, programs[..n], scrape), programs[n], n + 1, scrape)
  }

  /** After the main pass every programme is completed or failed, and nothing
      else was added. */
  lemma {:induction false} MainPassCovers(c: Checkpoint, programs: seq<Record>, scrape: Scrape)
    ensures var r := MainPass(c, programs, scrape);
      && (forall i :: 0 <= i < |programs| ==> ProgramNumber(programs[i], i + 1) in r.completed + r.failed)
      && (forall x :: x in r.completed + r.failed ==>
            x in c.completed + c.failed || exists i :: 0 <= i < |programs| && x == ProgramNumber(programs[i], i + 1))
    decreases |programs|
  {
    if programs != [] {
      var n := |programs| - 1;
      MainPassCovers(c, programs[..n], scrape);
      assert forall i :: 0 <= i < n ==> programs[..n][i] == programs[i];
    }
  }

  predicate HasNumber(spp: Record, number: string) {
    "spp_number" in spp && spp["spp_number"] == number
  }

  /** The programme at `i` carries the number and none before it does. */
  predicate FirstWithNumber(programs: seq<Record>, number: string, i: nat)
    requires i < |programs|
  {
    HasNumber(programs[i], number) && forall k :: 0 <= k < i ==> !HasNumber(programs[k], number)
  }

  /** The first programme carrying the number, if any. */
  function FindProgram(programs: seq<Record>, number: string): (r: Option<Record>)
    ensures r.Some? ==> exists i :: 0 <= i < |programs| && programs[i] == r.value && FirstWithNumber(programs, number, i)
    ensures r.None? ==> forall i :: 0 <= i < |programs| ==> !HasNumber(programs[i], number)
  {
    if programs == [] then None
    else if HasNumber(programs[0], number) then Some(programs[0])
    else
      var r := FindProgram(programs[1..], number);
      assert forall i :: 1 <= i < |programs| ==> programs[i] == programs[1..][i - 1];
      if r.Some? then
        var i :| 0 <= i < |programs[1..]| && programs[1..][i] == r.value && FirstWithNumber(programs[1..], number, i);
        assert programs[i + 1] == r.value && FirstWithNumber(programs, number, i + 1);
        r
      else r
  }

  /** One retry: a programme that can be found and now yields a result moves
      from failed to completed; otherwise nothing changes. */
  function RetryStep(c: Checkpoint, programs: seq<Record>, number: string, scrape: Scrape): (r: Checkpoint)
    ensures c.completed <= r.completed && r.failed <= c.failed
    ensures c.completed + c.failed <= r.completed + r.failed <= c.completed + c.failed + {number}
    ensures c.completed !! c.failed ==> r.completed !! r.failed
    ensures r != c ==> r == Checkpoint(c.completed + {number}, c.failed - {number})
    ensures var found := FindProgram(programs, number);
      found.Some? && Attempt(scrape, number, found.value).Some? ==> number in r.completed && number !in r.failed
    ensures var found := FindProgram(programs, number);
      !(found.Some? && Attempt(scrape, number, found.value).Some?) ==> r == c
  {
    match FindProgram(programs, number)
    case None => c
    case Some(spp) =>
      match Attempt(scrape, number, spp)
      case None => c
      case Some(_) => Checkpoint(c.completed + {number}, c.failed - {number})
  }

  /** The retries, in the order the failed set is listed. */
  function RetryAll(c: Checkpoint, programs: seq<Record>, order: seq<string>, scrape: Scrape): (r: Checkpoint)
    ensures c.completed <= r.completed && r.failed <= c.failed
    ensures c.completed !! c.failed ==> r.completed !! r.failed
    decreases |order|
  {
    if order == [] then c
    else RetryAll(RetryStep(c, programs, order[0], scrape), programs, order[1..], scrape)
  }

  /** A failed programme that is found and whose retry yields a result ends
      completed, whatever the retries after it do. */
  lemma {:induction false} RetrySucceeds(c: Checkpoint, programs: seq<Record>, order: seq<string>, scrape: Scrape, k: nat)
    requires k < |order|
    requires FindProgram(programs, order[k]).Some? && Attempt(scrape, order[k], FindProgram(programs, order[k]).value).Some?
    ensures order[k] in RetryAll(c, programs, order, scrape).completed
    decreases k
  {
    var c' := RetryStep(c, programs, order[0], scrape);
    if k == 0 {
      assert order[0] in c'.completed;
      assert c'.completed <= RetryAll(c', programs, order[1..], scrape).completed;
    } else {
      assert order[1..][k - 1] == order[k];
      RetrySucceeds(c', programs, order[1..], scrape, k - 1);
    }
  }

  /** `main`: the main pass, then one retry of every failed programme, the
      failed set being listed in `order`. */
  function Run(c: Checkpoint, programs: seq<Record>, order: seq<string>, scrape: Scrape, retry: Scrape): (r: Checkpoint)
    requires forall x :: x in order <==> x in MainPass(c, programs, scrape).failed
    ensures c.completed <= r.completed
    ensures c.completed !! c.failed ==> r.completed !! r.failed
  {
    RetryAll(MainPass(c, programs, scrape), programs, order, retry)
  }

  /** Nothing is lost: every programme handled by the main pass is completed or
      failed at the end, because a retry only moves a number from one set to
      the other. */
  lemma {:induction false} RetryAllKeeps(c: Checkpoint, programs: seq<Record>, order: seq<string>, scrape: Scrape, x: string)
    requires x in c.completed + c.failed
    ensures x in RetryAll(c, programs, order, scrape).completed + RetryAll(c, programs, order, scrape).failed
    decreases |order|
  {
    if order != [] {
      RetryAllKeeps(RetryStep(c, programs, order[0], scrape), programs, order[1..], scrape, x);
    }
  }

  /** A programme that cannot be found by its number (for instance one named
      `SPP_i` because it had no number) stays failed through the retries. */
  lemma {:induction false} RetryKeepsUnknown(c: Checkpoint, programs: seq<Record>, order: seq<string>,
                                             scrape: Scrape, x: string)
    requires x in c.failed && FindProgram(programs, x).None?
    ensures x in RetryAll(c, programs, order, scrape).failed
    decreases |order|
  {
    if order != [] {
      var c' := RetryStep(c, programs, order[0], scrape);
      assert x in c'.failed;
      RetryKeepsUnknown(c', programs, order[1..], scrape, x);
    }
  }

  /** At the end of a run every programme of the list is completed or failed. */
  lemma RunCovers(c: Checkpoint, programs: seq<Record>, order: seq<string>, scrape: Scrape, retry: Scrape, i: nat)
    requires forall x :: x in order <==> x in MainPass(c, programs, scrape).failed
    requires i < |programs|
    ensures ProgramNumber(programs[i], i + 1) in Run(c, programs, order, scrape, retry).completed + Run(c, programs, order, scrape, retry).failed
  {
    MainPassCovers(c, programs, scrape);
    RetryAllKeeps(MainPass(c, programs, scrape), programs, order, retry, ProgramNumber(programs[i], i + 1));
  }
}

=== FILE: records.dfy ===
/**
 Values shared by the scrapers: optional results and string-keyed records.

 The Python scripts pass programs and projects around as dictionaries of
 strings and read them with `d.get(key, default)`. A `Record` is such a
 dictionary restricted to its string fields.
 */
module Records {

  datatype Option<T> = None | Some(value: T) {
    /** This value when there is one, otherwise `other`. */
    function Or(other: Option<T>): Option<T> {
      if Some? then this else other
    }
  }

  type Record = map<string, string>

  /** The value under `key`, or `default` when the key is absent. */
  function Get(d: Record, key: string, default: string): (r: string)
    ensures key in d ==> r == d[key]
    ensures key !in d ==> r == default
  {
    if key in d then d[key] else default
  }

  /** One field set, every other field unchanged. */
  function Put(d: Record, key: string, value: string): (r: Record)
    ensures key in r && r[key] == value
    ensures forall k :: k in d && k != key ==> k in r && r[k] == d[k]
    ensures forall k :: k in r ==> k in d || k == key
  {
    d[key := value]
  }

  /** Two records merged: the fields of `extra` override those of `base`. */
  function Merge(base: Record, extra: Record): (r: Record)
    ensures forall k :: k in r <==> k in base || k in extra
    ensures forall k :: k in extra ==> r[k] == extra[k]
    ensures forall k :: k in base && k !in extra ==> r[k] == base[k]
  {
    map k | k in base.Keys + extra.Keys :: if k in extra then extra[k] else base[k]
  }

  /** `if key not in acc: acc[key] = value` over the keyed items in order: the
      first item offering a key decides its value; items without a key are
      skipped. */
  function FirstSeen<T, V>(items: seq<T>, entry: T -> Option<(string, V)>): (m: map<string, V>)
    decreases |items|
  {
    if items == [] then map[]
    else
      var prev := FirstSeen(items[..|items| - 1], entry);
      match entry(items[|items| - 1])
      case None => prev
      case Some(kv) => if kv.0 in prev then prev else prev[kv.0 := kv.1]
  }

  /** One more item changes the table only when it carries a key not seen before. */
  lemma FirstSeenSnoc<T, V>(seen: seq<T>, x: T, entry: T -> Option<(string, V)>)
    ensures FirstSeen(seen + [x], entry) ==
      match entry(x)
      case None => FirstSeen(seen, entry)
      case Some(kv) =>
        if kv.0 in FirstSeen(seen, entry) then FirstSeen(seen, entry)
        else FirstSeen(seen, entry)[kv.0 := kv.1]
  {
    assert (seen + [x])[..|seen|] == seen;
  }

  lemma {:induction false} FirstSeenAppend<T, V>(a: seq<T>, b: seq<T>, entry: T -> Option<(string, V)>)
    ensures forall k :: k in FirstSeen(a, entry) ==> k in FirstSeen(a + b, entry) && FirstSeen(a + b, entry)[k] == FirstSeen(a, entry)[k]
    decreases |b|
  {
    if b == [] {
      assert a + b == a;
    } else {
      var n := |b| - 1;
      assert (a + b)[..|a + b| - 1] == a + b[..n];
      FirstSeenAppend(a, b[..n], entry);
    }
  }

  /** A key is present exactly when some item offers it. */
  lemma {:induction false} FirstSeenKeys<T, V>(items: seq<T>, entry: T -> Option<(string, V)>, k: string)
    ensures k in FirstSeen(items, entry) <==> exists j :: 0 <= j < |items| && entry(items[j]).Some? && entry(items[j]).value.0 == k
    decreases |items|
  {
    if items != [] {
      var n := |items| - 1;
      FirstSeenKeys(items[..n], entry, k);
      if j :| 0 <= j < n && entry(items[j]).Some? && entry(items[j]).value.0 == k {
        assert items[..n][j] == items[j];
      }
      if j :| 0 <= j < n && entry(items[..n][j]).Some? && entry(items[..n][j]).value.0 == k {
        assert items[..n][j] == items[j];
      }
    }
  }

  /** The value under a key is the one offered by the first item with that key;
      later items offering the same key change nothing. */
  lemma {:induction false} FirstSeenValue<T, V>(items: seq<T>, entry: T -> Option<(string, V)>, j: nat)
    requires j < |items| && entry(items[j]).Some?
    requires forall i :: 0 <= i < j && entry(items[i]).Some? ==> entry(items[i]).value.0 != entry(items[j]).value.0
    ensures entry(items[j]).value.0 in FirstSeen(items, entry)
    ensures FirstSeen(items, entry)[entry(items[j]).value.0] == entry(items[j]).value.1
    decreases |items|
  {
    var k := entry(items[j]).value.0;
    var n := |items| - 1;
    if j < n {
      forall i | 0 <= i < j && entry(items[..n][i]).Some?
        ensures entry(items[..n][i]).value.0 != entry(items[..n][j]).value.0
      {
        assert items[..n][i] == items[i];
      }
      assert items[..n][j] == items[j];
      FirstSeenValue(items[..n], entry, j);
      FirstSeenAppend(items[..n], [items[n]], entry);
      assert items[..n] + [items[n]] == items;
    } else {
      var prev := FirstSeen(items[..n], entry);
      FirstSeenKeys(items[..n], entry, k);
    }
  }

  /** A map filled by storing each item under its key, in order, items
      without a key skipped: a later item replaces an earlier one under the
      same key. */
  function IndexBy<T>(xs: seq<T>, key: T -> Option<string>): (m: map<string, T>)
    decreases |xs|
  {
    if xs == [] then map[]
    else
      var n := |xs| - 1;
      var prev := IndexBy(xs[..n], key);
      match key(xs[n])
      case None => prev
      case Some(k) => prev[k := xs[n]]
  }

  /** A key is present exactly when some item carries it. */
  lemma {:induction false} IndexByKeys<T>(xs: seq<T>, key: T -> Option<string>, k: string)
    ensures k in IndexBy(xs, key) <==> exists j :: 0 <= j < |xs| && key(xs[j]) == Some(k)
    decreases |xs|
  {
    if xs != [] {
      var n := |xs| - 1;
      IndexByKeys(xs[..n], key, k);
      if j :| 0 <= j < n && key(xs[j]) == Some(k) {
        assert xs[..n][j] == xs[j];
      }
      if j :| 0 <= j < n && key(xs[..n][j]) == Some(k) {
        assert xs[..n][j] == xs[j];
      }
    }
  }

  /** The item under a key is the last item carrying that key. */
  lemma {:induction false} IndexByLast<T>(xs: seq<T>, key: T -> Option<string>, j: nat)
    requires j < |xs| && key(xs[j]).Some?
    requires forall i :: j < i < |xs| ==> key(xs[i]) != key(xs[j])
    ensures key(xs[j]).value in IndexBy(xs, key)
    ensures IndexBy(xs, key)[key(xs[j]).value] == xs[j]
    decreases |xs|
  {
    var n := |xs| - 1;
    if j < n {
      assert xs[..n][j] == xs[j];
      IndexByLast(xs[..n], key, j);
    }
  }

  /** A map filled entry by entry, in order: a later entry with the same key
      overwrites an earlier one. */
  function LastWins<V>(entries: seq<(string, V)>): (m: map<string, V>)
    ensures forall j :: 0 <= j < |entries| ==> entries[j].0 in m
  {
    var key := (e: (string, V)) => Some(e.0);
    var index := IndexBy(entries, key);
    forall j | 0 <= j < |entries| ensures entries[j].0 in index {
      IndexByKeys(entries, key, entries[j].0);
      assert key(entries[j]) == Some(entries[j].0);
    }
    map k | k in index :: index[k].1
  }

  /** Only keys of some entry are present. */
  lemma LastWinsKeys<V>(entries: seq<(string, V)>, k: string)
    requires k in LastWins(entries)
    ensures exists j :: 0 <= j < |entries| && entries[j].0 == k
  {
    var key := (e: (string, V)) => Some(e.0);
    IndexByKeys(entries, key, k);
    var j :| 0 <= j < |entries| && key(entries[j]) == Some(k);
  }

  /** The value under a key is that of the last entry carrying it. */
  lemma LastWinsValue<V>(entries: seq<(string, V)>, j: nat)
    requires j < |entries|
    requires forall i :: j < i < |entries| ==> entries[i].0 != entries[j].0
    ensures LastWins(entries)[entries[j].0] == entries[j].1
  {
    var key := (e: (string, V)) => Some(e.0);
    forall i | j < i < |entries| ensures key(entries[i]) != key(entries[j]) {
      assert entries[i].0 != entries[j].0;
    }
    IndexByLast(entries, key, j);
  }

  /** `f` applied to every element, keeping only the results that are not
      `None`, in input order. */
  function FilterMap<A, B>(xs: seq<A>, f: A -> Option<B>): (r: seq<B>)
    ensures |r| <= |xs|
    ensures forall i :: 0 <= i < |r| ==> exists j :: 0 <= j < |xs| && f(xs[j]) == Some(r[i])
    ensures forall j :: 0 <= j < |xs| && f(xs[j]).Some? ==> f(xs[j]).value in r
    ensures (forall j :: 0 <= j < |xs| ==> f(xs[j]).None?) ==> r == []
    decreases |xs|
  {
    if xs == [] then []
    else
      var rest := FilterMap(xs[1..], f);
      assert forall j :: 1 <= j < |xs| ==> xs[j] == xs[1..][j - 1];
      match f(xs[0])
      case None => rest
      case Some(y) => [y] + rest
  }

  /** A list function that handles the head on its own and recurses on the
      tail is a homomorphism: it maps a concatenation to the concatenation of
      its results, so it keeps the input order. */
  lemma {:induction false} ElementwiseAppend<A, B>(f: seq<A> -> seq<B>, h: A -> seq<B>, a: seq<A>, b: seq<A>)
    requires f([]) == []
    requires forall xs: seq<A> :: xs != [] ==> f(xs) == h(xs[0]) + f(xs[1..])
    ensures f(a + b) == f(a) + f(b)
    decreases |a|
  {
    if a == [] {
      assert a + b == b;
    } else {
      ElementwiseAppend(f, h, a[1..], b);
      assert (a + b)[0] == a[0] && (a + b)[1..] == a[1..] + b;
      assert f(a + b) == h(a[0]) + f(a[1..] + b);
      assert h(a[0]) + (f(a[1..]) + f(b)) == h(a[0]) + f(a[1..]) + f(b);
    }
  }

  /** One unfolding step of `FilterMap`. */
  lemma FilterMapCons<A, B>(xs: seq<A>, f: A -> Option<B>)
    requires xs != []
    ensures FilterMap(xs, f) == OptionSeq(f(xs[0])) + FilterMap(xs[1..], f)
  {
  }

  /** The result of one element: its value when it has one. */
  function OptionSeq<B>(o: Option<B>): seq<B> {
    if o.Some? then [o.value] else []
  }

  /** `FilterMap` keeps the input order: a list split in two gives the two
      results concatenated. */
  lemma FilterMapAppend<A, B>(a: seq<A>, b: seq<A>, f: A -> Option<B>)
    ensures FilterMap(a + b, f) == FilterMap(a, f) + FilterMap(b, f)
    ensures |a| == 1 ==> FilterMap(a, f) == OptionSeq(f(a[0]))
  {
    var g := (xs: seq<A>) => FilterMap(xs, f);
    var h := (x: A) => OptionSeq(f(x));
    forall xs: seq<A> | xs != []
      ensures g(xs) == h(xs[0]) + g(xs[1..])
    {
      FilterMapCons(xs, f);
    }
    ElementwiseAppend(g, h, a, b);
    if |a| == 1 {
      FilterMapCons(a, f);
      assert a[1..] == [];
    }
  }
}

=== FILE: relevance.dfy ===
/**
 Project relevance scoring (dfg-schwerpunkt/scripts/analyze_relevance.py).

 Each project gets a wearables score and an AI score between 0 and 10. A score
 is built from whole-word keyword matches in four text fields, each with its own
 weight. Whole-word matching is the regular expression `\b<keyword>\b` applied
 with `re.findall` to the lower-cased field text. It is written out here as a
 scan for non-overlapping matches whose two ends sit on word boundaries.
 */
module Relevance {
  import opened Strings
  import opened Sorting

  // ---------------------------------------------------------------------------
  // Keyword tables

  datatype KeywordLists = KeywordLists(german: seq<string>, english: seq<string>)

  /** The order in which keywords are tried: German first, then English. */
  function AllKeywords(k: KeywordLists): seq<string> {
    k.german + k.english
  }

  const Wearables: KeywordLists := KeywordLists(
    [ "wearable", "tragbar", "smart watch", "smartwatch", "fitness tracker",
      "sensor", "biosensor", "tragbare elektronik", "e-textil", "smart textile",
      "k\U{F6}rpersensor", "gesundheitsmonitor", "mobile sensoren", "hautnahe",
      "tragbare sensoren", "smart clothing", "intelligente kleidung",
      "k\U{F6}rpernah", "am k\U{F6}rper", "wearable computing", "tragbares system",
      "soft robot", "weich", "flexible", "dehnbar", "elastomer",
      "aktor", "actuator", "greif", "manipulator", "biomimetisch",
      "implant", "lunge", "lung", "medizin", "medical", "biomedical",
      "patient", "therapie", "therapy", "prothes", "orthes" ],
    [ "wearable", "smart watch", "smartwatch", "fitness tracker", "body sensor",
      "health monitoring", "e-textile", "smart fabric", "on-body", "on body",
      "mobile health", "mhealth", "m-health", "wearable device",
      "wearable sensor", "body-worn", "worn sensor", "smart clothing",
      "soft robot", "soft material", "flexible", "stretchable", "elastomer",
      "actuator", "gripper", "manipulator", "biomimetic",
      "implant", "lung", "medical", "biomedical", "patient",
      "therapy", "prosthe", "orthoti", "clinical" ])

  const Ai: KeywordLists := KeywordLists(
    [ "k\U{FC}nstliche intelligenz", "ki", "maschinelles lernen", "machine learning",
      "deep learning", "neuronale netze", "neuronales netz", "bilderkennung",
      "spracherkennung", "nlp", "computer vision", "mustererkennung",
      "bildverarbeitung", "datenanalyse", "vorhersage", "klassifikation",
      "k\U{FC}nstliches neuronales", "convolutional", "lstm", "transformer",
      "reinforcement learning", "verst\U{E4}rkendes lernen",
      "computational", "algorith", "konnektom", "connectom",
      "argumentation", "argumentationslogik", "reasoning", "neural",
      "gehirn", "brain", "kognitiv", "cognitive", "intelligente",
      "intelligent", "automat", "learning", "trained", "model" ],
    [ "artificial intelligence", "ai", "machine learning", "ml",
      "deep learning", "neural network", "pattern recognition",
      "computer vision", "natural language processing", "nlp",
      "image recognition", "classification", "prediction", "regression",
      "convolutional", "lstm", "transformer", "reinforcement learning",
      "supervised learning", "unsupervised learning", "data mining",
      "computational", "algorithm", "connectome", "connectomic",
      "argumentation", "reasoning", "neural", "brain", "cognitive",
      "intelligent", "automated", "learning", "trained", "model" ])

  // ---------------------------------------------------------------------------
  // Whole-word matching: `\b` + keyword + `\b`

  /** The two pieces of Python's Unicode tables that whole-word matching depends
      on: the characters `\w` matches (`str.isalnum()` or `_`) and `str.lower`.
      Both are parameters of the model; the properties below require of them only
      the facts they use. */
  datatype Casing = Casing(isWord: char -> bool, lower: string -> string)

  /** What every Unicode-aware `\w` does: ASCII lower-case letters are word
      characters and the blank is not. */
  predicate AsciiWords(cs: Casing) {
    && (forall c: char :: 'a' <= c <= 'z' ==> cs.isWord(c))
    && !cs.isWord(' ')
  }

  predicate WordAt(cs: Casing, t: string, p: int) {
    0 <= p < |t| && cs.isWord(t[p])
  }

  /** `\b` holds at position `p` (between `t[p-1]` and `t[p]`): exactly one side
      is a word character, the outside of the text counting as non-word. */
  predicate Boundary(cs: Casing, t: string, p: int) {
    WordAt(cs, t, p - 1) != WordAt(cs, t, p)
  }

  predicate WholeWordAt(cs: Casing, t: string, w: string, p: int) {
    OccursAt(t, w, p) && Boundary(cs, t, p) && Boundary(cs, t, p + |w|)
  }

  predicate WholeWordIn(cs: Casing, t: string, w: string) {
    exists p :: 0 <= p <= |t| && WholeWordAt(cs, t, w, p)
  }

  /** How far `re.findall` moves after a match: past it, or one step for an empty one. */
  function Advance(w: string): nat {
    if |w| == 0 then 1 else |w|
  }

  /** Number of non-overlapping whole-word matches of `w` found by scanning from
      `from` to the end, leftmost match first. */
  function CountFrom(cs: Casing, t: string, w: string, from: nat): nat
    decreases |t| + 1 - from
  {
    if from > |t| then 0
    else if WholeWordAt(cs, t, w, from) then 1 + CountFrom(cs, t, w, from + Advance(w))
    else CountFrom(cs, t, w, from + 1)
  }

  /** The scan finds something exactly when a whole-word match exists at or
      after `from`. */
  lemma {:induction false} CountFromPositive(cs: Casing, t: string, w: string, from: nat)
    ensures CountFrom(cs, t, w, from) > 0 <==> exists p :: from <= p <= |t| && WholeWordAt(cs, t, w, p)
    decreases |t| + 1 - from
  {
    if from <= |t| {
      if WholeWordAt(cs, t, w, from) {
        assert from <= from <= |t| && WholeWordAt(cs, t, w, from);
      } else {
        CountFromPositive(cs, t, w, from + 1);
      }
    }
  }

  /** The number of non-overlapping whole-word occurrences of `w` in `t`, found
      left to right. */
  function CountWholeWords(cs: Casing, t: string, w: string): (n: nat)
    ensures n > 0 <==> WholeWordIn(cs, t, w)
  {
    CountFromPositive(cs, t, w, 0);
    CountFrom(cs, t, w, 0)
  }

  // ---------------------------------------------------------------------------
  // One field

  datatype Tally = Tally(occurrences: nat, matched: set<string>)

  /** The loop over the keyword list: total occurrences and the set of
      keywords (as written in the list) that occur at least once. */
  function TallyKeywords(cs: Casing, t: string, kws: seq<string>): (r: Tally)
    ensures r.matched == {} <==> r.occurrences == 0
  {
    if kws == [] then Tally(0, {})
    else
      var rest := TallyKeywords(cs, t, kws[1..]);
      var n := CountWholeWords(cs, t, cs.lower(kws[0]));
      if n > 0 then Tally(n + rest.occurrences, rest.matched + {kws[0]}) else rest
  }

  /** Keyword `k` occurs in `t` as a whole word, case folded. */
  predicate Hit(cs: Casing, t: string, k: string) {
    WholeWordIn(cs, t, cs.lower(k))
  }

  /** The matched set holds exactly the listed keywords that occur. */
  lemma {:induction false} TallyMatched(cs: Casing, t: string, kws: seq<string>, k: string)
    ensures k in TallyKeywords(cs, t, kws).matched <==> k in kws && Hit(cs, t, k)
  {
    if kws != [] {
      TallyMatched(cs, t, kws[1..], k);
      HeadTail(kws);
    }
  }

  /** Tallying two lists one after the other adds the occurrences and unites the
      matched sets. */
  lemma {:induction false} TallyAppend(cs: Casing, t: string, xs: seq<string>, ys: seq<string>)
    ensures TallyKeywords(cs, t, xs + ys).occurrences
         == TallyKeywords(cs, t, xs).occurrences + TallyKeywords(cs, t, ys).occurrences
    ensures TallyKeywords(cs, t, xs + ys).matched
         == TallyKeywords(cs, t, xs).matched + TallyKeywords(cs, t, ys).matched
  {
    if xs != [] {
      var zs := xs + ys;
      assert zs[1..] == xs[1..] + ys;
      assert zs[0] == xs[0];
      TallyAppend(cs, t, xs[1..], ys);
      var n := CountWholeWords(cs, t, cs.lower(xs[0]));
      var whole := TallyKeywords(cs, t, zs[1..]);
      var part := TallyKeywords(cs, t, xs[1..]);
      assert TallyKeywords(cs, t, zs)
          == if n > 0 then Tally(n + whole.occurrences, whole.matched + {xs[0]}) else whole;
      assert TallyKeywords(cs, t, xs)
          == if n > 0 then Tally(n + part.occurrences, part.matched + {xs[0]}) else part;
    } else {
      assert xs + ys == ys;
    }
  }

  /** Total whole-word occurrences of the listed keywords, case folded, whether
      or not a keyword repeats. */
  function Occurrences(cs: Casing, t: string, kws: seq<string>): nat {
    if kws == [] then 0 else CountWholeWords(cs, t, cs.lower(kws[0])) + Occurrences(cs, t, kws[1..])
  }

  /** The tally's occurrence count is the plain sum over the keyword list: a
      keyword that does not occur adds nothing either way. */
  lemma {:induction false} TallyOccurrences(cs: Casing, t: string, kws: seq<string>)
    ensures TallyKeywords(cs, t, kws).occurrences == Occurrences(cs, t, kws)
  {
    if kws != [] {
      TallyOccurrences(cs, t, kws[1..]);
    }
  }

  /** A keyword listed twice (as several are, once per language) contributes its
      occurrences twice but is one matched keyword. */
  lemma DuplicateKeyword(cs: Casing, t: string, k: string)
    ensures TallyKeywords(cs, t, [k, k]).occurrences == 2 * CountWholeWords(cs, t, cs.lower(k))
    ensures TallyKeywords(cs, t, [k, k]).matched == TallyKeywords(cs, t, [k]).matched
  {
    var n := CountWholeWords(cs, t, cs.lower(k));
    assert [k, k][1..] == [k] && [k, k][0] == k;
    assert [k][1..] == [] && [k][0] == k;
    var one := TallyKeywords(cs, t, [k]);
    var none := TallyKeywords(cs, t, []);
    assert none == Tally(0, {});
    assert one == if n > 0 then Tally(n + none.occurrences, none.matched + {k}) else none;
    assert TallyKeywords(cs, t, [k, k])
        == if n > 0 then Tally(n + one.occurrences, one.matched + {k}) else one;
  }

  function MinReal(a: real, b: real): real {
    if a <= b then a else b
  }

  datatype FieldScore = FieldScore(score: real, matched: set<string>)

  /** The four scored fields of a project and the weight each carries. */
  datatype Field = TitleField | AbstractField | KeywordsField | ClassField

  function Weight(f: Field): real {
    match f
    case TitleField => 3.0
    case AbstractField => 1.5
    case KeywordsField => 2.0
    case ClassField => 1.0
  }

  /** `x * field_weight`, written per field so that it stays linear. */
  function Weighted(x: real, f: Field): real {
    match f
    case TitleField => 3.0 * x
    case AbstractField => 1.5 * x
    case KeywordsField => 2.0 * x
    case ClassField => x
  }

  /** The weighted score of one field and the keywords matched in it. */
  function KeywordScore(cs: Casing, text: string, kws: KeywordLists, f: Field): (r: FieldScore)
    ensures text == [] ==> r == FieldScore(0.0, {})
    ensures 0.0 <= r.score <= 10.0 * Weight(f)
    ensures r.score == 0.0 <==> r.matched == {}
    ensures r.matched != {} ==> r.score >= 2.5 * Weight(f)
  {
    if text == [] then FieldScore(0.0, {})
    else
      var tally := TallyKeywords(cs, cs.lower(text), AllKeywords(kws));
      FieldScore(Weighted(FieldPoints(|tally.matched|, tally.occurrences), f), tally.matched)
  }

  /** A keyword is in a field's matched set exactly when the field is non-empty,
      the keyword is listed, and it occurs in the field as a whole word. */
  lemma KeywordScoreMatched(cs: Casing, text: string, kws: KeywordLists, f: Field, k: string)
    ensures k in KeywordScore(cs, text, kws, f).matched <==>
      text != [] && k in AllKeywords(kws) && Hit(cs, cs.lower(text), k)
  {
    if text != [] {
      TallyMatched(cs, cs.lower(text), AllKeywords(kws), k);
    }
  }

  /** A non-empty field scores its weight times the points for its distinct
      matched keywords and its total occurrences. */
  lemma KeywordScoreValue(cs: Casing, text: string, kws: KeywordLists, f: Field)
    requires text != []
    ensures var r := KeywordScore(cs, text, kws, f);
      r.score == Weight(f) * FieldPoints(|r.matched|, Occurrences(cs, cs.lower(text), AllKeywords(kws)))
  {
    TallyOccurrences(cs, cs.lower(text), AllKeywords(kws));
  }

  /** Unweighted points of a field: two per distinct keyword (at most 5) plus a
      half per occurrence (at most 5). */
  function FieldPoints(distinct: nat, occurrences: nat): (r: real)
    ensures 0.0 <= r <= 10.0
    ensures r == 0.0 <==> distinct == 0 && occurrences == 0
    ensures distinct >= 1 && occurrences >= 1 ==> r >= 2.5
    ensures distinct <= 2 && occurrences <= 10 ==> r == 2.0 * distinct as real + 0.5 * occurrences as real
    ensures distinct <= 2 && occurrences >= 10 ==> r == 2.0 * distinct as real + 5.0
    ensures distinct >= 3 && occurrences <= 10 ==> r == 5.0 + 0.5 * occurrences as real
    ensures distinct >= 3 && occurrences >= 10 ==> r == 10.0
  {
    var unique := MinReal(2.0 * distinct as real, 5.0);
    var frequency := MinReal(occurrences as real * 0.5, 5.0);
    unique + frequency
  }

  // ---------------------------------------------------------------------------
  // One project

  /** The fields of a scraped project that are scored. An absent field is the
      empty string (or list), as `.get(key, '')` gives. */
  datatype Project = Project(
    title: string,
    fullTitle: string,
    abstractText: string,
    keywords: seq<string>,
    dfgClassification: string)

  function TitleText(p: Project): string {
    p.title + " " + p.fullTitle
  }

  function KeywordsText(p: Project): string {
    Join(p.keywords, " ")
  }

  /** Keyword `k` matches the non-empty field text `t` as a whole word. */
  predicate MatchesField(cs: Casing, t: string, k: string) {
    t != [] && Hit(cs, cs.lower(t), k)
  }

  datatype TopicScore = TopicScore(score: real, matched: set<string>)

  /** Keyword `k` is matched in one of the four fields exactly when it is listed
      and occurs in that field. */
  lemma TopicMatchedFields(cs: Casing, p: Project, kws: KeywordLists, k: string)
    ensures k in KeywordScore(cs, TitleText(p), kws, TitleField).matched
      <==> k in AllKeywords(kws) && MatchesField(cs, TitleText(p), k)
    ensures k in KeywordScore(cs, p.abstractText, kws, AbstractField).matched
      <==> k in AllKeywords(kws) && MatchesField(cs, p.abstractText, k)
    ensures k in KeywordScore(cs, KeywordsText(p), kws, KeywordsField).matched
      <==> k in AllKeywords(kws) && MatchesField(cs, KeywordsText(p), k)
    ensures k in KeywordScore(cs, p.dfgClassification, kws, ClassField).matched
      <==> k in AllKeywords(kws) && MatchesField(cs, p.dfgClassification, k)
  {
    KeywordScoreMatched(cs, TitleText(p), kws, TitleField, k);
    KeywordScoreMatched(cs, p.abstractText, kws, AbstractField, k);
    KeywordScoreMatched(cs, KeywordsText(p), kws, KeywordsField, k);
    KeywordScoreMatched(cs, p.dfgClassification, kws, ClassField, k);
  }

  /** One topic's score: the four weighted field scores summed, divided by 3 and
      capped at 10, with the union of the four matched sets. */
  function ScoreTopic(cs: Casing, p: Project, kws: KeywordLists): (r: TopicScore)
    ensures 0.0 <= r.score <= 10.0
    ensures r.score == 0.0 <==> r.matched == {}
    ensures forall k :: k in r.matched <==> (
      && k in AllKeywords(kws)
      && (|| MatchesField(cs, TitleText(p), k) || MatchesField(cs, p.abstractText, k)
          || MatchesField(cs, KeywordsText(p), k) || MatchesField(cs, p.dfgClassification, k)))
  {
    var title := KeywordScore(cs, TitleText(p), kws, TitleField);
    var abstractScore := KeywordScore(cs, p.abstractText, kws, AbstractField);
    var keywords := KeywordScore(cs, KeywordsText(p), kws, KeywordsField);
    var classification := KeywordScore(cs, p.dfgClassification, kws, ClassField);
    var sum := title.score + abstractScore.score + keywords.score + classification.score;
    forall k {
      TopicMatchedFields(cs, p, kws, k);
    }
    TopicScore(MinReal(sum / 3.0, 10.0),
               title.matched + abstractScore.matched + keywords.matched + classification.matched)
  }

  /** The topic score is a third of the four weighted field scores' sum, or 10
      once that sum reaches 30. */
  lemma ScoreTopicValue(cs: Casing, p: Project, kws: KeywordLists)
    ensures var sum := KeywordScore(cs, TitleText(p), kws, TitleField).score
                     + KeywordScore(cs, p.abstractText, kws, AbstractField).score
                     + KeywordScore(cs, KeywordsText(p), kws, KeywordsField).score
                     + KeywordScore(cs, p.dfgClassification, kws, ClassField).score;
      && (sum <= 30.0 ==> ScoreTopic(cs, p, kws).score == sum / 3.0)
      && (sum >= 30.0 ==> ScoreTopic(cs, p, kws).score == 10.0)
  {
  }

  /** A project row of the analysis table. */
  datatype Scored = Scored(
    project: Project,
    wearables: real,
    ai: real,
    combined: real,
    matchedWearables: set<string>,
    matchedAi: set<string>)

  /** `analyze_project_relevance` plus the combined column of `create_dataframes`. */
  function ScoreProject(cs: Casing, p: Project): (s: Scored)
    ensures s.project == p
    ensures 0.0 <= s.wearables <= 10.0 && 0.0 <= s.ai <= 10.0
    ensures s.combined == s.wearables + s.ai && 0.0 <= s.combined <= 20.0
    ensures s.wearables == 0.0 <==> s.matchedWearables == {}
    ensures s.ai == 0.0 <==> s.matchedAi == {}
    ensures s.wearables == ScoreTopic(cs, p, Wearables).score && s.matchedWearables == ScoreTopic(cs, p, Wearables).matched
    ensures s.ai == ScoreTopic(cs, p, Ai).score && s.matchedAi == ScoreTopic(cs, p, Ai).matched
  {
    var w := ScoreTopic(cs, p, Wearables);
    var a := ScoreTopic(cs, p, Ai);
    Scored(p, w.score, a.score, w.score + a.score, w.matched, a.matched)
  }

  function ScoreAll(cs: Casing, ps: seq<Project>): (r: seq<Scored>)
    ensures |r| == |ps|
    ensures forall i :: 0 <= i < |ps| ==> r[i] == ScoreProject(cs, ps[i])
  {
    seq(|ps|, i requires 0 <= i < |ps| => ScoreProject(cs, ps[i]))
  }

  // ---------------------------------------------------------------------------
  // The relevant-project lists

  const RelevanceThreshold: real := 1.0

  function WearablesOf(s: Scored): real { s.wearables }
  function AiOf(s: Scored): real { s.ai }
  function CombinedOf(s: Scored): real { s.combined }

  predicate WearablesRelevant(s: Scored) { s.wearables >= RelevanceThreshold }
  predicate AiRelevant(s: Scored) { s.ai >= RelevanceThreshold }
  predicate BothRelevant(s: Scored) { WearablesRelevant(s) && AiRelevant(s) }

  /** The rows with the given property, highest key first. */
  function RelevantList(rows: seq<Scored>, keep: Scored -> bool, key: Scored -> real): (r: seq<Scored>)
    ensures forall x :: x in r <==> x in rows && keep(x)
    ensures SortedDesc(r, key)
    ensures multiset(r) == multiset(Filter(rows, keep))
  {
    var kept := Filter(rows, keep);
    forall x
      ensures x in kept <==> x in rows && keep(x)
    {
      FilterMembership(rows, keep, x);
    }
    var r := SortDesc(kept, key);
    assert forall x :: x in r <==> x in multiset(kept);
    r
  }

  /** The wearables list: score at least 1.0, highest first, every such row
      exactly as often as in the table. */
  function WearablesList(rows: seq<Scored>): (r: seq<Scored>)
    ensures forall x :: x in r <==> x in rows && x.wearables >= 1.0
    ensures forall i, j :: 0 <= i < j < |r| ==> r[i].wearables >= r[j].wearables
    ensures multiset(r) == multiset(Filter(rows, WearablesRelevant))
  {
    var r := RelevantList(rows, WearablesRelevant, WearablesOf);
    assert SortedDesc(r, WearablesOf);
    r
  }

  /** The AI list: score at least 1.0, highest first. */
  function AiList(rows: seq<Scored>): (r: seq<Scored>)
    ensures forall x :: x in r <==> x in rows && x.ai >= 1.0
    ensures forall i, j :: 0 <= i < j < |r| ==> r[i].ai >= r[j].ai
    ensures multiset(r) == multiset(Filter(rows, AiRelevant))
  {
    var r := RelevantList(rows, AiRelevant, AiOf);
    assert SortedDesc(r, AiOf);
    r
  }

  /** The combined list: both scores at least 1.0, highest combined first. */
  function CombinedList(rows: seq<Scored>): (r: seq<Scored>)
    ensures forall x :: x in r <==> x in rows && x.wearables >= 1.0 && x.ai >= 1.0
    ensures forall i, j :: 0 <= i < j < |r| ==> r[i].combined >= r[j].combined
    ensures multiset(r) == multiset(Filter(rows, BothRelevant))
  {
    var r := RelevantList(rows, BothRelevant, CombinedOf);
    assert SortedDesc(r, CombinedOf);
    r
  }

  /** The combined list is exactly the rows on both topic lists. */
  lemma CombinedIsIntersection(rows: seq<Scored>, x: Scored)
    ensures x in CombinedList(rows) <==> x in WearablesList(rows) && x in AiList(rows)
  {
  }

  // ---------------------------------------------------------------------------
  // Why the boundaries matter

  /** "lung" inside "kopplung" is not a whole word. */
  lemma LungNotInKopplung(cs: Casing)
    requires AsciiWords(cs)
    ensures !WholeWordIn(cs, "kopplung", "lung")
  {
    forall p | 0 <= p <= 8
      ensures !WholeWordAt(cs, "kopplung", "lung", p)
    {
      if p == 4 { assert WordAt(cs, "kopplung", 3); }
    }
  }

  /** "ai" inside "brain" is not a whole word, while "brain" is. */
  lemma AiNotInBrain(cs: Casing)
    requires AsciiWords(cs)
    ensures !WholeWordIn(cs, "brain", "ai")
    ensures WholeWordIn(cs, "brain", "brain")
  {
    forall p | 0 <= p <= 5
      ensures !WholeWordAt(cs, "brain", "ai", p)
    {
      if p == 2 { assert WordAt(cs, "brain", 1); }
    }
    assert WholeWordAt(cs, "brain", "brain", 0);
  }

  /** "lung" in "the lung" is a whole word. */
  lemma LungInSentence(cs: Casing)
    requires AsciiWords(cs)
    ensures WholeWordIn(cs, "the lung", "lung")
  {
    assert "the lung"[4..8] == "lung";
    assert WholeWordAt(cs, "the lung", "lung", 4);
  }

  /** Typographic quotes are not word characters in Python, so "ki" between
      them is a whole word. */
  lemma KiInQuotes(cs: Casing)
    requires AsciiWords(cs) && !cs.isWord('\U{201E}') && !cs.isWord('\U{201C}')
    ensures WholeWordIn(cs, "der \U{201E}ki\U{201C}", "ki")
  {
    assert "der \U{201E}ki\U{201C}"[5..7] == "ki";
    assert WholeWordAt(cs, "der \U{201E}ki\U{201C}", "ki", 5);
  }
}

=== FILE: sorting.dfy ===
/**
 Ordering and selection over sequences, shared by the score lists, the
 filtered project table and the program lists.

 Every sort here is a stable insertion sort written as a function: the
 Python lists and the JavaScript `Array.prototype.sort` it stands for order
 by one key, and the contracts say the result is ordered and is a
 permutation of the input.
 */
module Sorting {
  import opened Strings

  // ---------------------------------------------------------------------------
  // Selection

  /** The elements satisfying `p`, in input order (`filter`, a boolean mask). */
  function Filter<T>(xs: seq<T>, p: T -> bool): (r: seq<T>)
    ensures |r| <= |xs|
    ensures forall k :: 0 <= k < |r| ==> p(r[k])
    ensures multiset(r) <= multiset(xs)
    ensures forall k :: 0 <= k < |xs| && p(xs[k]) ==> xs[k] in r
  {
    FilterSubMultiset(xs, p);
    Kept(xs, p)
  }

  /** The recursion behind `Filter`; the multiset bound is proved apart, by
      `FilterSubMultiset`. */
  function Kept<T>(xs: seq<T>, p: T -> bool): (r: seq<T>)
    ensures |r| <= |xs|
    ensures forall k :: 0 <= k < |r| ==> p(r[k])
    ensures forall k :: 0 <= k < |xs| && p(xs[k]) ==> xs[k] in r
  {
    if xs == [] then []
    else
      var rest := Kept(xs[1..], p);
      HeadTail(xs);
      if p(xs[0]) then [xs[0]] + rest else rest
  }

  lemma {:induction false} FilterSubMultiset<T>(xs: seq<T>, p: T -> bool)
    ensures multiset(Kept(xs, p)) <= multiset(xs)
  {
    if xs != [] {
      FilterSubMultiset(xs[1..], p);
      HeadTail(xs);
    }
  }

  /** Filtering a non-empty list: its head if it is kept, then the filtered
      tail. */
  lemma FilterCons<T>(xs: seq<T>, p: T -> bool)
    requires xs != []
    ensures Filter(xs, p) == (if p(xs[0]) then [xs[0]] else []) + Filter(xs[1..], p)
  {
  }

  /** Filtering a list split in two filters each part: the order is kept. */
  lemma {:induction false} FilterAppend<T>(a: seq<T>, b: seq<T>, p: T -> bool)
    ensures Filter(a + b, p) == Filter(a, p) + Filter(b, p)
    decreases |a|
  {
    if a == [] {
      assert a + b == b;
    } else {
      FilterAppend(a[1..], b, p);
      assert (a + b)[1..] == a[1..] + b;
      assert (a + b)[0] == a[0];
      Assoc(if p(a[0]) then [a[0]] else [], Filter(a[1..], p), Filter(b, p));
    }
  }

  /** Three filters that put every element in exactly one of them split the
      list: together they hold each element as often as the list does. */
  lemma {:induction false} FilterPartition<T>(xs: seq<T>, p: T -> bool, q: T -> bool, o: T -> bool)
    requires forall x :: p(x) || q(x) || o(x)
    requires forall x :: !(p(x) && q(x)) && !(p(x) && o(x)) && !(q(x) && o(x))
    ensures multiset(Filter(xs, p)) + multiset(Filter(xs, q)) + multiset(Filter(xs, o)) == multiset(xs)
    decreases |xs|
  {
    if xs != [] {
      FilterPartition(xs[1..], p, q, o);
      HeadTail(xs);
    }
  }

  /** Nothing is kept when no element satisfies `p`. */
  lemma {:induction false} FilterNone<T>(xs: seq<T>, p: T -> bool)
    requires forall k :: 0 <= k < |xs| ==> !p(xs[k])
    ensures Filter(xs, p) == []
    decreases |xs|
  {
    if xs != [] {
      assert forall k :: 0 <= k < |xs[1..]| ==> xs[1..][k] == xs[k + 1];
      FilterNone(xs[1..], p);
    }
  }

  /** Everything is kept when every element satisfies `p`. */
  lemma {:induction false} FilterAll<T>(xs: seq<T>, p: T -> bool)
    requires forall k :: 0 <= k < |xs| ==> p(xs[k])
    ensures Filter(xs, p) == xs
    decreases |xs|
  {
    if xs != [] {
      assert forall k :: 0 <= k < |xs[1..]| ==> xs[1..][k] == xs[k + 1];
      FilterAll(xs[1..], p);
      HeadTail(xs);
    }
  }

  /** A piece that is not the empty string. */
  predicate Filled(s: string) { s != [] }

  /** `NonEmpty` drops the empty pieces and keeps the rest in order. */
  lemma {:induction false} NonEmptyIsFilter(xs: seq<string>)
    ensures NonEmpty(xs) == Filter(xs, Filled)
  {
    if xs != [] {
      NonEmptyIsFilter(xs[1..]);
      FilterCons(xs, Filled);
    }
  }

  /** Filtering by two tests that agree everywhere gives the same list. */
  lemma {:induction false} FilterSame<T>(xs: seq<T>, p: T -> bool, q: T -> bool)
    requires forall x :: p(x) == q(x)
    ensures Filter(xs, p) == Filter(xs, q)
    decreases |xs|
  {
    if xs != [] {
      FilterCons(xs, p);
      FilterCons(xs, q);
      FilterSame(xs[1..], p, q);
    }
  }

  /** A text as its own key. */
  function Itself(x: string): string {
    x
  }

  /** `f` applied to every element, in order (a list comprehension). */
  function MapSeq<T, U>(xs: seq<T>, f: T -> U): (r: seq<U>)
    ensures |r| == |xs|
    ensures forall k :: 0 <= k < |xs| ==> r[k] == f(xs[k])
  {
    seq(|xs|, k requires 0 <= k < |xs| => f(xs[k]))
  }

  /** An element is kept by `Filter` exactly when it was there and satisfies `p`. */
  lemma {:induction false} FilterMembership<T>(xs: seq<T>, p: T -> bool, x: T)
    ensures x in Filter(xs, p) <==> x in xs && p(x)
  {
    if xs != [] {
      FilterMembership(xs[1..], p, x);
      HeadTail(xs);
    }
  }

  // ---------------------------------------------------------------------------
  // Descending by a real key (score lists)

  predicate SortedDesc<T>(xs: seq<T>, key: T -> real) {
    forall i, j :: 0 <= i < j < |xs| ==> key(xs[i]) >= key(xs[j])
  }

  /** Insert `x` before the first element whose key is not larger, so equal keys
      keep their relative order. */
  function InsertDesc<T>(x: T, xs: seq<T>, key: T -> real): (r: seq<T>)
    requires SortedDesc(xs, key)
    ensures SortedDesc(r, key)
    ensures multiset(r) == multiset(xs) + multiset{x}
    ensures |r| == |xs| + 1
    ensures r[0] == x || (xs != [] && r[0] == xs[0])
  {
    if xs == [] || key(x) >= key(xs[0]) then [x] + xs
    else
      var rest := InsertDesc(x, xs[1..], key);
      assert key(xs[0]) >= key(rest[0]);
      HeadTail(xs);
      [xs[0]] + rest
  }

  /** Stable sort, largest key first. */
  function SortDesc<T>(xs: seq<T>, key: T -> real): (r: seq<T>)
    ensures SortedDesc(r, key)
    ensures multiset(r) == multiset(xs)
    ensures |r| == |xs|
  {
    if xs == [] then []
    else
      HeadTail(xs);
      InsertDesc(xs[0], SortDesc(xs[1..], key), key)
  }

  // ---------------------------------------------------------------------------
  // Ascending by a string key under a given order (title, investigator)

  /** What a comparison must be for sorting by it to give a sorted list: any
      two texts are comparable, and the order is transitive. */
  ghost predicate TotalPreorder(le: (string, string) -> bool) {
    && (forall a, b :: le(a, b) || le(b, a))
    && (forall a, b, c :: le(a, b) && le(b, c) ==> le(a, c))
  }

  predicate SortedBy<T>(xs: seq<T>, key: T -> string, le: (string, string) -> bool) {
    forall i, j :: 0 <= i < j < |xs| ==> le(key(xs[i]), key(xs[j]))
  }

  function InsertBy<T>(x: T, xs: seq<T>, key: T -> string, le: (string, string) -> bool): (r: seq<T>)
    requires TotalPreorder(le) && SortedBy(xs, key, le)
    ensures SortedBy(r, key, le)
    ensures multiset(r) == multiset(xs) + multiset{x}
    ensures |r| == |xs| + 1
    ensures r[0] == x || (xs != [] && r[0] == xs[0])
  {
    if xs == [] || le(key(x), key(xs[0])) then
      [x] + xs
    else
      var rest := InsertBy(x, xs[1..], key, le);
      assert le(key(xs[0]), key(rest[0]));
      HeadTail(xs);
      [xs[0]] + rest
  }

  /** Stable sort by a string key: each element goes in front of the first
      one it is at most, so equal keys keep their input order. */
  function SortBy<T>(xs: seq<T>, key: T -> string, le: (string, string) -> bool): (r: seq<T>)
    requires TotalPreorder(le)
    ensures SortedBy(r, key, le)
    ensures multiset(r) == multiset(xs)
    ensures |r| == |xs|
  {
    if xs == [] then []
    else
      HeadTail(xs);
      InsertBy(xs[0], SortBy(xs[1..], key, le), key, le)
  }

  // ---------------------------------------------------------------------------
  // Strictly ascending, duplicate-free string sequences (`sorted(set(...))`)

  predicate StrictlyAscending(xs: seq<string>) {
    forall i, j :: 0 <= i < j < |xs| ==> StrLt(xs[i], xs[j])
  }

  /** Insert `x` unless it is already present. */
  function InsertUnique(x: string, xs: seq<string>): (r: seq<string>)
    requires StrictlyAscending(xs)
    ensures StrictlyAscending(r)
    ensures forall y :: y in r <==> y == x || y in xs
    ensures r != [] && (r[0] == x || (xs != [] && r[0] == xs[0]))
  {
    if xs == [] then [x]
    else if x == xs[0] then xs
    else if StrLe(x, xs[0]) then
      forall j | 0 <= j < |xs|
        ensures StrLt(x, xs[j])
      {
        if j > 0 {
          StrLeTrans(x, xs[0], xs[j]);
          if x == xs[j] { StrLeAntisym(xs[0], xs[j]); }
        }
      }
      [x] + xs
    else
      StrLeTotal(x, xs[0]);
      var rest := InsertUnique(x, xs[1..]);
      assert StrLt(xs[0], rest[0]);
      forall j | 0 <= j < |rest|
        ensures StrLt(xs[0], rest[j])
      {
        if j > 0 {
          StrLeTrans(xs[0], rest[0], rest[j]);
          if xs[0] == rest[j] { StrLeAntisym(rest[0], rest[j]); }
        }
      }
      [xs[0]] + rest
  }

  /** The distinct strings of `xs` in ascending order. */
  function SortedSet(xs: seq<string>): (r: seq<string>)
    ensures StrictlyAscending(r)
    ensures forall y :: y in r <==> y in xs
  {
    if xs == [] then [] else InsertUnique(xs[0], SortedSet(xs[1..]))
  }

  /** A strictly ascending sequence has no repeated element. */
  lemma AscendingDistinct(xs: seq<string>)
    requires StrictlyAscending(xs)
    ensures forall i, j :: 0 <= i < j < |xs| ==> xs[i] != xs[j]
  {
  }

  /** Two strictly ascending sequences with the same elements are equal: the
      order of `sorted(set(...))` is determined by the set alone. */
  lemma {:induction false} AscendingUnique(xs: seq<string>, ys: seq<string>)
    requires StrictlyAscending(xs) && StrictlyAscending(ys)
    requires forall y :: y in xs <==> y in ys
    ensures xs == ys
    decreases |xs|
  {
    SameElementsBothEmpty(xs, ys);
    if xs != [] && ys != [] {
      if xs[0] != ys[0] {
        assert xs[0] in ys;
        assert ys[0] in xs;
        var i :| 0 <= i < |ys| && ys[i] == xs[0];
        var j :| 0 <= j < |xs| && xs[j] == ys[0];
        assert StrLe(ys[0], xs[0]);
        assert StrLe(xs[0], ys[0]);
        StrLeAntisym(xs[0], ys[0]);
      }
      forall y
        ensures y in xs[1..] <==> y in ys[1..]
      {
        if y in xs[1..] {
          var i :| 0 <= i < |xs| - 1 && xs[1..][i] == y;
          assert StrLt(xs[0], xs[i + 1]);
          assert xs[i + 1] == y && y in xs;
          var k :| 0 <= k < |ys| && ys[k] == y;
          assert k != 0;
          assert ys[1..][k - 1] == y;
        }
        if y in ys[1..] {
          var i :| 0 <= i < |ys| - 1 && ys[1..][i] == y;
          assert StrLt(ys[0], ys[i + 1]);
          assert ys[i + 1] == y && y in ys;
          var k :| 0 <= k < |xs| && xs[k] == y;
          assert k != 0;
          assert xs[1..][k - 1] == y;
        }
      }
      AscendingUnique(xs[1..], ys[1..]);
      HeadTail(xs);
      HeadTail(ys);
    }
  }

  lemma SameElementsBothEmpty(xs: seq<string>, ys: seq<string>)
    requires forall y :: y in xs <==> y in ys
    ensures xs == [] <==> ys == []
  {
    if xs != [] { assert xs[0] in xs; }
    if ys != [] { assert ys[0] in ys; }
  }

  /** A duplicate-free sequence has as many distinct elements as entries. */
  lemma {:induction false} DistinctCount<T>(xs: seq<T>)
    requires forall i, j :: 0 <= i < j < |xs| ==> xs[i] != xs[j]
    ensures |set x | x in xs| == |xs|
  {
    if xs != [] {
      var n := |xs| - 1;
      DistinctCount(xs[..n]);
      var init := set x | x in xs[..n];
      assert (set x | x in xs) == init + {xs[n]};
    }
  }

  // ---------------------------------------------------------------------------
  // Deduplication in first-occurrence order

  /** The keys of a sequence, position by position. */
  function KeysOf<T>(xs: seq<T>, key: T -> string): (r: seq<string>)
    ensures |r| == |xs| && forall i :: 0 <= i < |xs| ==> r[i] == key(xs[i])
  {
    seq(|xs|, i requires 0 <= i < |xs| => key(xs[i]))
  }

  /** The elements of `xs` at the positions `ps`, in the order of `ps`. */
  function At<T>(xs: seq<T>, ps: seq<nat>): (r: seq<T>)
    requires forall i :: 0 <= i < |ps| ==> ps[i] < |xs|
    ensures |r| == |ps| && forall i :: 0 <= i < |ps| ==> r[i] == xs[ps[i]]
  {
    seq(|ps|, i requires 0 <= i < |ps| => xs[ps[i]])
  }

  predicate Increasing(ps: seq<nat>) {
    forall i, j :: 0 <= i < j < |ps| ==> ps[i] < ps[j]
  }

  /** No element before position `j` has the key of the one at `j`. */
  predicate IsFirstKey<T>(xs: seq<T>, key: T -> string, j: nat)
    requires j < |xs|
  {
    forall k :: 0 <= k < j ==> key(xs[k]) != key(xs[j])
  }

  /** The positions below `n` where a key appears for the first time, in
      increasing order. */
  function FirstPositions<T>(xs: seq<T>, key: T -> string, n: nat): (r: seq<nat>)
    requires n <= |xs|
    ensures forall i :: 0 <= i < |r| ==> r[i] < n
    decreases n
  {
    if n == 0 then []
    else
      var prev := FirstPositions(xs, key, n - 1);
      if IsFirstKey(xs, key, n - 1) then prev + [n - 1] else prev
  }

  /** `FirstPositions` lists, in increasing order, exactly the positions below
      `n` that hold the first element with their key. */
  lemma {:induction false} FirstPositionsExact<T>(xs: seq<T>, key: T -> string, n: nat)
    requires n <= |xs|
    ensures var r := FirstPositions(xs, key, n);
      && Increasing(r)
      && (forall i :: 0 <= i < |r| ==> IsFirstKey(xs, key, r[i]))
      && (forall j :: 0 <= j < n && IsFirstKey(xs, key, j) ==> j in r)
    decreases n
  {
    if n > 0 {
      FirstPositionsExact(xs, key, n - 1);
    }
  }

  /** `r` is `xs` with every element left out whose key appeared earlier: the
      element at the first position of each key, in input order. */
  ghost predicate FirstOfEachKey<T>(xs: seq<T>, key: T -> string, r: seq<T>) {
    r == At(xs, FirstPositions(xs, key, |xs|))
  }

  /** The first element with each key, in input order: an element is appended
      unless its key is already among those appended. */
  function UniqueBy<T>(xs: seq<T>, key: T -> string): (r: seq<T>)
    ensures |r| <= |xs|
    ensures forall i, j :: 0 <= i < j < |r| ==> key(r[i]) != key(r[j])
    ensures forall i :: 0 <= i < |r| ==> r[i] in xs
    ensures forall i :: 0 <= i < |xs| ==> key(xs[i]) in KeysOf(r, key)
    ensures FirstOfEachKey(xs, key, r)
  {
    UniqueUpToPositions(xs, key, |xs|);
    UniqueUpTo(xs, key, |xs|)
  }

  /** `UniqueUpTo` keeps exactly the elements at the first positions of their
      keys. */
  lemma {:induction false} UniqueUpToPositions<T>(xs: seq<T>, key: T -> string, n: nat)
    requires n <= |xs|
    ensures UniqueUpTo(xs, key, n) == At(xs, FirstPositions(xs, key, n))
    decreases n
  {
    if n > 0 {
      UniqueUpToPositions(xs, key, n - 1);
      var prev := UniqueUpTo(xs, key, n - 1);
      var ps := FirstPositions(xs, key, n - 1);
      if key(xs[n - 1]) in KeysOf(prev, key) {
        UniqueUpToSeen(xs, key, n, prev, ps);
      } else {
        UniqueUpToNew(xs, key, n, prev, ps);
      }
    }
  }

  /** The step of `UniqueUpToPositions` for a key kept before. */
  lemma UniqueUpToSeen<T>(xs: seq<T>, key: T -> string, n: nat, prev: seq<T>, ps: seq<nat>)
    requires 0 < n <= |xs|
    requires prev == UniqueUpTo(xs, key, n - 1) && ps == FirstPositions(xs, key, n - 1)
    requires prev == At(xs, ps)
    requires key(xs[n - 1]) in KeysOf(prev, key)
    ensures UniqueUpTo(xs, key, n) == At(xs, FirstPositions(xs, key, n))
  {
    SeenKeyNotFirst(xs, key, ps, n);
    assert FirstPositions(xs, key, n) == ps;
    assert UniqueUpTo(xs, key, n) == prev;
  }

  /** The step of `UniqueUpToPositions` for a new key. */
  lemma UniqueUpToNew<T>(xs: seq<T>, key: T -> string, n: nat, prev: seq<T>, ps: seq<nat>)
    requires 0 < n <= |xs|
    requires prev == UniqueUpTo(xs, key, n - 1) && ps == FirstPositions(xs, key, n - 1)
    requires prev == At(xs, ps)
    requires key(xs[n - 1]) !in KeysOf(prev, key)
    ensures UniqueUpTo(xs, key, n) == At(xs, FirstPositions(xs, key, n))
  {
    NewKeyFirst(xs, key, prev, n);
    FirstPositionsSnoc(xs, key, n);
    UniqueUpToSnoc(xs, key, n);
    AtSnoc(xs, ps, n - 1);
  }

  lemma FirstPositionsSnoc<T>(xs: seq<T>, key: T -> string, n: nat)
    requires 0 < n <= |xs| && IsFirstKey(xs, key, n - 1)
    ensures FirstPositions(xs, key, n) == FirstPositions(xs, key, n - 1) + [n - 1]
  {
  }

  lemma UniqueUpToSnoc<T>(xs: seq<T>, key: T -> string, n: nat)
    requires 0 < n <= |xs| && key(xs[n - 1]) !in KeysOf(UniqueUpTo(xs, key, n - 1), key)
    ensures UniqueUpTo(xs, key, n) == UniqueUpTo(xs, key, n - 1) + [xs[n - 1]]
  {
  }

  lemma AtSnoc<T>(xs: seq<T>, ps: seq<nat>, j: nat)
    requires forall i :: 0 <= i < |ps| ==> ps[i] < |xs|
    requires j < |xs|
    ensures At(xs, ps + [j]) == At(xs, ps) + [xs[j]]
  {
    assert forall i :: 0 <= i < |ps| ==> (ps + [j])[i] == ps[i];
  }

  /** A key already kept from earlier positions is not new at `n - 1`. */
  lemma SeenKeyNotFirst<T>(xs: seq<T>, key: T -> string, ps: seq<nat>, n: nat)
    requires 0 < n <= |xs|
    requires forall i :: 0 <= i < |ps| ==> ps[i] < n - 1
    requires key(xs[n - 1]) in KeysOf(At(xs, ps), key)
    ensures !IsFirstKey(xs, key, n - 1)
  {
    var prev := At(xs, ps);
    var m :| 0 <= m < |prev| && KeysOf(prev, key)[m] == key(xs[n - 1]);
    assert key(xs[ps[m]]) == key(xs[n - 1]);
  }

  /** A key missing from a list that holds every earlier key is new. */
  lemma NewKeyFirst<T>(xs: seq<T>, key: T -> string, prev: seq<T>, n: nat)
    requires 0 < n <= |xs|
    requires forall i :: 0 <= i < n - 1 ==> key(xs[i]) in KeysOf(prev, key)
    requires key(xs[n - 1]) !in KeysOf(prev, key)
    ensures IsFirstKey(xs, key, n - 1)
  {
  }

  /** `UniqueBy` over the first `n` elements. */
  function UniqueUpTo<T>(xs: seq<T>, key: T -> string, n: nat): (r: seq<T>)
    requires n <= |xs|
    ensures |r| <= n
    ensures forall i, j :: 0 <= i < j < |r| ==> key(r[i]) != key(r[j])
    ensures forall i :: 0 <= i < |r| ==> r[i] in xs
    ensures forall i :: 0 <= i < n ==> key(xs[i]) in KeysOf(r, key)
    decreases n
  {
    if n == 0 then []
    else
      var prev := UniqueUpTo(xs, key, n - 1);
      if key(xs[n - 1]) in KeysOf(prev, key) then prev
      else
        var r := prev + [xs[n - 1]];
        assert KeysOf(r, key) == KeysOf(prev, key) + [key(xs[n - 1])];
        r
  }

  /** Each kept element is the first of its key: it sits at an index `j`
      before which no element has that key. */
  lemma UniqueByFirst<T>(xs: seq<T>, key: T -> string, i: nat) returns (j: nat)
    requires i < |UniqueBy(xs, key)|
    ensures j < |xs| && xs[j] == UniqueBy(xs, key)[i]
    ensures forall k :: 0 <= k < j ==> key(xs[k]) != key(xs[j])
  {
    j := UniqueUpToFirst(xs, key, |xs|, i);
  }

  lemma {:induction false} UniqueUpToFirst<T>(xs: seq<T>, key: T -> string, n: nat, i: nat) returns (j: nat)
    requires n <= |xs| && i < |UniqueUpTo(xs, key, n)|
    ensures j < n && xs[j] == UniqueUpTo(xs, key, n)[i]
    ensures forall k :: 0 <= k < j ==> key(xs[k]) != key(xs[j])
    decreases n
  {
    var prev := UniqueUpTo(xs, key, n - 1);
    if i < |prev| {
      j := UniqueUpToFirst(xs, key, n - 1, i);
    } else {
      j := n - 1;
      assert key(xs[j]) !in KeysOf(prev, key);
    }
  }

  /** An element whose key no earlier element has is kept. */
  lemma UniqueByKeepsFirst<T>(xs: seq<T>, key: T -> string, i: nat)
    requires i < |xs|
    requires forall j :: 0 <= j < i ==> key(xs[j]) != key(xs[i])
    ensures xs[i] in UniqueBy(xs, key)
  {
    UniqueUpToKeepsFirst(xs, key, |xs|, i);
  }

  lemma {:induction false} UniqueUpToKeepsFirst<T>(xs: seq<T>, key: T -> string, n: nat, i: nat)
    requires i < n <= |xs|
    requires forall j :: 0 <= j < i ==> key(xs[j]) != key(xs[i])
    ensures xs[i] in UniqueUpTo(xs, key, n)
    decreases n
  {
    if i < n - 1 {
      UniqueUpToKeepsFirst(xs, key, n - 1, i);
      UniqueUpToPrefix(xs, key, n);
    } else {
      UniqueUpToKeepsLast(xs, key, n);
    }
  }

  /** Looking at one more element only appends. */
  lemma UniqueUpToPrefix<T>(xs: seq<T>, key: T -> string, n: nat)
    requires 0 < n <= |xs|
    ensures UniqueUpTo(xs, key, n - 1) <= UniqueUpTo(xs, key, n)
  {
  }

  lemma UniqueUpToKeepsLast<T>(xs: seq<T>, key: T -> string, n: nat)
    requires 0 < n <= |xs|
    requires forall j :: 0 <= j < n - 1 ==> key(xs[j]) != key(xs[n - 1])
    ensures xs[n - 1] in UniqueUpTo(xs, key, n)
  {
    var prev := UniqueUpTo(xs, key, n - 1);
    forall m | 0 <= m < |prev|
      ensures KeysOf(prev, key)[m] != key(xs[n - 1])
    {
      var j := UniqueUpToFirst(xs, key, n - 1, m);
      assert KeysOf(prev, key)[m] == key(xs[j]);
    }
    assert key(xs[n - 1]) !in KeysOf(prev, key);
    var r := prev + [xs[n - 1]];
    assert r[|prev|] == xs[n - 1];
  }
}

=== FILE: spp_full.dfy ===
/**
 The full listing scraper for Schwerpunktprogramme (priority programmes).

 The listing page is read in one of two ways: the row objects of the
 Tabulator table, or the rows rendered while the table is scrolled step by
 step. A paginated search is the fallback when both find too few programmes.
 Then the start-year filter is applied and every kept programme's detail page
 is read.

 Programmes are records (`map<string, string>`). Whatever the browser
 returns (row objects, the rows rendered at a scroll position, the label/value
 table of a detail page) is an input value. Stripping HTML tags from a title
 is a function parameter.
 */
module SppFull {
  import opened Strings
  import opened Records
  import opened Sorting
  import opened Gepris

  // ---------------------------------------------------------------------------
  // Tabulator rows

  /** A table number prefixed with `SPP ` unless it is empty or already starts
      with `SPP`. */
  function SppNumber(nummer: string): (r: string)
    ensures nummer == [] ==> r == []
    ensures nummer != [] ==> StartsWith(r, "SPP")
    ensures EndsWith(r, nummer)
    ensures r == nummer || r == "SPP " + nummer
  {
    if nummer != [] && !StartsWith(nummer, "SPP") then
      assert ("SPP " + nummer)[..3] == "SPP";
      assert ("SPP " + nummer)[4..] == nummer;
      "SPP " + nummer
    else nummer
  }

  /** Numbering a number that is already numbered changes nothing. */
  lemma SppNumberIdempotent(nummer: string)
    ensures SppNumber(SppNumber(nummer)) == SppNumber(nummer)
  {
  }

  /** A `href="` found by the pattern also contains `href=`, so the pattern is
      only consulted when the cheaper test admits it. */
  lemma HrefAttrNeedsHref(s: string)
    requires HrefAttr(s).Some?
    ensures Contains(s, "href=")
  {
    var i :| HrefAt(s, i);
    OccursAtPrefix(s, "href=\"", "href=", i);
  }

  /** The url of a Tabulator row: the title's link made absolute; otherwise the
      `URL` field, falling back to `DETAIL_URL`, with the host prepended when it
      is not absolute. */
  function TabulatorUrl(row: Record): (r: string)
    ensures r == [] || StartsWith(r, "http")
    ensures HrefAttr(Get(row, "PRJ_TITEL", "")).Some? ==>
              r == AbsoluteUrl(HrefAttr(Get(row, "PRJ_TITEL", "")).value)
    ensures HrefAttr(Get(row, "PRJ_TITEL", "")).None? ==>
              (r == [] <==> Get(row, "URL", Get(row, "DETAIL_URL", "")) == [])
  {
    var raw := Get(row, "PRJ_TITEL", "");
    var fromTitle :=
      if Contains(raw, "href=") then
        match HrefAttr(raw)
        case Some(href) => AbsoluteUrl(href)
        case None => ""
      else "";
    assert HrefAttr(raw).Some? ==> Contains(raw, "href=") by {
      if HrefAttr(raw).Some? { HrefAttrNeedsHref(raw); }
    }
    if fromTitle != [] then fromTitle
    else
      var u := Get(row, "URL", Get(row, "DETAIL_URL", ""));
      if u != [] && !StartsWith(u, "http") then AbsoluteUrl(u) else u
  }

  predicate IsSppRow(row: Record) {
    Get(row, "TYP", "") == "SPP"
  }

  /** The fields of a programme read from the programme table. */
  const ProgramKeys: set<string> :=
    {"spp_number", "title", "url", "beginn", "bundesland", "int_bezug", "variante", "wissenschaftsbereich"}

  /** A programme record with the eight table fields. */
  function ProgramFields(number: string, title: string, url: string, beginn: string, land: string,
                         bezug: string, variante: string, area: string): (p: Record)
    ensures p.Keys == ProgramKeys
    ensures "spp_number" in p && p["spp_number"] == number
    ensures "title" in p && p["title"] == title
    ensures "url" in p && p["url"] == url
  {
    var p := map["spp_number" := number, "title" := title, "url" := url, "beginn" := beginn]
      ["bundesland" := land]["int_bezug" := bezug]["variante" := variante]["wissenschaftsbereich" := area];
    assert p.Keys == ProgramKeys;
    p
  }

  /** The programme built from one `TYP == 'SPP'` row. */
  function TabulatorProgram(row: Record, stripTags: string -> string): (p: Record)
    ensures p.Keys == ProgramKeys
    ensures p["spp_number"] == SppNumber(Get(row, "NUMMER", ""))
    ensures p["url"] == TabulatorUrl(row)
    ensures !HasChar(Get(row, "PRJ_TITEL", ""), '<') ==> p["title"] == Get(row, "PRJ_TITEL", "")
  {
    var title := Get(row, "PRJ_TITEL", "");
    ProgramFields(
      SppNumber(Get(row, "NUMMER", "")),
      if HasChar(title, '<') then stripTags(title) else title,
      TabulatorUrl(row),
      Get(row, "PRJ_BEGINN", ""),
      Get(row, "BUNDESLAND", ""),
      Get(row, "INT_BEZUG", ""),
      Get(row, "VARIANTE", ""),
      Get(row, "WSB", ""))
  }

  /** `parse_tabulator_data`: the rows of type `SPP`, in input order, each turned
      into a programme; other rows are dropped. */
  function ParseTabulator(data: seq<Record>, stripTags: string -> string): (r: seq<Record>)
    ensures |r| <= |data|
    ensures |r| == |Filter(data, IsSppRow)|
    ensures forall i :: 0 <= i < |data| && IsSppRow(data[i]) ==> TabulatorProgram(data[i], stripTags) in r
  {
    var kept := Filter(data, IsSppRow);
    var r := MapSeq(kept, row => TabulatorProgram(row, stripTags));
    forall i | 0 <= i < |data| && IsSppRow(data[i])
      ensures TabulatorProgram(data[i], stripTags) in r
    {
      var k :| 0 <= k < |kept| && kept[k] == data[i];
      assert r[k] == TabulatorProgram(data[i], stripTags);
    }
    r
  }

  /** Parsing a split table parses the parts and concatenates the results. */
  lemma ParseTabulatorAppend(a: seq<Record>, b: seq<Record>, stripTags: string -> string)
    ensures ParseTabulator(a + b, stripTags) == ParseTabulator(a, stripTags) + ParseTabulator(b, stripTags)
  {
    FilterAppend(a, b, IsSppRow);
    var f := row => TabulatorProgram(row, stripTags);
    var ka, kb := Filter(a, IsSppRow), Filter(b, IsSppRow);
    assert MapSeq(ka + kb, f) == MapSeq(ka, f) + MapSeq(kb, f);
  }

  /** Every programme parsed from the table comes from some `SPP` row. */
  lemma ParseTabulatorSource(data: seq<Record>, stripTags: string -> string, p: Record)
    requires p in ParseTabulator(data, stripTags)
    ensures exists i :: 0 <= i < |data| && IsSppRow(data[i]) && p == TabulatorProgram(data[i], stripTags)
  {
    var kept := Filter(data, IsSppRow);
    var k :| 0 <= k < |kept| && ParseTabulator(data, stripTags)[k] == p;
    assert kept[k] in multiset(kept);
    assert kept[k] in data;
    var i :| 0 <= i < |data| && data[i] == kept[k];
  }

  // ---------------------------------------------------------------------------
  // Scrolling the rendered table

  /** A third of the visible height, but at least 50 pixels. */
  function ScrollStep(clientHeight: nat): (s: nat)
    ensures s >= 50 && s >= clientHeight / 3
    ensures s == 50 || s == clientHeight / 3
  {
    if clientHeight / 3 > 50 then clientHeight / 3 else 50
  }

  /** The key of a rendered row: `SPP <number>` for a row whose type cell reads
      `SPP` and whose number cell is not blank; other rows are skipped. */
  function ScrollKey(row: Record): (k: Option<string>)
    ensures k.Some? <==> Trim(Get(row, "TYP_text", "")) == "SPP" && Trim(Get(row, "NUMMER_text", "")) != []
    ensures k.Some? ==> StartsWith(k.value, "SPP ") && EndsWith(k.value, Trim(Get(row, "NUMMER_text", "")))
  {
    var nummer := Trim(Get(row, "NUMMER_text", ""));
    if Trim(Get(row, "TYP_text", "")) != "SPP" || nummer == [] then None
    else
      assert ("SPP " + nummer)[..4] == "SPP ";
      assert ("SPP " + nummer)[4..] == nummer;
      Some("SPP " + nummer)
  }

  /** The programme recorded for a rendered row under its key. */
  function ScrollProgram(row: Record, key: string): (p: Record)
    ensures p.Keys == ProgramKeys
    ensures p["spp_number"] == key
    ensures p["url"] == [] || StartsWith(p["url"], "http")
  {
    var url :=
      match HrefAttr(Get(row, "PRJ_TITEL", ""))
      case Some(href) => AbsoluteUrl(href)
      case None => "";
    ProgramFields(
      key,
      Trim(Get(row, "PRJ_TITEL_text", "")),
      url,
      Trim(Get(row, "PRJ_BEGINN_text", "")),
      Trim(Get(row, "BUNDESLAND_text", "")),
      Trim(Get(row, "INT_BEZUG_text", "")),
      Trim(Get(row, "VARIANTE_text", "")),
      Trim(Get(row, "WSB_text", "")))
  }

  /** What a rendered row offers to the accumulator: its key and programme, or
      nothing when it is skipped. */
  function ScrollEntry(row: Record): (e: Option<(string, Record)>)
    ensures e.Some? <==> ScrollKey(row).Some?
    ensures e.Some? ==> e.value.0 == ScrollKey(row).value
    ensures e.Some? ==> "spp_number" in e.value.1 && e.value.1["spp_number"] == e.value.0
  {
    match ScrollKey(row)
    case None => None
    case Some(k) => Some((k, ScrollProgram(row, k)))
  }

  /** A repeated row is recorded once: the programme kept under an SPP number is
      the one built from the first rendered row carrying it. */
  lemma ScrollFirstWins(rows: seq<Record>, j: nat)
    requires j < |rows| && ScrollKey(rows[j]).Some?
    requires forall i :: 0 <= i < j ==> ScrollKey(rows[i]) != ScrollKey(rows[j])
    ensures ScrollKey(rows[j]).value in FirstSeen(rows, ScrollEntry)
    ensures FirstSeen(rows, ScrollEntry)[ScrollKey(rows[j]).value] == ScrollProgram(rows[j], ScrollKey(rows[j]).value)
  {
    FirstSeenValue(rows, ScrollEntry, j);
  }

  /** An SPP number is collected exactly when some rendered row carries it. */
  lemma ScrollKeys(rows: seq<Record>, k: string)
    ensures k in FirstSeen(rows, ScrollEntry) <==> exists j :: 0 <= j < |rows| && ScrollKey(rows[j]) == Some(k)
  {
    FirstSeenKeys(rows, ScrollEntry, k);
    forall j | 0 <= j < |rows|
      ensures (ScrollEntry(rows[j]).Some? && ScrollEntry(rows[j]).value.0 == k) <==> ScrollKey(rows[j]) == Some(k)
    {
    }
  }

  /** The rows rendered at the first `v` scroll positions `0, step, 2·step, …`,
      in visiting order. */
  function Visited(snapshot: nat -> seq<Record>, step: nat, v: nat): seq<Record> {
    if v == 0 then [] else Visited(snapshot, step, v - 1) + snapshot((v - 1) * step)
  }

  /** The loop runs while `current <= max_scroll + scroll_step`, so with
      `current = (visits - 1)·step` the last position lies within one step past
      the bottom and the next one beyond it: `visits = scrollHeight // step + 2`. */
  lemma VisitCount(height: nat, step: nat, visits: nat)
    requires step > 0 && visits >= 1
    requires (visits - 1) * step <= height + step < visits * step
    ensures visits == height / step + 2
  {
    var q := height / step;
    var r := height % step;
    assert height == q * step + r && r < step;
    MulSucc(q, step);
    MulSucc(q + 1, step);
    if visits <= q + 1 {
      MulMono(visits, q + 1, step);
      assert false;
    }
    if visits >= q + 3 {
      MulMono(q + 2, visits - 1, step);
      assert false;
    }
  }

  lemma MulMono(a: nat, b: nat, c: nat)
    requires a <= b
    ensures a * c <= b * c
  {
  }

  lemma MulSucc(a: nat, c: nat)
    ensures (a + 1) * c == a * c + c
  {
  }

  /** The accumulator of the scroll loop: programmes by SPP number, and the
      numbers seen so far in ascending order. */
  ghost predicate Indexed(acc: map<string, Record>, keys: seq<string>) {
    && StrictlyAscending(keys)
    && (forall k :: k in keys <==> k in acc)
    && (forall k :: k in acc ==> "spp_number" in acc[k] && acc[k]["spp_number"] == k)
  }

  /** Recording a programme under a new number keeps the accumulator indexed. */
  lemma IndexedInsert(acc: map<string, Record>, keys: seq<string>, k: string, p: Record)
    requires Indexed(acc, keys) && k !in acc && "spp_number" in p && p["spp_number"] == k
    ensures Indexed(acc[k := p], InsertUnique(k, keys))
  {
  }

  /** An entry function that files every programme under its own number. */
  ghost predicate Numbered(entry: Record -> Option<(string, Record)>) {
    forall row :: entry(row).Some? ==> "spp_number" in entry(row).value.1 && entry(row).value.1["spp_number"] == entry(row).value.0
  }

  /** The rows rendered at one scroll position, offered one by one. */
  method OfferRows(acc: map<string, Record>, keys: seq<string>, ghost before: seq<Record>, rows: seq<Record>,
                   entry: Record -> Option<(string, Record)>)
    returns (acc': map<string, Record>, keys': seq<string>)
    requires Numbered(entry)
    requires acc == FirstSeen(before, entry) && Indexed(acc, keys)
    ensures acc' == FirstSeen(before + rows, entry) && Indexed(acc', keys')
  {
    acc', keys' := acc, keys;
    var j := 0;
    assert before + rows[..0] == before;
    while j < |rows|
      invariant 0 <= j <= |rows|
      invariant acc' == FirstSeen(before + rows[..j], entry)
      invariant Indexed(acc', keys')
    {
      ghost var seen := before + rows[..j];
      ghost var next := FirstSeen(seen + [rows[j]], entry);
      assert before + rows[..j + 1] == seen + [rows[j]];
      FirstSeenSnoc(seen, rows[j], entry);
      var e := entry(rows[j]);
      if e.Some? && e.value.0 !in acc' {
        IndexedInsert(acc', keys', e.value.0, e.value.1);
        acc' := acc'[e.value.0 := e.value.1];
        keys' := InsertUnique(e.value.0, keys');
      }
      assert acc' == next;
      j := j + 1;
    }
    assert rows[..|rows|] == rows;
  }

  /** The collected programmes listed in the order of their (distinct) numbers. */
  function ByNumber(acc: map<string, Record>, keys: seq<string>): (result: seq<Record>)
    requires Indexed(acc, keys)
    ensures |result| == |acc|
    ensures forall i :: 0 <= i < |result| ==>
      "spp_number" in result[i] && result[i]["spp_number"] in acc && acc[result[i]["spp_number"]] == result[i]
    ensures forall k :: k in acc ==> exists i :: 0 <= i < |result| && result[i]["spp_number"] == k
    ensures forall i, j :: 0 <= i < j < |result| ==>
      "spp_number" in result[i] && "spp_number" in result[j] && StrLt(result[i]["spp_number"], result[j]["spp_number"])
  {
    AscendingDistinct(keys);
    KeysCoverMap(keys, acc);
    var result := seq(|keys|, i requires 0 <= i < |keys| => acc[keys[i]]);
    assert forall i :: 0 <= i < |result| ==> "spp_number" in result[i] && result[i]["spp_number"] == keys[i];
    assert forall k :: k in acc ==> exists i :: 0 <= i < |result| && keys[i] == k;
    result
  }

  /** `scrape_with_aggressive_scroll`: without a table holder nothing is read;
      otherwise the table is visited at `0, step, 2·step, …` while the position
      is at most `scrollHeight + step`, every rendered row is offered to the
      first-seen-wins accumulator, and the programmes are returned sorted by
      their (unique) SPP number. */
  method AggressiveScroll(holderFound: bool, scrollHeight: nat, clientHeight: nat,
                          snapshot: nat -> seq<Record>)
    returns (result: seq<Record>, visits: nat)
    ensures !holderFound ==> result == [] && visits == 0
    ensures holderFound ==> visits == scrollHeight / ScrollStep(clientHeight) + 2
    ensures holderFound ==>
      var m := FirstSeen(Visited(snapshot, ScrollStep(clientHeight), visits), ScrollEntry);
      |result| == |m| &&
      (forall i :: 0 <= i < |result| ==>
         "spp_number" in result[i] && result[i]["spp_number"] in m && m[result[i]["spp_number"]] == result[i]) &&
      (forall k :: k in m ==> exists i :: 0 <= i < |result| && result[i]["spp_number"] == k)
    ensures forall i, j :: 0 <= i < j < |result| ==>
      "spp_number" in result[i] && "spp_number" in result[j] && StrLt(result[i]["spp_number"], result[j]["spp_number"])
  {
    if !holderFound {
      return [], 0;
    }
    var acc, keys;
    assert Numbered(ScrollEntry) by {
      forall row | ScrollEntry(row).Some?
        ensures "spp_number" in ScrollEntry(row).value.1 && ScrollEntry(row).value.1["spp_number"] == ScrollEntry(row).value.0
      {
      }
    }
    acc, keys, visits := ScrollLoop(scrollHeight, ScrollStep(clientHeight), snapshot, ScrollEntry);
    result := ByNumber(acc, keys);
  }

  /** The scroll positions `0, step, 2·step, …` visited while the position is at
      most `height + step`; every rendered row is offered to the accumulator. */
  method ScrollLoop(height: nat, step: nat, snapshot: nat -> seq<Record>, entry: Record -> Option<(string, Record)>)
    returns (acc: map<string, Record>, keys: seq<string>, visits: nat)
    requires step > 0 && Numbered(entry)
    ensures visits == height / step + 2
    ensures acc == FirstSeen(Visited(snapshot, step, visits), entry) && Indexed(acc, keys)
  {
    acc, keys := map[], [];
    var current: nat := 0;
    visits := 0;
    while current <= height + step
      invariant current == visits * step
      invariant visits >= 1 ==> (visits - 1) * step <= height + step
      invariant acc == FirstSeen(Visited(snapshot, step, visits), entry)
      invariant Indexed(acc, keys)
      decreases height + 2 * step - current
    {
      acc, keys := OfferRows(acc, keys, Visited(snapshot, step, visits), snapshot(current), entry);
      assert Visited(snapshot, step, visits + 1) == Visited(snapshot, step, visits) + snapshot(current);
      MulSucc(visits, step);
      visits := visits + 1;
      current := current + step;
    }
    VisitCount(height, step, visits);
  }

  /** A map whose keys are exactly the elements of a duplicate-free sequence
      has as many entries as the sequence. */
  lemma KeysCoverMap(keys: seq<string>, acc: map<string, Record>)
    requires forall k :: k in keys <==> k in acc
    requires forall i, j :: 0 <= i < j < |keys| ==> keys[i] != keys[j]
    ensures |keys| == |acc|
  {
    DistinctCount(keys);
    assert acc.Keys == set k | k in keys;
  }

  // ---------------------------------------------------------------------------
  // Choosing the listing

  /** `scrape_programmlisten`: the Tabulator rows are used when there are more
      than 20 of them; otherwise the result of scrolling is. */
  function Listing(tabulator: seq<Record>, scrolled: seq<Record>, stripTags: string -> string): (r: seq<Record>)
    ensures |tabulator| > 20 ==> r == ParseTabulator(tabulator, stripTags)
    ensures |tabulator| <= 20 ==> r == scrolled
  {
    if |tabulator| > 20 then ParseTabulator(tabulator, stripTags) else scrolled
  }

  /** One result entry of the search pages: its first link (text and href), if
      any, and the entry's whole text. */
  datatype SearchEntry = SearchEntry(link: Option<(string, string)>, text: string)

  /** Entries of one search page that name a Schwerpunktprogramm in the link
      text or `SPP` anywhere in the entry, as `{title, url}` with the url joined
      to the host. */
  function SearchPage(entries: seq<SearchEntry>): (r: seq<Record>)
    ensures |r| <= |entries|
    ensures forall i :: 0 <= i < |r| ==> r[i].Keys == {"title", "url"} && StartsWith(r[i]["url"], "http")
    ensures forall i :: 0 <= i < |entries| && KeepsEntry(entries[i]) ==> SearchProgram(entries[i]) in r
  {
    if entries == [] then []
    else
      var rest := SearchPage(entries[1..]);
      assert forall i :: 1 <= i < |entries| ==> entries[i] == entries[1..][i - 1];
      if KeepsEntry(entries[0]) then [SearchProgram(entries[0])] + rest else rest
  }

  predicate KeepsEntry(e: SearchEntry) {
    e.link.Some? && (Contains(e.link.value.0, "Schwerpunktprogramm") || Contains(e.text, "SPP"))
  }

  function SearchProgram(e: SearchEntry): (p: Record)
    requires e.link.Some?
    ensures p.Keys == {"title", "url"} && p["title"] == e.link.value.0
    ensures p["url"] == JoinBase(e.link.value.1) && StartsWith(p["url"], "http")
  {
    map["title" := e.link.value.0, "url" := JoinBase(e.link.value.1)]
  }

  /** The search page is read entry by entry, in page order: a list split in
      two gives the two results concatenated, and a single entry gives its
      programme when it is kept and nothing otherwise. */
  lemma SearchPageAppend(a: seq<SearchEntry>, b: seq<SearchEntry>)
    ensures SearchPage(a + b) == SearchPage(a) + SearchPage(b)
    ensures |a| == 1 ==> SearchPage(a) == SearchHead(a[0])
  {
    forall xs: seq<SearchEntry> | xs != []
      ensures SearchPage(xs) == SearchHead(xs[0]) + SearchPage(xs[1..])
    {
      SearchPageCons(xs);
    }
    ElementwiseAppend(SearchPage, SearchHead, a, b);
    if |a| == 1 {
      SearchPageCons(a);
      assert a[1..] == [];
    }
  }

  /** What the search page makes of one entry. */
  function SearchHead(e: SearchEntry): seq<Record> {
    if KeepsEntry(e) then [SearchProgram(e)] else []
  }

  /** One unfolding step of the search-page reading. */
  lemma SearchPageCons(xs: seq<SearchEntry>)
    requires xs != []
    ensures SearchPage(xs) == SearchHead(xs[0]) + SearchPage(xs[1..])
  {
  }

  /** Every entry kept from a search page names a programme and has a link. */
  lemma {:induction false} SearchPageSource(entries: seq<SearchEntry>, p: Record)
    requires p in SearchPage(entries)
    ensures exists i :: 0 <= i < |entries| && KeepsEntry(entries[i]) && p == SearchProgram(entries[i])
    decreases |entries|
  {
    if !(KeepsEntry(entries[0]) && p == SearchProgram(entries[0])) {
      SearchPageSource(entries[1..], p);
      var i :| 0 <= i < |entries[1..]| && KeepsEntry(entries[1..][i]) && p == SearchProgram(entries[1..][i]);
      assert entries[1..][i] == entries[i + 1];
    }
  }

  /** The search results replace the listing only when the listing has fewer
      than 25 programmes and the search found strictly more. */
  function WithFallback(listing: seq<Record>, search: seq<Record>): (r: seq<Record>)
    ensures r == listing || r == search
    ensures |r| >= |listing|
    ensures |listing| >= 25 ==> r == listing
    ensures |listing| < 25 && |search| > |listing| ==> r == search
  {
    if |listing| < 25 && |search| > |listing| then search else listing
  }

  /** The fallback never loses programmes: the number kept is the larger of the
      two counts when the listing is short, and the listing's count otherwise. */
  lemma WithFallbackCount(listing: seq<Record>, search: seq<Record>)
    ensures |listing| < 25 ==> |WithFallback(listing, search)| == if |search| > |listing| then |search| else |listing|
    ensures |listing| >= 25 ==> |WithFallback(listing, search)| == |listing|
  {
  }

  // ---------------------------------------------------------------------------
  // Start-year filter

  predicate AllDigits(s: string) {
    forall i :: 0 <= i < |s| ==> IsDigit(s[i])
  }

  /** Python's `int(s)` on a string: surrounding whitespace, an optional sign
      and at least one ASCII digit; anything else raises, shown as `None`. */
  function ParseInt(s: string): (r: Option<int>)
    ensures r.Some? ==> Trim(s) != []
    ensures r.Some? <==> IntText(Trim(s))
  {
    var t := Trim(s);
    if t != [] && (t[0] == '+' || t[0] == '-') then
      var d := t[1..];
      if d != [] && AllDigits(d) then Some(if t[0] == '-' then -(DigitsValue(d) as int) else DigitsValue(d))
      else None
    else if t != [] && AllDigits(t) then Some(DigitsValue(t))
    else None
  }

  /** An optional sign followed by at least one ASCII digit. */
  predicate IntText(t: string) {
    || (t != [] && AllDigits(t))
    || (|t| >= 2 && (t[0] == '+' || t[0] == '-') && AllDigits(t[1..]))
  }

  /** A start field that is not an integer, such as a date, reads as year 0,
      so the year rule keeps the programme and tags it `start>=2020`. */
  lemma UnreadableYearKept(beginn: string)
    requires !IntText(Trim(beginn))
    ensures StartYear(beginn) == 0
    ensures YearTag(StartYear(beginn)) == Some("start>=2020")
  {
  }

  /** A text with a dot in it is no integer; `01.01.2019` is such a field. */
  lemma DottedIsNoInteger(t: string, i: nat)
    requires i < |t| && t[i] == '.'
    ensures !IntText(t)
  {
    if |t| >= 2 && i > 0 {
      assert t[1..][i - 1] == t[i];
    }
  }

  /** The start field `01.01.2019` is not an integer once stripped. */
  lemma DateIsNoInteger()
    ensures !IntText(Trim("01.01.2019"))
  {
    var t := "01.01.2019";
    assert !IsSpace(t[0]) && !IsSpace(t[|t| - 1]);
    TrimNoEdges(t);
    DottedIsNoInteger(t, 2);
  }

  /** Reading back a rendered number gives the number. */
  lemma ParseIntRoundTrip(n: nat)
    ensures ParseInt(NatToString(n)) == Some(n)
  {
    NatToStringRoundTrip(n);
    DigitsParse(NatToString(n));
  }

  /** Reading back a rendered number behind a minus sign gives its negative. */
  lemma ParseIntNegativeRoundTrip(n: nat)
    ensures ParseInt("-" + NatToString(n)) == Some(-(n as int))
  {
    var d := NatToString(n);
    SignedDigitsParse(d);
    assert ParseInt("-" + d) == Some(-(DigitsValue(d) as int));
    NatToStringRoundTrip(n);
  }

  lemma DigitsParse(d: string)
    requires d != [] && AllDigits(d)
    ensures ParseInt(d) == Some(DigitsValue(d))
  {
    assert !IsSpace(d[0]) && !IsSpace(d[|d| - 1]);
    TrimNoEdges(d);
  }

  lemma SignedDigitsParse(d: string)
    requires d != [] && AllDigits(d)
    ensures ParseInt("-" + d) == Some(-(DigitsValue(d) as int))
  {
    var m := "-" + d;
    assert m[0] == '-' && m[|m| - 1] == d[|d| - 1];
    assert !IsSpace(m[|m| - 1]);
    TrimNoEdges(m);
    assert m[1..] == d;
  }

  /** The start year: 0 for an empty or unreadable field, else its integer
      value. */
  function StartYear(beginn: string): (y: int)
    ensures beginn == [] ==> y == 0
    ensures ParseInt(beginn).None? ==> y == 0
    ensures beginn != [] && ParseInt(beginn).Some? ==> y == ParseInt(beginn).value
  {
    if beginn == [] then 0
    else match ParseInt(beginn)
      case None => 0
      case Some(v) => v
  }

  /** The `_filter` tag of a programme by start year, or `None` when it is
      dropped. */
  function YearTag(year: int): (t: Option<string>)
    ensures t.Some? <==> year == 0 || year >= 2017
    ensures t == Some("start>=2020") <==> year == 0 || year >= 2020
    ensures t == Some("likely_still_running") <==> 2017 <= year < 2020
  {
    if year >= 2020 || year == 0 then Some("start>=2020")
    else if year >= 2017 then Some("likely_still_running")
    else None
  }

  /** A later start never drops a programme that an earlier (non-zero) start
      keeps. */
  lemma YearTagMonotone(a: int, b: int)
    requires a != 0 && a <= b && YearTag(a).Some?
    ensures YearTag(b).Some?
  {
  }

  function Tagged(p: Record): Option<Record> {
    match YearTag(StartYear(Get(p, "beginn", "")))
    case None => None
    case Some(tag) => Some(p["_filter" := tag])
  }

  predicate KeptYear(p: Record) {
    var y := StartYear(Get(p, "beginn", ""));
    y == 0 || y >= 2017
  }

  /** A record carrying one of the two `_filter` tags. */
  predicate HasYearTag(q: Record) {
    "_filter" in q && (q["_filter"] == "start>=2020" || q["_filter"] == "likely_still_running")
  }

  lemma TaggedHasYearTag(p: Record)
    requires Tagged(p).Some?
    ensures HasYearTag(Tagged(p).value)
  {
  }

  /** The programmes kept by the start-year filter, in order, each tagged. */
  function FilterByYear(programs: seq<Record>): (r: seq<Record>)
    ensures |r| <= |programs|
    ensures forall i :: 0 <= i < |r| ==> HasYearTag(r[i])
    ensures forall i :: 0 <= i < |programs| && Tagged(programs[i]).Some? ==> Tagged(programs[i]).value in r
  {
    if programs == [] then []
    else
      var rest := FilterByYear(programs[1..]);
      KeptAfterHead(programs, rest);
      match Tagged(programs[0])
      case None => rest
      case Some(p) =>
        TaggedHasYearTag(programs[0]);
        [p] + rest
  }

  /** The tagged programmes after the first are kept behind its result. */
  lemma KeptAfterHead(programs: seq<Record>, rest: seq<Record>)
    requires programs != []
    requires forall i :: 0 <= i < |programs[1..]| && Tagged(programs[1..][i]).Some? ==> Tagged(programs[1..][i]).value in rest
    ensures forall i :: 0 <= i < |programs| && Tagged(programs[i]).Some? ==>
      Tagged(programs[i]).value in YearHead(programs[0]) + rest
  {
    forall i | 0 <= i < |programs| && Tagged(programs[i]).Some?
      ensures Tagged(programs[i]).value in YearHead(programs[0]) + rest
    {
      if i == 0 {
        assert YearHead(programs[0]) == [Tagged(programs[0]).value];
      } else {
        assert programs[i] == programs[1..][i - 1];
      }
    }
  }

  /** The filter works programme by programme and keeps the input order: a
      list split in two filters to the two results concatenated, and a single
      programme gives its tagged copy or nothing. */
  lemma FilterByYearAppend(a: seq<Record>, b: seq<Record>)
    ensures FilterByYear(a + b) == FilterByYear(a) + FilterByYear(b)
    ensures |a| == 1 ==> FilterByYear(a) == YearHead(a[0])
  {
    forall xs: seq<Record> | xs != []
      ensures FilterByYear(xs) == YearHead(xs[0]) + FilterByYear(xs[1..])
    {
      FilterByYearCons(xs);
    }
    ElementwiseAppend(FilterByYear, YearHead, a, b);
    if |a| == 1 {
      FilterByYearCons(a);
      assert a[1..] == [];
    }
  }

  /** What the filter makes of one programme. */
  function YearHead(p: Record): seq<Record> {
    if Tagged(p).Some? then [Tagged(p).value] else []
  }

  /** One unfolding step of the start-year filter. */
  lemma FilterByYearCons(xs: seq<Record>)
    requires xs != []
    ensures FilterByYear(xs) == YearHead(xs[0]) + FilterByYear(xs[1..])
  {
  }

  /** Only programmes starting in 2017 or later, or with no readable year, are
      kept: every kept entry is a tagged input programme. */
  lemma {:induction false} FilterByYearSource(programs: seq<Record>, q: Record)
    requires q in FilterByYear(programs)
    ensures exists i :: 0 <= i < |programs| && Tagged(programs[i]) == Some(q)
    ensures exists i :: 0 <= i < |programs| && KeptYear(programs[i])
    decreases |programs|
  {
    if Tagged(programs[0]) != Some(q) {
      FilterByYearSource(programs[1..], q);
      var i :| 0 <= i < |programs[1..]| && Tagged(programs[1..][i]) == Some(q);
      assert programs[1..][i] == programs[i + 1];
    }
  }

  // ---------------------------------------------------------------------------
  // Detail pages

  /** The label table of the detail scraper, in dictionary order: all five
      spokesperson spellings feed `coordinator_name`, so the last present one
      (`Sprecher`) wins. */
  const DetailFields: seq<(string, string)> := [
    ("Sprecher/in", "coordinator_name"),
    ("Sprecher / Sprecherin", "coordinator_name"),
    ("Sprecherin / Sprecher", "coordinator_name"),
    ("Sprecherin", "coordinator_name"),
    ("Sprecher", "coordinator_name"),
    ("DFG-Verfahren", "funding_type"),
    ("F\U{F6}rderung", "funding_period"),
    ("Fachliche Zuordnung", "subject_area"),
    ("Webseite", "website"),
    ("Internationaler Bezug", "international_partners")
  ]

  /** What reading a detail page produced: the extracted label/value table, or
      the text of the exception raised. */
  datatype DetailPage = Details(details: Record) | Failed(message: string)

  /** The first `n` characters of `s`, or all of `s` when it is shorter. */
  function Take(s: string, n: nat): (r: string)
    ensures |r| <= n && StartsWith(s, r)
    ensures |s| <= n ==> r == s
    ensures |s| > n ==> |r| == n
  {
    if |s| <= n then s else s[..n]
  }

  /** `scrape_program_detail`: a programme without url is returned unchanged; a
      failure records the error; otherwise the mapped fields, the description
      (cut at 500 characters, and in full), the result-list link, the detail
      url and an explicit website are set. */
  function ProgramDetail(program: Record, page: DetailPage): (r: Record)
    ensures Get(program, "url", "") == [] ==> r == program
    ensures Get(program, "url", "") != [] && page.Failed? ==> r == program["_error" := page.message]
    ensures Get(program, "url", "") != [] && page.Details? ==>
      && {"description", "full_description", "projects_url", "detail_page_url"} <= r.Keys
      && r["detail_page_url"] == program["url"]
      && |r["description"]| <= 500
      && StartsWith(r["full_description"], r["description"])
      && r["description"] == Take(r["full_description"], 500)
      && r["projects_url"] == Get(page.details, "_projects_url", "")
      && (Get(page.details, "_website", "") != [] ==> "website" in r && r["website"] == page.details["_website"])
  {
    var url := Get(program, "url", "");
    if url == [] then program
    else match page
      case Failed(message) => program["_error" := message]
      case Details(d) =>
        var mapped := ApplyMapping(program, d, DetailFields);
        var proj := Get(d, "_projekttext", "");
        var description := if proj != [] then proj else Get(d, "_description_paras", "");
        var withText := mapped["description" := Take(description, 500)]["full_description" := description];
        var withLinks := withText["projects_url" := Get(d, "_projects_url", "")]["detail_page_url" := url];
        if Get(d, "_website", "") != [] then withLinks["website" := d["_website"]] else withLinks
  }

  /** The description prefers the project text, falling back to the collected
      paragraphs. */
  lemma ProgramDetailDescription(program: Record, d: Record)
    requires Get(program, "url", "") != []
    ensures "full_description" in ProgramDetail(program, Details(d))
    ensures Get(d, "_projekttext", "") != [] ==>
      ProgramDetail(program, Details(d))["full_description"] == d["_projekttext"]
    ensures Get(d, "_projekttext", "") == [] ==>
      ProgramDetail(program, Details(d))["full_description"] == Get(d, "_description_paras", "")
  {
  }

  /** When the page names the spokesperson under the plain `Sprecher` label,
      that value becomes the coordinator, whatever other spellings are present. */
  lemma SprecherWins(program: Record, d: Record)
    requires Get(program, "url", "") != [] && "Sprecher" in d
    ensures "coordinator_name" in ProgramDetail(program, Details(d))
    ensures ProgramDetail(program, Details(d))["coordinator_name"] == d["Sprecher"]
  {
    ApplyMappingLastWins(program, d, DetailFields, 4);
  }

  /** Fields outside the table and the fixed outputs are left as they were. */
  lemma ProgramDetailKeeps(program: Record, page: DetailPage, k: string)
    requires k in program && k != "_error"
    requires k !in {"description", "full_description", "projects_url", "detail_page_url", "website"}
    requires forall j :: 0 <= j < |DetailFields| ==> DetailFields[j].1 != k
    ensures k in ProgramDetail(program, page) && ProgramDetail(program, page)[k] == program[k]
  {
    if page.Details? {
      ApplyMappingKeeps(program, page.details, DetailFields, k);
    }
  }

  // ---------------------------------------------------------------------------
  // The detail pass over programmes found by the search fallback

  /** `scrape_program_detail` as written: `program['spp_number']` is read
      before the `try`, so a programme with a url but no number raises
      `KeyError` out of the scraper. `None` stands for that exception. */
  function ProgramDetailAsWritten(program: Record, page: DetailPage): (r: Option<Record>)
    ensures r.None? <==> Get(program, "url", "") != [] && "spp_number" !in program
    ensures r.Some? ==> r.value == ProgramDetail(program, page)
  {
    if Get(program, "url", "") == [] then Some(program)
    else if "spp_number" !in program then None
    else Some(ProgramDetail(program, page))
  }

  /** A programme kept from the search fallback has a url and no number. */
  lemma FallbackProgramShape(entries: seq<SearchEntry>, q: Record)
    requires q in FilterByYear(SearchPage(entries))
    ensures Get(q, "url", "") != [] && "spp_number" !in q
  {
    var programs := SearchPage(entries);
    FilterByYearSource(programs, q);
    var i :| 0 <= i < |programs| && Tagged(programs[i]) == Some(q);
    var p := programs[i];
    assert p.Keys == {"title", "url"} && StartsWith(p["url"], "http");
    var tag := YearTag(StartYear(Get(p, "beginn", ""))).value;
    assert q == p["_filter" := tag];
    TaggedSearchProgram(p, q, tag);
  }

  /** A tagged `{title, url}` record still has its url and has no number. */
  lemma TaggedSearchProgram(p: Record, q: Record, tag: string)
    requires p.Keys == {"title", "url"} && q == p["_filter" := tag]
    ensures "url" in q && q["url"] == p["url"] && "spp_number" !in q
  {
  }

  /** As written, the detail pass stops with an exception at the first
      programme that came from the search fallback. */
  lemma FallbackProgramAbortsDetail(entries: seq<SearchEntry>, q: Record, page: DetailPage)
    requires q in FilterByYear(SearchPage(entries))
    ensures ProgramDetailAsWritten(q, page).None?
  {
    FallbackProgramShape(entries, q);
  }

  /** With the number no longer read up front, a programme from the search
      fallback gets its detail page recorded like any other. */
  lemma FallbackProgramGetsDetail(entries: seq<SearchEntry>, q: Record, d: Record)
    requires q in FilterByYear(SearchPage(entries))
    ensures "detail_page_url" in ProgramDetail(q, Details(d))
    ensures ProgramDetail(q, Details(d))["detail_page_url"] == Get(q, "url", "")
    ensures "full_description" in ProgramDetail(q, Details(d))
  {
    FallbackProgramShape(entries, q);
  }
}

=== FILE: spp_programs.dfy ===
/**
 The first listing scraper: the rendered rows of the programme table are read
 as cells, and each priority programme's detail page is visited once.

 A rendered row is given as the stripped text of each of its cells, keyed by
 the cell's `tabulator-field`, together with the text and `href` of the first
 link in its title cell.
 */
module SppPrograms {
  import opened Strings
  import opened Records
  import opened Gepris

  /** One rendered table row. */
  datatype ListRow = ListRow(cells: map<string, string>, titleLink: Option<(string, string)>)

  /** The text of a cell, or `''` when the row has no such cell. */
  function Cell(row: ListRow, field: string): (r: string)
    ensures field in row.cells ==> r == row.cells[field]
    ensures field !in row.cells ==> r == []
  {
    Get(row.cells, field, "")
  }

  /** The programme listed by a row: rows whose type cell reads exactly `SPP`
      and that have a number, a link text and a link; the number gets the `SPP `
      prefix and the link is joined to the host. */
  function ListEntry(row: ListRow): (p: Option<Record>)
    ensures p.Some? <==>
      "TYP" in row.cells && row.cells["TYP"] == "SPP" && Cell(row, "NUMMER") != [] &&
      row.titleLink.Some? && row.titleLink.value.0 != []
    ensures p.Some? ==>
      && p.value.Keys == {"spp_number", "title", "url", "beginn", "bundesland", "int_bezug", "variante", "wissenschaftsbereich"}
      && p.value["spp_number"] == "SPP " + Cell(row, "NUMMER")
      && p.value["title"] == row.titleLink.value.0 && p.value["title"] != []
      && p.value["url"] == JoinBase(row.titleLink.value.1) && StartsWith(p.value["url"], "http")
      && p.value["beginn"] == Cell(row, "PRJ_BEGINN")
  {
    if "TYP" !in row.cells || row.cells["TYP"] != "SPP" then None
    else
      var number := Cell(row, "NUMMER");
      var title := if row.titleLink.Some? then row.titleLink.value.0 else "";
      var url := if row.titleLink.Some? then JoinBase(row.titleLink.value.1) else "";
      if number != [] && title != [] && url != [] then
        Some(map[
          "spp_number" := "SPP " + number,
          "title" := title,
          "url" := url,
          "beginn" := Cell(row, "PRJ_BEGINN"),
          "bundesland" := Cell(row, "BUNDESLAND"),
          "int_bezug" := Cell(row, "INT_BEZUG"),
          "variante" := Cell(row, "VARIANTE"),
          "wissenschaftsbereich" := Cell(row, "WSB")
        ])
      else None
  }

  /** `scrape_spp_list`: the listed programmes, in row order. */
  function ScrapeList(rows: seq<ListRow>): (r: seq<Record>)
    ensures |r| <= |rows|
    ensures forall i :: 0 <= i < |r| ==>
      {"spp_number", "title", "url"} <= r[i].Keys &&
      StartsWith(r[i]["spp_number"], "SPP ") && r[i]["title"] != [] && StartsWith(r[i]["url"], "http")
    ensures forall i :: 0 <= i < |rows| && ListEntry(rows[i]).Some? ==> ListEntry(rows[i]).value in r
  {
    var r := FilterMap(rows, ListEntry);
    forall i | 0 <= i < |r|
      ensures {"spp_number", "title", "url"} <= r[i].Keys
      ensures StartsWith(r[i]["spp_number"], "SPP ") && r[i]["title"] != [] && StartsWith(r[i]["url"], "http")
    {
      var j :| 0 <= j < |rows| && ListEntry(rows[j]) == Some(r[i]);
      PrefixOfAppend("SPP ", Cell(rows[j], "NUMMER"));
    }
    r
  }

  /** The rows are read one by one, in table order: a table split in two
      lists the two parts' programmes concatenated, and a single row lists its
      programme once or not at all. So a row listed twice gives its programme
      twice. */
  lemma ScrapeListAppend(a: seq<ListRow>, b: seq<ListRow>)
    ensures ScrapeList(a + b) == ScrapeList(a) + ScrapeList(b)
    ensures |a| == 1 ==> ScrapeList(a) == OptionSeq(ListEntry(a[0]))
  {
    FilterMapAppend(a, b, ListEntry);
  }

  /** Every listed programme comes from a row of type `SPP`. */
  lemma ScrapeListSource(rows: seq<ListRow>, p: Record)
    requires p in ScrapeList(rows)
    ensures exists i :: 0 <= i < |rows| && ListEntry(rows[i]) == Some(p)
    ensures exists i :: 0 <= i < |rows| && "TYP" in rows[i].cells && rows[i].cells["TYP"] == "SPP"
  {
    var r := ScrapeList(rows);
    var k :| 0 <= k < |r| && r[k] == p;
    var i :| 0 <= i < |rows| && ListEntry(rows[i]) == Some(p);
  }

  /** What visiting a programme page produced: the description text, the
      duration text and the `href` of the project-list link (empty when there
      is none), or the text of the exception raised. */
  datatype DetailPage = Loaded(description: string, period: string, projectsHref: string) | Failed(message: string)

  /** `scrape_program_details`: the page's description, duration and project
      list (joined to the host) are added and the detail url is the programme
      url; a failure records the error. A programme without url fails with
      Python's `KeyError` text. */
  function ProgramDetails(program: Record, page: DetailPage): (r: Record)
    ensures "url" !in program ==> r == program["error" := "'url'"]
    ensures "url" in program && page.Failed? ==> r == program["error" := page.message]
    ensures "url" in program && page.Loaded? ==>
      && r.Keys == program.Keys + {"description", "period", "projects_url", "detail_page_url"}
      && r["detail_page_url"] == program["url"]
      && r["description"] == page.description && r["period"] == page.period
      && (page.projectsHref == [] ==> r["projects_url"] == [])
      && (page.projectsHref != [] ==> r["projects_url"] == JoinBase(page.projectsHref) && StartsWith(r["projects_url"], "http"))
    ensures forall k :: k in program && k !in {"error", "description", "period", "projects_url", "detail_page_url"} ==>
      k in r && r[k] == program[k]
  {
    if "url" !in program then program["error" := "'url'"]
    else match page
      case Failed(message) => program["error" := message]
      case Loaded(description, period, href) =>
        var projectsUrl := if href != [] then JoinBase(href) else "";
        program["description" := description]["period" := period]
          ["projects_url" := projectsUrl]["detail_page_url" := program["url"]]
  }

  /** A project-list link that is already absolute is kept as it is. */
  lemma ProjectsUrlAbsolute(program: Record, description: string, period: string, href: string)
    requires "url" in program && StartsWith(href, "http")
    ensures ProgramDetails(program, Loaded(description, period, href))["projects_url"] == href
  {
  }
}

=== FILE: strings.dfy ===
/**
 String primitives shared by the scrapers, the scorers and the web loader.

 The Python scripts and the TypeScript site rely on a handful of library
 string operations (`str.strip`, `str.find`, `str.replace`, `str.split`,
 `re.sub(r'\s+', ' ', s)`, `str.lower`, code-point ordering in `sorted`).
 Each is written out here once, with the property the callers rely on.
 */
module Strings {

  /** Characters for which Python's `str.isspace()` holds (and which `\s` matches). */
  predicate IsSpace(c: char) {
    || c == ' '
    || ('\t' <= c <= '\r')
    || ('\U{1C}' <= c <= '\U{1F}')
    || c == '\U{85}' || c == '\U{A0}' || c == '\U{1680}'
    || ('\U{2000}' <= c <= '\U{200A}')
    || c == '\U{2028}' || c == '\U{2029}' || c == '\U{202F}' || c == '\U{205F}' || c == '\U{3000}'
  }

  /** Characters JavaScript's `\s` matches and `trim()` removes: the
      WhiteSpace and LineTerminator code points of ECMAScript. The set differs
      from Python's in U+FEFF (JavaScript only) and in U+001C to U+001F and
      U+0085 (Python only). */
  predicate IsJsSpace(c: char) {
    || c == ' '
    || ('\t' <= c <= '\r')
    || c == '\U{A0}' || c == '\U{1680}'
    || ('\U{2000}' <= c <= '\U{200A}')
    || c == '\U{2028}' || c == '\U{2029}' || c == '\U{202F}' || c == '\U{205F}' || c == '\U{3000}'
    || c == '\U{FEFF}'
  }

  predicate IsDigit(c: char) {
    '0' <= c <= '9'
  }

  /** Lower-casing of one character: ASCII and the Latin-1 capitals (umlauts included). */
  function Lower(c: char): (r: char)
    ensures IsSpace(r) <==> IsSpace(c)
  {
    if 'A' <= c <= 'Z' then (c as int + 32) as char
    else if '\U{C0}' <= c <= '\U{DE}' && c != '\U{D7}' then (c as int + 32) as char
    else c
  }

  function LowerStr(s: string): (r: string)
    ensures |r| == |s|
    ensures forall i :: 0 <= i < |s| ==> r[i] == Lower(s[i])
  {
    seq(|s|, i requires 0 <= i < |s| => Lower(s[i]))
  }

  lemma LowerStrAppend(a: string, b: string)
    ensures LowerStr(a + b) == LowerStr(a) + LowerStr(b)
  {
  }

  // ---------------------------------------------------------------------------
  // Prefixes, suffixes, occurrences

  predicate StartsWith(s: string, p: string) {
    |p| <= |s| && s[..|p|] == p
  }

  predicate EndsWith(s: string, p: string) {
    |p| <= |s| && s[|s| - |p|..] == p
  }

  /** `w` occurs in `s` starting at index `i`. */
  predicate OccursAt(s: string, w: string, i: int) {
    0 <= i && i + |w| <= |s| && s[i..i + |w|] == w
  }

  /** A text holds no `c` exactly when the one-character word `[c]` does not
      occur in it. */
  lemma NoneOfSingle(s: string, c: char)
    ensures NoneOf(s, {c}) <==> !Contains(s, [c])
  {
    if Contains(s, [c]) {
      var i :| 0 <= i <= |s| - 1 && OccursAt(s, [c], i);
      assert s[i] == s[i..i + 1][0];
    }
    if !NoneOf(s, {c}) {
      var j :| 0 <= j < |s| && s[j] in {c};
      assert s[j..j + 1] == [c];
      assert OccursAt(s, [c], j);
    }
  }

  /** A string ends with whatever is put after it. */
  lemma SuffixOfAppend(s: string, p: string)
    ensures EndsWith(s + p, p)
  {
    assert (s + p)[|s|..] == p;
  }

  /** Two blank-free strings joined have no blank. */
  lemma NoSpaceAppend(a: string, b: string)
    requires NoSpace(a) && NoSpace(b)
    ensures NoSpace(a + b)
  {
    forall j | 0 <= j < |a + b| ensures !IsSpace((a + b)[j]) {
      if j >= |a| {
        assert (a + b)[j] == b[j - |a|];
      }
    }
  }

  /** Where a word occurs, its first character is there. */
  lemma OccursAtHead(s: string, w: string, i: int)
    requires OccursAt(s, w, i) && w != []
    ensures i < |s| && s[i] == w[0]
  {
    var seen := s[i..i + |w|];
    assert seen == w;
    assert seen[0] == s[i];
  }

  /** A word does not occur where the text holds another first character. */
  lemma HeadMismatch(s: string, w: string, i: int)
    requires w != [] && 0 <= i < |s| && s[i] != w[0]
    ensures !OccursAt(s, w, i)
  {
    if i + |w| <= |s| {
      assert s[i..i + |w|][0] == s[i];
    }
  }

  /** Where a word occurs, so does each of its prefixes. */
  lemma OccursAtPrefix(s: string, w: string, p: string, i: int)
    requires OccursAt(s, w, i) && StartsWith(w, p)
    ensures OccursAt(s, p, i) && Contains(s, p)
  {
    assert s[i..i + |p|] == s[i..i + |w|][..|p|];
  }

  /** Python's `w in s` / JavaScript's `s.includes(w)`. */
  predicate Contains(s: string, w: string) {
    exists i :: 0 <= i <= |s| - |w| && OccursAt(s, w, i)
  }

  predicate HasChar(s: string, c: char) {
    c in s
  }

  /** First occurrence of `w` in `s` at or after `from`, or -1. */
  function IndexFrom(s: string, w: string, from: nat): (r: int)
    requires from <= |s|
    ensures r == -1 || (from <= r && OccursAt(s, w, r))
    ensures r == -1 ==> forall j :: from <= j <= |s| ==> !OccursAt(s, w, j)
    ensures r != -1 ==> forall j :: from <= j < r ==> !OccursAt(s, w, j)
    decreases |s| - from
  {
    if OccursAt(s, w, from) then from
    else if from == |s| then -1
    else IndexFrom(s, w, from + 1)
  }

  /** Python's `s.find(w)` and JavaScript's `s.indexOf(w)`. */
  function IndexOf(s: string, w: string): (r: int)
    ensures r == -1 <==> !Contains(s, w)
    ensures r != -1 ==> OccursAt(s, w, r) && forall j :: 0 <= j < r ==> !OccursAt(s, w, j)
  {
    IndexFrom(s, w, 0)
  }

  lemma OccursInPrefix(s: string, w: string, k: nat, i: int)
    requires k <= |s|
    requires OccursAt(s[..k], w, i)
    ensures OccursAt(s, w, i)
  {
    assert s[..k][i..i + |w|] == s[i..i + |w|];
  }

  lemma OccursInSlice(s: string, w: string, a: nat, b: nat, i: int)
    requires a <= b <= |s|
    requires OccursAt(s[a..b], w, i)
    ensures OccursAt(s, w, a + i)
  {
    var t := s[a..b];
    forall k | 0 <= k < |w|
      ensures s[a + i + k] == w[k]
    {
      assert t[i..i + |w|][k] == t[i + k] == s[a + i + k];
    }
    assert s[a + i..a + i + |w|] == w;
  }

  /** Cutting a text just before the first occurrence of `w` leaves no occurrence of `w`. */
  lemma PrefixBeforeFirstHasNone(s: string, w: string, k: nat)
    requires k <= |s| && |w| > 0
    requires forall j :: 0 <= j < k ==> !OccursAt(s, w, j)
    ensures !Contains(s[..k], w)
  {
    if Contains(s[..k], w) {
      var i :| 0 <= i <= k - |w| && OccursAt(s[..k], w, i);
      OccursInPrefix(s, w, k, i);
    }
  }

  lemma NoneInSlice(s: string, w: string, a: nat, b: nat)
    requires a <= b <= |s|
    requires !Contains(s, w)
    ensures !Contains(s[a..b], w)
  {
    if Contains(s[a..b], w) {
      var i :| 0 <= i <= (b - a) - |w| && OccursAt(s[a..b], w, i);
      OccursInSlice(s, w, a, b, i);
    }
  }

  // ---------------------------------------------------------------------------
  // Whitespace: strip, squash, normalise

  function TrimLeft(s: string): (r: string)
    ensures |r| <= |s| && r == s[|s| - |r|..]
    ensures r == [] || !IsSpace(r[0])
    ensures forall i :: 0 <= i < |s| - |r| ==> IsSpace(s[i])
  {
    s[SpaceRun(s)..]
  }

  function TrimRight(s: string): (r: string)
    ensures |r| <= |s| && r == s[..|r|]
    ensures r == [] || !IsSpace(r[|r| - 1])
    ensures forall i :: |r| <= i < |s| ==> IsSpace(s[i])
  {
    if s == [] || !IsSpace(s[|s| - 1]) then s else TrimRight(s[..|s| - 1])
  }

  /** Python's `str.strip()` / JavaScript's `trim()`: the text with leading and
      trailing whitespace removed. */
  function Trim(s: string): (r: string)
    ensures |r| <= |s|
    ensures r == [] || (!IsSpace(r[0]) && !IsSpace(r[|r| - 1]))
    ensures SpaceRun(s) + |r| <= |s| && r == s[SpaceRun(s)..SpaceRun(s) + |r|]
    ensures forall i :: 0 <= i < SpaceRun(s) ==> IsSpace(s[i])
    ensures forall i :: SpaceRun(s) + |r| <= i < |s| ==> IsSpace(s[i])
  {
    var l := TrimLeft(s);
    var r := TrimRight(l);
    assert r == s[SpaceRun(s)..SpaceRun(s) + |r|];
    r
  }

  /** A text without whitespace at either end is its own strip. */
  lemma TrimNoEdges(s: string)
    requires s == [] || (!IsSpace(s[0]) && !IsSpace(s[|s| - 1]))
    ensures Trim(s) == s
  {
  }

  predicate AllSpace(s: string) {
    forall i :: 0 <= i < |s| ==> IsSpace(s[i])
  }

  /** A text trims to nothing exactly when it is all whitespace. */
  lemma TrimAllSpace(s: string)
    ensures Trim(s) == [] <==> AllSpace(s)
  {
  }

  /** Trimming never introduces a character. */
  lemma TrimKeepsOut(s: string, c: char)
    requires c !in s
    ensures c !in Trim(s)
  {
  }

  /** Number of leading whitespace characters. */
  function SpaceRun(s: string): (n: nat)
    ensures n <= |s|
    ensures forall i :: 0 <= i < n ==> IsSpace(s[i])
    ensures n == |s| || !IsSpace(s[n])
  {
    if s == [] || !IsSpace(s[0]) then 0 else 1 + SpaceRun(s[1..])
  }

  /** `re.sub(r'\s+', ' ', s)` / `s.replace(/\s+/g, ' ')`: every maximal whitespace
      run becomes a single blank. */
  function Squash(s: string): (r: string)
    ensures |r| <= |s|
    decreases |s|
  {
    if s == [] then []
    else if IsSpace(s[0]) then
      var n := SpaceRun(s);
      [' '] + Squash(s[n..])
    else [s[0]] + Squash(s[1..])
  }

  /** A normalised text: no leading or trailing whitespace, and the only whitespace
      is single blanks between non-blank characters. */
  predicate Normalized(s: string) {
    && (s == [] || (!IsSpace(s[0]) && !IsSpace(s[|s| - 1])))
    && (forall i :: 0 <= i < |s| && IsSpace(s[i]) ==> s[i] == ' ')
    && (forall i :: 0 <= i < |s| - 1 && IsSpace(s[i]) ==> !IsSpace(s[i + 1]))
  }

  /** Whitespace is single blanks, never two in a row. */
  predicate Squashed(s: string) {
    && (forall i :: 0 <= i < |s| && IsSpace(s[i]) ==> s[i] == ' ')
    && (forall i :: 0 <= i < |s| - 1 && IsSpace(s[i]) ==> !IsSpace(s[i + 1]))
  }

  lemma {:induction false} SquashIsSquashed(s: string)
    ensures Squashed(Squash(s))
    ensures Squash(s) != [] && IsSpace(Squash(s)[0]) ==> s != [] && IsSpace(s[0])
    decreases |s|
  {
    if s == [] {
    } else if IsSpace(s[0]) {
      var n := SpaceRun(s);
      SquashIsSquashed(s[n..]);
      var t := Squash(s[n..]);
      assert t != [] ==> !IsSpace(t[0]);
      assert Squash(s) == [' '] + t;
    } else {
      SquashIsSquashed(s[1..]);
      assert Squash(s) == [s[0]] + Squash(s[1..]);
    }
  }

  lemma SquashedSlice(s: string, a: nat, b: nat)
    requires a <= b <= |s|
    requires Squashed(s)
    ensures Squashed(s[a..b])
  {
    var t := s[a..b];
    forall i | 0 <= i < |t| - 1 && IsSpace(t[i])
      ensures !IsSpace(t[i + 1])
    {
      assert t[i] == s[a + i] && t[i + 1] == s[a + i + 1];
    }
    forall i | 0 <= i < |t| && IsSpace(t[i])
      ensures t[i] == ' '
    {
      assert t[i] == s[a + i];
    }
  }

  /** Every whitespace run collapsed to one blank, then the ends stripped. */
  function Normalize(s: string): (r: string)
    ensures Normalized(r)
    ensures |r| <= |s|
  {
    var q := Squash(s);
    SquashIsSquashed(s);
    TrimSquashed(q);
    Trim(q)
  }

  /** Trimming a squashed text normalises it. */
  lemma TrimSquashed(q: string)
    requires Squashed(q)
    ensures Normalized(Trim(q))
  {
    var r := Trim(q);
    SquashedSlice(q, SpaceRun(q), SpaceRun(q) + |r|);
  }

  /** A whitespace-free word found at the start of a squashed text was already at
      the start of the original text. */
  lemma {:induction false} SquashPrefixFree(t: string, u: string)
    requires NoSpace(u)
    requires StartsWith(Squash(t), u)
    ensures StartsWith(t, u)
    decreases |t|
  {
    if u != [] {
      assert Squash(t)[0] == u[0];
      assert t != [];
      if !IsSpace(t[0]) {
        var q := Squash(t[1..]);
        assert Squash(t) == [t[0]] + q;
        assert q[..|u| - 1] == u[1..];
        SquashPrefixFree(t[1..], u[1..]);
        assert t[..|u|] == [t[0]] + t[1..][..|u| - 1];
      }
    }
  }

  /** Squashing whitespace cannot create an occurrence of a whitespace-free word. */
  lemma {:induction false} SquashKeepsOut(t: string, w: string)
    requires NoSpace(w) && w != []
    requires !Contains(t, w)
    ensures !Contains(Squash(t), w)
    decreases |t|
  {
    if t != [] {
      var n := if IsSpace(t[0]) then SpaceRun(t) else 1;
      assert t[n..] == t[n..|t|];
      NoneInSlice(t, w, n, |t|);
      SquashKeepsOut(t[n..], w);
      if Contains(Squash(t), w) {
        var i :| 0 <= i <= |Squash(t)| - |w| && OccursAt(Squash(t), w, i);
        if i == 0 {
          SquashHeadOccurrence(t, w);
        } else {
          SquashTailOccurrence(t, w, n, i);
        }
      }
    }
  }

  lemma SquashHeadOccurrence(t: string, w: string)
    requires NoSpace(w) && w != [] && t != []
    requires OccursAt(Squash(t), w, 0)
    ensures OccursAt(t, w, 0)
  {
    assert StartsWith(Squash(t), w);
    SquashPrefixFree(t, w);
  }

  lemma SquashTailOccurrence(t: string, w: string, n: nat, i: nat)
    requires t != [] && n == (if IsSpace(t[0]) then SpaceRun(t) else 1)
    requires 0 < i && OccursAt(Squash(t), w, i)
    ensures OccursAt(Squash(t[n..]), w, i - 1)
  {
    var head: string := if IsSpace(t[0]) then [' '] else [t[0]];
    assert Squash(t) == head + Squash(t[n..]);
    OccursShift(head, Squash(t[n..]), w, i);
  }

  /** An occurrence past a prefix is an occurrence in what follows it. */
  lemma OccursShift(h: string, x: string, w: string, i: nat)
    requires |h| <= i && OccursAt(h + x, w, i)
    ensures OccursAt(x, w, i - |h|)
  {
    var s := h + x;
    var j := i - |h|;
    forall k | 0 <= k < |w| ensures x[j + k] == w[k] {
      assert s[i..i + |w|][k] == s[i + k];
    }
    assert x[j..j + |w|] == w;
  }

  /** Cutting down to a slice, trimming or normalising keeps a word out. */
  lemma TrimKeepsWordOut(t: string, w: string)
    requires !Contains(t, w)
    ensures !Contains(Trim(t), w)
  {
    var r := Trim(t);
    NoneInSlice(t, w, SpaceRun(t), SpaceRun(t) + |r|);
  }

  lemma NormalizeKeepsOut(t: string, w: string)
    requires NoSpace(w) && w != []
    requires !Contains(t, w)
    ensures !Contains(Normalize(t), w)
  {
    SquashKeepsOut(t, w);
    TrimKeepsWordOut(Squash(t), w);
  }

  // ---------------------------------------------------------------------------
  // Runs and searches

  /** Length of the leading run of ASCII digits. */
  function DigitRun(s: string): (n: nat)
    ensures n <= |s|
    ensures forall i :: 0 <= i < n ==> IsDigit(s[i])
    ensures n == |s| || !IsDigit(s[n])
  {
    if s == [] || !IsDigit(s[0]) then 0 else 1 + DigitRun(s[1..])
  }

  /** The digit run is determined by where the digits stop. */
  lemma DigitRunIs(s: string, k: nat)
    requires k <= |s| && (forall i :: 0 <= i < k ==> IsDigit(s[i]))
    requires k == |s| || !IsDigit(s[k])
    ensures DigitRun(s) == k
  {
  }

  /** Index just past the whitespace run starting at `i`. */
  function SkipSpace(d: string, i: nat): (j: nat)
    requires i <= |d|
    ensures i <= j <= |d|
    ensures forall k :: i <= k < j ==> IsSpace(d[k])
    ensures j == |d| || !IsSpace(d[j])
  {
    i + SpaceRun(d[i..])
  }

  /** The whitespace run is determined by where the blanks stop. */
  lemma SkipSpaceIs(d: string, i: nat, j: nat)
    requires i <= j <= |d| && (forall k :: i <= k < j ==> IsSpace(d[k]))
    requires j == |d| || !IsSpace(d[j])
    ensures SkipSpace(d, i) == j
  {
  }

  /** The first index in `[i, n)` at which `p` holds, or -1: the scan a regular
      expression search performs over candidate start positions. */
  function FirstFrom(p: nat -> bool, i: nat, n: nat): (r: int)
    ensures r == -1 <==> forall j :: i <= j < n ==> !p(j)
    ensures r != -1 ==> i <= r < n && p(r) && forall j :: i <= j < r ==> !p(j)
    decreases n - i
  {
    if i >= n then -1
    else if p(i) then i
    else FirstFrom(p, i + 1, n)
  }

  // ---------------------------------------------------------------------------
  // Replacement

  /** Python's `s.replace(w, r, 1)`: the first occurrence of `w` replaced. */
  function ReplaceFirst(s: string, w: string, r: string): (res: string)
    ensures !Contains(s, w) ==> res == s
    ensures Contains(s, w) ==> exists i :: OccursAt(s, w, i) && res == s[..i] + r + s[i + |w|..]
    ensures StartsWith(s, w) ==> res == r + s[|w|..]
  {
    assert StartsWith(s, w) ==> OccursAt(s, w, 0);
    var i := IndexOf(s, w);
    if i == -1 then s else s[..i] + r + s[i + |w|..]
  }

  /** Python's `s.replace(w, r)` and JavaScript's `s.replace(/w/g, r)`, scanning left
      to right for non-overlapping occurrences. An empty `w` inserts `r` around
      every character, as Python does. */
  function ReplaceAll(s: string, w: string, r: string): (res: string)
    ensures |w| > 0 && !Contains(s, w) ==> res == s
    ensures |w| > 0 && |r| <= |w| ==> |res| <= |s|
    decreases |s|
  {
    if |w| == 0 then
      if s == [] then r else r + [s[0]] + ReplaceAll(s[1..], w, r)
    else if s == [] then []
    else if StartsWith(s, w) then
      assert OccursAt(s, w, 0);
      r + ReplaceAll(s[|w|..], w, r)
    else
      NoOccurrenceTail(s, w);
      [s[0]] + ReplaceAll(s[1..], w, r)
  }

  /** A leading occurrence is replaced and a remainder free of `w` is kept. */
  lemma ReplaceAllLeading(w: string, t: string, r: string)
    requires |w| > 0 && !Contains(t, w)
    ensures ReplaceAll(w + t, w, r) == r + t
  {
    var s := w + t;
    assert s[..|w|] == w;
    assert s[|w|..] == t;
  }

  lemma NoOccurrenceTail(s: string, w: string)
    requires s != []
    ensures !Contains(s, w) ==> !Contains(s[1..], w)
  {
    if !Contains(s, w) && Contains(s[1..], w) {
      var i :| 0 <= i <= |s[1..]| - |w| && OccursAt(s[1..], w, i);
      assert s[1..] == s[1..|s|];
      OccursInSlice(s, w, 1, |s|, i);
    }
  }

  /** After replacing every occurrence of `w` by a text that does not contain `w`
      (and cannot form `w` across a seam, which holds when `w` is one character),
      `w` no longer occurs. */
  lemma {:induction false} ReplaceAllCharRemoves(s: string, c: char, r: string)
    requires c !in r
    ensures c !in ReplaceAll(s, [c], r)
    decreases |s|
  {
    if s == [] {
    } else if StartsWith(s, [c]) {
      ReplaceAllCharRemoves(s[1..], c, r);
    } else {
      ReplaceAllCharRemoves(s[1..], c, r);
    }
  }

  // ---------------------------------------------------------------------------
  // Splitting and joining

  /** Python's `s.split(c)` / `re.split('[...]', s)` / JavaScript's `s.split(/[...]/)`:
      the pieces between separator characters, empty pieces included. */
  function SplitAny(s: string, seps: set<char>): (parts: seq<string>)
    ensures |parts| >= 1
    ensures forall k :: 0 <= k < |parts| ==> NoneOf(parts[k], seps)
    ensures |parts| == 1 + CountIn(s, seps)
    decreases |s|
  {
    if s == [] then [[]]
    else
      var rest := SplitAny(s[1..], seps);
      if s[0] in seps then [[]] + rest
      else [[s[0]] + rest[0]] + rest[1..]
  }

  predicate NoneOf(s: string, cs: set<char>) {
    forall j :: 0 <= j < |s| ==> s[j] !in cs
  }

  function CountIn(s: string, cs: set<char>): nat {
    if s == [] then 0 else (if s[0] in cs then 1 else 0) + CountIn(s[1..], cs)
  }

  /** Joining the pieces back with their separator recovers the text (for one separator). */
  lemma {:induction false} SplitJoin(s: string, c: char)
    ensures Join(SplitAny(s, {c}), [c]) == s
    decreases |s|
  {
    if s == [] {
    } else {
      var rest := SplitAny(s[1..], {c});
      SplitJoin(s[1..], c);
      if s[0] == c {
        assert SplitAny(s, {c}) == [[]] + rest;
        JoinCons([], rest, [c]);
      } else {
        JoinHead([s[0]], rest, [c]);
        assert SplitAny(s, {c}) == [[s[0]] + rest[0]] + rest[1..];
      }
    }
  }

  /** A text without separators is one piece. */
  lemma {:induction false} SplitAnyNone(s: string, seps: set<char>)
    requires NoneOf(s, seps)
    ensures SplitAny(s, seps) == [s]
    decreases |s|
  {
    if s != [] {
      assert NoneOf(s[1..], seps) by {
        forall j | 0 <= j < |s[1..]| ensures s[1..][j] !in seps {
          assert s[1..][j] == s[j + 1];
        }
      }
      SplitAnyNone(s[1..], seps);
      assert s[0] !in seps;
      assert [s[0]] + s[1..] == s;
    }
  }

  /** A separator after a separator-free text ends the first piece. */
  lemma {:induction false} SplitAnyAfter(a: string, c: char, b: string, seps: set<char>)
    requires NoneOf(a, seps) && c in seps
    ensures SplitAny(a + [c] + b, seps) == [a] + SplitAny(b, seps)
    decreases |a|
  {
    var s := a + [c] + b;
    if a == [] {
      assert s == [c] + b;
      assert s[1..] == b;
    } else {
      assert s[1..] == a[1..] + [c] + b;
      assert NoneOf(a[1..], seps) by {
        forall j | 0 <= j < |a[1..]| ensures a[1..][j] !in seps {
          assert a[1..][j] == a[j + 1];
        }
      }
      SplitAnyAfter(a[1..], c, b, seps);
      assert s[0] == a[0] && a[0] !in seps;
      assert [a[0]] + a[1..] == a;
    }
  }

  lemma TrimLeadingSpace(y: string)
    ensures Trim([' '] + y) == Trim(y)
  {
    var s := [' '] + y;
    assert s[1..] == y;
    assert SpaceRun(s) == 1 + SpaceRun(y);
    assert TrimLeft(s) == TrimLeft(y);
  }

  /** Splitting `"; "`-joined pieces at `;` and trimming gives the pieces
      back, when each is trimmed and holds no `;`. */
  lemma {:induction false} JoinSplitTrim(xs: seq<string>)
    requires |xs| >= 1
    requires forall k :: 0 <= k < |xs| ==> NoneOf(xs[k], {';'}) && Trim(xs[k]) == xs[k]
    ensures TrimAll(SplitAny(Join(xs, "; "), {';'})) == xs
    decreases |xs|
  {
    if |xs| == 1 {
      SplitAnyNone(xs[0], {';'});
    } else {
      var rest := xs[1..];
      JoinSplitTrim(rest);
      var tail := SplitAny(Join(rest, "; "), {';'});
      SplitJoinedHead(xs);
      TrimLeadingSpace(tail[0]);
      TrimAllCons(xs[0], tail, rest);
      HeadTail(xs);
    }
  }

  lemma HeadTail<T>(xs: seq<T>)
    requires xs != []
    ensures [xs[0]] + xs[1..] == xs
  {
  }

  lemma SplitJoinedHead(xs: seq<string>)
    requires |xs| >= 2 && NoneOf(xs[0], {';'})
    ensures var tail := SplitAny(Join(xs[1..], "; "), {';'});
      SplitAny(Join(xs, "; "), {';'}) == [xs[0]] + ([[' '] + tail[0]] + tail[1..])
  {
    var j := Join(xs[1..], "; ");
    var u := [' '] + j;
    JoinSemicolon(xs);
    SplitAnyAfter(xs[0], ';', u, {';'});
    SplitAnyBlank(j, {';'});
  }

  lemma JoinSemicolon(xs: seq<string>)
    requires |xs| >= 2
    ensures Join(xs, "; ") == xs[0] + [';'] + ([' '] + Join(xs[1..], "; "))
  {
    JoinTwoCharSep(xs, ';', ' ');
  }

  lemma JoinTwoCharSep(xs: seq<string>, c: char, d: char)
    requires |xs| >= 2
    ensures Join(xs, [c, d]) == xs[0] + [c] + ([d] + Join(xs[1..], [c, d]))
  {
    var j := Join(xs[1..], [c, d]);
    assert Join(xs, [c, d]) == xs[0] + [c, d] + j;
    Regroup(xs[0], c, d, j);
  }

  lemma Regroup<T>(a: seq<T>, c: T, d: T, j: seq<T>)
    ensures a + [c, d] + j == a + [c] + ([d] + j)
  {
    assert [c, d] == [c] + [d];
  }

  /** A leading non-separator joins the first piece. */
  lemma SplitAnyBlank(j: string, seps: set<char>)
    requires ' ' !in seps
    ensures SplitAny([' '] + j, seps) == [[' '] + SplitAny(j, seps)[0]] + SplitAny(j, seps)[1..]
  {
    var u := [' '] + j;
    assert u[0] == ' ' && u[1..] == j;
  }

  lemma TrimAllCons(x: string, tail: seq<string>, rest: seq<string>)
    requires |tail| >= 1 && TrimAll(tail) == rest && Trim(x) == x
    requires Trim([' '] + tail[0]) == Trim(tail[0])
    ensures TrimAll([x] + ([[' '] + tail[0]] + tail[1..])) == [x] + rest
  {
    var y := [' '] + tail[0];
    TrimAllPrepend(y, tail[1..]);
    TrimAllPrepend(x, [y] + tail[1..]);
    TrimAllPrepend(tail[0], tail[1..]);
    HeadTail(tail);
  }

  lemma TrimAllPrepend(x: string, xs: seq<string>)
    ensures TrimAll([x] + xs) == [Trim(x)] + TrimAll(xs)
  {
    var l := TrimAll([x] + xs);
    var r := [Trim(x)] + TrimAll(xs);
    assert |l| == |r|;
    forall k | 0 <= k < |l| ensures l[k] == r[k] {
      if k > 0 {
        assert ([x] + xs)[k] == xs[k - 1];
      }
    }
  }

  lemma JoinCons(x: string, rest: seq<string>, sep: string)
    requires |rest| >= 1
    ensures Join([x] + rest, sep) == x + sep + Join(rest, sep)
  {
    assert ([x] + rest)[1..] == rest;
  }

  lemma JoinHead(p: string, rest: seq<string>, sep: string)
    requires |rest| >= 1
    ensures Join([p + rest[0]] + rest[1..], sep) == p + Join(rest, sep)
  {
    var xs := [p + rest[0]] + rest[1..];
    if |rest| == 1 {
      assert xs == [p + rest[0]];
    } else {
      assert xs[1..] == rest[1..];
      assert Join(xs, sep) == (p + rest[0]) + sep + Join(rest[1..], sep);
      assert Join(rest, sep) == rest[0] + sep + Join(rest[1..], sep);
    }
  }

  /** Python's `sep.join(parts)` / JavaScript's `parts.join(sep)`. */
  function Join(parts: seq<string>, sep: string): (r: string)
  {
    if parts == [] then []
    else if |parts| == 1 then parts[0]
    else parts[0] + sep + Join(parts[1..], sep)
  }

  /** Keep the non-empty strings, in order (`.filter(Boolean)` / `if kw.strip()`). */
  function NonEmpty(xs: seq<string>): (r: seq<string>)
    ensures |r| <= |xs|
    ensures forall k :: 0 <= k < |r| ==> r[k] != [] && r[k] in xs
    ensures forall x :: x in xs && x != [] ==> x in r
  {
    if xs == [] then []
    else if xs[0] == [] then NonEmpty(xs[1..])
    else [xs[0]] + NonEmpty(xs[1..])
  }

  /** Trim every piece. */
  function TrimAll(xs: seq<string>): (r: seq<string>)
    ensures |r| == |xs|
    ensures forall k :: 0 <= k < |xs| ==> r[k] == Trim(xs[k])
  {
    seq(|xs|, k requires 0 <= k < |xs| => Trim(xs[k]))
  }

  /** The keywords of a field: the pieces between commas and semicolons,
      stripped, blank pieces dropped. */
  function SplitKeywords(value: string): (r: seq<string>)
    ensures forall k :: 0 <= k < |r| ==> r[k] != [] && r[k] == Trim(r[k])
    ensures forall k :: 0 <= k < |r| ==> ',' !in r[k] && ';' !in r[k]
  {
    var parts := SplitAny(value, {',', ';'});
    TrimAllClean(parts);
    NonEmpty(TrimAll(parts))
  }

  /** Pieces without separators stay without them once trimmed. */
  lemma TrimAllClean(parts: seq<string>)
    requires forall k :: 0 <= k < |parts| ==> NoneOf(parts[k], {',', ';'})
    ensures forall x :: x in TrimAll(parts) ==> ',' !in x && ';' !in x && Trim(x) == x
  {
    var trimmed := TrimAll(parts);
    forall x | x in trimmed ensures ',' !in x && ';' !in x && Trim(x) == x {
      var k :| 0 <= k < |trimmed| && trimmed[k] == x;
      TrimmedPiece(parts[k]);
    }
  }

  lemma TrimmedPiece(p: string)
    requires NoneOf(p, {',', ';'})
    ensures ',' !in Trim(p) && ';' !in Trim(p) && Trim(Trim(p)) == Trim(p)
  {
    TrimKeepsOut(p, ',');
    TrimKeepsOut(p, ';');
    TrimIdempotent(p);
  }

  /** Every piece that is not blank after stripping is kept, stripped. */
  lemma SplitKeywordsComplete(value: string, k: nat)
    requires k < |SplitAny(value, {',', ';'})| && Trim(SplitAny(value, {',', ';'})[k]) != []
    ensures Trim(SplitAny(value, {',', ';'})[k]) in SplitKeywords(value)
  {
    var trimmed := TrimAll(SplitAny(value, {',', ';'}));
    assert trimmed[k] in trimmed;
  }

  lemma TrimIdempotent(s: string)
    ensures Trim(Trim(s)) == Trim(s)
  {
    var t := Trim(s);
    assert t == [] || (!IsSpace(t[0]) && !IsSpace(t[|t| - 1]));
    assert TrimLeft(t) == t;
    assert TrimRight(t) == t;
  }

  /** `s.split(/\s+/).filter(Boolean)` with `ws` as the whitespace class: the
      maximal runs of characters outside `ws`. */
  function Words(s: string, ws: char -> bool): (r: seq<string>)
    ensures forall k :: 0 <= k < |r| ==> IsWord(r[k], ws)
  {
    WordsFromAreWords(s, ws, 0);
    WordsFrom(s, ws, 0)
  }

  /** The words of `s[a..]`, as slices of `s`. */
  function WordsFrom(s: string, ws: char -> bool, a: nat): seq<string>
    requires a <= |s|
    decreases |s| - a
  {
    var b := SkipIn(s, ws, a);
    if b == |s| then []
    else
      var e := SkipOut(s, ws, b);
      [s[b..e]] + WordsFrom(s, ws, e)
  }

  /** Each word read from `a` on is a non-empty run outside `ws`. */
  lemma {:induction false} WordsFromAreWords(s: string, ws: char -> bool, a: nat)
    requires a <= |s|
    ensures forall k :: 0 <= k < |WordsFrom(s, ws, a)| ==> IsWord(WordsFrom(s, ws, a)[k], ws)
    decreases |s| - a
  {
    var b := SkipIn(s, ws, a);
    if b < |s| {
      var e := SkipOut(s, ws, b);
      WordsFromAreWords(s, ws, e);
      var rest := WordsFrom(s, ws, e);
      assert WordsFrom(s, ws, a) == [s[b..e]] + rest;
      forall k | 0 <= k < |[s[b..e]] + rest| ensures IsWord(([s[b..e]] + rest)[k], ws) {
        if k > 0 {
          assert ([s[b..e]] + rest)[k] == rest[k - 1];
        }
      }
    }
  }

  /** The first index from `a` on whose character is not in `ws`, or `|s|`. */
  function SkipIn(s: string, ws: char -> bool, a: nat): (e: nat)
    requires a <= |s|
    ensures a <= e <= |s|
    ensures forall m :: a <= m < e ==> ws(s[m])
    ensures e == |s| || !ws(s[e])
    decreases |s| - a
  {
    if a == |s| || !ws(s[a]) then a else SkipIn(s, ws, a + 1)
  }

  /** The first index from `a` on whose character is in `ws`, or `|s|`. */
  function SkipOut(s: string, ws: char -> bool, a: nat): (e: nat)
    requires a <= |s|
    ensures a <= e <= |s|
    ensures forall m :: a <= m < e ==> !ws(s[m])
    ensures e == |s| || ws(s[e])
    decreases |s| - a
  {
    if a == |s| || ws(s[a]) then a else SkipOut(s, ws, a + 1)
  }

  /** A non-empty run of characters outside `ws`. */
  predicate IsWord(w: string, ws: char -> bool) {
    w != [] && forall j :: 0 <= j < |w| ==> !ws(w[j])
  }

  /** Skipping runs in a text with a prefix in front is skipping them in the
      text, shifted by the prefix. */
  lemma {:induction false} SkipShift(p: string, t: string, ws: char -> bool, a: nat)
    requires a <= |t|
    ensures SkipIn(p + t, ws, |p| + a) == |p| + SkipIn(t, ws, a)
    ensures SkipOut(p + t, ws, |p| + a) == |p| + SkipOut(t, ws, a)
    decreases |t| - a
  {
    if a < |t| {
      assert (p + t)[|p| + a] == t[a];
      SkipShift(p, t, ws, a + 1);
    }
  }

  /** The words of a text behind a prefix, read from the prefix's end, are the
      words of the text. */
  lemma {:induction false} WordsFromShift(p: string, t: string, ws: char -> bool, a: nat)
    requires a <= |t|
    ensures WordsFrom(p + t, ws, |p| + a) == WordsFrom(t, ws, a)
    decreases |t| - a
  {
    SkipShift(p, t, ws, a);
    var b := SkipIn(t, ws, a);
    if b < |t| {
      var e := SkipOut(t, ws, b);
      ShiftedStep(p, t, ws, a, b, e, t[b..e]);
      WordsFromShift(p, t, ws, e);
      WordsFromStep(t, ws, a, b, e, t[b..e]);
    } else {
      assert SkipIn(p + t, ws, |p| + a) == |p + t|;
    }
  }

  /** One word read behind a prefix. */
  lemma {:induction false} ShiftedStep(p: string, t: string, ws: char -> bool, a: nat, b: nat, e: nat, w: string)
    requires a <= |t| && b == SkipIn(t, ws, a) < |t| && e == SkipOut(t, ws, b) && w == t[b..e]
    ensures WordsFrom(p + t, ws, |p| + a) == [w] + WordsFrom(p + t, ws, |p| + e)
  {
    ShiftedBounds(p, t, ws, a, b, e, w);
    WordsFromStep(p + t, ws, |p| + a, |p| + b, |p| + e, w);
  }

  lemma {:induction false} ShiftedBounds(p: string, t: string, ws: char -> bool, a: nat, b: nat, e: nat, w: string)
    requires a <= |t| && b == SkipIn(t, ws, a) < |t| && e == SkipOut(t, ws, b) && w == t[b..e]
    ensures |p| + b == SkipIn(p + t, ws, |p| + a) < |p + t|
    ensures |p| + e == SkipOut(p + t, ws, |p| + b)
    ensures w == (p + t)[|p| + b..|p| + e]
  {
    SkipShift(p, t, ws, a);
    SkipShift(p, t, ws, b);
    SliceBehind(p, t, b, e);
  }

  /** Reading from `a`: the word after the separators, then the words after it. */
  lemma {:induction false} WordsFromStep(s: string, ws: char -> bool, a: nat, b: nat, e: nat, w: string)
    requires a <= |s| && b == SkipIn(s, ws, a) < |s| && e == SkipOut(s, ws, b)
    requires w == s[b..e]
    ensures WordsFrom(s, ws, a) == [w] + WordsFrom(s, ws, e)
  {
  }

  /** A slice of the part behind a prefix, taken from the whole text. */
  lemma SliceBehind(p: string, t: string, b: nat, e: nat)
    requires b <= e <= |t|
    ensures (p + t)[|p| + b..|p| + e] == t[b..e]
  {
    assert (p + t)[|p|..] == t;
  }

  /** A separator at the reading position is skipped. */
  lemma WordsFromSkip(s: string, ws: char -> bool, a: nat)
    requires a < |s| && ws(s[a])
    ensures WordsFrom(s, ws, a) == WordsFrom(s, ws, a + 1)
  {
    assert SkipIn(s, ws, a) == SkipIn(s, ws, a + 1);
  }

  /** Leading whitespace yields no word. */
  lemma WordsLeadingSpace(c: char, rest: string, ws: char -> bool)
    requires ws(c)
    ensures Words([c] + rest, ws) == Words(rest, ws)
  {
    WordsFromSkip([c] + rest, ws, 0);
    WordsFromShift([c], rest, ws, 0);
  }

  /** A run of non-whitespace characters ended by whitespace is one word, and
      the words of the rest follow it: the words are the maximal runs, in
      order. */
  lemma WordsAfterWord(w: string, c: char, rest: string, ws: char -> bool)
    requires IsWord(w, ws) && ws(c)
    ensures Words(w + [c] + rest, ws) == [w] + Words(rest, ws)
  {
    var s := (w + [c]) + rest;
    assert s[0] == w[0] && s[|w|] == c;
    assert SkipIn(s, ws, 0) == 0;
    assert forall m :: 0 <= m < |w| ==> s[m] == w[m];
    assert SkipOut(s, ws, 0) == |w|;
    assert s[0..|w|] == w;
    WordsFromStep(s, ws, 0, 0, |w|, w);
    WordsFromSkip(s, ws, |w|);
    WordsFromShift(w + [c], rest, ws, 0);
  }

  /** A single run is a single word. */
  lemma WordsOfWord(w: string, ws: char -> bool)
    requires IsWord(w, ws)
    ensures Words(w, ws) == [w]
  {
    assert SkipIn(w, ws, 0) == 0;
    assert SkipOut(w, ws, 0) == |w|;
    assert w[0..|w|] == w;
    assert SkipIn(w, ws, |w|) == |w|;
    assert WordsFrom(w, ws, |w|) == [];
  }

  /** No character outside `ws` is lost: each lands in one of the words, at
      position `p` of word `k`. */
  lemma WordsCover(s: string, ws: char -> bool, i: nat) returns (k: nat, p: nat)
    requires i < |s| && !ws(s[i])
    ensures k < |Words(s, ws)| && p < |Words(s, ws)[k]| && Words(s, ws)[k][p] == s[i]
  {
    k, p := WordsFromCover(s, ws, 0, i);
  }

  lemma {:induction false} WordsFromCover(s: string, ws: char -> bool, a: nat, i: nat) returns (k: nat, p: nat)
    requires a <= i < |s| && !ws(s[i])
    ensures k < |WordsFrom(s, ws, a)| && p < |WordsFrom(s, ws, a)[k]| && WordsFrom(s, ws, a)[k][p] == s[i]
    decreases |s| - a
  {
    var b := SkipIn(s, ws, a);
    var e := SkipOut(s, ws, b);
    if i < e {
      k, p := 0, i - b;
    } else {
      var k', p' := WordsFromCover(s, ws, e, i);
      k, p := k' + 1, p';
    }
  }

  /** Number of leading characters satisfying `p`. */
  function LeadingRun(s: string, p: char -> bool): (n: nat)
    ensures n <= |s|
    ensures forall i :: 0 <= i < n ==> p(s[i])
    ensures n == |s| || !p(s[n])
  {
    SkipIn(s, p, 0)
  }

  /** The leading run is the only length whose prefix satisfies `p` and
      whose next character, if any, does not. */
  lemma LeadingRunExact(s: string, p: char -> bool, n: nat)
    requires n <= |s|
    requires forall i :: 0 <= i < n ==> p(s[i])
    requires n == |s| || !p(s[n])
    ensures LeadingRun(s, p) == n
  {
  }

  predicate NoSpace(s: string) {
    forall j :: 0 <= j < |s| ==> !IsSpace(s[j])
  }

  /** A word of ASCII letters holds no whitespace. */
  lemma LettersNoSpace(s: string)
    requires forall j :: 0 <= j < |s| ==> 'A' <= s[j] <= 'z'
    ensures NoSpace(s)
  {
  }

  // ---------------------------------------------------------------------------
  // Ordering and numbers

  /** Code-point (lexicographic) order, as Python's `sorted` uses for strings. */
  predicate StrLe(a: string, b: string) {
    if a == [] then true
    else if b == [] then false
    else if a[0] != b[0] then a[0] < b[0]
    else StrLe(a[1..], b[1..])
  }

  predicate StrLt(a: string, b: string) {
    StrLe(a, b) && a != b
  }

  lemma {:induction false} StrLeTotal(a: string, b: string)
    ensures StrLe(a, b) || StrLe(b, a)
    decreases |a|
  {
    if a != [] && b != [] && a[0] == b[0] {
      StrLeTotal(a[1..], b[1..]);
    }
  }

  lemma {:induction false} StrLeAntisym(a: string, b: string)
    requires StrLe(a, b) && StrLe(b, a)
    ensures a == b
    decreases |a|
  {
    if a != [] && b != [] {
      StrLeAntisym(a[1..], b[1..]);
      HeadTail(a);
      HeadTail(b);
    }
  }

  lemma {:induction false} StrLeTrans(a: string, b: string, c: string)
    requires StrLe(a, b) && StrLe(b, c)
    ensures StrLe(a, c)
    decreases |a|
  {
    if a != [] && b != [] && c != [] && a[0] == b[0] && b[0] == c[0] {
      StrLeTrans(a[1..], b[1..], c[1..]);
    }
  }

  lemma {:induction false} StrLeRefl(a: string)
    ensures StrLe(a, a)
    decreases |a|
  {
    if a != [] {
      StrLeRefl(a[1..]);
    }
  }

  function DigitChar(d: nat): (c: char)
    requires d < 10
    ensures IsDigit(c)
  {
    ('0' as int + d) as char
  }

  /** Decimal rendering of a natural number, as Python's f-string prints it. */
  function NatToString(n: nat): (r: string)
    ensures r != []
    ensures forall i :: 0 <= i < |r| ==> IsDigit(r[i])
  {
    if n < 10 then [DigitChar(n)] else NatToString(n / 10) + [DigitChar(n % 10)]
  }

  function DigitValue(c: char): nat
    requires IsDigit(c)
  {
    c as int - '0' as int
  }

  /** Value of a non-empty run of decimal digits. */
  function DigitsValue(s: string): nat
    requires forall i :: 0 <= i < |s| ==> IsDigit(s[i])
  {
    if s == [] then 0 else DigitsValue(s[..|s| - 1]) * 10 + DigitValue(s[|s| - 1])
  }

  lemma {:induction false} NatToStringRoundTrip(n: nat)
    ensures DigitsValue(NatToString(n)) == n
  {
    if n >= 10 {
      NatToStringRoundTrip(n / 10);
      var r := NatToString(n);
      assert r[..|r| - 1] == NatToString(n / 10);
    }
  }

  // ---------------------------------------------------------------------------
  // Replacing one character

  /** Every `c` in `s` replaced by `r`. */
  function ReplaceChar(s: string, c: char, r: string): string {
    if s == [] then [] else (if s[0] == c then r else [s[0]]) + ReplaceChar(s[1..], c, r)
  }

  /** Replacing a single character is JavaScript's global `replace` of it. */
  lemma {:induction false} ReplaceCharIsReplaceAll(s: string, c: char, r: string)
    ensures ReplaceChar(s, c, r) == ReplaceAll(s, [c], r)
    decreases |s|
  {
    if s != [] {
      ReplaceCharIsReplaceAll(s[1..], c, r);
      assert StartsWith(s, [c]) <==> s[0] == c;
    }
  }

  lemma {:induction false} ReplaceCharAppend(a: string, b: string, c: char, r: string)
    ensures ReplaceChar(a + b, c, r) == ReplaceChar(a, c, r) + ReplaceChar(b, c, r)
    decreases |a|
  {
    if a == [] {
      assert a + b == b;
    } else {
      ReplaceCharAppend(a[1..], b, c, r);
      assert (a + b)[1..] == a[1..] + b;
      var h := if a[0] == c then r else [a[0]];
      assert ReplaceChar(a + b, c, r) == h + ReplaceChar(a[1..] + b, c, r);
      Assoc(h, ReplaceChar(a[1..], c, r), ReplaceChar(b, c, r));
    }
  }

  lemma SplitAt<T>(s: seq<T>, k: nat)
    requires k <= |s|
    ensures s[..k] + s[k..] == s
  {
  }

  /** A string starts with whatever is put in front of it. */
  lemma PrefixOfAppend(p: string, s: string)
    ensures StartsWith(p + s, p)
  {
    assert (p + s)[..|p|] == p;
  }

  /** What the rest of `s` from `j` opens with occurs in `s` at `j`. */
  lemma StartsWithAt(s: string, j: nat, w: string)
    requires j <= |s| && StartsWith(s[j..], w)
    ensures OccursAt(s, w, j) && Contains(s, w)
  {
    assert s[j..][..|w|] == s[j..j + |w|];
    assert OccursAt(s, w, j);
  }

  lemma Assoc<T>(a: seq<T>, b: seq<T>, c: seq<T>)
    ensures a + (b + c) == a + b + c
  {
  }

  lemma ReplaceCharAbsent(s: string, c: char, r: string)
    requires c !in s
    ensures ReplaceChar(s, c, r) == s
    decreases |s|
  {
    if s != [] {
      assert s[0] in s;
      assert forall i :: 0 <= i < |s[1..]| ==> s[1..][i] == s[i + 1];
      ReplaceCharAbsent(s[1..], c, r);
    }
  }

  /** Replacing a character by a single character works position by position. */
  lemma {:induction false} ReplaceCharPointwise(s: string, c: char, x: char)
    ensures |ReplaceChar(s, c, [x])| == |s|
    ensures forall i :: 0 <= i < |s| ==> ReplaceChar(s, c, [x])[i] == (if s[i] == c then x else s[i])
    decreases |s|
  {
    if s != [] {
      ReplaceCharPointwise(s[1..], c, x);
    }
  }

  /** Squashing an already squashed text changes nothing. */
  lemma {:induction false} SquashSquashed(s: string)
    requires Squashed(s)
    ensures Squash(s) == s
    decreases |s|
  {
    if s != [] {
      SquashedSlice(s, 1, |s|);
      SquashSquashed(s[1..]);
      if IsSpace(s[0]) {
        assert SpaceRun(s) == 1;
      }
    }
  }

  /** Lower-casing twice is lower-casing once. */
  lemma LowerStrIdempotent(s: string)
    ensures LowerStr(LowerStr(s)) == LowerStr(s)
  {
  }
}

=== FILE: tiers.dfy ===
/**
 Relevance tiers of the web front end: a score is high from 3 on, medium from
 1, low above 0 and none otherwise, and each tier has its text and badge
 colours.
 */
module Tiers {
  /** The four relevance tiers of a score. */
  datatype RelevanceTier = High | Medium | Low | None

  /** The tier's place in the order none < low < medium < high. */
  function Rank(t: RelevanceTier): nat {
    match t
    case None => 0
    case Low => 1
    case Medium => 2
    case High => 3
  }

  /** The tier a combined score falls in. */
  function GetRelevanceTier(score: real): (t: RelevanceTier)
    ensures t == High <==> score >= 3.0
    ensures t == Medium <==> 1.0 <= score < 3.0
    ensures t == Low <==> 0.0 < score < 1.0
    ensures t == None <==> score <= 0.0
  {
    if score >= 3.0 then High
    else if score >= 1.0 then Medium
    else if score > 0.0 then Low
    else None
  }

  /** A higher score never gets a lower tier. */
  lemma TierMonotone(a: real, b: real)
    requires a <= b
    ensures Rank(GetRelevanceTier(a)) <= Rank(GetRelevanceTier(b))
  {
  }

  /** The tiers shown as relevant are exactly the scores the relevance
      loaders keep: medium or high iff the score is at least 1. */
  lemma RelevantTiers(score: real)
    ensures GetRelevanceTier(score) in {Medium, High} <==> score >= 1.0
  {
  }

  /** The Tailwind colour each tier is drawn in. */
  function Shade(t: RelevanceTier): string {
    match t
    case High => "emerald-400"
    case Medium => "amber-400"
    case Low => "slate-400"
    case None => "slate-600"
  }

  /** No two tiers share a colour. */
  lemma ShadesDistinct(a: RelevanceTier, b: RelevanceTier)
    requires a != b
    ensures Shade(a) != Shade(b)
  {
    var x, y := Shade(a), Shade(b);
    assert x[0] != y[0] || x[6] != y[6];
  }

  /** `tierColor`: the text colour class of each tier, carrying its shade. */
  function TierColor(t: RelevanceTier): (r: string)
    ensures |r| == 5 + |Shade(t)| && r[5..] == Shade(t)
  {
    "text-" + Shade(t)
  }

  /** `tierBg`: the background and border classes of each tier, both in its
      shade. */
  function TierBg(t: RelevanceTier): (r: string)
    ensures |r| == 17 + 2 * |Shade(t)| && r[3..3 + |Shade(t)|] == Shade(t)
  {
    var s := Shade(t);
    var r := "bg-" + s + "/10 border-" + s + "/30";
    assert r[3..3 + |s|] == s;
    r
  }

  /** Every tier has a colour of its own. */
  lemma TierColorsDistinct(a: RelevanceTier, b: RelevanceTier)
    requires a != b
    ensures TierColor(a) != TierColor(b)
  {
    ShadesDistinct(a, b);
  }

  /** Every tier has a background of its own. */
  lemma TierBgsDistinct(a: RelevanceTier, b: RelevanceTier)
    requires a != b
    ensures TierBg(a) != TierBg(b)
  {
    ShadesDistinct(a, b);
  }
}
